=== FILE: README.md ===
# Managed Object persistence engine, modelled in Dafny

This project models the object-relational core of mangoSystemLib (`classes/mango.data`). The core covers:

- entity descriptions and their attributes;
- the managed object model parsed from a versioned schema document;
- managed objects with their committed data, pending data and relationship buffers;
- the managed object context, which is the unit of work;
- the fault, fetch and save requests;
- the persistent store, with its schema bootstrap, save, delete, fetch and fault algorithms;
- the persistent store coordinator, which routes requests to the stores.

Everything is written as pure functions over immutable values:

- A managed object is a record. The objects of a context live in a heap, a map from handle to object. Handles play the part of PHP object identity.
- The database a store talks to is held in memory as a map from table name to table. A table has its columns, its rows and its auto-numbered column.
- Each SQL statement the store issues becomes an operation on those tables: CREATE TABLE, INSERT, UPDATE, DELETE and SELECT with a conjunction of equalities.
- Each exception class becomes a constructor of an error datatype. Every operation that can raise answers a `Result`.
- The functions the core takes from the PHP runtime are fields of a `Runtime` value, passed as a parameter:
  - `md5` for join table and column names;
  - `strtotime` for the date texts that are not plain integers. `MDate::parse` takes a plain integer text as a timestamp instead, and that branch is modelled. The integer reading follows the `(int)$str` cast of classes/mango.system/MDate.php:77. The Hack file (MDate.hh:60) calls a global `parseInt` that no file of the library defines;
  - `floatval` and float printing.
- The coordinator and the context are written generically over a store's request entry point (`Stores.Runner`). `Stores.StoreRunnerMeetsContract` proves that the store of this model meets the contract the coordinator and the context rely on.

Modules, leaf first:

- `Types`, `Naming`, `Values`, `Errors`: property types, relationship kinds, text helpers, boxed values, exceptions.
- `Attributes`, `Entities`, `ObjectModel`: schema metadata and parsing of the model document, taken as an element tree.
- `ManagedObjects`, `ObjectGraph`: one object's change tracking, and relationship edits that update both ends.
- `Contexts`, `Requests`: the unit of work and the request values.
- `Database`, `Codec`, `Schema`, `StoreSave`, `StoreFetch`, `Stores`: the persistent store.
- `Coordinators`, `Sessions`: routing, and the context operations that go through the coordinator (save, fetch by id, firing a fault, parsing objects from a document).

Where the source's documentation and its code differ, the model follows the code, with two exceptions. The code's collection calls are taken with the meaning their callers evidently rely on (see "## Left out"), and the defects listed under "## Findings" are modelled both as written and as corrected:

- A property declared without a type reads as type Unknown, and the model document is then rejected. It does not default to String.
- A relationship declared without a singular name gets the empty singular.
- `tableName` on a relationship without an inverse raises, as the code does.
- A store's delete unlinks only the object's to-many relationships, because a to-one read is not an array.
- A fault whose row is missing is reported as failed, as the `.php` twin does. The `.hh` file's comparison is listed under Findings.

## Model

| member | source | states |
|---|---|---|
| Types.StringFromPropertyType | types.hh:273-289 | each of the seven property types has a name that reads back as that type; exactly the six known types have a name from the known list |
| Types.PropertyTypeFromString | types.hh:291-307 | a text that is not one of the six known names reads as Unknown, and a known name never does |
| Types.PropertyTypeNameRoundTrip | types.hh:273-307 | every known type name reads back to a type whose name is that same text |
| Types.StringFromPropertyTypeInjective | types.hh:273-289 | two property types with the same name are the same type |
| Types.KindOrdinal | types.hh:115-122 | each relationship kind has an integer value below six that maps back to that kind |
| Types.KindFromOrdinal | types.hh:115-122 | exactly the integers 0 to 5 are values of a relationship kind |
| Types.RelationshipKindsAreSix | types.hh:115-122 | the six relationship kinds have pairwise distinct values and every value 0 to 5 belongs to one of them |
| Naming.Sort | classes/mango.data/MEntityDescriptionRelationship.hh:237-242 | sorting the names in strcmp order yields a sorted arrangement of the same multiset of names |
| Naming.SortIgnoresArrangement | classes/mango.data/MEntityDescriptionRelationship.hh:237-242 | two arrangements of the same names sort to the same sequence |
| Naming.SortedUnique | classes/mango.data/MEntityDescriptionRelationship.hh:237-242 | a sorted arrangement of a multiset of names is unique |
| Naming.StrLeTotal | classes/mango.data/MEntityDescriptionRelationship.hh:237-242 | the strcmp order compares any two names |
| Naming.StrLeAntisymmetric | classes/mango.data/MEntityDescriptionRelationship.hh:237-242 | two names each ordered no later than the other are equal |
| Naming.StrLeTransitive | classes/mango.data/MEntityDescriptionRelationship.hh:237-242 | the strcmp order is transitive |
| Naming.Split | classes/mango.system/MString.hh:157-165 | exploding on a character yields one more piece than there are separators, no piece holds the separator, and joining the pieces restores the text |
| Naming.DigestPrefix | classes/mango.system/MString.hh:182-184 | taking the substring to index 16 keeps the first seventeen characters of the digest |
| Naming.ToUpper | classes/mango.system/MString.hh:113-115 | upper-casing keeps the length and maps exactly the ASCII lower-case letters |
| Naming.ToLower | classes/mango.system/MString.hh:109-111 | lower-casing keeps the length and maps exactly the ASCII upper-case letters |
| Values.TypeClassName | classes/mango.data/MEntityDescriptionProperty.hh:151-167 | the class name of a property type is empty exactly for the unknown type, and otherwise some boxed value is an instance of it |
| Values.AcceptsValueIsInstanceOf | classes/mango.data/MManagedObject.hh:632-663 | the kind check a property write applies accepts a value exactly when the value is an instance of the type's class |
| Values.IntValOfIntToString | classes/mango.data/MManagedObjectModel.hh:97-98 | intval reads every integer back from its decimal text |
| Values.BoolVal | classes/mango.data/MManagedObjectModel.hh:101-102 | boolval of a text is false exactly for the empty text and "0" |
| Values.IntToStringIsIntegerText | classes/mango.system/MDate.php:71-83 | the decimal text of every integer is a plain integer text, which `MDate::parse` takes down its numeric branch |
| Values.CoerceText | classes/mango.data/MManagedObjectModel.hh:93-104 | the value a text denotes for a property type is absent exactly for the unknown type and otherwise passes the type's kind check; strings keep the text and integers take intval; a date given as a plain integer text is that integer, as `MDate::parse` takes numeric text |
| Attributes.NewProperty | classes/mango.data/MEntityDescriptionProperty.hh:46-50 | a new property holds strings, whose class is MString, and has no default |
| Attributes.SetType | classes/mango.data/MEntityDescriptionProperty.hh:77-79 | setting the type changes what the property accepts and its class to those of the new type, and keeps identity and default |
| Attributes.SetDefaultValue | classes/mango.data/MEntityDescriptionProperty.hh:134-136 | setting the default stores exactly the given value and keeps identity and type |
| Attributes.NewRelationship | classes/mango.data/MEntityDescriptionRelationship.hh:48-55 | a new relationship holds objects of its target class, is OneToNone, and has no singular name |
| Attributes.SetInverse | classes/mango.data/MEntityDescriptionRelationship.hh:122-124 | setting the inverse records exactly the given relationship and changes nothing else of this side |
| Attributes.TypeClassNameOf | classes/mango.data/MEntityDescriptionRelationship.hh:299-301 | a relationship's class name is its target entity; a property's is its type's class |
| Attributes.RelationshipType | classes/mango.data/MEntityDescriptionRelationship.hh:189-213 | the kind is never Unknown; it ends in None exactly without inverse; OneToOne and ManyToMany exactly when both sides agree; OneToMany exactly when they differ |
| Attributes.RelationshipTypeSymmetric | classes/mango.data/MEntityDescriptionRelationship.hh:177-213 | both sides of a mutually linked pair report the same kind |
| Attributes.JoinTableNames | classes/mango.data/MEntityDescriptionRelationship.hh:236-242 | the join table is named after the sorted multiset of both entity names and both relationship names |
| Attributes.JoinTableNamesSymmetric | classes/mango.data/MEntityDescriptionRelationship.hh:236-242 | both sides of a linked pair sort the same four names into the same order |
| Attributes.TableName | classes/mango.data/MEntityDescriptionRelationship.hh:232-251 | a join table name exists exactly when an inverse is linked, otherwise PersistentStoreException; it is "Z_" followed by seventeen digest characters |
| Attributes.TableNameSymmetric | classes/mango.data/MEntityDescriptionRelationship.hh:232-251 | both sides of a linked pair name the same join table |
| Attributes.ColumnNameDependsOnNames | classes/mango.data/MEntityDescriptionRelationship.hh:268-275 | two relationships with the same entity name and name have the same column name |
| Attributes.InverseColumnName | classes/mango.data/MEntityDescriptionRelationship.hh:288-295 | with an inverse linked, the far column is the inverse's own column name |
| Attributes.JoinColumnsCrossOver | classes/mango.data/MEntityDescriptionRelationship.hh:268-295 | each side of a linked pair writes its id into the column the other side reads its far id from |
| Entities.NewEntity | classes/mango.data/MEntityDescription.hh:86-90 | a new entity keeps its names and no name finds an attribute of it |
| Entities.AttributeWithName | classes/mango.data/MEntityDescription.hh:243-257 | the lookup finds the first attribute, in declaration order, whose name or singular name is the given name, and nothing exactly when none answers |
| Entities.PropertyWithName | classes/mango.data/MEntityDescription.hh:266-273 | a property is found exactly when the name lookup finds a property, and it is that attribute |
| Entities.RelationshipWithName | classes/mango.data/MEntityDescription.hh:282-289 | a relationship is found exactly when the name lookup finds a relationship, and it is that attribute |
| Entities.EarlierRelationshipHidesProperty | classes/mango.data/MEntityDescription.hh:243-289 | a relationship whose singular name is the name hides a later property of that name from propertyWithName |
| Entities.PropertiesOf | classes/mango.data/MEntityDescription.hh:206-214 | the properties are exactly the attributes that are properties |
| Entities.RelationshipsOf | classes/mango.data/MEntityDescription.hh:226-234 | the relationships are exactly the attributes that are relationships |
| Entities.FiltersDistribute | classes/mango.data/MEntityDescription.hh:206-234 | both filters keep declaration order: the filter of a concatenation is the concatenation of the filters |
| Entities.FiltersPartition | classes/mango.data/MEntityDescription.hh:206-234 | properties and relationships together list every attribute exactly once |
| Entities.AddAttribute | classes/mango.data/MEntityDescription.hh:166-168 | adding appends the attribute and extends exactly one of the two filtered lists |
| Entities.AddAttributeKeepsLookups | classes/mango.data/MEntityDescription.hh:166-168 | adding never changes a lookup that already succeeded, and a name nothing answered to finds the new attribute when it answers |
| Entities.RemoveAttribute | classes/mango.data/MEntityDescription.hh:177-179 | removing takes away one occurrence of the attribute and nothing else, and leaves an entity without it unchanged |
| Entities.RemoveUndoesAdd | classes/mango.data/MEntityDescription.hh:166-179 | removing an attribute just added to an entity that lacked it restores the entity |
| Entities.EqualsIsEquivalence | classes/mango.data/MEntityDescription.hh:293-299 | entity equality, on name and class name, is reflexive, symmetric and transitive |
| ObjectModel.LastModelWithVersion | classes/mango.data/MManagedObjectModel.hh:74-79 | the block chosen is the last one declaring the version, and there is none exactly when no block declares it |
| ObjectModel.ParseProperty | classes/mango.data/MManagedObjectModel.hh:87-112 | a property element parses exactly when its type names a known type, and otherwise fails with ModelParseError "Invalid data type 'Unknown'"; it has a default exactly when it is not Binary, and the default passes the type's kind check |
| ObjectModel.ParseRelationship | classes/mango.data/MManagedObjectModel.hh:114-126 | a relationship element is ToMany exactly when its `to` reads "many" in any letter case; its singular name is always set and it has no inverse yet |
| ObjectModel.ParseEntity | classes/mango.data/MManagedObjectModel.hh:84-129 | an entity element parses exactly when all its property types are known, keeps its names, and lists its properties then its relationships in document order |
| ObjectModel.ParseEntities | classes/mango.data/MManagedObjectModel.hh:84-129 | every entity element parses to the entity at its position, and every queued link refers to a relationship element declaring that inverse |
| ObjectModel.EntityWithName | classes/mango.data/MManagedObjectModel.hh:213-220 | the lookup finds the first entity whose name or plural is the given name, and nothing exactly when none matches |
| ObjectModel.LinkOne | classes/mango.data/MManagedObjectModel.hh:132-143 | linking fails with ModelParseError exactly when the target entity or its relationship of the inverse name is missing, a missing entity's message starting "[Entity->relationship] "; otherwise only the declaring relationship changes and it records that inverse |
| ObjectModel.LinkAll | classes/mango.data/MManagedObjectModel.hh:131-144 | after linking every queued relationship records an inverse and the entities keep their shape |
| ObjectModel.LinkAllTouchesOnlyQueued | classes/mango.data/MManagedObjectModel.hh:131-144 | linking leaves every relationship that was not queued as it was |
| ObjectModel.Parse | classes/mango.data/MManagedObjectModel.hh:61-147 | an explicit version overrides the document's current version; ModelVersionNotFound exactly when no block declares the version; every other failure is a ModelParseError |
| ObjectModel.ParsedEntitiesFollowBlock | classes/mango.data/MManagedObjectModel.hh:74-144 | a parsed model holds one entity per entity element of the last block with the chosen version, in document order; each keeps its element's names, holds the element's properties as parsed and then its relationships as parsed, and a relationship records an inverse exactly when its element declares one |
| ObjectModel.LinkedEntityFromNode | classes/mango.data/MManagedObjectModel.hh:84-144 | an entity of a parsed block keeps, once linked, its element's names and properties, and each relationship records an inverse exactly when its element declares one |
| ObjectModel.LinkedRelationshipFromNode | classes/mango.data/MManagedObjectModel.hh:114-144 | a relationship of a parsed block is, once linked, its element's relationship, recording an inverse exactly when the element declares one |
| ObjectModel.LinkAllInverseIffQueued | classes/mango.data/MManagedObjectModel.hh:131-144 | after linking, a relationship that recorded no inverse is unchanged apart from its inverse, and records one exactly when its position is queued |
| ObjectModel.BlockQueuedFor | classes/mango.data/MManagedObjectModel.hh:123-125 | the links a block queues for an element are exactly those of its relationship elements that declare an inverse, at their positions |
| ObjectModel.QueuedForAt | classes/mango.data/MManagedObjectModel.hh:123-125 | a relationship element's position is queued exactly when it declares an inverse |
| ObjectModel.ParseEntitiesQueue | classes/mango.data/MManagedObjectModel.hh:84-129 | the links a successful parse queues are each element's links in document order |
| ObjectModel.QueueHolds | classes/mango.data/MManagedObjectModel.hh:123-125 | every relationship element declaring an inverse is queued with its entity's and attribute's positions and the inverse name |
| ObjectModel.LinksOfQueues | classes/mango.data/MManagedObjectModel.hh:114-125 | within one entity element, every relationship declaring an inverse is queued after the properties, at its own position |
| ObjectModel.ParseEntityProperties | classes/mango.data/MManagedObjectModel.hh:87-112 | a parsed entity holds its element's properties, as parsed, in front |
| ObjectModel.ParsedQueueFits | classes/mango.data/MManagedObjectModel.hh:114-144 | every link the parse queues names a relationship of the parsed entities |
| ObjectModel.ModelForVersion | classes/mango.data/MManagedObjectModel.hh:260-262 | the model for another version carries that version and fails exactly when parsing the same document at that version fails |
| ObjectModel.AttributeWithPath | classes/mango.data/MManagedObjectModel.hh:235-249 | a path finds an attribute only when it has exactly two dot-separated components |
| ObjectModel.AttributeWithPathLooksUpBoth | classes/mango.data/MManagedObjectModel.hh:235-249 | a path "Entity.attribute" finds the attribute of that name in the entity of that name or plural, and nothing when the entity is missing |
| ManagedObjects.NewObject | classes/mango.data/MManagedObject.hh:119-137 | a new object has nothing committed and nothing pending but defaults, is not saving, and is a fault exactly when created for a stored id |
| ManagedObjects.NewObjectReadsDefaults | classes/mango.data/MManagedObject.hh:147-157 | a new object reads null for every name except a property declaring a default, which reads that default (the last, for a repeated name) |
| ManagedObjects.NewObjectHasChanges | classes/mango.data/MManagedObject.hh:147-157 | a new object has changes exactly when some property of its entity declares a default |
| ManagedObjects.ReadRelationship | classes/mango.data/MManagedObject.hh:572-594 | a ToMany read gives committed plus inserted minus removed objects; a ToOne read gives nothing exactly when that collection is empty and otherwise its last object |
| ManagedObjects.SetProperty | classes/mango.data/MManagedObject.hh:632-663 | a write succeeds exactly when the value passes the type's kind check, else InvalidManagedObjectOperation; then that property reads the value and nothing else the object reads or commits changes |
| ManagedObjects.BufferInsert | classes/mango.data/MManagedObject.hh:707-713 | buffering an insert appends to that name's inserted list, adds the object to what the name reads, and changes nothing under other names |
| ManagedObjects.BufferRemove | classes/mango.data/MManagedObject.hh:737-743 | buffering a removal appends to that name's removed list, takes one occurrence from what the name reads, and changes nothing under other names |
| ManagedObjects.DiscardChanges | classes/mango.data/MManagedObject.hh:840-844 | after discarding, nothing is pending and the object reads exactly its committed data and links |
| ManagedObjects.PersistChanges | classes/mango.data/MManagedObject.hh:813-832 | after committing, nothing is pending and every buffer is empty, identity and saving mark are kept, the committed data is the old data overwritten by the pending values, and each committed relationship is what a read gave before the commit |
| ManagedObjects.PersistChangesKeepsReads | classes/mango.data/MManagedObject.hh:813-832 | committing changes nothing the object reads, property or relationship |
| ManagedObjects.PersistChangesIdempotent | classes/mango.data/MManagedObject.hh:813-832 | committing twice is committing once |
| ManagedObjects.PersistedDataEndsFault | classes/mango.data/MManagedObject.hh:766-772 | an object committed with committed or pending data is not a fault |
| ManagedObjects.PersistChangesAsWritten | classes/mango.data/MManagedObject.hh:825-829 | as written, the commit keeps reads of properties but its committed links are the old ones plus the inserted ones, with the removed ones left in |
| ManagedObjects.PersistChangesAsWrittenKeepsRemovedLinks | classes/mango.data/MManagedObject.hh:825-829 | as written, a committed link that is also pending removal keeps every copy it had, while the intended commit drops at least one of them |
| ManagedObjects.PersistChangesAsWrittenRestoresLink | classes/mango.data/MManagedObject.hh:825-829 | an object linked to 1 under `r` with that link pending removal reads no link before the commit, reads 1 again after the commit as written, and reads none after the intended commit |
| ManagedObjects.DidSaveInserted | classes/mango.data/MManagedObject.hh:419-434 | completing a name's inserts appends them to its committed list, drops that name's entry and one mark, and leaves everything else |
| ManagedObjects.DidSaveInsertedKeepsRelated | classes/mango.data/MManagedObject.hh:419-434 | completing a name's inserts changes nothing the object reads |
| ManagedObjects.DidSaveRemoved | classes/mango.data/MManagedObject.hh:479-492 | completing a name's removals subtracts them from its committed list, drops that entry and one mark, and leaves everything else |
| ManagedObjects.DidSaveHooksAddNoChanges | classes/mango.data/MManagedObject.hh:419-492 | the completion hooks never give an object changes it did not have |
| ManagedObjects.WillSaveInserted | classes/mango.data/MManagedObject.hh:388-390 | marking a name adds one mark for it to the names whose inserts are being saved and changes nothing else |
| ManagedObjects.WillSaveRemoved | classes/mango.data/MManagedObject.hh:448-450 | marking a name adds one mark for it to the names whose removals are being saved and changes nothing else |
| ManagedObjects.MarkThenCompleteBalances | classes/mango.data/MManagedObject.hh:388-492 | marking a name and then completing it leaves the object's marks as they were |
| ManagedObjects.WillStartSaving | classes/mango.data/MManagedObject.hh:350-352 | an object being saved reports no changes, reads what it read before, and differs only in its saving mark |
| ManagedObjects.DidFinishSaving | classes/mango.data/MManagedObject.hh:372-374 | once the saving mark is cleared the object has changes exactly when something is pending, and nothing else differs |
| ManagedObjects.RemoveFirst | classes/mango.system/MMutableArray.hh:68-76 | removing an element takes away one occurrence of it, and nothing when it is absent |
| ManagedObjects.Subtract | classes/mango.system/MMutableArray.hh:95-110 | subtracting a list takes away one occurrence per element of it |
| ObjectGraph.AddOneSide | classes/mango.data/MManagedObject.hh:700-713 | buffering one side succeeds exactly when the other object is of the relationship's class, else InvalidManagedObjectOperation; only this object changes, and only under that name |
| ObjectGraph.AddToRelationship | classes/mango.data/MManagedObject.hh:700-722 | adding succeeds exactly when both sides' classes match; only the two objects change, and only this one without an inverse to update |
| ObjectGraph.AddToRelationshipKeepsIds | classes/mango.data/MManagedObject.hh:700-722 | adding a link keeps every object's id and entity |
| ObjectGraph.AddToRelationshipLinksBothSides | classes/mango.data/MManagedObject.hh:700-722 | adding raises the count of the other object on this side by one and, with an inverse, the count of this object on the other side by one |
| ObjectGraph.RemoveFromRelationship | classes/mango.data/MManagedObject.hh:734-748 | removing changes only the two objects, keeps every object's identity, and only this one without an inverse to update |
| ObjectGraph.RemoveFromRelationshipUnlinksBothSides | classes/mango.data/MManagedObject.hh:734-748 | removing a link both sides hold lowers both counts by one |
| ObjectGraph.RemoveFromRelationshipAsWritten | classes/mango.data/MManagedObject.hh:746-748 | as written, a removal that updates the inverse fails with ManagedObjectException unless the other object answers to the missing method's name, and otherwise only buffers this side |
| ObjectGraph.RemoveAsWrittenFailsOnOrdinaryEntities | classes/mango.data/MManagedObject.hh:746-748 | on an object whose entity has no attribute answering to that method's name the as-written removal fails, while the intended one also unlinks the other side |
| ObjectGraph.SetRelationship | classes/mango.data/MManagedObject.hh:664-684 | setting null raises ManagedObjectException and setting a ToMany relationship raises InvalidManagedObjectOperation; a ToOne set succeeds exactly when both sides' classes match, keeps the same handles, and with nothing committed it is an add with the inverse |
| ObjectGraph.SetThenReadToOne | classes/mango.data/MManagedObject.hh:664-684 | with nothing pending under the name, reading a ToOne relationship right after setting it yields the new object, whatever was committed before |
| ObjectGraph.SetToOneUnfolds | classes/mango.data/MManagedObject.hh:671-681 | setting a ToOne relationship is releasing its last committed object and then adding the new one with the inverse |
| ObjectGraph.ReleaseLast | classes/mango.data/MManagedObject.hh:671-677 | releasing the last committed object keeps every object's identity and entity, and changes nothing when no object is committed |
| ObjectGraph.ReleaseLastBuffers | classes/mango.data/MManagedObject.hh:671-677 | with nothing pending, releasing leaves the committed objects and the insert buffer as they are and queues exactly the last committed object for removal |
| ObjectGraph.RemoveFromRelationshipBuffers | classes/mango.data/MManagedObject.hh:734-748 | removing an object keeps the committed links and the insert buffer and appends the object to the removal buffer |
| ObjectGraph.AddToRelationshipRelated | classes/mango.data/MManagedObject.hh:700-722 | after an add with an empty insert buffer, the related objects are the committed ones plus the new one, minus the pending removals |
| ObjectGraph.ReplacingLastEndsWith | classes/mango.data/MManagedObject.hh:671-681 | appending an object and removing the former last one leaves a list that ends with the appended object |
| Contexts.NewObjectForEntity | classes/mango.data/MManagedObjectContext.php:334-340 | a new object gets a fresh handle, is the context's last live object, and nothing else in the context changes |
| Contexts.InsertObject | classes/mango.data/MManagedObjectContext.php:370-372 | inserting appends the object to the live objects and changes nothing else |
| Contexts.DeleteObject | classes/mango.data/MManagedObjectContext.php:383-386 | deleting appends the object to the deleted objects and takes one occurrence of it from the live ones, every other live object staying live |
| Contexts.AnyHasChanges | classes/mango.data/MManagedObjectContext.php:397-402 | the scan finds changes exactly when some listed object has changes |
| Contexts.ContextHasChanges | classes/mango.data/MManagedObjectContext.php:393-404 | a context has changes exactly when an object is scheduled for deletion or some live object has changes |
| Contexts.Partition | classes/mango.data/MManagedObjectContext.php:419-428 | the inserted list holds exactly the changed live objects never stored, the updated list exactly the changed stored ones, each as often as it is live |
| Contexts.PartitionEmptyIffClean | classes/mango.data/MManagedObjectContext.php:419-428 | both lists are empty exactly when no live object has changes |
| Contexts.CommitAffected | classes/mango.data/MManagedObjectContext.php:436-440 | the loop keeps every object and leaves as deleted objects the old ones minus one occurrence per report |
| Contexts.CommitAffectedAt | classes/mango.data/MManagedObjectContext.php:436-440 | with an idempotent commit an object ends committed exactly when it is reported more often than it is deleted, and untouched otherwise |
| Contexts.CommitAffectedObjects | classes/mango.data/MManagedObjectContext.php:436-440 | with the managed object commit, every object ends committed exactly when reported more often than deleted, and valid |
| Contexts.ApplySaveResult | classes/mango.data/MManagedObjectContext.php:436-440 | applying a save answer keeps the live objects, removes one deletion per report, and commits exactly the objects reported more often than deleted |
| Contexts.ApplySaveResultCleans | classes/mango.data/MManagedObjectContext.php:436-440 | a reported object never scheduled for deletion ends without changes, and an unreported one is untouched |
| Requests.AddFault | classes/mango.data/MFaultRequest.php:97-102 | a fault is appended, and an object that is not a fault is refused with "Managed Object is not a valid fault" |
| Requests.RemoveFault | classes/mango.data/MFaultRequest.php:114-116 | removing takes one occurrence of the object from the faults |
| Requests.RemoveFaultKeepsOthers | classes/mango.data/MFaultRequest.php:114-116 | removing drops exactly the first occurrence and keeps every other entry in order |
| Requests.FaultRequestHoldsFaults | classes/mango.data/MFaultRequest.php:97-116 | adding and removing keep a request made of faults only |
| Requests.RemoveUndoesAddFault | classes/mango.data/MFaultRequest.php:97-116 | removing a fault just added to a request that did not hold it gives the request back |
| Stores.FetchedId | classes/mango.data/MManagedObjectContext.php:268-276 | a fetch whose only condition is the object id is recognised as asking for that id, and nothing else is |
| Stores.StoreRequest | classes/mango.data/MPersistentStore.hh:777-788 | every request first brings the database in line with the model; a save answers with its objects and keeps the context's lists, a fault keeps identities, and any other request kind is refused |
| Stores.FetchAnswers | classes/mango.data/MPersistentStore.hh:777-788 | a fetch answers with objects of the fetched entity, and with the id asked for when it asks for one |
| Stores.StoreRunnerMeetsContract | classes/mango.data/MPersistentStore.hh:777-788 | the store of this model keeps its identity and answers every request as the coordinator and the context rely on |
| Stores.SaveDataThenFaultReadsBack | classes/mango.data/MPersistentStore.hh:214-250 | when the save writes the object's own row, firing a fault for the object on the saved database succeeds and reads back every pending value the save wrote |
| Stores.SaveDataLeavesOwnRow | classes/mango.data/MPersistentStore.hh:214-250 | when the save writes the object's own row, the database then has a row with the object's id holding the saved cells, in columns of the table |
| Stores.StoreRowLeavesOwnRow | classes/mango.data/MPersistentStore.hh:214-250 | writing a row for a new object in an auto-numbered table, or for a stored object whose row exists, leaves a row with its id holding the written cells |
| Coordinators.NewCoordinator | classes/mango.data/MPersistentStoreCoordinator.hh:62-65 | a new coordinator holds its model and no stores |
| Coordinators.AddPersistentStore | classes/mango.data/MPersistentStoreCoordinator.hh:92-96 | a store not yet held is appended with its back-link set; one already held leaves the coordinator as it is |
| Coordinators.IndexOfStore | classes/mango.data/MPersistentStoreCoordinator.hh:107-111 | the position found holds the store asked for and is its first occurrence |
| Coordinators.RemovePersistentStore | classes/mango.data/MPersistentStoreCoordinator.hh:107-111 | a held store is taken out and handed back with its back-link cleared; one not held leaves the coordinator as it is |
| Coordinators.RemoveUndoesAdd | classes/mango.data/MPersistentStoreCoordinator.hh:92-111 | removing a store just added gives the coordinator back |
| Coordinators.RemoveAsWrittenKeepsOnlyRemoved | classes/mango.system/MMutableSet.hh:61-69 | as written, removing the first of two stores leaves only that store, with its back-link cleared, where the intended removal leaves only the other store |
| Coordinators.SaveOnEach | classes/mango.data/MPersistentStoreCoordinator.hh:162-165 | every store runs the save in order and the answer is the last store's |
| Coordinators.SaveOnEachThreads | classes/mango.data/MPersistentStoreCoordinator.hh:162-165 | the stores run in order on one context: the first on the caller's, each next one on the context the previous run left, since every store works on the same objects; the stores become what those runs made them, and the answer is the last run's context and objects |
| Coordinators.SaveOnEachKeepsLists | classes/mango.data/MPersistentStoreCoordinator.hh:162-165 | with stores that meet their contract the chained saves keep the context's lists and answer with the request's objects |
| Coordinators.ExecuteRequest | classes/mango.data/MPersistentStoreCoordinator.hh:158-178 | no stores is "No persistent stores defined!"; a save goes to every store, a fetch or fault to the first one alone, and any other request is "Unsupported request type" |
| Coordinators.ExecuteSaveThreads | classes/mango.data/MPersistentStoreCoordinator.hh:158-165 | a routed save runs every store in order on the threaded context and answers the last run's context and objects |
| Coordinators.ExecuteRequestKeepsStores | classes/mango.data/MPersistentStoreCoordinator.hh:158-178 | routing a request keeps the coordinator's stores and their order |
| Coordinators.SaveKeepsLists | classes/mango.data/MPersistentStoreCoordinator.hh:158-178 | a routed save keeps the context's object lists and answers with the objects it was given |
| Sessions.SaveRequestFor | classes/mango.data/MManagedObjectContext.php:415-432 | the request inserts exactly the changed live objects never stored, updates exactly the changed stored ones, and deletes the scheduled ones |
| Sessions.Affected | classes/mango.data/MManagedObjectContext.php:434 | the reported objects are those the request names, covering every deletion |
| Sessions.Commit | classes/mango.data/MManagedObjectContext.php:434-441 | after the answer is applied nothing is left scheduled for deletion and every changed live object not deleted is clean |
| Sessions.ApplySaveResultCleansAll | classes/mango.data/MManagedObjectContext.php:436-440 | every reported object not scheduled for deletion ends without changes |
| Sessions.Save | classes/mango.data/MManagedObjectContext.php:413-446 | a context without changes answers false and sends nothing; otherwise it answers true, keeps its live objects, empties its deleted ones and leaves every changed live object clean |
| Sessions.SaveSendsRequestToEveryStore | classes/mango.data/MManagedObjectContext.php:413-446 | a save with changes runs the same request on every store and keeps the stores in order |
| Sessions.SaveAgainIsNoOp | classes/mango.data/MManagedObjectContext.php:413-446 | saving again right after a save that left every live object clean answers false and changes nothing |
| Sessions.FetchById | classes/mango.data/MManagedObjectContext.php:270-272 | the request fetches the entity and asks for exactly that id |
| Sessions.ObjectWithObjectID | classes/mango.data/MManagedObjectContext.php:268-276 | the answer is the last object the first store fetches for that entity and id, or none |
| Sessions.ObjectWithObjectIDFinds | classes/mango.data/MManagedObjectContext.php:268-276 | an object found is an object of the context, of the entity and with the id asked for |
| Sessions.FireFault | classes/mango.data/MManagedObject.hh:785-796 | an object that is not a fault is left alone; a fault is sent alone to the first store and any object reported back is "Error while fetching data for fault!" |
| Sessions.FireFaultKeepsObjects | classes/mango.data/MManagedObject.hh:785-796 | firing a fault keeps the context valid and every object's identity |
| Sessions.SetValue | classes/mango.data/MManagedObject.hh:632-663 | setting a property in the context succeeds exactly when the value fits the type and then reads it back, every object keeping its identity |
| Sessions.Link | classes/mango.data/MManagedObject.hh:700-722 | linking in the context succeeds exactly when both sides' classes match, every object keeping its identity |
| Sessions.CreateObject | classes/mango.data/MManagedObjectContext.php:334-340 | a new object with no id of the entity becomes the last live object under a fresh handle |
| Sessions.ParseObject | classes/mango.data/MManagedObjectContext.php:102-143 | an element naming no entity is EntityNotFound; otherwise a fresh object with no id, of the entity the element names, joins the live objects and every older object keeps its identity |
| Sessions.ParseAttributes | classes/mango.data/MManagedObjectContext.php:108-130 | setting the attributes child by child keeps every object's identity |
| Sessions.ParseAttribute | classes/mango.data/MManagedObjectContext.php:109-130 | a child naming no attribute is a fatal error; otherwise every object keeps its identity |
| Sessions.ElementValue | classes/mango.data/MManagedObjectContext.php:110-121 | an element gives a value exactly for the six known types, the value has the property's type, and for every type but Boolean it is the element's text coerced |
| Sessions.BooleanElementValue | classes/mango.data/MManagedObjectContext.php:117-118 | a Boolean element is true exactly when it has attributes, children or non-blank text, so `<b>0</b>` reads true although the text "0" coerces to false |
| Sessions.ParseRelated | classes/mango.data/MManagedObjectContext.php:126-129 | linking the parsed children keeps every object's identity |
| Sessions.ParsedPropertySets | classes/mango.data/MManagedObjectContext.php:110-123 | a property child of a known type always parses, and the object then reads the element's value under that property |
| Sessions.ParsedPropertyReadsBack | classes/mango.data/MManagedObjectContext.php:102-143 | an element with one property child parses to an object that reads that child's value under the property |
| Sessions.ParseObjects | classes/mango.data/MManagedObjectContext.php:249-255 | one new object per child of the root, in document order, each of the entity its element names; an element naming no entity fails the parse |
| Database.CreateTable | classes/mango.data/MPersistentStore.hh:139-155 | creating a table succeeds exactly when it does not exist, no two columns share a name and every auto-numbered column is the primary key; then it adds the empty table and changes no other |
| Database.EmptyTable | classes/mango.data/MPersistentStore.hh:139-155 | a created table has no rows and the definition's field names as its columns |
| Database.Insert | classes/mango.data/MPersistentStore.hh:218-232 | an insert into an existing table with known columns appends exactly one row holding the values, numbers its auto column with a fresh number and returns that number; nothing else changes |
| Database.InsertedNumberIsFresh | classes/mango.data/MPersistentStore.hh:230 | the number an insert hands out is held by no earlier row |
| Database.SelectedAndKeptPartition | classes/mango.data/MPersistentStore.hh:353-362 | selection and deletion split a table: every row is either selected or kept, never both and never lost |
| Database.DeleteWhere | classes/mango.data/MPersistentStore.hh:353-362 | a delete removes exactly the rows meeting the conditions from that table and changes no other table |
| Database.SelectWhere | classes/mango.data/MPersistentStore.hh:376-385 | a select answers exactly the rows meeting the conditions, in table order, and fails on an unknown table or column |
| Database.Updated | classes/mango.data/MPersistentStore.hh:237-250 | an update overwrites the given columns of exactly the rows meeting the conditions |
| Database.UpdateWhere | classes/mango.data/MPersistentStore.hh:237-250 | an update rewrites only the matching rows of that table and changes no other table |
| Database.SelectedFirst | classes/mango.data/MPersistentStore.hh:353-362 | the first row meeting the conditions is the first row selected |
| Database.SelectedAppend | classes/mango.data/MPersistentStore.hh:353-362 | a row appended to a table is selected after all others exactly when it meets the conditions |
| Database.SelectedNone | classes/mango.data/MPersistentStore.hh:353-362 | a table none of whose rows meets the conditions selects nothing |
| Database.UpdatedSelected | classes/mango.data/MPersistentStore.hh:237-250 | after an update that sets no condition column, every row the conditions select holds the values set, and some row is selected exactly when one was before |
| Codec.Unbox | classes/mango.data/MPersistentStore.hh:162-200 | a value unpacks exactly when it is of its property type's kind, and an integer property takes integers only |
| Codec.AcceptedButNotUnpacked | classes/mango.data/MPersistentStore.hh:162-200 | for integer, float and boolean properties some value passes the kind check of a set but does not unpack |
| Codec.UnboxThenBox | classes/mango.data/MPersistentStore.hh:162-200 | a value that unpacks is boxed back to itself from the text of its cell, when the runtime's `floatval` rereads its own float text; dates come back through the numeric branch of `MDate::parse` |
| Codec.BoxThenUnbox | classes/mango.data/MPersistentStore.hh:393-405 | a cell of its column's kind is boxed from its text and unpacks back to the same cell |
| Codec.Unpack | classes/mango.data/MPersistentStore.hh:162-200 | unpacking succeeds exactly when every updated key names a property its value fits, keeps the keys, and otherwise reports a key that fails |
| Codec.ColumnError | classes/mango.data/MPersistentStore.hh:390-415 | a fetched column raises nothing exactly when it is the object id or names a property of the entity |
| Codec.FirstColumnError | classes/mango.data/MPersistentStore.hh:390-415 | there is an error exactly when some column raises, and it is the first such column's |
| Codec.FirstErrorAfterHead | classes/mango.data/MPersistentStore.hh:390-415 | when the first column raises nothing, the first error is the first error of the rest |
| Codec.FirstErrorAtShift | classes/mango.data/MPersistentStore.hh:390-415 | behind a first column that raises nothing, the first error moves one position along |
| Codec.DecodeColumns | classes/mango.data/MPersistentStore.hh:390-415 | decoding stops with the first raising column's error; otherwise the data gains exactly the typed property columns, boxed from their text |
| Codec.DecodeRow | classes/mango.data/MPersistentStore.hh:387-417 | a fetched row decodes exactly when every column raises nothing, and then gives exactly the typed property columns boxed from their text |
| Codec.DecodeReadsBackUnpack | classes/mango.data/MPersistentStore.hh:162-200 | a row holding what a save unpacked decodes to every updated value again |
| Schema.SqlType | classes/mango.data/MPersistentStore.hh:546-558 | each property type is stored in its column type: text and unknown types in MEDIUMTEXT, integers and dates in INT, floats in FLOAT, booleans in TINYINT, binary data in LONGBLOB |
| Schema.JoinTableSpec | classes/mango.data/MPersistentStore.hh:564-577 | a join table has exactly three fields: the numbered object id, then this side's column, then the far side's column |
| Schema.AddJoinTable | classes/mango.data/MPersistentStore.hh:561-579 | a join table name already planned is not planned twice; a new one is appended after the tables already planned, and names stay distinct |
| Schema.JoinStep | classes/mango.data/MPersistentStore.hh:543-580 | a property plans no join table; a relationship plans its join table exactly when it has an inverse, and fails otherwise |
| Schema.JoinTables | classes/mango.data/MPersistentStore.hh:543-580 | walking an entity's attributes succeeds exactly when every relationship has an inverse, and then every relationship has its join table among the planned ones, which keep the earlier plan as a prefix |
| Schema.EntityTable | classes/mango.data/MPersistentStore.hh:541-584 | an entity's table is named after its plural and holds the numbered object id followed by one column per property, in attribute order |
| Schema.EntitiesPlan | classes/mango.data/MPersistentStore.hh:540-591 | planning the entities in order gives one table per entity and a join table per relationship, with distinct names; any failure is a persistent store error |
| Schema.BootstrapPlan | classes/mango.data/MPersistentStore.hh:540-591 | a plan exists only when no two entities share a plural; it holds each entity's table, with that entity's columns, in model order, and a join table for every relationship |
| Schema.PrimaryKeyClauseAsWritten | classes/mango.data/MPersistentStore.hh:145-149 | as written the PRIMARY KEY clause is emitted only for an empty key name |
| Schema.PrimaryKeyClause | classes/mango.data/MPersistentStore.hh:145-149 | as intended the PRIMARY KEY clause is emitted exactly for a given, non-empty key name, and names that key |
| Schema.PrimaryKeyClauseInverted | classes/mango.data/MPersistentStore.hh:145-149 | for every given key name the clause as written is present exactly when the intended one is absent |
| Schema.CreateTableQuery | classes/mango.data/MPersistentStore.hh:139-155 | the statement opens with the CREATE TABLE line of the table's name and closes with the closing parenthesis and a blank line; with a key the PRIMARY KEY clause of that key comes right before the close |
| Schema.Definitions | classes/mango.data/MPersistentStore.hh:593-601 | every planned table becomes one statement of that name and fields keyed on objectID, in plan order |
| Schema.DefinitionsAsWritten | classes/mango.data/MPersistentStore.hh:593-601 | the same statements as written, each carrying the inverted primary key clause |
| Schema.CreateTables | classes/mango.data/MPersistentStore.hh:593-609 | a statement with an auto-numbered column that is not the key makes the whole bootstrap fail with a database error; on success every statement's table exists empty and every earlier table is untouched |
| Schema.DatabaseVersion | classes/mango.data/MPersistentStore.hh:116-133 | a version read comes from a row of the metadata table keyed `version` whose value is that text; without a metadata table there is no version |
| Schema.DatabaseVersionReadsFirstRow | classes/mango.data/MPersistentStore.hh:116-133 | the first row keyed `version` decides: its text value is the version, and a missing or non-text value gives none |
| Schema.DatabaseVersionAsWritten | classes/mango.data/MPersistentStore.hh:116-133 | as written, any version the code returns agrees with the intended reading |
| Schema.DatabaseVersionAsWrittenFailsWithoutVersionRow | classes/mango.data/MPersistentStore.hh:118-124 | as written, a metadata table with no `version` row raises a fatal type error, where the intended reading answers no version |
| Schema.EntityTableRejectsObjectIDProperty | classes/mango.data/MPersistentStore.hh:541-563 | an entity declaring a property named objectID cannot get its table, because the column list already starts with objectID |
| Schema.JoinTableRejectsSameColumns | classes/mango.data/MPersistentStore.hh:564-577 | a join table whose two key columns get the same name, as for a relationship that is its own inverse, cannot be created |
| Schema.BootstrapDefinitions | classes/mango.data/MPersistentStore.hh:593-609 | the bootstrap creates the entity tables first, in model order, then the join tables, then the metadata table keyed on id last |
| Schema.CreateDatabaseStructure | classes/mango.data/MPersistentStore.hh:532-627 | a successful bootstrap records the model's version, creates no entity table that already existed and keeps every earlier table as it was |
| Schema.CreateDatabaseStructureTables | classes/mango.data/MPersistentStore.hh:532-627 | after a successful bootstrap every entity's plural names an empty table with that entity's columns keyed on objectID, every relationship's join table name names an empty table laid out as the join table of a relationship of the model with that name, and the metadata table holds only the version row, numbered 1 |
| Schema.BootstrapEntityTable | classes/mango.data/MPersistentStore.hh:541-596 | a bootstrap leaves the table of each entity empty, with the numbered object id and one column per property |
| Schema.BootstrapJoinTable | classes/mango.data/MPersistentStore.hh:564-601 | a bootstrap leaves an empty table under each relationship's join table name, with the three columns of a relationship that maps to that name |
| Schema.BootstrapMetadata | classes/mango.data/MPersistentStore.hh:603-624 | a bootstrap's metadata table holds just the version row, numbered 1 |
| Schema.EntitiesPlanFrom | classes/mango.data/MPersistentStore.hh:564-577 | every join table the plan adds has the three columns of some relationship of the entities planned, under that relationship's table name |
| Schema.VersionOfFreshMetadata | classes/mango.data/MPersistentStore.hh:116-133 | the version row inserted into the fresh metadata table is the version read back |
| Schema.CreateDatabaseStructureAsWrittenAlwaysFails | classes/mango.data/MPersistentStore.hh:145-149 | with the inverted clause no bootstrap succeeds, since the metadata table's auto-numbered id is never a key |
| Schema.EnsureDatabaseConsistency | classes/mango.data/MPersistentStore.hh:643-657 | a database recording the model's version is used as it is; another recorded version is the migration error; a database without one is bootstrapped; success always leaves the model's version recorded |
| Schema.EnsureDatabaseConsistencyIdempotent | classes/mango.data/MPersistentStore.hh:643-657 | once the consistency pass has succeeded, running it again changes nothing |
| StoreSave.Put | classes/mango.data/MPersistentStore.hh:325-329 | writing an object back with no more changes than it had keeps every other object and the set of handles, and never adds to the objects with changes |
| StoreSave.Finish | classes/mango.data/MPersistentStore.hh:325-329 | committing an object's changes and ending its save leaves it without changes, not saving, with the same entity and id |
| StoreSave.SaveData | classes/mango.data/MPersistentStore.hh:214-251 | an object without updated data is not written; data that does not unpack fails the save; otherwise only the saved object changes, and only in its id |
| StoreSave.StoreRow | classes/mango.data/MPersistentStore.hh:214-250 | writing a row changes only the saved object, and that only in its id |
| StoreSave.StoreRowNumbersNewObject | classes/mango.data/MPersistentStore.hh:217-250 | a stored object keeps its id and is UPDATEd; an object never stored is INSERTed as one more row of its entity's table and takes the number the table hands out |
| StoreSave.StoreRowWritesRow | classes/mango.data/MPersistentStore.hh:214-250 | writing a new object into a table numbering its objectID leaves exactly one row with its new id, holding the written cells; updating a stored object leaves every row with its id holding the written cells, and such a row exists exactly when one did before |
| StoreSave.InsertedRowIsOnlyOne | classes/mango.data/MPersistentStore.hh:218-232 | after an insert into a table numbering its objectID, the row inserted is the only one with the number handed out |
| StoreSave.InsertLinkRow | classes/mango.data/MPersistentStore.hh:268-279 | the link INSERT succeeds exactly when the join table and both its columns exist, and changes no other table |
| StoreSave.InsertLinkRowAppendsPair | classes/mango.data/MPersistentStore.hh:268-279 | the link INSERT keeps every earlier join row and appends one holding the owner's id and the far object's id |
| StoreSave.DeleteLinkRows | classes/mango.data/MPersistentStore.hh:305-314 | the intended link DELETE removes exactly the join rows linking this owner to that far object and keeps every other row and table |
| StoreSave.DeleteLinkRowsAsWrittenDropsOtherOwners | classes/mango.data/MPersistentStore.hh:305-314 | the DELETE as written, keyed on the far column alone, also removes another owner's link to the same far object, which the intended DELETE keeps |
| StoreSave.WriteLink | classes/mango.data/MPersistentStore.hh:268-314 | a link can only be written or deleted for a relationship that has a join table |
| StoreSave.WriteLinkWritesPair | classes/mango.data/MPersistentStore.hh:268-314 | a link insert appends one join row holding the two ids and keeps the earlier rows, when the two columns differ and neither is auto-numbered; a link delete keeps exactly the rows that do not link the pair; no other table changes |
| StoreSave.Marked | classes/mango.data/MPersistentStore.hh:261-264 | marking the far object as saving a name neither adds nor removes changes |
| StoreSave.Settled | classes/mango.data/MPersistentStore.hh:281-283 | committing the far object's pending links of a name never adds changes |
| StoreSave.MarkFar | classes/mango.data/MPersistentStore.hh:297-300 | marking the far object keeps the objects, their entities and never adds to the objects with changes |
| StoreSave.SettleFar | classes/mango.data/MPersistentStore.hh:316-318 | settling the far object keeps the objects, their entities and never adds to the objects with changes |
| StoreSave.SaveObject | classes/mango.data/MPersistentStore.hh:208-331 | an object without changes is not written; a saved object is left without changes and not saving; no other object gains changes, and objects keep their entities |
| StoreSave.SaveObjectSavesInsertedFar | classes/mango.data/MPersistentStore.hh:253-288 | saving an object with changes saves every far object of its pending inserts, under every name of its inserted buffer that is a relationship of its entity and that it was not already saving |
| StoreSave.SaveObjectKeepsMarks | classes/mango.data/MPersistentStore.hh:260-283 | a save leaves the saving marks of every object without changes as they were, counted with repetition: each far object is marked before its save and unmarked after the join row is written |
| StoreSave.SaveLinkedNames | classes/mango.data/MPersistentStore.hh:254-293 | writing the pending links name by name keeps the objects and their entities and never adds changes |
| StoreSave.SaveLinkedNamesKeepsMarks | classes/mango.data/MPersistentStore.hh:254-293 | the walk over the names leaves the saving marks of every object without changes as they were |
| StoreSave.SaveLinkedNamesSavesFar | classes/mango.data/MPersistentStore.hh:254-293 | for an object being saved, every far object of every name that is a relationship of its entity and that it was not already saving when the walk began is saved |
| StoreSave.SaveLinkedNamesSkipsSettled | classes/mango.data/MPersistentStore.hh:254-259 | a walk over names that are all already being saved, or are no relationship of the entity, changes nothing |
| StoreSave.SaveName | classes/mango.data/MPersistentStore.hh:255-260 | a name the object is already saving, or that is no relationship of its entity, is passed over with nothing changed; for any other name every far object is saved |
| StoreSave.SaveLinks | classes/mango.data/MPersistentStore.hh:260-284 | writing the links of one name saves every far object listed, keeps the objects and their entities and never adds changes |
| StoreSave.SaveLinksKeepsMarks | classes/mango.data/MPersistentStore.hh:260-284 | writing the links of one name leaves the saving marks of every object without changes as they were |
| StoreSave.SaveLink | classes/mango.data/MPersistentStore.hh:261-283 | writing one link saves the far object and never adds changes |
| StoreSave.SaveLinkKeepsMarks | classes/mango.data/MPersistentStore.hh:261-283 | a far object without changes is marked, not saved and unmarked again, so its marks come back as they were; every other object without changes keeps its marks |
| StoreSave.SaveLinkWritesJoinRow | classes/mango.data/MPersistentStore.hh:261-283 | the far object is saved first; then the join row is written with the owner's and the far object's ids as that save leaves them: an insert appends one row linking the pair (columns distinct, not auto-numbered), a delete keeps exactly the rows not linking it; the two ids do not change afterwards and no other table is touched |
| StoreSave.SaveAll | classes/mango.data/MPersistentStore.hh:497-512 | after saving a list of objects none of them has changes left |
| ObjectGraph.RemoveOneSide | classes/mango.data/MManagedObject.hh:737-743 | buffering a removal changes only the object it is buffered on and keeps every object's entity and id |
| StoreSave.RemoveFromRelationshipRemovesMore | classes/mango.data/MPersistentStore.hh:346 | removing a link only adds removals: the far object is buffered as removed from the owner, the owner from the far object's inverse relationship, and every earlier pending removal stays |
| StoreSave.NoLongerRelatedIsRemoved | classes/mango.data/MManagedObject.hh:572-594 | an object read before removals were added and no longer read after is among the pending removals |
| StoreSave.UnlinkEach | classes/mango.data/MPersistentStore.hh:345-347 | unlinking an object from the far objects of one relationship only adds removals and keeps every object's entity and id; each far object is buffered as removed from the object, and the object from each far object's inverse relationship |
| StoreSave.UnlinkAll | classes/mango.data/MPersistentStore.hh:341-349 | unlinking an object from all its relationships only adds removals and keeps every object's entity and id; every object it read through a to-many relationship is among its pending removals there |
| StoreSave.DeleteManagedObject | classes/mango.data/MPersistentStore.hh:338-363 | after a delete the object has no changes and no row with its id remains in its entity's table |
| StoreSave.DeleteAll | classes/mango.data/MPersistentStore.hh:514-520 | deleting a list of objects keeps the objects of the context |
| StoreSave.ExecuteSave | classes/mango.data/MPersistentStore.hh:494-522 | a save answers with the inserted, the updated and the deleted objects in that order, each as often as listed, and keeps the objects of the context |
| StoreFetch.RowId | classes/mango.data/MPersistentStore.hh:481-482 | a fetched row's id is the integer its objectID column holds, and 0 for a row without one |
| StoreFetch.MatchesById | classes/mango.data/MPersistentStore.hh:378 | a row satisfies the id condition exactly when its objectID column holds that id |
| StoreFetch.KnowsById | classes/mango.data/MPersistentStore.hh:378 | the id condition can be evaluated on a table exactly when the table has an objectID column |
| StoreFetch.NewObjects | classes/mango.data/MPersistentStore.hh:481-484 | one new live object per fetched row, appended in row order, and no object deleted |
| StoreFetch.NewObjectsKeep | classes/mango.data/MPersistentStore.hh:481-484 | creating the fetched objects leaves every object already in the context unchanged |
| StoreFetch.NewObjectsAt | classes/mango.data/MPersistentStore.hh:481-484 | the object made for row i is new to the context and is the new object of the entity with that row's id |
| StoreFetch.ExecuteFetch | classes/mango.data/MPersistentStore.hh:465-487 | a fetch succeeds exactly when the entity's table exists and knows the conditions' columns, and returns as many new live objects as rows satisfy them |
| StoreFetch.FetchedObject | classes/mango.data/MPersistentStore.hh:465-487 | every fetched object is of the fetched entity, and for a fetch by id carries that id |
| StoreFetch.FetchByIdCarriesId | classes/mango.data/MPersistentStore.hh:481-484 | an object fetched by id carries that id and is a fault unless the id is the unknown one |
| StoreFetch.FetchByIdFindsStoredRow | classes/mango.data/MPersistentStore.hh:465-487 | a fetch by id answers something exactly when the table holds a row with that id |
| StoreFetch.FetchObjectWithObjectID | classes/mango.data/MPersistentStore.hh:798-823 | the lookup finds an object exactly when the entity's table holds the id; it is then a new object of the entity with that id; otherwise the context is unchanged |
| StoreFetch.FetchObjectAsWrittenLosesObject | classes/mango.data/MPersistentStore.hh:798-823 | for a stored id the lookup as written still answers null, where the intended lookup finds the object |
| StoreFetch.FarIdReadsWrittenId | classes/mango.data/MPersistentStore.hh:435 | a join row read by column name gives back the far object's id written there |
| StoreFetch.FarIdByPositionReadsRowId | classes/mango.data/MPersistentStore.hh:435 | reading a join row by the position the inverse column name's leading digits give takes the row's own objectID for the far object's id whenever the name starts with a letter |
| StoreFetch.FarIdByPositionLeadingDigit | classes/mango.data/MPersistentStore.hh:435 | a name led by one digit reads the column at that position: 0 the objectID, 1 the owner column, 2 the inverse column, 3 to 9 nothing, read as 0 |
| StoreFetch.FarIdByPositionMisreads | classes/mango.data/MPersistentStore.hh:435 | a join row with objectID 7 holding far id 2 in a letter-led inverse column reads as far id 7 by position and 2 by name |
| StoreFetch.LinkOne | classes/mango.data/MPersistentStore.hh:433-445 | a join row loads the object of the target entity carrying the id in the far column; an unknown target entity is the "Could not find entity named" error |
| StoreFetch.LinkedObjects | classes/mango.data/MPersistentStore.hh:431-448 | one loaded object per join row, and every object already in the context is kept |
| StoreFetch.LinkedObjectsAt | classes/mango.data/MPersistentStore.hh:431-448 | the object loaded for join row i carries the id that row names and is of the target entity |
| StoreFetch.RowsHolding | classes/mango.data/MPersistentStore.hh:420-432 | the rows read exist exactly when the join table and column do, and each holds the fault's id under that column |
| StoreFetch.FaultRelationships | classes/mango.data/MPersistentStore.hh:419-449 | loading the relationships keeps every object of the context and every relationship already loaded |
| StoreFetch.WithData | classes/mango.data/MPersistentStore.hh:417 | setting a fault's data changes only that object's data |
| StoreFetch.WithRels | classes/mango.data/MPersistentStore.hh:451 | setting a fault's relationships changes only that object's relationships |
| StoreFetch.LoadFault | classes/mango.data/MPersistentStore.hh:417-451 | loading a fault sets its data and relationships and changes nothing else of it, keeping every object's id and entity |
| StoreFetch.FaultObject | classes/mango.data/MPersistentStore.hh:373-454 | a fault fails exactly when its entity's table holds no row with its id, and then the context is unchanged |
| StoreFetch.FaultSetsDecodedData | classes/mango.data/MPersistentStore.hh:388-417 | a loaded fault's data is the decoded row of its table holding its id |
| StoreFetch.FaultAsWrittenHidesMissingRow | classes/mango.data/MPersistentStore.hh:388-389 | for a fault whose row is gone, the fault as written succeeds with empty data and reports nothing, where the intended fault reports it as failed |
| StoreFetch.ExecuteFault | classes/mango.data/MPersistentStore.hh:370-458 | a fault request keeps every object's id and entity and answers exactly the faults whose rows are missing |

## Left out

- Implicit fault firing: the source fires a fault on every attribute read and write. The model fires faults only through the explicit `Sessions.FireFault`, because a firing needs the coordinator, which the object layer does not hold.
- `objectWith` and `objectWithAttributePath` in the context: their predicate is free text rendered from `toString` and interpreted by the SQL server. A fetch predicate is modelled only as a conjunction of column equalities.
- Transactions and partial effects: `beginTransaction`, `commit` and rollback are not modelled, and an operation that fails answers only its error, with no state. So every effect a failing operation had before it raised is dropped by the model, although the source keeps it. The bootstrap's transaction is opened and never rolled back, so a failed bootstrap leaves the tables already created on an open transaction, and whatever the server then does with them is not modelled.
- StoreSave.SaveObject: a save that fails part way (a value that cannot be unpacked, a far object that fails) keeps in the source the statements already executed, with no transaction around `saveManagedObject`, the ids already handed out to inserted objects and the saving marks already set by `_willStartSaving`, which is applied before the data is unpacked. The model answers only the error.
- ObjectGraph.AddToRelationship: when the inverse side refuses the object (the class check on the far object raises), the source has already added the object to this side's pending buffer and keeps it there. The model answers only the error.
- Schema.CreateDatabaseStructureTables: when two relationships map to the same join table name, the source keeps the columns of the first one met, in model order. The contract says only that the table has the columns of some relationship of the model with that name.
- StoreFetch.LoadFault: when loading a relationship raises (an unknown target entity), the source has already set the fault's data and keeps it. The model answers only the error.
- The null-coordinator and null-context branches ("Persistent Store Coordinator not defined!", "Undefined persistent store coordinator!", "Undefined managed object context!"): in the model a context always has its coordinator and a store always has its coordinator's model.
- The `if (!$statement->execute(...))` branches of the store: PDO runs in exception mode, so a failing statement raises a database error (`DatabaseError`) before that branch is reached.
- The "Could not create object" branch of `newObjectForEntity`: the class is always found.
- The parse callback of `_parseObjectFromXML`.
- simplexml and file reading: the model document and the object documents are taken as already-parsed element trees.
- PDO, the text of SQL statements and `lastInsertId`: replaced by the in-memory tables and the number `Database.Insert` hands out.
- MD5 and the MString digest: `Runtime.md5` is a parameter. Only the hex-prefix and case folding applied to its result are modelled.
- Dates and floats: `floatval` and float printing are the `Runtime` functions `floatval` and `formatFloat`. `parseDate` stands for `MDate::parse` on every text that is not a plain integer text (an optional minus sign and digits): `strtotime`, and also the numeric texts with a sign `+`, a fraction, an exponent or surrounding blanks, whose integer reading is not modelled. A date is an integer timestamp.
- Collection internals: the context's live and deleted objects are MMutableArray lists, modelled as sequences. The coordinator's stores are an MMutableSet, modelled as a sequence without repeats. The store `anyObject` picks for a fetch or fault is taken to be the first store.
- ManagedObjects.ReadRelationship: the source's `objectForKey` raises MUndefinedKeyException on a missing key (classes/mango.system/MDictionary.hh:92-97), `lastObject` raises on an empty list (classes/mango.system/MArray.hh:102-107, 129-131), and `removeObjects` is defined in no class of the source. The model reads a missing key as an empty list, the last object of an empty list as null, and `removeObjects` as removing one copy per listed object, which is what the `!== null` tests around those calls expect.
- ManagedObjects.ReadProperty: `objectForKey` on the pending and committed data (classes/mango.data/MManagedObject.hh:568-570) is read as null for a missing key, which the `=== null` test after it expects, where MDictionary would raise.
- ManagedObjects.BufferInsert: `objectForKey` on the pending insertions (classes/mango.data/MManagedObject.hh:708) is read as null for a missing key, as the `=== null` test after it expects. The same reading holds for ObjectGraph.AddToRelationship, which calls it.
- ManagedObjects.BufferRemove: `objectForKey` on the pending removals (classes/mango.data/MManagedObject.hh:738) is read as null for a missing key, as the `!$arr` test after it expects.
- Schema.EntitiesPlan: `objectForKey` on the planned join tables and entity tables (classes/mango.data/MPersistentStore.hh:568, 586) is read as null for a name not yet planned, as the `== null` tests expect.
- ObjectGraph.SetRelationship: the same reading of `objectForKey` and `lastObject` is taken, so a ToOne set on an object with nothing committed under the name adds without releasing anything, where the `.hh` collections would raise.
- ManagedObjects.PersistChanges: `addObjects` is declared for a PHP array but is passed an MMutableArray, and `removeObjects` is defined nowhere. The model appends the listed objects and removes one copy per listed object.
- ManagedObjects.DidSaveInserted: a missing key of the pending buffers reads as nothing pending rather than raising, and `addObjects` appends the listed objects.
- ManagedObjects.DidSaveRemoved: a missing key reads as nothing pending, and `removeObjects` removes one copy per listed object.
- Sessions.ParseAttribute: the `.php` context compares the property's type with the string constants of the `.php` MEntityDescriptionProperty; the `.hh` class of that name defines no such constants and its `type()` answers an MPropertyType. The model takes each comparison as a test of the property's type.
- Codec.Unpack: when several pending values cannot be written, the source reports the first in the dictionary's insertion order. The model's pending data is a map with no insertion order, so it reports the least failing key.
- ObjectModel.LinkAll: the source queues the inverse links in an MMutableDictionary whose keys are the relationship objects, and MMutableDictionary is not part of this model, so neither its handling of object keys nor its iteration order is known. The model queues every relationship that declares an inverse, in document order, which is what the loop at classes/mango.data/MManagedObjectModel.hh:131-144 expects.
- StoreSave.SaveObject: the model states that the saved object ends without changes, that the far objects of its pending inserts are saved (`StoreSave.SaveObjectSavesInsertedFar`), the ids handed out and the row a data write leaves (`StoreSave.StoreRowWritesRow`, `Stores.SaveDataThenFaultReadsBack`). For its pending removals it states the far objects saved only against the removed buffer as the inserted pass leaves it (`StoreSave.SaveLinkedNamesSavesFar`), since far saves during that pass may commit some of those removals. It does not state that the link saves that follow, which save the far objects and write join tables, leave that row alone.
- StoreSave.ExecuteSave: the same; a whole save is not stated to leave each saved object's row readable by a later fault.
- StoreSave.SaveLinks: the join rows are stated link by link (`StoreSave.SaveLinkWritesJoinRow`), not as the join table's content after the whole list. A later far save in the same walk may write rows of that table again, for instance a far object with a pending insert of the owner, so a table-wide statement would need a bound on what far saves write.
- StoreSave.SaveLinkedNames: that the far objects are saved is stated for an object that is itself being saved, and so has no changes of its own (`StoreSave.SaveLinkedNamesSavesFar`), which is how `StoreSave.SaveObject` calls it; the join rows are stated link by link, as for `StoreSave.SaveLinks`.
- StoreSave.DeleteManagedObject: the model states the unlinking (`StoreSave.UnlinkAll`: every object read through a to-many relationship is among the pending removals) and the deleted row, not that no join row linking the object remains once the removals are saved. The removals are deleted link by link during the object's save, with far saves in between that may write such rows again, as for `StoreSave.SaveLinks`.
- `hash()` and `equals()` of managed objects: handles give identity.
- The web layer, view rendering, HTTP plumbing and the collection library.
- `performMigration`: only its error, "Persistent Store Migration not supported!", is modelled.
- The delegate's `didCreatePersistentStore` notification: it is a callback with no effect on the data.
- Stores.StoreRunner: the `FatalError` answer for a context that does not hold a request's objects is an artefact of making the runner total. The coordinator never produces such a call.
- Connection settings of a store (URL, options, user name, password, delegate accessors): plain getters and setters with no behaviour.
- Integer width: object ids and integer values are unbounded; PHP's 64-bit wrap-around is not modelled, since ids come from an auto-numbered column.

## Findings

| source | as written | input that shows it | evidently intended | confidence | as-written member | corrected member |
|---|---|---|---|---|---|---|
| classes/mango.data/MManagedObject.hh:825-829 | `persistChanges` subtracts the removed buffer from itself, so removed links stay in the committed relationships | an object related to object 1 under `r`, with 1 pending removal under `r`: after persisting, `r` still holds 1 | subtract the removed buffer from the committed links, as the `.php` twin does | not executed | ManagedObjects.PersistChangesAsWrittenKeepsRemovedLinks | ManagedObjects.PersistChanges |
| classes/mango.data/MManagedObject.hh:746-748 | removing an object calls `_removeObjectFromRelationship` on the far object, a method no class defines; the magic `__call` then finds no such attribute and raises | any removal with the inverse update on, on an entity with no attribute of that name | call `removeObjectFromRelationship` on the far object with the inverse relationship and no further update | not executed | ObjectGraph.RemoveAsWrittenFailsOnOrdinaryEntities | ObjectGraph.RemoveFromRelationshipUnlinksBothSides |
| classes/mango.data/MPersistentStore.hh:305-314 | a removed link deletes every join row whose far-side column holds the far object's id, whoever the owner is | owners 1 and 2 both linked to far object 5; unlinking owner 1 also deletes owner 2's row | delete only the rows linking this owner to that far object | not executed | StoreSave.DeleteLinkRowsAsWrittenDropsOtherOwners | StoreSave.DeleteLinkRows |
| classes/mango.data/MPersistentStore.hh:145-149 | the PRIMARY KEY clause is added only when the key name is empty, so every table with an auto-numbered column is rejected and no database is ever bootstrapped | any model: the metadata table's `id` is auto-numbered and not a key | add the clause when the key name is not empty, as the `.php` twin does | not executed | Schema.CreateDatabaseStructureAsWrittenAlwaysFails | Schema.PrimaryKeyClause |
| classes/mango.data/MPersistentStore.hh:388-389 | the fetched row is compared with null by identity, which PDO's `false` for "no row" never is, so a missing row is loaded as empty data and never reported as failed | a fault whose entity's table holds no row with its id | treat a missing row as a failed fault, as the `.php` twin does | not executed | StoreFetch.FaultAsWrittenHidesMissingRow | StoreFetch.FaultObject |
| classes/mango.data/MPersistentStore.hh:435 | the far object's id is read from the join row at the position `intValue()` of the inverse column's name gives; column names are 17-character lower-case hex digests, so a name led by `a` to `f` gives position 0, the join row's own objectID (a name led by a single `1` reads the owner column, by `2` the right column, and by `3` to `9` nothing) | a join row with objectID 7 holding far id 2 in a letter-led inverse column reads as far id 7 | read the column named by the inverse column name | not executed | StoreFetch.FarIdByPositionMisreads | StoreFetch.FarIdReadsWrittenId |
| classes/mango.data/MPersistentStore.hh:798-823 | the new object is assigned inside a closure that captures `$object` by value, so the method always returns null | any stored id: the relationship load then raises "Object with ID … is missing" | return the object created for the found row | not executed | StoreFetch.FetchObjectAsWrittenLosesObject | StoreFetch.FetchObjectWithObjectID |
| classes/mango.system/MMutableSet.hh:61-69 | `removeObject` stores the return value of `array_splice`, which is the removed part, so the set keeps only the object it was asked to remove; `removePersistentStore` (classes/mango.data/MPersistentStoreCoordinator.hh:107-111) relies on it | a coordinator holding stores a and b: removing a leaves only a | keep every element but the removed one | not executed | Coordinators.RemoveAsWrittenKeepsOnlyRemoved | Coordinators.RemovePersistentStore |
| classes/mango.data/MPersistentStore.hh:118-124 | the fetched metadata row is compared with null by identity; PDO answers `false` when there is no row, so `S()` receives the missing property's null and raises a type error that `catch (Exception)` does not catch | a metadata table holding no `version` row | answer no version, so the store bootstraps | not executed | Schema.DatabaseVersionAsWrittenFailsWithoutVersionRow | Schema.DatabaseVersion |

The rest of the model uses the corrected members. In particular, `Stores.StoreRequest` bootstraps with `Schema.PrimaryKeyClause`, faults with `StoreFetch.FaultObject`, and loads links with `StoreFetch.FarIdByName` and `StoreFetch.FetchObjectWithObjectID`.

=== FILE: attributes.dfy ===
/** Attribute descriptions of an entity: stored properties and relationships to other
    entities, with the SQL names a relationship's join table is stored under. */
module Attributes {
  import opened Errors
  import opened Types
  import opened Values
  import opened Naming

  /** What a relationship knows of its inverse: the inverse's owning entity, its name,
      the entity it points to and its cardinality. */
  datatype Link = Link(entityName: string, name: string, target: string, to: RelationshipTo)

  /** An attribute of the entity named `entityName`. A relationship points to the
      entity named `target`; `singular` is the display name of one element of a ToMany
      relationship. */
  datatype Attribute =
    | Property(entityName: string, name: string, propertyType: PropertyType, defaultValue: Option<Value>)
    | Relationship(entityName: string, name: string, target: string, to: RelationshipTo,
                   singular: Option<string>, inverse: Option<Link>)

  /** Attribute identity: the owning entity and the name. */
  predicate SameAttribute(a: Attribute, b: Attribute) {
    a.entityName == b.entityName && a.name == b.name
  }

  /** A new property holds strings and has no default. */
  function NewProperty(entityName: string, name: string): (p: Attribute)
    ensures p.Property? && SameAttribute(p, p) && p.entityName == entityName && p.name == name
    ensures forall v :: AcceptsValue(p.propertyType, v) <==> v.VString?
    ensures TypeClassName(p.propertyType) == "MString"
    ensures p.defaultValue.None?
  {
    Property(entityName, name, String, None)
  }

  /** A new relationship is a ToOne relationship without inverse or singular name. */
  function NewRelationship(entityName: string, name: string, target: string): (r: Attribute)
    ensures r.Relationship? && r.entityName == entityName && r.name == name
    ensures TypeClassNameOf(r) == target
    ensures RelationshipType(r) == OneToNone
    ensures r.singular.None?
  {
    Relationship(entityName, name, target, One, None, None)
  }

  /** Changes the stored type of a property and nothing else. */
  function SetType(p: Attribute, t: PropertyType): (r: Attribute)
    requires p.Property?
    ensures r.Property? && SameAttribute(r, p) && r.defaultValue == p.defaultValue
    ensures TypeClassName(r.propertyType) == TypeClassName(t)
    ensures forall v :: AcceptsValue(r.propertyType, v) <==> AcceptsValue(t, v)
  {
    p.(propertyType := t)
  }

  /** Changes the default value of a property and nothing else. */
  function SetDefaultValue(p: Attribute, v: Option<Value>): (r: Attribute)
    requires p.Property?
    ensures r.Property? && SameAttribute(r, p) && r.propertyType == p.propertyType
    ensures r.defaultValue == v
  {
    p.(defaultValue := v)
  }

  /** The snapshot of a relationship another relationship keeps as its inverse. */
  function LinkOf(r: Attribute): (l: Link)
    requires r.Relationship?
    ensures l.entityName == r.entityName && l.name == r.name && l.target == r.target && l.to == r.to
  {
    Link(r.entityName, r.name, r.target, r.to)
  }

  /** Makes `inverse` the inverse of `r`; `inverse` itself is left untouched. */
  function SetInverse(r: Attribute, inverse: Attribute): (s: Attribute)
    requires r.Relationship? && inverse.Relationship?
    ensures s.Relationship? && SameAttribute(s, r) && s.target == r.target && s.to == r.to
    ensures s.inverse == Some(LinkOf(inverse))
    ensures LinkOf(s) == LinkOf(r)
  {
    r.(inverse := Some(LinkOf(inverse)))
  }

  /** Two relationships each recorded as the inverse of the other. */
  predicate MutuallyLinked(a: Attribute, b: Attribute)
    requires a.Relationship? && b.Relationship?
  {
    a.inverse == Some(LinkOf(b)) && b.inverse == Some(LinkOf(a))
  }

  /** The class name of the objects a relationship holds: its target entity's name.
      For a property it is the class its type holds. */
  function TypeClassNameOf(a: Attribute): (c: string)
    ensures a.Relationship? ==> c == a.target
    ensures a.Property? ==> c == TypeClassName(a.propertyType)
  {
    match a
    case Property(_, _, t, _) => TypeClassName(t)
    case Relationship(_, _, target, _, _, _) => target
  }

  /** The cardinality of a relationship combined with that of its inverse. It is never
      Unknown, and it ends in "None" exactly when no inverse is linked. */
  function RelationshipType(r: Attribute): (k: RelationshipKind)
    requires r.Relationship?
    ensures k != UnknownKind
    ensures k in {OneToNone, ManyToNone} <==> r.inverse.None?
    ensures k == OneToOne <==> r.to == One && r.inverse.Some? && r.inverse.value.to == One
    ensures k == ManyToMany <==> r.to == Many && r.inverse.Some? && r.inverse.value.to == Many
    ensures k == OneToMany <==> r.inverse.Some? && r.to != r.inverse.value.to
  {
    match (r.to, r.inverse)
    case (One, None) => OneToNone
    case (Many, None) => ManyToNone
    case (One, Some(Link(_, _, _, One))) => OneToOne
    case (One, Some(Link(_, _, _, Many))) => OneToMany
    case (Many, Some(Link(_, _, _, One))) => OneToMany
    case (Many, Some(Link(_, _, _, Many))) => ManyToMany
  }

  /** Both sides of a linked pair report the same relationship kind. */
  lemma RelationshipTypeSymmetric(a: Attribute, b: Attribute)
    requires a.Relationship? && b.Relationship? && MutuallyLinked(a, b)
    ensures RelationshipType(a) == RelationshipType(b)
  {
  }

  /** The four names a join table is named after, sorted in strcmp order. */
  function JoinTableNames(r: Attribute): (names: seq<string>)
    requires r.Relationship? && r.inverse.Some?
    ensures Sorted(names)
    ensures multiset(names) == multiset{r.entityName, r.inverse.value.entityName, r.name, r.inverse.value.name}
  {
    Sort([r.entityName, r.inverse.value.entityName, r.name, r.inverse.value.name])
  }

  /** The name of the join table of a relationship: "Z_" and the upper-cased digest
      prefix of its sorted names. A relationship without inverse has no join table. */
  function TableName(r: Attribute, rt: Runtime): (t: Result<string>)
    requires r.Relationship?
    ensures t.Ok? <==> r.inverse.Some?
    ensures t.Err? ==> t.error.PersistentStoreException?
    ensures t.Ok? ==> |t.value| == 19 && t.value[..2] == "Z_"
  {
    if r.inverse.None? then
      Err(PersistentStoreException("Failed to create table name for relationship '" + r.name + "'"))
    else
      Ok("Z_" + ToUpper(DigestPrefix(rt.md5(Concat(JoinTableNames(r))))))
  }

  /** Both sides of a linked pair sort the same four names into the same order. */
  lemma JoinTableNamesSymmetric(a: Attribute, b: Attribute)
    requires a.Relationship? && b.Relationship? && MutuallyLinked(a, b)
    ensures JoinTableNames(a) == JoinTableNames(b)
  {
    SameFourNames(a, b);
    SortedUnique(JoinTableNames(a), JoinTableNames(b));
  }

  lemma SameFourNames(a: Attribute, b: Attribute)
    requires a.Relationship? && b.Relationship? && MutuallyLinked(a, b)
    ensures multiset{a.entityName, b.entityName, a.name, b.name} == multiset{b.entityName, a.entityName, b.name, a.name}
  {
  }

  /** Both sides of a linked pair are stored in the same join table. */
  lemma TableNameSymmetric(a: Attribute, b: Attribute, rt: Runtime)
    requires a.Relationship? && b.Relationship? && MutuallyLinked(a, b)
    ensures TableName(a, rt).Ok? && TableName(a, rt) == TableName(b, rt)
  {
    JoinTableNamesSymmetric(a, b);
    var d := rt.md5(Concat(JoinTableNames(a)));
    assert TableName(a, rt) == Ok("Z_" + ToUpper(DigestPrefix(d)));
    assert TableName(b, rt) == Ok("Z_" + ToUpper(DigestPrefix(d)));
  }

  /** The join-table column holding this side's object id: the lower-cased digest
      prefix of the owning entity's name followed by the relationship's name. */
  function ColumnNameFor(entityName: string, name: string, rt: Runtime): (c: string)
    ensures |c| == 17
  {
    ToLower(DigestPrefix(rt.md5(Concat([entityName, name]))))
  }

  function ColumnName(r: Attribute, rt: Runtime): (c: string)
    requires r.Relationship?
    ensures |c| == 17
  {
    ColumnNameFor(r.entityName, r.name, rt)
  }

  /** The join-table column holding the far side's object id: the inverse's own column,
      or, without inverse, a digest of the target entity's name. */
  function InverseColumnName(r: Attribute, rt: Runtime): (c: string)
    requires r.Relationship?
    ensures |c| == 17
    ensures r.inverse.Some? ==> c == ColumnNameFor(r.inverse.value.entityName, r.inverse.value.name, rt)
  {
    match r.inverse
    case Some(l) => ColumnNameFor(l.entityName, l.name, rt)
    case None => ToLower(DigestPrefix(rt.md5(r.target)))
  }

  /** A column name depends on nothing but the owning entity's name and the
      relationship's name. */
  lemma ColumnNameDependsOnNames(a: Attribute, b: Attribute, rt: Runtime)
    requires a.Relationship? && b.Relationship?
    requires a.entityName == b.entityName && a.name == b.name
    ensures ColumnName(a, rt) == ColumnName(b, rt)
  {
  }

  /** Each side of a linked pair writes its own id into the column the other side
      reads the far id from. */
  lemma JoinColumnsCrossOver(a: Attribute, b: Attribute, rt: Runtime)
    requires a.Relationship? && b.Relationship? && MutuallyLinked(a, b)
    ensures InverseColumnName(a, rt) == ColumnName(b, rt)
    ensures InverseColumnName(b, rt) == ColumnName(a, rt)
  {
  }
}

=== FILE: codec.dfy ===
/** How a persistent store converts between boxed property values and database cells:
    the unpacking of an object's updated data before an INSERT or UPDATE, and the
    conversion a fault applies to the text the database driver returns per column. */
module Codec {
  import opened Errors
  import opened Types
  import opened Naming
  import opened Values
  import opened Attributes
  import opened Entities
  import opened Database

  const ObjectIDColumn := "objectID"

  /** The cell a value of a property of type `t` is written as. Only a value of exactly
      the type's own class unpacks: a date is written as its timestamp, data as its
      bytes, and the unknown type writes nothing. */
  function Unbox(t: PropertyType, v: Value): (c: Option<Cell>)
    ensures c.Some? <==> AcceptsValue(t, v) && (t.Integer? ==> v.VInteger?)
                         && (t.Float? ==> v.VFloat?) && (t.Boolean? ==> v.VBoolean?)
  {
    match (t, v)
    case (String, VString(s)) => Some(CString(s))
    case (Integer, VInteger(i)) => Some(CInt(i))
    case (Float, VFloat(r)) => Some(CFloat(r))
    case (Boolean, VBoolean(b)) => Some(CBool(b))
    case (Date, VDate(ts)) => Some(CInt(ts))
    case (Binary, VData(bytes)) => Some(CString(bytes))
    case _ => None
  }

  /** The kind check applied when a property is set is wider than the unpacking: a
      number of another number class is accepted by the setter and refused by the save. */
  lemma AcceptedButNotUnpacked(t: PropertyType)
    requires t in {Integer, Float, Boolean}
    ensures exists v :: AcceptsValue(t, v) && Unbox(t, v).None?
  {
    var v := if t == Integer then VFloat(0.0) else VInteger(0);
    assert AcceptsValue(t, v) && Unbox(t, v).None?;
  }

  /** The text the driver returns for a cell: integers in decimal, booleans as the
      TINYINT digits "1" and "0", floats as the runtime renders them. */
  function CellText(c: Cell, rt: Runtime): string {
    match c
    case CString(s) => s
    case CInt(i) => IntToString(i)
    case CFloat(r) => rt.formatFloat(r)
    case CBool(b) => if b then "1" else "0"
  }

  /** The text of a column of a fetched row; a NULL column reads as the empty text,
      which is what PHP's conversions make of null. */
  function ColumnText(row: Row, k: string, rt: Runtime): string {
    if k in row then CellText(row[k], rt) else ""
  }

  /** The runtime reads back what it writes for `v`: a float from its rendered text. */
  predicate RuntimeRereads(rt: Runtime, v: Value) {
    v.VFloat? ==> rt.floatval(rt.formatFloat(v.floatValue)) == v.floatValue
  }

  /** A value that unpacks is boxed back to itself from the text of its cell. */
  lemma UnboxThenBox(t: PropertyType, v: Value, rt: Runtime)
    requires Unbox(t, v).Some? && RuntimeRereads(rt, v)
    ensures CoerceText(t, CellText(Unbox(t, v).value, rt), rt) == Some(v)
  {
    if v.VInteger? {
      IntValOfIntToString(v.intValue);
    } else if v.VDate? {
      IntValOfIntToString(v.timestamp);
      IntToStringIsIntegerText(v.timestamp);
    }
  }

  /** Whether a cell has the kind the column of a property of type `t` stores. */
  predicate ColumnHolds(t: PropertyType, c: Cell) {
    match t
    case String => c.CString?
    case Binary => c.CString?
    case Integer => c.CInt?
    case Date => c.CInt?
    case Float => c.CFloat?
    case Boolean => c.CBool?
    case Unknown => false
  }

  /** A cell of the column's kind is boxed from its text and unpacks back to itself,
      given a runtime that rereads floats. */
  lemma BoxThenUnbox(t: PropertyType, c: Cell, rt: Runtime)
    requires ColumnHolds(t, c)
    requires t == Float ==> rt.floatval(rt.formatFloat(c.r)) == c.r
    ensures CoerceText(t, CellText(c, rt), rt).Some?
    ensures Unbox(t, CoerceText(t, CellText(c, rt), rt).value) == Some(c)
  {
    if t == Integer {
      IntValOfIntToString(c.i);
    } else if t == Date {
      IntValOfIntToString(c.i);
      IntToStringIsIntegerText(c.i);
    }
  }

  /** Whether the store can unpack the value of key `k`: the key names a property and
      the value has exactly the property's class. */
  predicate Unpacks(e: Entity, k: string, v: Value) {
    PropertyWithName(e, k).Some? && Unbox(PropertyWithName(e, k).value.propertyType, v).Some?
  }

  function UnpackFailure(k: string): Error {
    PersistentStoreException("Failed to unpack data for property '" + k + "'!")
  }

  /** The row of cells written for an object's updated data. Every key must unpack;
      otherwise the save fails naming a key that does not (of several, the least). */
  function Unpack(updated: map<string, Value>, e: Entity): (r: Result<Row>)
    ensures r.Ok? <==> forall k :: k in updated ==> Unpacks(e, k, updated[k])
    ensures r.Ok? ==> r.value.Keys == updated.Keys
    ensures r.Ok? ==> forall k :: k in updated ==>
                        Unbox(PropertyWithName(e, k).value.propertyType, updated[k]) == Some(r.value[k])
    ensures r.Err? ==> exists k :: k in updated && !Unpacks(e, k, updated[k]) && r.error == UnpackFailure(k)
  {
    var bad := set k | k in updated && !Unpacks(e, k, updated[k]);
    if bad == {} then
      assert forall k :: k in updated ==> Unpacks(e, k, updated[k]) by {
        forall k | k in updated ensures Unpacks(e, k, updated[k]) {
          assert k !in bad;
        }
      }
      Ok(map k | k in updated :: Unbox(PropertyWithName(e, k).value.propertyType, updated[k]).value)
    else
      var k := Least(bad);
      Err(UnpackFailure(k))
  }

  /** The error a fault raises on a fetched column: none for the object id, a corrupt
      database for a column no attribute answers to, and a complaint when a
      relationship answers. */
  function ColumnError(e: Entity, k: string): (r: Option<Error>)
    ensures r.None? <==> k == ObjectIDColumn || PropertyWithName(e, k).Some?
  {
    if k == ObjectIDColumn then None
    else match AttributeWithName(e, k)
      case None =>
        Some(PersistentStoreException("Databse structure appears to be corrupted or is incompatible with this model version!"))
      case Some(a) =>
        if a.Relationship? then Some(PersistentStoreException("Attribute appears to be a relationship, expecting a property!"))
        else None
  }

  /** The value a fault boxes from a fetched column, converting its text as the
      property's type requires; nothing for the object id and for the unknown type. */
  function Decoded(e: Entity, k: string, row: Row, rt: Runtime): Option<Value> {
    if k == ObjectIDColumn then None
    else match PropertyWithName(e, k)
      case None => None
      case Some(p) => CoerceText(p.propertyType, ColumnText(row, k, rt), rt)
  }

  /** Column `j` is the first that raises, and raises `err`. */
  predicate FirstErrorAt(e: Entity, columns: seq<string>, j: nat, err: Error) {
    j < |columns| && ColumnError(e, columns[j]) == Some(err)
    && forall m :: 0 <= m < j ==> ColumnError(e, columns[m]).None?
  }

  /** The error of the first column that raises, if any. */
  function FirstColumnError(e: Entity, columns: seq<string>): (r: Option<Error>)
    ensures r.None? <==> forall j :: 0 <= j < |columns| ==> ColumnError(e, columns[j]).None?
    ensures r.Some? ==> exists j: nat :: FirstErrorAt(e, columns, j, r.value)
  {
    if |columns| == 0 then None
    else if ColumnError(e, columns[0]).Some? then
      assert FirstErrorAt(e, columns, 0, ColumnError(e, columns[0]).value);
      ColumnError(e, columns[0])
    else
      var r := FirstColumnError(e, columns[1..]);
      FirstErrorAfterHead(e, columns, r);
      r
  }

  /** When the first column does not raise, the first error is the first error of
      the rest, one column further on. */
  lemma FirstErrorAfterHead(e: Entity, columns: seq<string>, r: Option<Error>)
    requires |columns| > 0 && ColumnError(e, columns[0]).None?
    requires r.None? <==> forall j :: 0 <= j < |columns| - 1 ==> ColumnError(e, columns[1..][j]).None?
    requires r.Some? ==> exists j: nat :: FirstErrorAt(e, columns[1..], j, r.value)
    ensures r.None? <==> forall j :: 0 <= j < |columns| ==> ColumnError(e, columns[j]).None?
    ensures r.Some? ==> exists j: nat :: FirstErrorAt(e, columns, j, r.value)
  {
    assert forall j :: 0 < j < |columns| ==> columns[j] == columns[1..][j - 1];
    if r.Some? {
      var j: nat :| FirstErrorAt(e, columns[1..], j, r.value);
      FirstErrorAtShift(e, columns, j, r.value);
    }
  }

  lemma FirstErrorAtShift(e: Entity, columns: seq<string>, j: nat, err: Error)
    requires |columns| > 0 && ColumnError(e, columns[0]).None? && FirstErrorAt(e, columns[1..], j, err)
    ensures FirstErrorAt(e, columns, j + 1, err)
  {
    var ok := k => ColumnError(e, k).None?;
    AllBeforeShift(columns, ok, j);
  }

  /** A property of the head and of the first `j` elements of the tail holds of the
      first `j + 1` elements. */
  lemma AllBeforeShift<T>(xs: seq<T>, p: T -> bool, j: nat)
    requires |xs| > 0 && p(xs[0]) && j < |xs| - 1 && forall m :: 0 <= m < j ==> p(xs[1..][m])
    ensures forall m :: 0 <= m <= j ==> p(xs[m])
  {
    forall m | 0 < m <= j ensures p(xs[m]) {
      assert xs[m] == xs[1..][m - 1];
    }
  }

  /** Boxes the columns into `data`, in column order, stopping at the first column
      that raises. */
  function DecodeColumns(columns: seq<string>, row: Row, e: Entity, rt: Runtime, data: map<string, Value>)
    : (r: Result<map<string, Value>>)
    ensures r.Err? <==> FirstColumnError(e, columns).Some?
    ensures r.Err? ==> Some(r.error) == FirstColumnError(e, columns)
    ensures r.Ok? ==> forall k :: k in r.value <==> k in data || (k in columns && Decoded(e, k, row, rt).Some?)
    ensures r.Ok? ==> forall k :: k in r.value ==>
              r.value[k] == if k in columns && Decoded(e, k, row, rt).Some? then Decoded(e, k, row, rt).value else data[k]
  {
    if |columns| == 0 then Ok(data)
    else
      var k := columns[0];
      assert columns == [k] + columns[1..];
      match ColumnError(e, k)
      case Some(err) => Err(err)
      case None =>
        var data' := match Decoded(e, k, row, rt) case Some(v) => data[k := v] case None => data;
        DecodeColumns(columns[1..], row, e, rt, data')
  }

  /** The data a fault sets from a fetched row of the entity's table: every column
      must answer to a property (or be the object id), and every typed property column
      is boxed from its text. */
  function DecodeRow(columns: seq<string>, row: Row, e: Entity, rt: Runtime): (r: Result<map<string, Value>>)
    ensures r.Ok? <==> forall j :: 0 <= j < |columns| ==> ColumnError(e, columns[j]).None?
    ensures r.Err? ==> exists j: nat :: FirstErrorAt(e, columns, j, r.error)
    ensures r.Ok? ==> forall k :: k in r.value <==> k in columns && Decoded(e, k, row, rt).Some?
    ensures r.Ok? ==> forall k :: k in r.value ==> r.value[k] == Decoded(e, k, row, rt).value
  {
    DecodeColumns(columns, row, e, rt, map[])
  }

  /** What a save writes a fault reads back: when the row holds the cells unpacked from
      an object's updated data and each value survives the runtime's text round trip,
      decoding the row gives every updated value back. */
  lemma DecodeReadsBackUnpack(updated: map<string, Value>, e: Entity, columns: seq<string>, row: Row, rt: Runtime)
    requires Unpack(updated, e).Ok? && DecodeRow(columns, row, e, rt).Ok?
    requires ObjectIDColumn !in updated
    requires forall k :: k in updated ==> k in columns && RuntimeRereads(rt, updated[k])
    requires forall k :: k in updated ==> k in row && row[k] == Unpack(updated, e).value[k]
    ensures forall k :: k in updated ==>
              k in DecodeRow(columns, row, e, rt).value && DecodeRow(columns, row, e, rt).value[k] == updated[k]
  {
    var cells := Unpack(updated, e).value;
    forall k | k in updated
      ensures Decoded(e, k, row, rt) == Some(updated[k])
    {
      var t := PropertyWithName(e, k).value.propertyType;
      assert Unbox(t, updated[k]) == Some(cells[k]);
      UnboxThenBox(t, updated[k], rt);
    }
  }
}

=== FILE: coordinator.dfy ===
/** The persistent store coordinator: it holds the stores a context saves to and
    fetches from, and routes each request to them. Routing does not depend on what a
    store does with a request, so the store's entry point is a parameter `run`. */
module Coordinators {
  import opened Errors
  import opened ManagedObjects
  import opened ObjectModel
  import opened Contexts
  import opened Requests
  import opened Stores

  /** The coordinator's stores in the order they were added, each at most once. */
  datatype Coordinator = Coordinator(model: Model, stores: seq<Store>) {
    predicate Valid() {
      forall i, j :: 0 <= i < j < |stores| ==> stores[i].id != stores[j].id
    }
  }

  function Ids(stores: seq<Store>): (ids: seq<nat>)
    ensures |ids| == |stores| && forall i :: 0 <= i < |stores| ==> ids[i] == stores[i].id
  {
    seq(|stores|, i requires 0 <= i < |stores| => stores[i].id)
  }

  /** A new coordinator has no stores. */
  function NewCoordinator(model: Model): (co: Coordinator)
    ensures co.Valid() && co.model == model && |co.stores| == 0
  {
    Coordinator(model, [])
  }

  /** Adds a store; only a store not yet held is appended, and only then is its
      back-link set. */
  function AddPersistentStore(co: Coordinator, s: Store): (r: Coordinator)
    requires co.Valid()
    ensures r.Valid() && r.model == co.model && s.id in Ids(r.stores)
    ensures s.id in Ids(co.stores) ==> r == co
    ensures s.id !in Ids(co.stores) ==> r.stores == co.stores + [s.(coordinated := true)]
  {
    if s.id in Ids(co.stores) then co
    else
      var r := co.(stores := co.stores + [s.(coordinated := true)]);
      assert Ids(r.stores) == Ids(co.stores) + [s.id];
      r
  }

  /** The position of the store with the given id. */
  function IndexOfStore(stores: seq<Store>, id: nat): (i: nat)
    requires id in Ids(stores)
    ensures i < |stores| && stores[i].id == id && id !in Ids(stores[..i])
  {
    if stores[0].id == id then 0
    else
      assert Ids(stores) == [stores[0].id] + Ids(stores[1..]);
      var i := IndexOfStore(stores[1..], id) + 1;
      assert Ids(stores[..i]) == [stores[0].id] + Ids(stores[1..][..i - 1]);
      i
  }

  /** Removes the store with the given id and hands it back with its back-link
      cleared; a store not held leaves the coordinator as it is. */
  function RemovePersistentStore(co: Coordinator, id: nat): (r: (Coordinator, Option<Store>))
    requires co.Valid()
    ensures r.0.Valid() && r.0.model == co.model
    ensures id !in Ids(co.stores) ==> r == (co, None)
    ensures id in Ids(co.stores) ==>
              r.1.Some? && r.1.value.id == id && !r.1.value.coordinated
              && id !in Ids(r.0.stores) && |r.0.stores| == |co.stores| - 1
    ensures forall s :: s in r.0.stores ==> s in co.stores
  {
    if id !in Ids(co.stores) then (co, None)
    else
      var i := IndexOfStore(co.stores, id);
      var rest := co.stores[..i] + co.stores[i + 1..];
      assert forall j :: 0 <= j < |rest| ==> rest[j] == if j < i then co.stores[j] else co.stores[j + 1];
      (co.(stores := rest), Some(co.stores[i].(coordinated := false)))
  }

  /** Removal as written: the set's removal keeps what `array_splice` returns, which
      is the removed element, so the coordinator is left holding only the store it
      was asked to remove, its back-link cleared. */
  function RemovePersistentStoreAsWritten(co: Coordinator, id: nat): (r: (Coordinator, Option<Store>))
    requires co.Valid()
  {
    if id !in Ids(co.stores) then (co, None)
    else
      var i := IndexOfStore(co.stores, id);
      var removed := co.stores[i].(coordinated := false);
      (co.(stores := [removed]), Some(removed))
  }

  /** Of two stores, removing the first leaves only the first as written, and only the
      second as intended. */
  lemma RemoveAsWrittenKeepsOnlyRemoved(model: Model, a: Store, b: Store)
    requires a.id != b.id
    ensures var co := Coordinator(model, [a, b]);
            RemovePersistentStoreAsWritten(co, a.id).0.stores == [a.(coordinated := false)]
            && RemovePersistentStore(co, a.id).0.stores == [b]
  {
    var co := Coordinator(model, [a, b]);
    assert Ids(co.stores) == [a.id, b.id];
    assert IndexOfStore(co.stores, a.id) == 0;
    assert co.stores[..0] + co.stores[1..] == [b];
  }

  /** Removing a store just added gives the coordinator back, and the store with no
      back-link. */
  lemma RemoveUndoesAdd(co: Coordinator, s: Store)
    requires co.Valid() && s.id !in Ids(co.stores)
    ensures RemovePersistentStore(AddPersistentStore(co, s), s.id) == (co, Some(s.(coordinated := false)))
  {
    var added := co.stores + [s.(coordinated := true)];
    assert AddPersistentStore(co, s) == co.(stores := added);
    assert Ids(added) == Ids(co.stores) + [s.id];
    var i := IndexOfStore(added, s.id);
    assert i == |co.stores|;
    assert added[..i] + added[i + 1..] == co.stores;
  }

  /** Store `s'` is what store `s` became by running `req` on some context. */
  ghost predicate RanOn(run: Runner, s: Store, s': Store, req: Request) {
    exists c: Context :: run(s, c, req).Ok? && run(s, c, req).value.0 == s'
  }

  /** `result` is what store `s` answers to `req` on some context. */
  ghost predicate AnsweredWith(run: Runner, s: Store, req: Request, result: (Store, Context, seq<Handle>)) {
    exists c: Context :: run(s, c, req) == Ok(result)
  }

  /** The context a save leaves is valid and keeps the objects and the object lists
      of the context it started from. */
  predicate KeepsLists(c: Context, c': Context) {
    c'.Valid() && c'.heap.Keys == c.heap.Keys && c'.live == c.live && c'.deleted == c.deleted
  }

  /** Runs a save request on every store in turn, each seeing the objects as the
      previous one left them; the result is the last store's. */
  function SaveOnEach(stores: seq<Store>, c: Context, req: Request, run: Runner, last: seq<Handle>)
    : (r: Result<(seq<Store>, Context, seq<Handle>)>)
    ensures r.Ok? ==> |r.value.0| == |stores|
    ensures r.Ok? ==> forall i :: 0 <= i < |stores| ==> RanOn(run, stores[i], r.value.0[i], req)
    ensures r.Ok? && |stores| == 0 ==> r.value == ([], c, last)
    ensures r.Ok? && |stores| > 0 ==>
              AnsweredWith(run, stores[|stores| - 1], req, (r.value.0[|stores| - 1], r.value.1, r.value.2))
    decreases |stores|
  {
    if |stores| == 0 then Ok(([], c, last))
    else
      var p :- run(stores[0], c, req);
      assert RanOn(run, stores[0], p.0, req);
      var q :- SaveOnEach(stores[1..], p.1, req, run, p.2);
      assert forall i :: 1 <= i < |stores| ==> stores[i] == stores[1..][i - 1];
      var r := ([p.0] + q.0, q.1, q.2);
      assert r.0[0] == p.0 && forall i :: 1 <= i < |stores| ==> r.0[i] == q.0[i - 1];
      if |stores| == 1 then
        assert run(stores[0], c, req) == Ok((r.0[0], r.1, r.2));
        Ok(r)
      else
        assert stores[|stores| - 1] == stores[1..][|stores| - 2] && r.0[|stores| - 1] == q.0[|stores| - 2];
        Ok(r)
  }

  /** The contexts a save on each store passes along: the first store sees `c`, and each
      store that succeeds hands the next one the context it answered with. */
  function SaveContexts(stores: seq<Store>, c: Context, req: Request, run: Runner): (cs: seq<Context>)
    ensures 1 <= |cs| <= |stores| + 1 && cs[0] == c
    decreases |stores|
  {
    if |stores| == 0 then [c]
    else match run(stores[0], c, req)
      case Ok(p) => [c] + SaveContexts(stores[1..], p.1, req, run)
      case Err(_) => [c]
  }

  /** A successful save on each store threads one context through them: store i runs on
      the context store i - 1 answered with, the stores become what those runs made
      them, and the answer is the last run's context and objects. */
  lemma {:induction false} SaveOnEachThreads(stores: seq<Store>, c: Context, req: Request, run: Runner, last: seq<Handle>)
    requires SaveOnEach(stores, c, req, run, last).Ok?
    ensures var r := SaveOnEach(stores, c, req, run, last).value;
            var cs := SaveContexts(stores, c, req, run);
            |cs| == |stores| + 1 && cs[|stores|] == r.1
            && forall i :: 0 <= i < |stores| ==>
                 run(stores[i], cs[i], req).Ok?
                 && run(stores[i], cs[i], req).value.0 == r.0[i]
                 && run(stores[i], cs[i], req).value.1 == cs[i + 1]
    ensures |stores| == 0 ==> SaveOnEach(stores, c, req, run, last).value.2 == last
    ensures |stores| > 0 ==>
              var cs := SaveContexts(stores, c, req, run);
              run(stores[|stores| - 1], cs[|stores| - 1], req).value.2 == SaveOnEach(stores, c, req, run, last).value.2
    decreases |stores|
  {
    if |stores| > 0 {
      var p := run(stores[0], c, req).value;
      var q := SaveOnEach(stores[1..], p.1, req, run, p.2).value;
      var r := SaveOnEach(stores, c, req, run, last).value;
      assert r == ([p.0] + q.0, q.1, q.2);
      SaveOnEachThreads(stores[1..], p.1, req, run, p.2);
      var cs := SaveContexts(stores, c, req, run);
      var ds := SaveContexts(stores[1..], p.1, req, run);
      assert cs == [c] + ds;
      forall i | 1 <= i < |stores|
        ensures run(stores[i], cs[i], req).Ok? && run(stores[i], cs[i], req).value.0 == r.0[i]
                && run(stores[i], cs[i], req).value.1 == cs[i + 1]
      {
        assert stores[i] == stores[1..][i - 1] && cs[i] == ds[i - 1] && cs[i + 1] == ds[i] && r.0[i] == q.0[i - 1];
      }
      if |stores| == 1 {
        assert r.2 == p.2;
      } else {
        assert stores[|stores| - 1] == stores[1..][|stores| - 2];
      }
    }
  }

  /** With stores that meet their contract, saving on each keeps the context's object
      lists and answers with the objects the request names. */
  lemma {:induction false} SaveOnEachKeepsLists(stores: seq<Store>, c: Context, req: Request, run: Runner, last: seq<Handle>)
    requires MeetsContract(run) && c.Valid() && req.SaveRequest? && RequestFits(c, req)
    requires SaveOnEach(stores, c, req, run, last).Ok?
    ensures KeepsLists(c, SaveOnEach(stores, c, req, run, last).value.1)
    ensures |stores| > 0 ==> SaveOnEach(stores, c, req, run, last).value.2 == req.inserts + req.updates + req.deletes
    decreases |stores|
  {
    if |stores| > 0 {
      var p := run(stores[0], c, req).value;
      assert Answers(c, req, p);
      assert RequestFits(p.1, req);
      SaveOnEachKeepsLists(stores[1..], p.1, req, run, p.2);
    }
  }

  /** MPersistentStoreCoordinator::executeRequest. With no stores every request is
      refused; a save goes to every store and answers with the last store's result; a
      fetch or a fault goes to the first store alone; any other kind of request is
      refused. */
  function ExecuteRequest(co: Coordinator, c: Context, req: Request, run: Runner)
    : (r: Result<(Coordinator, Context, seq<Handle>)>)
    ensures |co.stores| == 0 ==> r == Err(PersistentStoreException("No persistent stores defined!"))
    ensures |co.stores| > 0 && req.OtherRequest? ==>
              r == Err(PersistentStoreException("Unsupported request type (" + req.className + ")"))
    ensures r.Ok? ==> r.value.0.model == co.model && |r.value.0.stores| == |co.stores|
    ensures r.Ok? && req.SaveRequest? ==>
              forall i :: 0 <= i < |co.stores| ==> RanOn(run, co.stores[i], r.value.0.stores[i], req)
    ensures r.Ok? && req.SaveRequest? ==>
              AnsweredWith(run, co.stores[|co.stores| - 1], req, (r.value.0.stores[|co.stores| - 1], r.value.1, r.value.2))
    ensures |co.stores| > 0 && (req.FetchRequest? || req.FaultRequest?) ==> (r.Ok? <==> run(co.stores[0], c, req).Ok?)
    ensures r.Ok? && (req.FetchRequest? || req.FaultRequest?) ==>
              r.value.0.stores[1..] == co.stores[1..]
              && run(co.stores[0], c, req) == Ok((r.value.0.stores[0], r.value.1, r.value.2))
  {
    if |co.stores| == 0 then Err(PersistentStoreException("No persistent stores defined!"))
    else match req
      case SaveRequest(_, _, _) =>
        var p :- SaveOnEach(co.stores, c, req, run, []);
        Ok((co.(stores := p.0), p.1, p.2))
      case OtherRequest(name) => Err(PersistentStoreException("Unsupported request type (" + name + ")"))
      case _ =>
        var p :- run(co.stores[0], c, req);
        var co' := co.(stores := [p.0] + co.stores[1..]);
        assert co'.stores[1..] == co.stores[1..];
        Ok((co', p.1, p.2))
  }

  /** A routed save runs the stores in order on one threaded context: the first on the
      caller's context, each next one on the context the previous one answered with; the
      coordinator ends with the stores those runs made and answers the last run's context
      and objects. */
  lemma ExecuteSaveThreads(co: Coordinator, c: Context, req: Request, run: Runner)
    requires req.SaveRequest? && ExecuteRequest(co, c, req, run).Ok?
    ensures var r := ExecuteRequest(co, c, req, run).value;
            var cs := SaveContexts(co.stores, c, req, run);
            |co.stores| > 0 && |cs| == |co.stores| + 1 && cs[|co.stores|] == r.1
            && (forall i :: 0 <= i < |co.stores| ==>
                  run(co.stores[i], cs[i], req).Ok?
                  && run(co.stores[i], cs[i], req).value.0 == r.0.stores[i]
                  && run(co.stores[i], cs[i], req).value.1 == cs[i + 1])
            && run(co.stores[|co.stores| - 1], cs[|co.stores| - 1], req).value.2 == r.2
  {
    SaveOnEachThreads(co.stores, c, req, run, []);
  }

  /** Stores keep their identity through a request, so routing keeps the coordinator's
      stores and their order. */
  lemma ExecuteRequestKeepsStores(co: Coordinator, c: Context, req: Request, run: Runner)
    requires MeetsContract(run) && ExecuteRequest(co, c, req, run).Ok?
    ensures Ids(ExecuteRequest(co, c, req, run).value.0.stores) == Ids(co.stores)
  {
    var r := ExecuteRequest(co, c, req, run).value;
    if req.SaveRequest? {
      forall i | 0 <= i < |co.stores|
        ensures r.0.stores[i].id == co.stores[i].id
      {
        assert RanOn(run, co.stores[i], r.0.stores[i], req);
      }
    } else {
      assert forall i :: 1 <= i < |co.stores| ==> r.0.stores[i] == co.stores[1..][i - 1] == co.stores[i];
    }
  }

  /** A save keeps the context's object lists and answers with the objects it was
      given, when the stores meet their contract. */
  lemma SaveKeepsLists(co: Coordinator, c: Context, req: Request, run: Runner)
    requires MeetsContract(run) && c.Valid() && req.SaveRequest? && RequestFits(c, req)
    requires ExecuteRequest(co, c, req, run).Ok?
    ensures KeepsLists(c, ExecuteRequest(co, c, req, run).value.1)
    ensures ExecuteRequest(co, c, req, run).value.2 == req.inserts + req.updates + req.deletes
  {
    SaveOnEachKeepsLists(co.stores, c, req, run, []);
  }
}

=== FILE: database.dfy ===
/** The relational database a persistent store talks to, held in memory: tables of rows
    keyed by column name, with the behaviour of the few statements the store issues
    (CREATE TABLE, INSERT, UPDATE, DELETE and SELECT with equality conditions). */
module Database {
  import opened Errors

  /** A stored value, kept with the kind it was written with. */
  datatype Cell = CString(s: string) | CInt(i: int) | CFloat(r: real) | CBool(b: bool)

  /** A row: column name to value. A column the row lacks is NULL. */
  type Row = map<string, Cell>

  /** A column of a CREATE TABLE statement: its name, its SQL type text and whether the
      server numbers it (AUTO_INCREMENT). */
  datatype Field = Field(name: string, sqlType: string, autoIncrement: bool)

  /** A CREATE TABLE statement: table name, fields in order and the PRIMARY KEY clause. */
  datatype TableDef = TableDef(name: string, fields: seq<Field>, primaryKey: Option<string>)

  /** A table: its columns in definition order, its auto-numbered column, its rows in
      insertion order and the number the next inserted row receives. */
  datatype Table = Table(columns: seq<string>, auto: Option<string>, rows: seq<Row>, nextId: nat) {
    /** Every row carries an auto number below the next one. */
    predicate Valid() {
      nextId >= 1
      && (auto.Some? ==> forall i :: 0 <= i < |rows| ==> AutoNumberBelow(rows[i], auto.value, nextId))
    }
  }

  predicate AutoNumberBelow(row: Row, column: string, bound: int) {
    column in row && row[column].CInt? && 1 <= row[column].i < bound
  }

  type Db = map<string, Table>

  predicate DbValid(db: Db) {
    forall t :: t in db ==> db[t].Valid()
  }

  /** An equality condition `column = value`. */
  datatype Condition = Condition(column: string, value: Cell)

  /** A row satisfies the conditions when it holds each condition's value in the
      condition's column. */
  predicate Matches(row: Row, conds: seq<Condition>) {
    forall i :: 0 <= i < |conds| ==> conds[i].column in row && row[conds[i].column] == conds[i].value
  }

  predicate ColumnsKnown(t: Table, conds: seq<Condition>) {
    forall i :: 0 <= i < |conds| ==> conds[i].column in t.columns
  }

  /** The name of the first auto-numbered field, if any. */
  function AutoField(fields: seq<Field>): (r: Option<string>)
    ensures r.Some? <==> exists i :: 0 <= i < |fields| && fields[i].autoIncrement
    ensures r.Some? ==> exists i :: 0 <= i < |fields| && fields[i].autoIncrement && fields[i].name == r.value
                                   && forall j :: 0 <= j < i ==> !fields[j].autoIncrement
  {
    if |fields| == 0 then None
    else if fields[0].autoIncrement then Some(fields[0].name)
    else
      var r := AutoField(fields[1..]);
      assert forall i :: 0 < i < |fields| ==> fields[i] == fields[1..][i - 1];
      assert r.Some? ==> fields[1..][0] in fields[1..];
      r
  }

  function FieldNames(fields: seq<Field>): (names: seq<string>)
    ensures |names| == |fields|
    ensures forall i :: 0 <= i < |fields| ==> names[i] == fields[i].name
  {
    if |fields| == 0 then [] else [fields[0].name] + FieldNames(fields[1..])
  }

  /** The server accepts an auto-numbered column only as the table's primary key. */
  predicate KeysAutoFields(d: TableDef) {
    forall i :: 0 <= i < |d.fields| && d.fields[i].autoIncrement ==> d.primaryKey == Some(d.fields[i].name)
  }

  /** No two fields of a definition share a name. */
  predicate DistinctFieldNames(d: TableDef) {
    forall i, j :: 0 <= i < j < |d.fields| ==> d.fields[i].name != d.fields[j].name
  }

  /** CREATE TABLE: fails when the table exists, when two columns share a name or when
      an auto-numbered column is not the primary key; otherwise adds an empty table
      with the defined columns. */
  function CreateTable(db: Db, d: TableDef): (r: Result<Db>)
    ensures r.Ok? <==> d.name !in db && DistinctFieldNames(d) && KeysAutoFields(d)
    ensures r.Err? ==> r.error.DatabaseError?
    ensures r.Ok? ==> r.value.Keys == db.Keys + {d.name}
    ensures r.Ok? ==> forall t :: t in db ==> r.value[t] == db[t]
    ensures r.Ok? ==> r.value[d.name] == EmptyTable(d)
    ensures r.Ok? && DbValid(db) ==> DbValid(r.value)
  {
    if d.name in db then Err(DatabaseError("Table '" + d.name + "' already exists"))
    else if !DistinctFieldNames(d) then Err(DatabaseError("Duplicate column name"))
    else if !KeysAutoFields(d) then
      Err(DatabaseError("Incorrect table definition; there can be only one auto column and it must be defined as a key"))
    else Ok(db[d.name := EmptyTable(d)])
  }

  /** The table a definition creates: its field names as columns, its first
      auto-numbered field, no rows, and numbering from 1. */
  function EmptyTable(d: TableDef): (t: Table)
    ensures t.Valid() && t.rows == [] && t.columns == FieldNames(d.fields)
  {
    Table(FieldNames(d.fields), AutoField(d.fields), [], 1)
  }

  /** INSERT: fails on a missing table or a column the table lacks; otherwise appends
      the row, numbering its auto column, and returns that number (lastInsertId). */
  function Insert(db: Db, name: string, values: Row): (r: Result<(Db, int)>)
    ensures r.Ok? <==> name in db && forall k :: k in values ==> k in db[name].columns
    ensures r.Err? ==> r.error.DatabaseError?
    ensures r.Ok? ==> r.value.0.Keys == db.Keys && forall t :: t in db && t != name ==> r.value.0[t] == db[t]
    ensures r.Ok? ==> var t, t' := db[name], r.value.0[name];
      && t'.columns == t.columns && t'.auto == t.auto && t'.nextId == t.nextId + 1
      && |t'.rows| == |t.rows| + 1 && t'.rows[..|t.rows|] == t.rows
      && r.value.1 == t.nextId
      && (forall k :: k in values && Some(k) != t.auto ==> k in t'.rows[|t.rows|] && t'.rows[|t.rows|][k] == values[k])
      && (t.auto.Some? ==> t'.rows[|t.rows|] == values[t.auto.value := CInt(r.value.1)])
    ensures r.Ok? && DbValid(db) ==> DbValid(r.value.0)
  {
    if name !in db then Err(DatabaseError("Table '" + name + "' doesn't exist"))
    else
      var t := db[name];
      if exists k :: k in values && k !in t.columns then Err(DatabaseError("Unknown column in 'field list'"))
      else
        var row := if t.auto.Some? then values[t.auto.value := CInt(t.nextId)] else values;
        var t' := t.(rows := t.rows + [row], nextId := t.nextId + 1);
        assert t'.rows[..|t.rows|] == t.rows;
        Ok((db[name := t'], t.nextId))
  }

  /** A number an insert hands out is held by no earlier row of a valid table. */
  lemma InsertedNumberIsFresh(db: Db, name: string, values: Row, i: nat)
    requires DbValid(db) && Insert(db, name, values).Ok? && db[name].auto.Some?
    requires i < |db[name].rows|
    ensures db[name].rows[i][db[name].auto.value] != CInt(Insert(db, name, values).value.1)
  {
    assert AutoNumberBelow(db[name].rows[i], db[name].auto.value, db[name].nextId);
  }

  /** The rows satisfying the conditions, in order. */
  function Selected(rows: seq<Row>, conds: seq<Condition>): (r: seq<Row>)
    ensures forall x :: x in r ==> x in rows && Matches(x, conds)
    ensures |r| <= |rows|
  {
    if |rows| == 0 then []
    else (if Matches(rows[0], conds) then [rows[0]] else []) + Selected(rows[1..], conds)
  }

  /** The rows not satisfying the conditions, in order. */
  function Kept(rows: seq<Row>, conds: seq<Condition>): (r: seq<Row>)
    ensures forall x :: x in r ==> x in rows && !Matches(x, conds)
    ensures |r| <= |rows|
  {
    if |rows| == 0 then []
    else (if Matches(rows[0], conds) then [] else [rows[0]]) + Kept(rows[1..], conds)
  }

  /** Selection and deletion split the rows: every row lands in exactly one of them,
      as often as it occurs. */
  lemma {:induction false} SelectedAndKeptPartition(rows: seq<Row>, conds: seq<Condition>)
    ensures multiset(Selected(rows, conds)) + multiset(Kept(rows, conds)) == multiset(rows)
    ensures forall x :: x in rows && Matches(x, conds) ==> x in Selected(rows, conds)
    ensures forall x :: x in rows && !Matches(x, conds) ==> x in Kept(rows, conds)
  {
    if |rows| > 0 {
      SelectedAndKeptPartition(rows[1..], conds);
      assert rows == [rows[0]] + rows[1..];
    }
  }

  /** Selecting from rows with one more at the end selects that row last, when it
      satisfies the conditions. */
  lemma {:induction false} SelectedAppend(rows: seq<Row>, x: Row, conds: seq<Condition>)
    ensures Selected(rows + [x], conds) == Selected(rows, conds) + (if Matches(x, conds) then [x] else [])
  {
    if |rows| > 0 {
      assert (rows + [x])[1..] == rows[1..] + [x];
      SelectedAppend(rows[1..], x, conds);
    }
  }

  /** The first row satisfying the conditions is the first row selected. */
  lemma {:induction false} SelectedFirst(rows: seq<Row>, conds: seq<Condition>, i: nat)
    requires i < |rows| && Matches(rows[i], conds)
    requires forall j :: 0 <= j < i ==> !Matches(rows[j], conds)
    ensures Selected(rows, conds) != [] && Selected(rows, conds)[0] == rows[i]
  {
    if i > 0 {
      assert forall j :: 0 <= j < i - 1 ==> rows[1..][j] == rows[j + 1];
      SelectedFirst(rows[1..], conds, i - 1);
    }
  }

  /** Rows none of which satisfies the conditions select nothing. */
  lemma {:induction false} SelectedNone(rows: seq<Row>, conds: seq<Condition>)
    requires forall i :: 0 <= i < |rows| ==> !Matches(rows[i], conds)
    ensures Selected(rows, conds) == []
  {
    if |rows| > 0 {
      assert forall i :: 0 <= i < |rows| - 1 ==> rows[1..][i] == rows[i + 1];
      SelectedNone(rows[1..], conds);
    }
  }

  /** Whether a row holds each of the given cells. */
  predicate HoldsCells(row: Row, cells: Row) {
    forall k :: k in cells ==> k in row && row[k] == cells[k]
  }

  /** An update that sets no condition column selects afterwards the rows it
      overwrote: each holds the values set, and some row is selected exactly when
      some row was before. */
  lemma UpdatedSelected(rows: seq<Row>, conds: seq<Condition>, values: Row)
    requires forall i :: 0 <= i < |conds| ==> conds[i].column !in values
    ensures forall x :: x in Selected(Updated(rows, conds, values), conds) ==> HoldsCells(x, values)
    ensures Selected(Updated(rows, conds, values), conds) != [] <==> Selected(rows, conds) != []
  {
    UpdatedSelectedHold(rows, conds, values);
    if Selected(rows, conds) != [] {
      UpdatedSelectsSome(rows, conds, values);
    }
    if Selected(Updated(rows, conds, values), conds) != [] {
      UpdatedSelectedSome(rows, conds, values);
    }
  }

  lemma UpdatedSelectedHold(rows: seq<Row>, conds: seq<Condition>, values: Row)
    requires forall i :: 0 <= i < |conds| ==> conds[i].column !in values
    ensures forall x :: x in Selected(Updated(rows, conds, values), conds) ==> HoldsCells(x, values)
  {
    var rows' := Updated(rows, conds, values);
    forall x | x in Selected(rows', conds) ensures HoldsCells(x, values) {
      var i :| 0 <= i < |rows'| && rows'[i] == x;
      UpdatedRow(rows[i], conds, values);
    }
  }

  lemma UpdatedSelectsSome(rows: seq<Row>, conds: seq<Condition>, values: Row)
    requires forall i :: 0 <= i < |conds| ==> conds[i].column !in values
    requires Selected(rows, conds) != []
    ensures Selected(Updated(rows, conds, values), conds) != []
  {
    var rows' := Updated(rows, conds, values);
    SelectedAndKeptPartition(rows', conds);
    var x := Selected(rows, conds)[0];
    assert x in Selected(rows, conds);
    var i :| 0 <= i < |rows| && rows[i] == x;
    UpdatedRow(rows[i], conds, values);
    assert rows'[i] in Selected(rows', conds);
  }

  lemma UpdatedSelectedSome(rows: seq<Row>, conds: seq<Condition>, values: Row)
    requires forall i :: 0 <= i < |conds| ==> conds[i].column !in values
    requires Selected(Updated(rows, conds, values), conds) != []
    ensures Selected(rows, conds) != []
  {
    var rows' := Updated(rows, conds, values);
    SelectedAndKeptPartition(rows, conds);
    var x := Selected(rows', conds)[0];
    assert x in Selected(rows', conds);
    var i :| 0 <= i < |rows'| && rows'[i] == x;
    UpdatedRow(rows[i], conds, values);
    assert rows[i] in Selected(rows, conds);
  }

  /** Overwriting columns the conditions do not name keeps whether a row satisfies
      them, and the row then holds the values written. */
  lemma UpdatedRow(row: Row, conds: seq<Condition>, values: Row)
    requires forall i :: 0 <= i < |conds| ==> conds[i].column !in values
    ensures Matches(row + values, conds) <==> Matches(row, conds)
    ensures HoldsCells(row + values, values)
  {
    forall m | 0 <= m < |conds|
      ensures conds[m].column in row + values <==> conds[m].column in row
      ensures conds[m].column in row ==> (row + values)[conds[m].column] == row[conds[m].column]
    {
      assert conds[m].column !in values;
    }
  }

  /** DELETE ... WHERE: fails on a missing table or an unknown condition column;
      otherwise keeps exactly the rows that do not satisfy the conditions. */
  function DeleteWhere(db: Db, name: string, conds: seq<Condition>): (r: Result<Db>)
    ensures r.Ok? <==> name in db && ColumnsKnown(db[name], conds)
    ensures r.Err? ==> r.error.DatabaseError?
    ensures r.Ok? ==> r.value.Keys == db.Keys && forall t :: t in db && t != name ==> r.value[t] == db[t]
    ensures r.Ok? ==> r.value[name] == db[name].(rows := Kept(db[name].rows, conds))
    ensures r.Ok? && DbValid(db) ==> DbValid(r.value)
  {
    if name !in db then Err(DatabaseError("Table '" + name + "' doesn't exist"))
    else if !ColumnsKnown(db[name], conds) then Err(DatabaseError("Unknown column in 'where clause'"))
    else
      var t := db[name];
      var t' := t.(rows := Kept(t.rows, conds));
      assert DbValid(db) ==> t'.Valid() by {
        if DbValid(db) && t.auto.Some? {
          assert t.Valid();
          forall i | 0 <= i < |t'.rows| ensures AutoNumberBelow(t'.rows[i], t.auto.value, t.nextId) {
            assert t'.rows[i] in t.rows;
            var j :| 0 <= j < |t.rows| && t.rows[j] == t'.rows[i];
            assert AutoNumberBelow(t.rows[j], t.auto.value, t.nextId);
          }
        }
      }
      Ok(db[name := t'])
  }

  /** SELECT * ... WHERE: the rows satisfying the conditions, in table order. */
  function SelectWhere(db: Db, name: string, conds: seq<Condition>): (r: Result<seq<Row>>)
    ensures r.Ok? <==> name in db && ColumnsKnown(db[name], conds)
    ensures r.Err? ==> r.error.DatabaseError?
    ensures r.Ok? ==> r.value == Selected(db[name].rows, conds)
  {
    if name !in db then Err(DatabaseError("Table '" + name + "' doesn't exist"))
    else if !ColumnsKnown(db[name], conds) then Err(DatabaseError("Unknown column in 'where clause'"))
    else Ok(Selected(db[name].rows, conds))
  }

  /** The rows with each row satisfying the conditions overwritten by `values`. */
  function Updated(rows: seq<Row>, conds: seq<Condition>, values: Row): (r: seq<Row>)
    ensures |r| == |rows|
    ensures forall i :: 0 <= i < |rows| ==> r[i] == if Matches(rows[i], conds) then rows[i] + values else rows[i]
  {
    if |rows| == 0 then []
    else [if Matches(rows[0], conds) then rows[0] + values else rows[0]] + Updated(rows[1..], conds, values)
  }

  /** UPDATE ... SET ... WHERE: fails on a missing table or an unknown column;
      otherwise overwrites the given columns of exactly the rows satisfying the
      conditions. The auto column is never among the values set. */
  function UpdateWhere(db: Db, name: string, conds: seq<Condition>, values: Row): (r: Result<Db>)
    ensures r.Ok? <==> name in db && ColumnsKnown(db[name], conds)
                       && forall k :: k in values ==> k in db[name].columns && Some(k) != db[name].auto
    ensures r.Err? ==> r.error.DatabaseError?
    ensures r.Ok? ==> r.value.Keys == db.Keys && forall t :: t in db && t != name ==> r.value[t] == db[t]
    ensures r.Ok? ==> r.value[name] == db[name].(rows := Updated(db[name].rows, conds, values))
    ensures r.Ok? && DbValid(db) ==> DbValid(r.value)
  {
    if name !in db then Err(DatabaseError("Table '" + name + "' doesn't exist"))
    else
      var t := db[name];
      if !ColumnsKnown(t, conds) then Err(DatabaseError("Unknown column in 'where clause'"))
      else if exists k :: k in values && (k !in t.columns || Some(k) == t.auto) then
        Err(DatabaseError("Unknown column in 'field list'"))
      else
        var t' := t.(rows := Updated(t.rows, conds, values));
        assert DbValid(db) ==> t'.Valid() by {
          if DbValid(db) && t.auto.Some? {
            assert t.Valid();
            forall i | 0 <= i < |t'.rows| ensures AutoNumberBelow(t'.rows[i], t.auto.value, t.nextId) {
              assert AutoNumberBelow(t.rows[i], t.auto.value, t.nextId);
            }
          }
        }
        Ok(db[name := t'])
  }
}

=== FILE: entities.dfy ===
/** Entity descriptions: a named, pluralised class with an ordered list of attributes,
    and the name lookups the engine performs on it. */
module Entities {
  import opened Errors
  import opened Attributes

  /** An entity: its name, the plural that names its table, the class its objects
      are instances of, and its attributes in declaration order. */
  datatype Entity = Entity(name: string, plural: string, className: string, attributes: seq<Attribute>)

  /** A new entity without attributes. */
  function NewEntity(name: string, plural: string, className: string): (e: Entity)
    ensures e.name == name && e.plural == plural && e.className == className
    ensures forall n :: AttributeWithName(e, n).None?
  {
    Entity(name, plural, className, [])
  }

  /** An attribute answers to its name and, for a relationship, to its singular name. */
  predicate Answers(a: Attribute, name: string) {
    a.name == name || (a.Relationship? && a.singular == Some(name))
  }

  /** No attribute of `attrs` answers to `name`. */
  predicate NoneAnswers(attrs: seq<Attribute>, name: string) {
    forall j :: 0 <= j < |attrs| ==> !Answers(attrs[j], name)
  }

  /** The position of the first attribute answering to `name`, or |attrs| if none does. */
  function FirstAnswering(attrs: seq<Attribute>, name: string): (i: nat)
    ensures i <= |attrs|
    ensures NoneAnswers(attrs[..i], name)
    ensures i < |attrs| ==> Answers(attrs[i], name)
  {
    if |attrs| == 0 then 0
    else if Answers(attrs[0], name) then 0
    else
      var i := 1 + FirstAnswering(attrs[1..], name);
      assert attrs[..i] == [attrs[0]] + attrs[1..][..i - 1];
      i
  }

  /** The first attribute, in declaration order, whose name or singular name is `name`. */
  function AttributeWithName(e: Entity, name: string): (r: Option<Attribute>)
    ensures r.None? <==> NoneAnswers(e.attributes, name)
    ensures r.Some? ==> exists i :: 0 <= i < |e.attributes| && e.attributes[i] == r.value
                                   && Answers(r.value, name) && NoneAnswers(e.attributes[..i], name)
  {
    var i := FirstAnswering(e.attributes, name);
    if i < |e.attributes| then Some(e.attributes[i])
    else
      assert e.attributes[..i] == e.attributes;
      None
  }

  /** The property found by name lookup; nothing when the lookup finds a relationship. */
  function PropertyWithName(e: Entity, name: string): (r: Option<Attribute>)
    ensures r.Some? <==> AttributeWithName(e, name).Some? && AttributeWithName(e, name).value.Property?
    ensures r.Some? ==> r == AttributeWithName(e, name)
  {
    match AttributeWithName(e, name)
    case Some(a) => if a.Property? then Some(a) else None
    case None => None
  }

  /** The relationship found by name lookup; nothing when the lookup finds a property. */
  function RelationshipWithName(e: Entity, name: string): (r: Option<Attribute>)
    ensures r.Some? <==> AttributeWithName(e, name).Some? && AttributeWithName(e, name).value.Relationship?
    ensures r.Some? ==> r == AttributeWithName(e, name)
  {
    match AttributeWithName(e, name)
    case Some(a) => if a.Relationship? then Some(a) else None
    case None => None
  }

  /** The lookups stop at the first attribute answering to the name: a relationship
      whose singular name is `name` hides a later property called `name`. */
  lemma EarlierRelationshipHidesProperty(e: Entity, i: nat, j: nat, name: string)
    requires i < j < |e.attributes|
    requires e.attributes[i].Relationship? && Answers(e.attributes[i], name)
    requires NoneAnswers(e.attributes[..i], name)
    requires e.attributes[j].Property? && e.attributes[j].name == name
    ensures PropertyWithName(e, name).None?
    ensures RelationshipWithName(e, name) == Some(e.attributes[i])
  {
  }

  /** The properties among `attrs`, in declaration order. */
  function PropertiesOf(attrs: seq<Attribute>): (r: seq<Attribute>)
    ensures forall a :: a in r <==> a in attrs && a.Property?
  {
    if |attrs| == 0 then []
    else (if attrs[0].Property? then [attrs[0]] else []) + PropertiesOf(attrs[1..])
  }

  /** The relationships among `attrs`, in declaration order. */
  function RelationshipsOf(attrs: seq<Attribute>): (r: seq<Attribute>)
    ensures forall a :: a in r <==> a in attrs && a.Relationship?
  {
    if |attrs| == 0 then []
    else (if attrs[0].Relationship? then [attrs[0]] else []) + RelationshipsOf(attrs[1..])
  }

  function Properties(e: Entity): seq<Attribute> {
    PropertiesOf(e.attributes)
  }

  function Relationships(e: Entity): seq<Attribute> {
    RelationshipsOf(e.attributes)
  }

  /** Filtering keeps declaration order: the filter of a concatenation is the
      concatenation of the filters. */
  lemma {:induction false} FiltersDistribute(xs: seq<Attribute>, ys: seq<Attribute>)
    ensures PropertiesOf(xs + ys) == PropertiesOf(xs) + PropertiesOf(ys)
    ensures RelationshipsOf(xs + ys) == RelationshipsOf(xs) + RelationshipsOf(ys)
  {
    if |xs| > 0 {
      assert (xs + ys)[1..] == xs[1..] + ys;
      FiltersDistribute(xs[1..], ys);
    } else {
      assert xs + ys == ys;
    }
  }

  /** Every attribute is a property or a relationship, and each is listed exactly once. */
  lemma {:induction false} FiltersPartition(attrs: seq<Attribute>)
    ensures |PropertiesOf(attrs)| + |RelationshipsOf(attrs)| == |attrs|
    ensures multiset(PropertiesOf(attrs)) + multiset(RelationshipsOf(attrs)) == multiset(attrs)
  {
    if |attrs| > 0 {
      FiltersPartition(attrs[1..]);
      assert attrs == [attrs[0]] + attrs[1..];
    }
  }

  /** Appends an attribute, keeping the declaration order of the properties and of
      the relationships. */
  function AddAttribute(e: Entity, a: Attribute): (r: Entity)
    ensures r.name == e.name && r.plural == e.plural && r.className == e.className
    ensures |r.attributes| == |e.attributes| + 1 && r.attributes[..|e.attributes|] == e.attributes
    ensures Properties(r) == Properties(e) + (if a.Property? then [a] else [])
    ensures Relationships(r) == Relationships(e) + (if a.Relationship? then [a] else [])
  {
    var r := e.(attributes := e.attributes + [a]);
    FiltersAppendOne(e.attributes, a);
    assert r.attributes[..|e.attributes|] == e.attributes;
    r
  }

  lemma FiltersAppendOne(xs: seq<Attribute>, a: Attribute)
    ensures PropertiesOf(xs + [a]) == PropertiesOf(xs) + (if a.Property? then [a] else [])
    ensures RelationshipsOf(xs + [a]) == RelationshipsOf(xs) + (if a.Relationship? then [a] else [])
  {
    FiltersDistribute(xs, [a]);
    FiltersOfOne(a);
  }

  lemma FiltersOfOne(a: Attribute)
    ensures PropertiesOf([a]) == if a.Property? then [a] else []
    ensures RelationshipsOf([a]) == if a.Relationship? then [a] else []
  {
    assert [a][1..] == [];
  }

  /** Adding an attribute never changes a lookup that already succeeded, and a name
      nothing answered to before now finds the new attribute if it answers to it. */
  lemma AddAttributeKeepsLookups(e: Entity, a: Attribute, n: string)
    ensures AttributeWithName(e, n).Some? ==> AttributeWithName(AddAttribute(e, a), n) == AttributeWithName(e, n)
    ensures AttributeWithName(e, n).None? && Answers(a, n) ==> AttributeWithName(AddAttribute(e, a), n) == Some(a)
  {
    var r := AddAttribute(e, a);
    if AttributeWithName(e, n).Some? {
      LookupStableUnderAppend(e.attributes, [a], n);
    } else if Answers(a, n) {
      var k := FirstAnswering(r.attributes, n);
      assert r.attributes[|e.attributes|] == a;
    }
  }

  lemma LookupStableUnderAppend(xs: seq<Attribute>, ys: seq<Attribute>, n: string)
    requires FirstAnswering(xs, n) < |xs|
    ensures FirstAnswering(xs + ys, n) == FirstAnswering(xs, n)
  {
    var i := FirstAnswering(xs, n);
    assert (xs + ys)[i] == xs[i];
  }

  /** The position of the first attribute equal to `a`, or |attrs| if there is none. */
  function IndexOfAttribute(attrs: seq<Attribute>, a: Attribute): (i: nat)
    ensures i <= |attrs|
    ensures a !in attrs[..i]
    ensures i < |attrs| ==> attrs[i] == a
  {
    if |attrs| == 0 then 0
    else if attrs[0] == a then 0
    else
      var i := 1 + IndexOfAttribute(attrs[1..], a);
      assert attrs[..i] == [attrs[0]] + attrs[1..][..i - 1];
      i
  }

  /** Removes the first attribute equal to `a`; nothing changes when there is none. */
  function RemoveAttribute(e: Entity, a: Attribute): (r: Entity)
    ensures r.name == e.name && r.plural == e.plural && r.className == e.className
    ensures multiset(r.attributes) == multiset(e.attributes) - multiset{a}
    ensures a !in e.attributes ==> r == e
    ensures a in e.attributes ==> |r.attributes| == |e.attributes| - 1
  {
    var i := IndexOfAttribute(e.attributes, a);
    if i == |e.attributes| then
      assert e.attributes[..i] == e.attributes;
      e
    else
      var attrs := e.attributes[..i] + e.attributes[i + 1..];
      assert e.attributes == e.attributes[..i] + [a] + e.attributes[i + 1..];
      e.(attributes := attrs)
  }

  /** Removing an attribute just added to an entity that lacked it restores the entity. */
  lemma RemoveUndoesAdd(e: Entity, a: Attribute)
    requires a !in e.attributes
    ensures RemoveAttribute(AddAttribute(e, a), a) == e
  {
    var r := AddAttribute(e, a);
    assert r.attributes[..|e.attributes|] == e.attributes;
  }

  /** Entity equality compares the name and the class name. */
  predicate Equals(a: Entity, b: Entity) {
    a.name == b.name && a.className == b.className
  }

  /** Entity equality is an equivalence relation. */
  lemma EqualsIsEquivalence(a: Entity, b: Entity, c: Entity)
    ensures Equals(a, a)
    ensures Equals(a, b) ==> Equals(b, a)
    ensures Equals(a, b) && Equals(b, c) ==> Equals(a, c)
  {
  }
}

=== FILE: errors.dfy ===
/** The exception classes the persistence engine raises, and the failure-compatible
    wrappers the rest of the model uses to propagate them with `:-`. */
module Errors {

  /** One constructor per exception class thrown by the core. `DatabaseError` stands for
      a PDOException: the store's connection is configured to throw on SQL failure.
      `FatalError` stands for an engine error that is not an exception class, such as a
      method called on null. */
  datatype Error =
    | PersistentStoreException(message: string)
    | ManagedObjectException(message: string)
    | InvalidManagedObjectOperation(message: string)
    | ModelParseError(message: string)
    | ModelVersionNotFound
    | EntityNotFound(entityName: string)
    | InvalidDataType(message: string)
    | DatabaseError(message: string)
    | FatalError(message: string)

  /** Either a value or the exception that interrupted the operation. */
  datatype Result<+T> = Ok(value: T) | Err(error: Error) {

    predicate IsFailure() {
      Err?
    }

    function PropagateFailure<U>(): Result<U>
      requires Err?
    {
      Err(error)
    }

    function Extract(): T
      requires Ok?
    {
      value
    }
  }

  /** A nullable reference. */
  datatype Option<+T> = None | Some(value: T)
}

=== FILE: links.dfy ===
/** Editing relationships between managed objects. Objects live in a heap keyed by
    handle; adding or removing a related object buffers the change on this side and,
    unless told otherwise, on the inverse side of the target object. */
module ObjectGraph {
  import opened Errors
  import opened Types
  import opened Values
  import opened Attributes
  import opened Entities
  import opened ManagedObjects

  /** All managed objects of one context, by handle. */
  type Heap = map<Handle, Object>

  predicate HeapValid(heap: Heap) {
    forall h :: h in heap ==> heap[h].Valid()
  }

  /** The same objects with the same ids and entities, and perhaps more. */
  predicate SameIds(heap: Heap, heap': Heap) {
    forall x :: x in heap ==> x in heap' && heap'[x].objectID == heap[x].objectID && heap'[x].entity == heap[x].entity
  }

  lemma SameIdsTrans(a: Heap, b: Heap, c: Heap)
    requires SameIds(a, b) && SameIds(b, c)
    ensures SameIds(a, c)
  {
  }

  /** How many times `other` is among the objects `o` reads under `name`. */
  function LinkCount(o: Object, name: string, other: Handle): nat {
    multiset(Related(o, name))[other]
  }

  /** Buffers `other` as inserted under `name` of `self`, after checking that `other` is
      an instance of the class the relationship holds. */
  function AddOneSide(heap: Heap, self: Handle, name: string, target: string, other: Handle): (r: Result<Heap>)
    requires self in heap && other in heap && HeapValid(heap)
    ensures r.Ok? <==> target == heap[other].entity.className
    ensures r.Err? ==> r.error.InvalidManagedObjectOperation?
    ensures r.Ok? ==> HeapValid(r.value) && r.value.Keys == heap.Keys
    ensures r.Ok? ==> forall h :: h in heap && h != self ==> r.value[h] == heap[h]
    ensures r.Ok? ==> forall n :: n != name ==> Related(r.value[self], n) == Related(heap[self], n)
    ensures r.Ok? ==> forall n :: ReadProperty(r.value[self], n) == ReadProperty(heap[self], n)
    ensures r.Ok? && other !in Get(heap[self].removed.links, name) ==>
              LinkCount(r.value[self], name, other) == LinkCount(heap[self], name, other) + 1
    ensures r.Ok? ==> r.value[self].entity == heap[self].entity && r.value[self].objectID == heap[self].objectID
  {
    if target != heap[other].entity.className then
      Err(InvalidManagedObjectOperation("Invalid type [" + heap[other].entity.className + "], expected [" + target + "]!"))
    else
      Ok(heap[self := BufferInsert(heap[self], name, other)])
  }

  /** Adds `other` to relationship `rel` of `self`; with `updateInverse` and a linked
      inverse, also adds `self` to the inverse relationship of `other`, without going
      back again. */
  function AddToRelationship(heap: Heap, self: Handle, rel: Attribute, other: Handle, updateInverse: bool): (r: Result<Heap>)
    requires self in heap && other in heap && HeapValid(heap) && rel.Relationship?
    ensures r.Ok? <==> rel.target == heap[other].entity.className
                       && (updateInverse && rel.inverse.Some? ==> rel.inverse.value.target == heap[self].entity.className)
    ensures r.Err? ==> r.error.InvalidManagedObjectOperation?
    ensures r.Ok? ==> HeapValid(r.value) && r.value.Keys == heap.Keys
    ensures r.Ok? ==> forall h :: h in heap && h != self && h != other ==> r.value[h] == heap[h]
    ensures r.Ok? && !(updateInverse && rel.inverse.Some?) ==> forall h :: h in heap && h != self ==> r.value[h] == heap[h]
  {
    var h1 :- AddOneSide(heap, self, rel.name, rel.target, other);
    if updateInverse && rel.inverse.Some? then
      AddOneSide(h1, other, rel.inverse.value.name, rel.inverse.value.target, self)
    else
      Ok(h1)
  }

  /** Buffering one side changes no object's identity. */
  lemma AddOneSideKeepsIds(heap: Heap, self: Handle, name: string, target: string, other: Handle)
    requires self in heap && other in heap && HeapValid(heap)
    requires AddOneSide(heap, self, name, target, other).Ok?
    ensures SameIds(heap, AddOneSide(heap, self, name, target, other).value)
  {
    var r := AddOneSide(heap, self, name, target, other).value;
    forall x | x in heap
      ensures x in r && r[x].objectID == heap[x].objectID && r[x].entity == heap[x].entity
    {
      if x != self {
        assert r[x] == heap[x];
      }
    }
  }

  /** Adding a link changes no object's identity: every object keeps its entity and
      its id. */
  lemma AddToRelationshipKeepsIds(heap: Heap, self: Handle, rel: Attribute, other: Handle, updateInverse: bool)
    requires self in heap && other in heap && HeapValid(heap) && rel.Relationship?
    requires AddToRelationship(heap, self, rel, other, updateInverse).Ok?
    ensures SameIds(heap, AddToRelationship(heap, self, rel, other, updateInverse).value)
  {
    AddOneSideKeepsIds(heap, self, rel.name, rel.target, other);
    var h1 := AddOneSide(heap, self, rel.name, rel.target, other).value;
    if updateInverse && rel.inverse.Some? {
      AddOneSideKeepsIds(h1, other, rel.inverse.value.name, rel.inverse.value.target, self);
      SameIdsTrans(heap, h1, AddOneSide(h1, other, rel.inverse.value.name, rel.inverse.value.target, self).value);
    }
  }

  /** Adding a link raises the count on this side by one and, when the inverse is
      updated, the count on the other side by one too; so two sides that agreed on how
      often they are linked still agree afterwards. */
  lemma AddToRelationshipLinksBothSides(heap: Heap, self: Handle, rel: Attribute, other: Handle)
    requires self in heap && other in heap && HeapValid(heap) && rel.Relationship? && rel.inverse.Some?
    requires AddToRelationship(heap, self, rel, other, true).Ok?
    requires other !in Get(heap[self].removed.links, rel.name)
    requires self !in Get(heap[other].removed.links, rel.inverse.value.name)
    requires self != other
    ensures var h' := AddToRelationship(heap, self, rel, other, true).value;
            LinkCount(h'[self], rel.name, other) == LinkCount(heap[self], rel.name, other) + 1
            && LinkCount(h'[other], rel.inverse.value.name, self) == LinkCount(heap[other], rel.inverse.value.name, self) + 1
  {
    var h1 := AddOneSide(heap, self, rel.name, rel.target, other).value;
    assert h1[other] == heap[other];
  }

  /** Buffers `other` as removed under `name` of `self`. */
  function RemoveOneSide(heap: Heap, self: Handle, name: string, other: Handle): (r: Heap)
    requires self in heap && HeapValid(heap)
    ensures HeapValid(r) && r.Keys == heap.Keys
    ensures forall h :: h in heap && h != self ==> r[h] == heap[h]
    ensures forall h :: h in heap ==> r[h].entity == heap[h].entity && r[h].objectID == heap[h].objectID
  {
    var o := heap[self].(removed := Append(heap[self].removed, name, other));
    StoreKeepsHeap(heap, self, o);
    heap[self := o]
  }

  /** Replacing a stored object by a valid one of the same entity and id keeps the
      heap valid and every object's entity and id. */
  lemma StoreKeepsHeap(heap: Heap, self: Handle, o: Object)
    requires self in heap && HeapValid(heap) && o.Valid()
    requires o.entity == heap[self].entity && o.objectID == heap[self].objectID
    ensures HeapValid(heap[self := o])
    ensures forall h :: h in heap ==> heap[self := o][h].entity == heap[h].entity && heap[self := o][h].objectID == heap[h].objectID
  {
  }

  /** Removing on one side lowers that side's count of the other object by one, down
      to zero. */
  lemma RemoveOneSideLowersCount(heap: Heap, self: Handle, name: string, other: Handle)
    requires self in heap && HeapValid(heap)
    ensures LinkCount(RemoveOneSide(heap, self, name, other)[self], name, other)
            == if LinkCount(heap[self], name, other) == 0 then 0 else LinkCount(heap[self], name, other) - 1
  {
    var o := BufferRemove(heap[self], name, other);
    assert RemoveOneSide(heap, self, name, other)[self] == o;
  }

  /** Removes `other` from relationship `rel` of `self` and, with `updateInverse` and a
      linked inverse, `self` from the inverse relationship of `other`: the mirror image
      of adding. */
  function RemoveFromRelationship(heap: Heap, self: Handle, rel: Attribute, other: Handle, updateInverse: bool): (r: Heap)
    requires self in heap && other in heap && HeapValid(heap) && rel.Relationship?
    ensures HeapValid(r) && r.Keys == heap.Keys
    ensures forall h :: h in heap && h != self && h != other ==> r[h] == heap[h]
    ensures !(updateInverse && rel.inverse.Some?) ==> forall h :: h in heap && h != self ==> r[h] == heap[h]
    ensures forall h :: h in heap ==> r[h].entity == heap[h].entity && r[h].objectID == heap[h].objectID
  {
    var h1 := RemoveOneSide(heap, self, rel.name, other);
    if updateInverse && rel.inverse.Some? then RemoveOneSide(h1, other, rel.inverse.value.name, self)
    else h1
  }

  /** Removing a link lowers the count on both sides by one when both sides had it. */
  lemma RemoveFromRelationshipUnlinksBothSides(heap: Heap, self: Handle, rel: Attribute, other: Handle)
    requires self in heap && other in heap && HeapValid(heap) && rel.Relationship? && rel.inverse.Some?
    requires self != other
    requires LinkCount(heap[self], rel.name, other) > 0 && LinkCount(heap[other], rel.inverse.value.name, self) > 0
    ensures var h' := RemoveFromRelationship(heap, self, rel, other, true);
            LinkCount(h'[self], rel.name, other) == LinkCount(heap[self], rel.name, other) - 1
            && LinkCount(h'[other], rel.inverse.value.name, self) == LinkCount(heap[other], rel.inverse.value.name, self) - 1
  {
    var h1 := RemoveOneSide(heap, self, rel.name, other);
    RemoveOneSideLowersCount(heap, self, rel.name, other);
    RemoveOneSideLowersCount(h1, other, rel.inverse.value.name, self);
    assert h1[other] == heap[other];
  }

  /** The name the removal's inverse update is dispatched under: no method of that name
      exists, so the call falls through to attribute lookup by that name. */
  const MissingRemoveMethod: string := "_removeObjectFromRelationship"

  /** Removal as the source writes it: the inverse update calls a method that does not
      exist. The dynamic fallback looks the name up as an attribute of `other`; with no
      such attribute it raises, and with one it only reads it. */
  function RemoveFromRelationshipAsWritten(heap: Heap, self: Handle, rel: Attribute, other: Handle, updateInverse: bool): (r: Result<Heap>)
    requires self in heap && other in heap && HeapValid(heap) && rel.Relationship?
    ensures r.Err? <==> updateInverse && AttributeWithName(heap[other].entity, MissingRemoveMethod).None?
    ensures r.Err? ==> r.error.ManagedObjectException?
    ensures r.Ok? ==> r.value == RemoveOneSide(heap, self, rel.name, other)
  {
    var h1 := RemoveOneSide(heap, self, rel.name, other);
    if updateInverse && AttributeWithName(heap[other].entity, MissingRemoveMethod).None? then
      Err(ManagedObjectException(""))
    else
      Ok(h1)
  }

  /** Any removal that updates the inverse fails as written when no attribute of the
      other object's entity answers to the missing method's name, whereas the intended
      removal always succeeds and unlinks both sides. */
  lemma RemoveAsWrittenFailsOnOrdinaryEntities(heap: Heap, self: Handle, rel: Attribute, other: Handle)
    requires self in heap && other in heap && HeapValid(heap) && rel.Relationship?
    requires NoneAnswers(heap[other].entity.attributes, MissingRemoveMethod)
    ensures RemoveFromRelationshipAsWritten(heap, self, rel, other, true).Err?
    ensures rel.inverse.Some? ==> RemoveFromRelationship(heap, self, rel, other, true) != RemoveOneSide(heap, self, rel.name, other)
  {
    if rel.inverse.Some? {
      var h1 := RemoveOneSide(heap, self, rel.name, other);
      var r := RemoveFromRelationship(heap, self, rel, other, true);
      var name := rel.inverse.value.name;
      if self == other {
        assert |Get(r[other].removed.links, name)| == |Get(h1[other].removed.links, name)| + 1;
      } else {
        assert |Get(r[other].removed.links, name)| == |Get(heap[other].removed.links, name)| + 1;
        assert h1[other] == heap[other];
      }
    }
  }

  /** Sets a ToOne relationship: the last committed related object is removed, then the
      new one is added, both with their inverses. Setting a ToMany relationship, or a
      relationship to null, raises. */
  function SetRelationship(heap: Heap, self: Handle, rel: Attribute, value: Option<Handle>): (r: Result<Heap>)
    requires self in heap && HeapValid(heap) && rel.Relationship?
    requires value.Some? ==> value.value in heap
    requires forall h :: h in Get(heap[self].rels, rel.name) ==> h in heap
    ensures value.None? ==> r == Err(ManagedObjectException("The object your trying to assign to relationship '" + rel.name + "' is not an instance of MManagedObject"))
    ensures value.Some? && rel.to == Many ==> r.Err? && r.error.InvalidManagedObjectOperation?
    ensures value.Some? && rel.to == One ==>
              (r.Ok? <==> (rel.target == heap[value.value].entity.className
                           && (rel.inverse.Some? ==> rel.inverse.value.target == heap[self].entity.className)))
    ensures r.Ok? ==> HeapValid(r.value) && r.value.Keys == heap.Keys
    ensures r.Ok? && |Get(heap[self].rels, rel.name)| == 0 ==> r == AddToRelationship(heap, self, rel, value.value, true)
  {
    match value
    case None =>
      Err(ManagedObjectException("The object your trying to assign to relationship '" + rel.name + "' is not an instance of MManagedObject"))
    case Some(other) =>
      if rel.to == Many then
        Err(InvalidManagedObjectOperation("Could not set a ToMany relationship, please use add/remove"))
      else
        var released := ReleaseLast(heap, self, rel);
        assert released[self].entity == heap[self].entity && released[other].entity == heap[other].entity;
        AddToRelationship(released, self, rel, other, true)
  }

  /** The heap once the last committed object of `rel`, if any, is removed from it
      together with the inverse link: the first half of setting a ToOne relationship. */
  function ReleaseLast(heap: Heap, self: Handle, rel: Attribute): (r: Heap)
    requires self in heap && HeapValid(heap) && rel.Relationship?
    requires forall h :: h in Get(heap[self].rels, rel.name) ==> h in heap
    ensures HeapValid(r) && r.Keys == heap.Keys
    ensures forall h :: h in heap ==> r[h].entity == heap[h].entity && r[h].objectID == heap[h].objectID
    ensures Get(heap[self].rels, rel.name) == [] ==> r == heap
  {
    var committed := Get(heap[self].rels, rel.name);
    if |committed| == 0 then heap
    else RemoveFromRelationship(heap, self, rel, committed[|committed| - 1], true)
  }

  /** Removing `last` from `rel` of `self` buffers it as removed under that name and
      leaves that name's committed and inserted objects alone, unless the removal of the
      inverse lands on the same object under the same name. */
  lemma RemoveFromRelationshipBuffers(heap: Heap, self: Handle, rel: Attribute, last: Handle)
    requires self in heap && last in heap && HeapValid(heap) && rel.Relationship?
    requires rel.inverse.None? || rel.inverse.value.name != rel.name || self != last
    ensures var o := RemoveFromRelationship(heap, self, rel, last, true)[self];
            o.rels == heap[self].rels
            && Get(o.inserted.links, rel.name) == Get(heap[self].inserted.links, rel.name)
            && Get(o.removed.links, rel.name) == Get(heap[self].removed.links, rel.name) + [last]
  {
    var h0 := RemoveOneSide(heap, self, rel.name, last);
    assert Get(h0[self].removed.links, rel.name) == Get(heap[self].removed.links, rel.name) + [last];
  }

  /** Adding `other` to a relationship with nothing pending-inserted appends it after
      the committed objects, ahead of the pending removals, unless the inverse update
      lands on the same list. */
  lemma AddToRelationshipRelated(heap: Heap, self: Handle, rel: Attribute, other: Handle)
    requires self in heap && other in heap && HeapValid(heap) && rel.Relationship?
    requires AddToRelationship(heap, self, rel, other, true).Ok?
    requires Get(heap[self].inserted.links, rel.name) == []
    requires rel.inverse.None? || rel.inverse.value.name != rel.name || self != other
    ensures Related(AddToRelationship(heap, self, rel, other, true).value[self], rel.name)
            == Subtract(Get(heap[self].rels, rel.name) + [other], Get(heap[self].removed.links, rel.name))
  {
    var h1 := AddOneSide(heap, self, rel.name, rel.target, other).value;
    assert Get(h1[self].inserted.links, rel.name) == [other];
    var r := AddToRelationship(heap, self, rel, other, true).value;
    if rel.inverse.Some? {
      assert r == AddOneSide(h1, other, rel.inverse.value.name, rel.inverse.value.target, self).value;
    }
    assert Related(r[self], rel.name) == Related(h1[self], rel.name);
  }

  /** After releasing the last committed object with nothing pending, the object
      holds the same committed list and has exactly that object pending removal. */
  lemma ReleaseLastBuffers(heap: Heap, self: Handle, rel: Attribute)
    requires self in heap && HeapValid(heap) && rel.Relationship?
    requires forall h :: h in Get(heap[self].rels, rel.name) ==> h in heap
    requires Get(heap[self].inserted.links, rel.name) == [] && Get(heap[self].removed.links, rel.name) == []
    requires rel.inverse.None? || rel.inverse.value.name != rel.name || self !in Get(heap[self].rels, rel.name)
    ensures var committed := Get(heap[self].rels, rel.name);
            var o := ReleaseLast(heap, self, rel)[self];
            Get(o.rels, rel.name) == committed && Get(o.inserted.links, rel.name) == []
            && Get(o.removed.links, rel.name) == (if |committed| == 0 then [] else [committed[|committed| - 1]])
  {
    var committed := Get(heap[self].rels, rel.name);
    if |committed| > 0 {
      RemoveFromRelationshipBuffers(heap, self, rel, committed[|committed| - 1]);
      assert [] + [committed[|committed| - 1]] == [committed[|committed| - 1]];
    }
  }

  /** Appending `other` and subtracting the last committed object, as a set does,
      leaves `other` last. */
  lemma ReplacingLastEndsWith(committed: seq<Handle>, other: Handle)
    ensures var objs := Subtract(committed + [other], if |committed| == 0 then [] else [committed[|committed| - 1]]);
            |objs| > 0 && objs[|objs| - 1] == other
  {
    var objs := Subtract(committed + [other], if |committed| == 0 then [] else [committed[|committed| - 1]]);
    if |committed| > 0 {
      var last := committed[|committed| - 1];
      var ys := [last];
      assert objs == Subtract(committed + [other], ys);
      assert ys[0] == last && ys[1..] == [];
      assert Subtract(RemoveFirst(committed + [other], last), []) == RemoveFirst(committed + [other], last);
      assert objs == RemoveFirst(committed + [other], last);
      RemoveFirstInPrefix(committed, [other], last);
    } else {
      assert objs == committed + [other];
    }
  }

  lemma SetToOneUnfolds(heap: Heap, self: Handle, rel: Attribute, other: Handle)
    requires self in heap && other in heap && HeapValid(heap) && rel.Relationship? && rel.to == One
    requires forall h :: h in Get(heap[self].rels, rel.name) ==> h in heap
    ensures SetRelationship(heap, self, rel, Some(other)) == AddToRelationship(ReleaseLast(heap, self, rel), self, rel, other, true)
  {
  }

  /** Reading a ToOne relationship right after setting it yields the new object,
      whatever was committed under that name, when nothing is pending under it and no
      self-link makes the inverse update land on the same list. */
  lemma SetThenReadToOne(heap: Heap, self: Handle, rel: Attribute, other: Handle)
    requires self in heap && other in heap && HeapValid(heap) && rel.Relationship? && rel.to == One
    requires forall h :: h in Get(heap[self].rels, rel.name) ==> h in heap
    requires Get(heap[self].inserted.links, rel.name) == [] && Get(heap[self].removed.links, rel.name) == []
    requires SetRelationship(heap, self, rel, Some(other)).Ok?
    requires rel.inverse.None? || rel.inverse.value.name != rel.name || self !in [other] + Get(heap[self].rels, rel.name)
    ensures ReadRelationship(SetRelationship(heap, self, rel, Some(other)).value[self], rel) == ToOne(Some(other))
  {
    var committed := Get(heap[self].rels, rel.name);
    var h1 := ReleaseLast(heap, self, rel);
    var removed := if |committed| == 0 then [] else [committed[|committed| - 1]];
    ReleaseLastBuffers(heap, self, rel);
    AddToRelationshipRelated(h1, self, rel, other);
    SetToOneUnfolds(heap, self, rel, other);
    var r := AddToRelationship(h1, self, rel, other, true).value;
    assert Related(r[self], rel.name) == Subtract(committed + [other], removed);
    ReplacingLastEndsWith(committed, other);
    assert ReadRelationship(r[self], rel) == ToOne(Some(other));
  }
}

=== FILE: managed_object.dfy ===
/** A managed object: one row of an entity's table held in memory, with its committed
    state, the changes pending since the last save, and the bookkeeping a save uses. */
module ManagedObjects {
  import opened Errors
  import opened Types
  import opened Values
  import opened Attributes
  import opened Entities

  /** The identity of a managed object within its context. Objects are compared by
      identity, never by content. */
  type Handle = nat

  /** The object id of an object that has never been stored. */
  const UnknownID: int := -1

  /** The objects a map holds under `k`, or none. */
  function Get(m: map<string, seq<Handle>>, k: string): seq<Handle> {
    if k in m then m[k] else []
  }

  /** Removes the first occurrence of `x`, if any (MMutableArray::removeObject). */
  function RemoveFirst<T(==)>(xs: seq<T>, x: T): (r: seq<T>)
    ensures multiset(r) == multiset(xs) - multiset{x}
    ensures x !in xs ==> r == xs
    ensures x in xs ==> |r| == |xs| - 1
  {
    if |xs| == 0 then []
    else if xs[0] == x then
      assert xs == [xs[0]] + xs[1..];
      xs[1..]
    else
      assert xs == [xs[0]] + xs[1..];
      [xs[0]] + RemoveFirst(xs[1..], x)
  }

  /** Removing `x` keeps every other element's membership and adds no element. */
  lemma RemoveFirstMembership<T>(xs: seq<T>, x: T, y: T)
    ensures y in RemoveFirst(xs, x) ==> y in xs
    ensures y != x ==> (y in RemoveFirst(xs, x) <==> y in xs)
  {
    var r := RemoveFirst(xs, x);
    assert y in r <==> multiset(r)[y] > 0;
    assert y in xs <==> multiset(xs)[y] > 0;
  }

  /** Removing an element found in a prefix leaves the suffix alone. */
  lemma RemoveFirstInPrefix<T>(xs: seq<T>, ys: seq<T>, x: T)
    requires x in xs
    ensures RemoveFirst(xs + ys, x) == RemoveFirst(xs, x) + ys
  {
    if xs[0] != x {
      assert (xs + ys)[1..] == xs[1..] + ys;
      RemoveFirstInPrefix(xs[1..], ys, x);
    } else {
      assert (xs + ys)[1..] == xs[1..] + ys;
    }
  }

  /** Removes, for each element of `ys` in order, its first remaining occurrence in
      `xs` (MMutableArray::subtractArray): multiset difference, order kept. */
  function Subtract<T(==)>(xs: seq<T>, ys: seq<T>): (r: seq<T>)
    ensures multiset(r) == multiset(xs) - multiset(ys)
    decreases |ys|
  {
    if |ys| == 0 then xs
    else
      var r := Subtract(RemoveFirst(xs, ys[0]), ys[1..]);
      SubtractStep(xs, ys);
      r
  }

  lemma SubtractStep<T>(xs: seq<T>, ys: seq<T>)
    requires |ys| > 0
    ensures multiset(xs) - multiset{ys[0]} - multiset(ys[1..]) == multiset(xs) - multiset(ys)
  {
    assert ys == [ys[0]] + ys[1..];
    assert multiset(ys) == multiset{ys[0]} + multiset(ys[1..]);
    MultisetMinusTwice(multiset(xs), multiset{ys[0]}, multiset(ys[1..]));
  }

  lemma MultisetOfHead<T>(s: seq<T>)
    requires |s| > 0
    ensures multiset(s) == multiset{s[0]} + multiset(s[1..])
  {
    assert s == [s[0]] + s[1..];
  }

  lemma MultisetMinusTwice<T>(a: multiset<T>, b: multiset<T>, c: multiset<T>)
    ensures a - b - c == a - (b + c)
  {
    forall x ensures (a - b - c)[x] == (a - (b + c))[x] {
    }
  }

  /** Appending an element that is not being subtracted adds it to the difference. */
  lemma SubtractAppend<T>(xs: seq<T>, ys: seq<T>, h: T)
    ensures h !in ys ==> multiset(Subtract(xs + [h], ys)) == multiset(Subtract(xs, ys)) + multiset{h}
  {
    if h !in ys {
      assert multiset(xs + [h]) == multiset(xs) + multiset{h};
      assert multiset(ys)[h] == 0;
      assert multiset(xs + [h]) - multiset(ys) == (multiset(xs) - multiset(ys)) + multiset{h} by {
        forall x ensures (multiset(xs + [h]) - multiset(ys))[x] == ((multiset(xs) - multiset(ys)) + multiset{h})[x] {
        }
      }
    }
  }

  /** A dictionary from relationship name to objects that remembers the order in which
      its keys were first set, because saves visit the keys in that order. */
  datatype Buffer = Buffer(order: seq<string>, links: map<string, seq<Handle>>) {
    predicate Valid() {
      (forall k :: k in order ==> k in links) && (forall k :: k in links ==> k in order)
      && forall i, j :: 0 <= i < j < |order| ==> order[i] != order[j]
    }

    predicate IsEmpty() {
      |order| == 0
    }
  }

  const EmptyBuffer: Buffer := Buffer([], map[])

  /** Appends `h` to the list under `k`, creating the entry if needed. */
  function Append(b: Buffer, k: string, h: Handle): (r: Buffer)
    requires b.Valid()
    ensures r.Valid() && !r.IsEmpty()
    ensures Get(r.links, k) == Get(b.links, k) + [h]
    ensures forall k' :: k' != k ==> Get(r.links, k') == Get(b.links, k')
    ensures r.links.Keys == b.links.Keys + {k}
  {
    if k in b.links then Buffer(b.order, b.links[k := b.links[k] + [h]])
    else Buffer(b.order + [k], b.links[k := [h]])
  }

  /** Drops the entry under `k`. */
  function RemoveKey(b: Buffer, k: string): (r: Buffer)
    requires b.Valid()
    ensures r.Valid()
    ensures k !in r.links && forall k' :: k' != k ==> Get(r.links, k') == Get(b.links, k')
    ensures r.links.Keys == b.links.Keys - {k}
  {
    Buffer(Without(b.order, k), b.links - {k})
  }

  /** The keys of `s` other than `k`, in order. */
  function Without(s: seq<string>, k: string): (r: seq<string>)
    ensures forall x :: x in r <==> x in s && x != k
    ensures (forall i, j :: 0 <= i < j < |s| ==> s[i] != s[j]) ==> forall i, j :: 0 <= i < j < |r| ==> r[i] != r[j]
  {
    if |s| == 0 then []
    else if s[0] == k then Without(s[1..], k)
    else
      var rest := Without(s[1..], k);
      assert forall i :: 0 <= i < |rest| ==> rest[i] in s[1..];
      [s[0]] + rest
  }

  /** A managed object of `entity`, stored under `objectID` (UnknownID until first
      inserted). `data` and `rels` are the committed state; `updated`, `inserted` and
      `removed` the pending changes; the rest is used while a save is running. */
  datatype Object = Object(
    entity: Entity,
    objectID: int,
    data: map<string, Value>,
    updated: map<string, Value>,
    rels: map<string, seq<Handle>>,
    inserted: Buffer,
    removed: Buffer,
    saving: bool,
    savingInserted: seq<string>,
    savingRemoved: seq<string>)
  {
    predicate Valid() {
      inserted.Valid() && removed.Valid()
    }
  }

  /** The pending values a new object starts with: every property's default, a later
      property overriding an earlier one of the same name. */
  function Defaults(attrs: seq<Attribute>): (m: map<string, Value>)
    ensures forall k :: k in m ==> exists i :: 0 <= i < |attrs| && attrs[i].Property? && attrs[i].name == k
                                               && attrs[i].defaultValue == Some(m[k])
    ensures forall i :: 0 <= i < |attrs| && attrs[i].Property? && attrs[i].defaultValue.Some? ==> attrs[i].name in m
    decreases |attrs|
  {
    if |attrs| == 0 then map[]
    else
      var front := attrs[..|attrs| - 1];
      var a := attrs[|attrs| - 1];
      var m := Defaults(front);
      assert forall i :: 0 <= i < |front| ==> front[i] == attrs[i];
      if a.Property? && a.defaultValue.Some? then m[a.name := a.defaultValue.value] else m
  }

  /** A new object of `entity`: nothing committed, nothing pending but the property
      defaults, and a fault exactly when it is created for a stored id. */
  function NewObject(entity: Entity, objectID: int): (o: Object)
    ensures o.Valid() && o.entity == entity && o.objectID == objectID && !o.saving
    ensures o.data == map[] && o.rels == map[] && o.inserted.IsEmpty() && o.removed.IsEmpty()
    ensures IsFault(o) <==> objectID != UnknownID
  {
    Object(entity, objectID, map[], Defaults(entity.attributes), map[], EmptyBuffer, EmptyBuffer, false, [], [])
  }

  /** A new object has changes exactly when some property of its entity declares a
      default. */
  lemma NewObjectHasChanges(entity: Entity, objectID: int)
    ensures HasChanges(NewObject(entity, objectID)) <==>
              exists i :: 0 <= i < |entity.attributes| && entity.attributes[i].Property? && entity.attributes[i].defaultValue.Some?
  {
    DefaultsNonEmpty(entity.attributes);
  }

  /** A new object reads null for every name except the properties declaring a
      default, which read that default (the last one, for a repeated name). */
  lemma NewObjectReadsDefaults(entity: Entity, objectID: int, n: string)
    ensures ReadProperty(NewObject(entity, objectID), n)
            == if n in Defaults(entity.attributes) then Defaults(entity.attributes)[n] else VNull
    ensures ReadProperty(NewObject(entity, objectID), n) != VNull ==>
              exists p :: p in entity.attributes && p.Property? && p.name == n
                          && p.defaultValue == Some(ReadProperty(NewObject(entity, objectID), n))
  {
    if n in Defaults(entity.attributes) {
      DefaultWitness(entity.attributes, n);
    }
  }

  /** Some property has a default exactly when the defaults are not empty. */
  lemma DefaultsNonEmpty(attrs: seq<Attribute>)
    ensures |Defaults(attrs)| > 0 <==> exists i :: 0 <= i < |attrs| && attrs[i].Property? && attrs[i].defaultValue.Some?
  {
    var m := Defaults(attrs);
    if |m| > 0 {
      var k :| k in m;
    }
    if exists i :: 0 <= i < |attrs| && attrs[i].Property? && attrs[i].defaultValue.Some? {
      var i :| 0 <= i < |attrs| && attrs[i].Property? && attrs[i].defaultValue.Some?;
      assert attrs[i].name in m;
    }
  }

  /** A default value belongs to a property of that name declaring it. */
  lemma DefaultWitness(attrs: seq<Attribute>, n: string)
    requires n in Defaults(attrs)
    ensures exists p :: p in attrs && p.Property? && p.name == n && p.defaultValue == Some(Defaults(attrs)[n])
  {
    var i :| 0 <= i < |attrs| && attrs[i].Property? && attrs[i].name == n && attrs[i].defaultValue == Some(Defaults(attrs)[n]);
    assert attrs[i] in attrs;
  }

  /** A fault stands for a stored object whose data has not been loaded yet. */
  predicate IsFault(o: Object) {
    o.objectID != UnknownID && |o.data| == 0 && |o.rels| == 0
  }

  /** An object has changes when a change is pending and it is not being saved. */
  predicate HasChanges(o: Object) {
    !o.saving && (|o.updated| > 0 || !o.inserted.IsEmpty() || !o.removed.IsEmpty())
  }

  /** The value of a property: the pending value if one is set, else the committed
      one, else null. */
  function ReadProperty(o: Object, name: string): Value {
    if name in o.updated then o.updated[name]
    else if name in o.data then o.data[name]
    else VNull
  }

  /** The objects related under a relationship name: committed then pending-inserted
      objects, minus the pending-removed ones. */
  function Related(o: Object, name: string): seq<Handle> {
    Subtract(Get(o.rels, name) + Get(o.inserted.links, name), Get(o.removed.links, name))
  }

  /** The value read for a relationship: the last related object for ToOne, the whole
      list for ToMany. */
  datatype RelationshipValue = ToOne(target: Option<Handle>) | ToMany(objects: seq<Handle>)

  function ReadRelationship(o: Object, rel: Attribute): (v: RelationshipValue)
    requires rel.Relationship?
    ensures v.ToOne? <==> rel.to == One
    ensures v.ToMany? ==> multiset(v.objects) == multiset(Get(o.rels, rel.name) + Get(o.inserted.links, rel.name))
                                                 - multiset(Get(o.removed.links, rel.name))
    ensures v.ToOne? ==> (v.target.None? <==> Related(o, rel.name) == [])
    ensures v.ToOne? && v.target.Some? ==> v.target.value in Related(o, rel.name)
    ensures v.ToOne? && v.target.Some? ==> v.target.value == Related(o, rel.name)[|Related(o, rel.name)| - 1]
  {
    var objs := Related(o, rel.name);
    match rel.to
    case Many => ToMany(objs)
    case One => ToOne(if |objs| == 0 then None else Some(objs[|objs| - 1]))
  }

  /** Sets a property's pending value after checking its kind against the property
      type. Only the pending value of that property changes. */
  function SetProperty(o: Object, p: Attribute, v: Value): (r: Result<Object>)
    requires p.Property?
    ensures r.Ok? <==> AcceptsValue(p.propertyType, v)
    ensures r.Err? ==> r.error.InvalidManagedObjectOperation?
    ensures r.Ok? ==> ReadProperty(r.value, p.name) == v
    ensures r.Ok? ==> forall n :: n != p.name ==> ReadProperty(r.value, n) == ReadProperty(o, n)
    ensures r.Ok? ==> forall n :: Related(r.value, n) == Related(o, n)
    ensures r.Ok? ==> r.value.data == o.data && r.value.rels == o.rels && r.value.objectID == o.objectID && r.value.entity == o.entity
    ensures r.Ok? ==> (HasChanges(r.value) <==> !o.saving)
    ensures r.Ok? && o.Valid() ==> r.value.Valid()
  {
    if !AcceptsValue(p.propertyType, v) then
      Err(InvalidManagedObjectOperation("Invalid type [" + ValueClassName(v) + "], expected [" + TypeClassName(p.propertyType) + "]!"))
    else
      Ok(o.(updated := o.updated[p.name := v]))
  }

  /** Records `h` as pending-inserted under `name` on this side only. */
  function BufferInsert(o: Object, name: string, h: Handle): (r: Object)
    requires o.Valid()
    ensures r.Valid() && r.data == o.data && r.updated == o.updated && r.rels == o.rels && r.removed == o.removed
    ensures r.entity == o.entity && r.objectID == o.objectID && r.saving == o.saving
    ensures Get(r.inserted.links, name) == Get(o.inserted.links, name) + [h]
    ensures forall n :: n != name ==> Related(r, n) == Related(o, n)
    ensures h !in Get(o.removed.links, name) ==> multiset(Related(r, name)) == multiset(Related(o, name)) + multiset{h}
    ensures HasChanges(r) <==> !o.saving
  {
    var r := o.(inserted := Append(o.inserted, name, h));
    var before := Get(o.rels, name) + Get(o.inserted.links, name);
    assert Get(r.rels, name) + Get(r.inserted.links, name) == before + [h];
    SubtractAppend(before, Get(o.removed.links, name), h);
    r
  }

  /** Records `h` as pending-removed under `name` on this side only. */
  function BufferRemove(o: Object, name: string, h: Handle): (r: Object)
    requires o.Valid()
    ensures r.Valid() && r.data == o.data && r.updated == o.updated && r.rels == o.rels && r.inserted == o.inserted
    ensures r.entity == o.entity && r.objectID == o.objectID && r.saving == o.saving
    ensures Get(r.removed.links, name) == Get(o.removed.links, name) + [h]
    ensures forall n :: n != name ==> Related(r, n) == Related(o, n)
    ensures multiset(Related(r, name)) == multiset(Related(o, name)) - multiset{h}
    ensures HasChanges(r) <==> !o.saving
  {
    o.(removed := Append(o.removed, name, h))
  }

  /** Drops every pending change; committed state stays. */
  function DiscardChanges(o: Object): (r: Object)
    ensures r.Valid() && !HasChanges(r)
    ensures r.data == o.data && r.rels == o.rels && r.objectID == o.objectID && r.saving == o.saving
    ensures forall n :: ReadProperty(r, n) == (if n in o.data then o.data[n] else VNull)
    ensures forall n :: Related(r, n) == Get(o.rels, n)
  {
    o.(updated := map[], inserted := EmptyBuffer, removed := EmptyBuffer)
  }

  /** The committed relationships once the pending inserts are appended. */
  function MergeInserted(rels: map<string, seq<Handle>>, inserted: map<string, seq<Handle>>): (m: map<string, seq<Handle>>)
    ensures m.Keys == rels.Keys + inserted.Keys
    ensures forall k :: Get(m, k) == Get(rels, k) + Get(inserted, k)
  {
    map k | k in rels.Keys + inserted.Keys :: Get(rels, k) + Get(inserted, k)
  }

  /** Commits the pending changes, as intended: pending values overwrite committed ones,
      inserted objects are appended and removed objects subtracted from the committed
      relationships, and the pending changes are dropped. What the object reads is
      exactly what it read before. */
  function PersistChanges(o: Object): (r: Object)
    ensures r.Valid() && !HasChanges(r) && r.entity == o.entity && r.objectID == o.objectID && r.saving == o.saving
    ensures o.data.Keys + o.updated.Keys == r.data.Keys
    ensures r.data == o.data + o.updated && r.updated == map[] && r.inserted.IsEmpty() && r.removed.IsEmpty()
    ensures forall n :: Get(r.rels, n) == Related(o, n)
  {
    o.(data := o.data + o.updated, rels := CommittedRelationships(o), updated := map[], inserted := EmptyBuffer, removed := EmptyBuffer)
  }

  /** What a committed object reads under any name is exactly what it read before. */
  lemma PersistChangesKeepsReads(o: Object, n: string)
    ensures ReadProperty(PersistChanges(o), n) == ReadProperty(o, n)
    ensures Related(PersistChanges(o), n) == Related(o, n)
  {
    var r := PersistChanges(o);
    RelatedWithoutPending(r, n);
    ReadAfterMerge(o, r, n);
  }

  /** With nothing pending, an object's related objects are its committed ones. */
  lemma RelatedWithoutPending(r: Object, n: string)
    requires r.inserted == EmptyBuffer && r.removed == EmptyBuffer
    ensures Related(r, n) == Get(r.rels, n)
  {
    assert Get(r.inserted.links, n) == [] && Get(r.removed.links, n) == [];
    assert Get(r.rels, n) + [] == Get(r.rels, n);
  }

  lemma ReadAfterMerge(o: Object, r: Object, n: string)
    requires r.data == o.data + o.updated && r.updated == map[]
    ensures ReadProperty(r, n) == ReadProperty(o, n)
  {
  }

  /** The committed relationships after a commit: each name's committed and inserted
      objects minus its removed ones, for every name with committed or inserted objects. */
  function CommittedRelationships(o: Object): (m: map<string, seq<Handle>>)
    ensures forall n :: Get(m, n) == Related(o, n)
  {
    var merged := MergeInserted(o.rels, o.inserted.links);
    var m := map k | k in merged :: if k in o.removed.links then Subtract(merged[k], o.removed.links[k]) else merged[k];
    assert forall n :: Get(m, n) == Related(o, n) by {
      forall n ensures Get(m, n) == Related(o, n) {
        if n !in merged {
          assert Get(o.rels, n) + Get(o.inserted.links, n) == [];
          SubtractFromEmpty<Handle>(Get(o.removed.links, n));
        }
      }
    }
    m
  }

  lemma SubtractFromEmpty<T>(ys: seq<T>)
    ensures Subtract([], ys) == []
  {
  }

  /** Commits the pending changes as the source does: the loop over the removed objects
      subtracts each list from itself and so leaves the committed relationships alone. */
  function PersistChangesAsWritten(o: Object): (r: Object)
    ensures r.Valid() && !HasChanges(r) && r.objectID == o.objectID
    ensures forall n :: ReadProperty(r, n) == ReadProperty(o, n)
    ensures forall n :: Get(r.rels, n) == Get(o.rels, n) + Get(o.inserted.links, n)
  {
    var removed := map k | k in o.removed.links :: Subtract(o.removed.links[k], o.removed.links[k]);
    var r := o.(data := o.data + o.updated, rels := MergeInserted(o.rels, o.inserted.links),
                removed := Buffer(o.removed.order, removed));
    DiscardChanges(r)
  }

  /** A committed link with a pending removal survives the as-written commit: every
      object reads the removed object more often after the as-written commit than
      after the intended one, and as often as before its removal. */
  lemma PersistChangesAsWrittenKeepsRemovedLinks(o: Object, n: string, h: Handle)
    requires h in Get(o.rels, n) && h in Get(o.removed.links, n)
    ensures multiset(Related(PersistChangesAsWritten(o), n))[h] == multiset(Get(o.rels, n) + Get(o.inserted.links, n))[h]
    ensures multiset(Related(PersistChanges(o), n))[h] < multiset(Related(PersistChangesAsWritten(o), n))[h]
  {
    var w := PersistChangesAsWritten(o);
    RelatedWithoutPending(w, n);
    PersistChangesKeepsReads(o, n);
    var all: seq<Handle> := Get(o.rels, n) + Get(o.inserted.links, n);
    assert h in all;
    assert multiset(all)[h] > 0;
    assert multiset(Get(o.removed.links, n))[h] > 0;
  }

  /** The smallest instance: one committed link, removed, reads nothing before the
      commit and comes back after the as-written one. */
  lemma PersistChangesAsWrittenRestoresLink(o: Object)
    requires o.rels == map["r" := [1]] && o.inserted == EmptyBuffer
    requires o.removed == Buffer(["r"], map["r" := [1]])
    ensures Related(o, "r") == []
    ensures Related(PersistChangesAsWritten(o), "r") == [1]
    ensures Related(PersistChanges(o), "r") == []
  {
    assert Subtract([1], [1]) == [] by {
      assert RemoveFirst([1], 1) == [];
    }
    assert Get(o.rels, "r") + Get(o.inserted.links, "r") == [1];
  }

  /** A committed object with data is no longer a fault. */
  lemma PersistedDataEndsFault(o: Object)
    requires |o.data| > 0 || |o.updated| > 0
    ensures !IsFault(PersistChanges(o))
  {
    var r := PersistChanges(o);
    if |o.data| > 0 {
      var k :| k in o.data;
      assert k in r.data;
    } else {
      var k :| k in o.updated;
      assert k in r.data;
    }
  }

  /** An object with its save marks cleared: everything the marks do not touch. */
  function Unmarked(o: Object): Object {
    o.(savingInserted := [], savingRemoved := [])
  }

  /** The save bookkeeping of one relationship name: marked before the objects on the
      other side are saved, cleared (committing that name's pending links) after. */
  function WillSaveInserted(o: Object, name: string): (r: Object)
    ensures multiset(r.savingInserted) == multiset(o.savingInserted) + multiset{name}
    ensures Unmarked(r) == Unmarked(o) && r.savingRemoved == o.savingRemoved
  {
    o.(savingInserted := o.savingInserted + [name])
  }

  function WillSaveRemoved(o: Object, name: string): (r: Object)
    ensures multiset(r.savingRemoved) == multiset(o.savingRemoved) + multiset{name}
    ensures Unmarked(r) == Unmarked(o) && r.savingInserted == o.savingInserted
  {
    o.(savingRemoved := o.savingRemoved + [name])
  }

  /** Commits the pending inserts under `name` and drops that entry and one mark:
      what the object reads does not change. */
  function DidSaveInserted(o: Object, name: string): (r: Object)
    requires o.Valid()
    ensures r.Valid() && r.objectID == o.objectID && r.data == o.data && r.updated == o.updated && r.saving == o.saving
    ensures r.removed == o.removed && r.inserted.links.Keys == o.inserted.links.Keys - {name}
    ensures forall n :: n != name ==> Get(r.rels, n) == Get(o.rels, n) && Get(r.inserted.links, n) == Get(o.inserted.links, n)
    ensures Get(r.rels, name) == Get(o.rels, name) + Get(o.inserted.links, name)
    ensures r.savingInserted == RemoveFirst(o.savingInserted, name) && r.savingRemoved == o.savingRemoved
  {
    var marks := RemoveFirst(o.savingInserted, name);
    if name in o.inserted.links then
      o.(rels := o.rels[name := Get(o.rels, name) + o.inserted.links[name]],
         inserted := RemoveKey(o.inserted, name), savingInserted := marks)
    else
      o.(savingInserted := marks)
  }

  /** Committing one name's inserts changes nothing the object reads. */
  lemma DidSaveInsertedKeepsRelated(o: Object, name: string, n: string)
    requires o.Valid()
    ensures Related(DidSaveInserted(o, name), n) == Related(o, n)
  {
    var r := DidSaveInserted(o, name);
    if n == name {
      assert Get(r.inserted.links, n) == [];
      assert Get(r.rels, n) + [] == Get(r.rels, n);
    }
  }

  /** Subtracts the pending removals under `name` from the committed list (when there
      is one) and drops that entry and one mark. */
  function DidSaveRemoved(o: Object, name: string): (r: Object)
    requires o.Valid()
    ensures r.Valid() && r.objectID == o.objectID && r.data == o.data && r.updated == o.updated && r.saving == o.saving
    ensures r.inserted == o.inserted && r.removed.links.Keys == o.removed.links.Keys - {name}
    ensures forall n :: n != name ==> Get(r.rels, n) == Get(o.rels, n)
    ensures multiset(Get(r.rels, name)) == multiset(Get(o.rels, name)) - multiset(Get(o.removed.links, name))
    ensures r.savingRemoved == RemoveFirst(o.savingRemoved, name) && r.savingInserted == o.savingInserted
  {
    var marks := RemoveFirst(o.savingRemoved, name);
    if name in o.removed.links then
      o.(rels := SubtractUnder(o.rels, name, o.removed.links[name]), removed := RemoveKey(o.removed, name), savingRemoved := marks)
    else
      o.(savingRemoved := marks)
  }

  /** Subtracts `hs` from the objects under `name`, if there are any. */
  function SubtractUnder(rels: map<string, seq<Handle>>, name: string, hs: seq<Handle>): (m: map<string, seq<Handle>>)
    ensures forall n :: n != name ==> Get(m, n) == Get(rels, n)
    ensures multiset(Get(m, name)) == multiset(Get(rels, name)) - multiset(hs)
  {
    if name in rels then rels[name := Subtract(rels[name], hs)] else rels
  }

  /** A valid buffer is empty exactly when it has no keys. */
  lemma BufferEmptyIffNoKeys(b: Buffer)
    requires b.Valid()
    ensures b.IsEmpty() <==> b.links.Keys == {}
  {
    if !b.IsEmpty() {
      assert b.order[0] in b.links;
    }
    if b.links.Keys != {} {
      var k :| k in b.links;
      assert k in b.order;
    }
  }

  /** The completion hooks only ever take pending changes away. */
  lemma DidSaveHooksAddNoChanges(o: Object, name: string)
    requires o.Valid()
    ensures HasChanges(DidSaveInserted(o, name)) ==> HasChanges(o)
    ensures HasChanges(DidSaveRemoved(o, name)) ==> HasChanges(o)
  {
    var a := DidSaveInserted(o, name);
    var b := DidSaveRemoved(o, name);
    BufferEmptyIffNoKeys(o.inserted);
    BufferEmptyIffNoKeys(o.removed);
    BufferEmptyIffNoKeys(a.inserted);
    BufferEmptyIffNoKeys(b.removed);
  }

  /** Marks the object as being saved: while it is, it reports no changes, so a save
      that reaches it again through a relationship leaves it alone. */
  function WillStartSaving(o: Object): (r: Object)
    ensures r.saving && !HasChanges(r)
    ensures forall n :: ReadProperty(r, n) == ReadProperty(o, n) && Related(r, n) == Related(o, n)
    ensures r.(saving := o.saving) == o
  {
    o.(saving := true)
  }

  /** Clears the saving mark. */
  function DidFinishSaving(o: Object): (r: Object)
    ensures !r.saving && r.(saving := o.saving) == o
    ensures HasChanges(r) <==> |o.updated| > 0 || !o.inserted.IsEmpty() || !o.removed.IsEmpty()
  {
    o.(saving := false)
  }

  /** Committing twice is committing once. */
  lemma PersistChangesIdempotent(o: Object)
    ensures PersistChanges(PersistChanges(o)) == PersistChanges(o)
  {
    var p := PersistChanges(o);
    CommittedOfClean(p);
    assert p.data + p.updated == p.data;
  }

  lemma CommittedOfClean(o: Object)
    requires o.inserted == EmptyBuffer && o.removed == EmptyBuffer
    ensures CommittedRelationships(o) == o.rels
  {
    var m := CommittedRelationships(o);
    var merged := MergeInserted(o.rels, o.inserted.links);
    assert merged.Keys == o.rels.Keys;
    assert m.Keys == o.rels.Keys;
    forall k | k in o.rels ensures m[k] == o.rels[k] {
      assert Get(o.inserted.links, k) == [];
      assert merged[k] == o.rels[k] + [];
    }
  }

  /** Marking a name and then completing it leaves the marks as they were, so the
      marks of a finished save are balanced. */
  lemma MarkThenCompleteBalances(o: Object, name: string)
    requires o.Valid()
    ensures multiset(DidSaveInserted(WillSaveInserted(o, name), name).savingInserted) == multiset(o.savingInserted)
    ensures multiset(DidSaveRemoved(WillSaveRemoved(o, name), name).savingRemoved) == multiset(o.savingRemoved)
  {
    assert WillSaveInserted(o, name).Valid() && WillSaveRemoved(o, name).Valid();
  }
}

=== FILE: naming.dfy ===
/** Text operations behind the generated SQL names: byte-wise string order, sorting,
    joining, splitting, ASCII case mapping and the inclusive prefix of a digest. */
module Naming {

  /** The 32-character lower-case hexadecimal MD5 digest of a text. */
  type HexDigest = s: string | |s| == 32 witness "00000000000000000000000000000000"

  /** strcmp order: `a` comes no later than `b`. */
  predicate StrLe(a: string, b: string)
    decreases |a|
  {
    |a| == 0 || (|b| > 0 && (a[0] < b[0] || (a[0] == b[0] && StrLe(a[1..], b[1..]))))
  }

  lemma {:induction false} StrLeTotal(a: string, b: string)
    ensures StrLe(a, b) || StrLe(b, a)
    decreases |a|
  {
    if |a| > 0 && |b| > 0 && a[0] == b[0] {
      StrLeTotal(a[1..], b[1..]);
    }
  }

  lemma {:induction false} StrLeAntisymmetric(a: string, b: string)
    requires StrLe(a, b) && StrLe(b, a)
    ensures a == b
    decreases |a|
  {
    if |a| > 0 {
      StrLeAntisymmetric(a[1..], b[1..]);
      assert a == [a[0]] + a[1..];
      assert b == [b[0]] + b[1..];
    }
  }

  lemma {:induction false} StrLeTransitive(a: string, b: string, c: string)
    requires StrLe(a, b) && StrLe(b, c)
    ensures StrLe(a, c)
    decreases |a|
  {
    if |a| > 0 && a[0] == b[0] && b[0] == c[0] {
      StrLeTransitive(a[1..], b[1..], c[1..]);
    }
  }

  /** The least text of a non-empty set in strcmp order. */
  function Least(s: set<string>): (m: string)
    requires s != {}
    ensures m in s && IsLeast(s, m)
  {
    LeastExists(s);
    StrLeAntisymmetricAll();
    var m :| m in s && IsLeast(s, m);
    m
  }

  lemma StrLeAntisymmetricAll()
    ensures forall a, b :: StrLe(a, b) && StrLe(b, a) ==> a == b
  {
    forall a, b | StrLe(a, b) && StrLe(b, a) ensures a == b {
      StrLeAntisymmetric(a, b);
    }
  }

  lemma {:induction false} LeastExists(s: set<string>)
    requires s != {}
    ensures exists m :: m in s && IsLeast(s, m)
    decreases |s|
  {
    var y :| y in s;
    var rest := s - {y};
    if rest == {} {
      LeastOfOne(s, y);
    } else {
      LeastExists(rest);
      var m :| m in rest && IsLeast(rest, m);
      LeastOfAdded(rest, m, y);
      assert s == rest + {y};
    }
  }

  predicate IsLeast(s: set<string>, m: string) {
    forall x :: x in s ==> StrLe(m, x)
  }

  lemma LeastOfOne(s: set<string>, y: string)
    requires y in s && s - {y} == {}
    ensures IsLeast(s, y)
  {
    StrLeTotal(y, y);
    forall x | x in s ensures StrLe(y, x) {
      assert x !in s - {y};
    }
  }

  lemma LeastOfAdded(rest: set<string>, m: string, y: string)
    requires m in rest && IsLeast(rest, m)
    ensures StrLe(m, y) ==> IsLeast(rest + {y}, m)
    ensures !StrLe(m, y) ==> IsLeast(rest + {y}, y)
  {
    StrLeTotal(m, y);
    StrLeTotal(y, y);
    if !StrLe(m, y) {
      forall x | x in rest + {y} ensures StrLe(y, x) {
        if x != y {
          StrLeTransitive(y, m, x);
        }
      }
    }
  }

  predicate Sorted(s: seq<string>) {
    forall i, j :: 0 <= i < j < |s| ==> StrLe(s[i], s[j])
  }

  /** Inserts `x` into a sorted sequence, keeping it sorted. */
  function InsertSorted(x: string, s: seq<string>): (r: seq<string>)
    requires Sorted(s)
    ensures Sorted(r)
    ensures multiset(r) == multiset(s) + multiset{x}
  {
    if |s| == 0 then [x]
    else if StrLe(x, s[0]) then
      assert forall j :: 0 < j < |s| ==> StrLe(x, s[j]) by {
        forall j | 0 < j < |s| ensures StrLe(x, s[j]) {
          StrLeTransitive(x, s[0], s[j]);
        }
      }
      [x] + s
    else
      StrLeTotal(x, s[0]);
      var t := InsertSorted(x, s[1..]);
      assert s == [s[0]] + s[1..];
      HeadBelowInsert(x, s, t);
      [s[0]] + t
  }

  lemma HeadBelowInsert(x: string, s: seq<string>, t: seq<string>)
    requires Sorted(s) && |s| > 0 && StrLe(s[0], x)
    requires multiset(t) == multiset(s[1..]) + multiset{x}
    ensures forall j :: 0 <= j < |t| ==> StrLe(s[0], t[j])
  {
    forall j | 0 <= j < |t| ensures StrLe(s[0], t[j]) {
      assert t[j] in multiset(t);
      if t[j] != x {
        assert t[j] in multiset(s[1..]);
        var k :| 0 <= k < |s[1..]| && s[1..][k] == t[j];
        assert s[k + 1] == t[j];
      }
    }
  }

  /** PHP sort() with SORT_STRING: ascending byte-wise order of the same names. */
  function Sort(s: seq<string>): (r: seq<string>)
    ensures Sorted(r)
    ensures multiset(r) == multiset(s)
  {
    if |s| == 0 then []
    else
      assert s == [s[0]] + s[1..];
      InsertSorted(s[0], Sort(s[1..]))
  }

  /** A sorted arrangement of a collection of names is unique. */
  lemma {:induction false} SortedUnique(a: seq<string>, b: seq<string>)
    requires Sorted(a) && Sorted(b)
    requires multiset(a) == multiset(b)
    ensures a == b
    decreases |a|
  {
    if |a| == 0 {
      assert |multiset(b)| == 0;
    } else {
      assert |b| == |multiset(b)| == |a|;
      SortedHeadsAgree(a, b);
      SortedTailsAgree(a, b);
      SortedUnique(a[1..], b[1..]);
      assert a == [a[0]] + a[1..];
      assert b == [b[0]] + b[1..];
    }
  }

  /** Two sorted arrangements of the same names start with the same name. */
  lemma SortedHeadsAgree(a: seq<string>, b: seq<string>)
    requires Sorted(a) && Sorted(b) && multiset(a) == multiset(b) && |a| > 0 && |b| > 0
    ensures a[0] == b[0]
  {
    assert a[0] in multiset(b);
    var j :| 0 <= j < |b| && b[j] == a[0];
    assert b[0] in multiset(a);
    var i :| 0 <= i < |a| && a[i] == b[0];
    assert StrLe(b[0], a[0]) by {
      if j == 0 { StrLeTotal(a[0], a[0]); }
    }
    assert StrLe(a[0], b[0]) by {
      if i == 0 { StrLeTotal(a[0], a[0]); }
    }
    StrLeAntisymmetric(a[0], b[0]);
  }

  /** With equal heads, the tails are sorted arrangements of the same names. */
  lemma SortedTailsAgree(a: seq<string>, b: seq<string>)
    requires Sorted(a) && Sorted(b) && multiset(a) == multiset(b) && |a| > 0 && |b| > 0 && a[0] == b[0]
    ensures Sorted(a[1..]) && Sorted(b[1..]) && multiset(a[1..]) == multiset(b[1..])
  {
    assert a == [a[0]] + a[1..];
    assert b == [b[0]] + b[1..];
    assert multiset(a[1..]) == multiset(a) - multiset{a[0]};
    assert multiset(b[1..]) == multiset(b) - multiset{b[0]};
  }

  /** Sorting depends only on the collection of names, not on their arrangement. */
  lemma SortIgnoresArrangement(a: seq<string>, b: seq<string>)
    requires multiset(a) == multiset(b)
    ensures Sort(a) == Sort(b)
  {
    SortedUnique(Sort(a), Sort(b));
  }

  /** The concatenation of the parts, with an empty separator. */
  function Concat(parts: seq<string>): (s: string)
    ensures |parts| == 1 ==> s == parts[0]
  {
    if |parts| == 0 then "" else parts[0] + Concat(parts[1..])
  }

  /** The parts joined with a separator character between consecutive parts. */
  function JoinWith(parts: seq<string>, sep: char): string {
    if |parts| == 0 then ""
    else if |parts| == 1 then parts[0]
    else parts[0] + [sep] + JoinWith(parts[1..], sep)
  }

  /** Index of the first occurrence of `c` in `s`, or |s| when there is none. */
  function IndexOf(s: string, c: char): (i: nat)
    ensures i <= |s|
    ensures forall k :: 0 <= k < i ==> s[k] != c
    ensures i < |s| ==> s[i] == c
  {
    if |s| == 0 then 0 else if s[0] == c then 0 else 1 + IndexOf(s[1..], c)
  }

  /** The number of occurrences of `c` in `s`. */
  function Occurrences(s: string, c: char): nat {
    if |s| == 0 then 0 else (if s[0] == c then 1 else 0) + Occurrences(s[1..], c)
  }

  /** PHP explode() with a one-character separator: the pieces between separators.
      Splitting is undone by joining, and yields one more piece than separators. */
  function Split(s: string, sep: char): (parts: seq<string>)
    ensures |parts| == Occurrences(s, sep) + 1
    ensures JoinWith(parts, sep) == s
    ensures forall k :: 0 <= k < |parts| ==> sep !in parts[k]
    decreases |s|
  {
    var i := IndexOf(s, sep);
    if i == |s| then
      assert forall k :: 0 <= k < |s| ==> s[k] != sep;
      OccurrencesAbsent(s, sep);
      [s]
    else
      var rest := Split(s[i + 1..], sep);
      OccurrencesAfterFirst(s, sep, i);
      assert s == s[..i] + [sep] + s[i + 1..];
      [s[..i]] + rest
  }

  lemma {:induction false} OccurrencesAbsent(s: string, c: char)
    requires forall k :: 0 <= k < |s| ==> s[k] != c
    ensures Occurrences(s, c) == 0
  {
    if |s| > 0 {
      OccurrencesAbsent(s[1..], c);
    }
  }

  lemma {:induction false} OccurrencesAfterFirst(s: string, c: char, i: nat)
    requires i < |s| && s[i] == c
    requires forall k :: 0 <= k < i ==> s[k] != c
    ensures Occurrences(s, c) == 1 + Occurrences(s[i + 1..], c)
  {
    if i > 0 {
      assert s[1..][i - 1] == c;
      OccurrencesAfterFirst(s[1..], c, i - 1);
      assert s[1..][i..] == s[i + 1..];
    }
  }

  /** PHP strtoupper on ASCII letters. */
  function ToUpper(s: string): (r: string)
    ensures |r| == |s|
    ensures forall i :: 0 <= i < |s| ==> r[i] == (if 'a' <= s[i] <= 'z' then (s[i] as int - 32) as char else s[i])
  {
    if |s| == 0 then ""
    else [if 'a' <= s[0] <= 'z' then (s[0] as int - 32) as char else s[0]] + ToUpper(s[1..])
  }

  /** PHP strtolower on ASCII letters. */
  function ToLower(s: string): (r: string)
    ensures |r| == |s|
    ensures forall i :: 0 <= i < |s| ==> r[i] == (if 'A' <= s[i] <= 'Z' then (s[i] as int + 32) as char else s[i])
  {
    if |s| == 0 then ""
    else [if 'A' <= s[0] <= 'Z' then (s[0] as int + 32) as char else s[0]] + ToLower(s[1..])
  }

  /** MString::substringToIndex(16) on a digest: the range it takes has length index + 1,
      so the first seventeen characters are kept. */
  function DigestPrefix(d: HexDigest): (r: string)
    ensures |r| == 17 && forall i :: 0 <= i < 17 ==> r[i] == d[i]
  {
    d[..16 + 1]
  }
}

=== FILE: object_context.dfy ===
/** The managed object context: the unit of work that owns the live objects, the
    objects scheduled for deletion, and the rules that turn them into a save request. */
module Contexts {
  import opened Errors
  import opened Entities
  import opened ManagedObjects
  import opened ObjectGraph

  /** The objects of a context by handle, the next free handle, the live objects in
      insertion order and the objects scheduled for deletion in deletion order. */
  datatype Context = Context(heap: Heap, next: Handle, live: seq<Handle>, deleted: seq<Handle>) {
    predicate Valid() {
      HeapValid(heap)
      && (forall h :: h in heap ==> h < next)
      && (forall i :: 0 <= i < |live| ==> live[i] in heap)
      && (forall i :: 0 <= i < |deleted| ==> deleted[i] in heap)
    }
  }

  const EmptyContext: Context := Context(map[], 0, [], [])

  /** Replacing an object by a valid one with the same identity keeps the context
      valid and every object's identity. */
  lemma ReplaceObjectKeepsIds(c: Context, h: Handle, o: Object)
    requires c.Valid() && h in c.heap && o.Valid()
    requires o.objectID == c.heap[h].objectID && o.entity == c.heap[h].entity
    ensures c.(heap := c.heap[h := o]).Valid() && SameIds(c.heap, c.heap[h := o])
  {
  }

  /** Creates an object of `entity` with the given id and inserts it into the context;
      the new handle is fresh and becomes the last live object. */
  function NewObjectForEntity(c: Context, entity: Entity, objectID: int): (r: (Context, Handle))
    requires c.Valid()
    ensures r.0.Valid() && r.1 !in c.heap && r.1 in r.0.heap
    ensures r.0.heap == c.heap[r.1 := NewObject(entity, objectID)]
    ensures r.0.live == c.live + [r.1] && r.0.deleted == c.deleted
    ensures r.0.next > c.next
  {
    var h := c.next;
    (Context(c.heap[h := NewObject(entity, objectID)], h + 1, c.live + [h], c.deleted), h)
  }

  /** Appends an object to the live objects. */
  function InsertObject(c: Context, h: Handle): (r: Context)
    requires c.Valid() && h in c.heap
    ensures r.Valid() && r.live == c.live + [h] && r.heap == c.heap && r.deleted == c.deleted
  {
    c.(live := c.live + [h])
  }

  /** Schedules an object for deletion: it joins the deleted objects and its first
      occurrence leaves the live objects. */
  function DeleteObject(c: Context, h: Handle): (r: Context)
    requires c.Valid() && h in c.heap
    ensures r.Valid() && r.heap == c.heap
    ensures r.deleted == c.deleted + [h]
    ensures multiset(r.live) == multiset(c.live) - multiset{h}
    ensures forall x :: x != h ==> (x in r.live <==> x in c.live)
  {
    var live := RemoveFirst(c.live, h);
    forall i | 0 <= i < |live| ensures live[i] in c.heap {
      RemoveFirstMembership(c.live, h, live[i]);
    }
    forall x | x != h ensures x in live <==> x in c.live {
      RemoveFirstMembership(c.live, h, x);
    }
    c.(live := live, deleted := c.deleted + [h])
  }

  /** Whether some object of `objs` has changes, scanning in order. */
  function AnyHasChanges(heap: Heap, objs: seq<Handle>): (b: bool)
    requires forall i :: 0 <= i < |objs| ==> objs[i] in heap
    ensures b <==> exists i :: 0 <= i < |objs| && HasChanges(heap[objs[i]])
  {
    if |objs| == 0 then false
    else if HasChanges(heap[objs[0]]) then true
    else
      var b := AnyHasChanges(heap, objs[1..]);
      assert b ==> exists i :: 0 <= i < |objs| && HasChanges(heap[objs[i]]) by {
        if b {
          var i :| 0 <= i < |objs| - 1 && HasChanges(heap[objs[1..][i]]);
          assert objs[i + 1] == objs[1..][i];
        }
      }
      assert (exists i :: 0 <= i < |objs| && HasChanges(heap[objs[i]])) ==> b by {
        if exists i :: 0 <= i < |objs| && HasChanges(heap[objs[i]]) {
          var i :| 0 <= i < |objs| && HasChanges(heap[objs[i]]);
          assert i > 0 && objs[1..][i - 1] == objs[i];
        }
      }
      b
  }

  /** A context has changes when an object is scheduled for deletion or a live object
      has changes. */
  function ContextHasChanges(c: Context): (b: bool)
    requires c.Valid()
    ensures b <==> |c.deleted| > 0 || exists i :: 0 <= i < |c.live| && HasChanges(c.heap[c.live[i]])
  {
    if |c.deleted| > 0 then true else AnyHasChanges(c.heap, c.live)
  }

  /** The live objects with changes split, in live order, into those never stored
      (inserts) and those already stored (updates). */
  function Partition(heap: Heap, live: seq<Handle>): (r: (seq<Handle>, seq<Handle>))
    requires forall i :: 0 <= i < |live| ==> live[i] in heap
    ensures forall x :: x in r.0 <==> x in live && HasChanges(heap[x]) && heap[x].objectID == UnknownID
    ensures forall x :: x in r.1 <==> x in live && HasChanges(heap[x]) && heap[x].objectID != UnknownID
    ensures forall x :: x in live && HasChanges(heap[x]) ==> multiset(r.0)[x] + multiset(r.1)[x] == multiset(live)[x]
    ensures |r.0| + |r.1| <= |live|
  {
    if |live| == 0 then ([], [])
    else
      var x := live[0];
      var rest := Partition(heap, live[1..]);
      assert live == [x] + live[1..];
      if !HasChanges(heap[x]) then rest
      else if heap[x].objectID == UnknownID then ([x] + rest.0, rest.1)
      else (rest.0, [x] + rest.1)
  }

  /** Both lists of the partition are empty exactly when no live object has changes. */
  lemma PartitionEmptyIffClean(heap: Heap, live: seq<Handle>)
    requires forall i :: 0 <= i < |live| ==> live[i] in heap
    ensures Partition(heap, live) == ([], []) <==> !AnyHasChanges(heap, live)
  {
    var r := Partition(heap, live);
    if AnyHasChanges(heap, live) {
      var i :| 0 <= i < |live| && HasChanges(heap[live[i]]);
      assert live[i] in r.0 || live[i] in r.1;
    }
  }

  /** Whether applying `affected` commits the object `x`: it does exactly when `x` is
      reported more often than it is scheduled for deletion, since each report first
      cancels one deletion and a second commit changes nothing. */
  predicate CommitsObject(deleted: seq<Handle>, affected: seq<Handle>, x: Handle) {
    multiset(affected)[x] > multiset(deleted)[x]
  }

  /** The loop over the objects a save reports as affected, in order: an object still
      scheduled for deletion loses one occurrence there, any other is committed. It is
      stated for any `commit`, so that the commit itself stays out of the way. */
  function CommitAffected<T>(heap: map<Handle, T>, deleted: seq<Handle>, affected: seq<Handle>, commit: T -> T): (r: (map<Handle, T>, seq<Handle>))
    requires forall i :: 0 <= i < |affected| ==> affected[i] in heap
    ensures r.0.Keys == heap.Keys
    ensures multiset(r.1) == multiset(deleted) - multiset(affected)
    decreases |affected|
  {
    if |affected| == 0 then (heap, deleted)
    else
      var x := affected[0];
      var heap1 := if x in deleted then heap else heap[x := commit(heap[x])];
      var r := CommitAffected(heap1, RemoveFirst(deleted, x), affected[1..], commit);
      MultisetOfHead(affected);
      MultisetMinusTwice(multiset(deleted), multiset{x}, multiset(affected[1..]));
      r
  }

  /** After the loop, with an idempotent commit, an object is committed exactly when it
      is reported more often than it is scheduled for deletion, and is untouched
      otherwise: each report first cancels one deletion, and a second commit changes
      nothing. */
  lemma {:induction false} CommitAffectedAt<T>(heap: map<Handle, T>, deleted: seq<Handle>, affected: seq<Handle>, commit: T -> T, x: Handle)
    requires forall i :: 0 <= i < |affected| ==> affected[i] in heap
    requires forall o :: commit(commit(o)) == commit(o)
    requires x in heap
    ensures CommitAffected(heap, deleted, affected, commit).0[x]
            == if CommitsObject(deleted, affected, x) then commit(heap[x]) else heap[x]
    decreases |affected|
  {
    if |affected| > 0 {
      var y := affected[0];
      var heap1 := if y in deleted then heap else heap[y := commit(heap[y])];
      var deleted1: seq<Handle> := RemoveFirst(deleted, y);
      CommitAffectedAt(heap1, deleted1, affected[1..], commit, x);
      MultisetOfHead(affected);
      assert multiset(affected)[x] == (if x == y then 1 else 0) + multiset(affected[1..])[x];
    }
  }

  /** Applies the objects a save reports as affected: the deleted objects lose one
      occurrence per affected occurrence, and an object has its changes committed
      exactly when it is reported more often than it is deleted. */
  function ApplySaveResult(c: Context, affected: seq<Handle>): (r: Context)
    requires c.Valid() && forall i :: 0 <= i < |affected| ==> affected[i] in c.heap
    ensures r.Valid() && r.heap.Keys == c.heap.Keys && r.live == c.live && r.next == c.next
    ensures multiset(r.deleted) == multiset(c.deleted) - multiset(affected)
    ensures forall x :: x in c.heap ==>
              r.heap[x] == if CommitsObject(c.deleted, affected, x) then PersistChanges(c.heap[x]) else c.heap[x]
  {
    var (heap, deleted) := CommitAffected(c.heap, c.deleted, affected, PersistChanges);
    CommitAffectedObjects(c.heap, c.deleted, affected);
    forall i | 0 <= i < |deleted| ensures deleted[i] in c.heap {
      LeftAfterMinus(deleted, c.deleted, multiset(affected), deleted[i]);
    }
    c.(heap := heap, deleted := deleted)
  }

  /** `CommitAffected` with the commit of managed objects, for every object at once;
      it keeps every object valid. */
  lemma CommitAffectedObjects(heap: Heap, deleted: seq<Handle>, affected: seq<Handle>)
    requires HeapValid(heap) && forall i :: 0 <= i < |affected| ==> affected[i] in heap
    ensures forall x :: x in heap ==>
              CommitAffected(heap, deleted, affected, PersistChanges).0[x]
              == if CommitsObject(deleted, affected, x) then PersistChanges(heap[x]) else heap[x]
    ensures HeapValid(CommitAffected(heap, deleted, affected, PersistChanges).0)
  {
    var r := CommitAffected(heap, deleted, affected, PersistChanges).0;
    forall x | x in heap
      ensures r[x] == if CommitsObject(deleted, affected, x) then PersistChanges(heap[x]) else heap[x]
      ensures r[x].Valid()
    {
      CommitAffectedObjectAt(heap, deleted, affected, x);
    }
  }

  lemma CommitAffectedObjectAt(heap: Heap, deleted: seq<Handle>, affected: seq<Handle>, x: Handle)
    requires forall i :: 0 <= i < |affected| ==> affected[i] in heap
    requires x in heap
    ensures CommitAffected(heap, deleted, affected, PersistChanges).0[x]
            == if CommitsObject(deleted, affected, x) then PersistChanges(heap[x]) else heap[x]
  {
    forall o ensures PersistChanges(PersistChanges(o)) == PersistChanges(o) {
      PersistChangesIdempotent(o);
    }
    CommitAffectedAt(heap, deleted, affected, PersistChanges, x);
  }

  /** Whatever is left after taking a multiset away was there before. */
  lemma LeftAfterMinus<T>(a: seq<T>, b: seq<T>, m: multiset<T>, y: T)
    requires multiset(a) == multiset(b) - m && y in a
    ensures y in b
  {
    assert multiset(a)[y] > 0;
  }

  /** Every affected object that was not scheduled for deletion ends without changes,
      and every object that was not affected is left as it was. */
  lemma ApplySaveResultCleans(c: Context, affected: seq<Handle>, x: Handle)
    requires c.Valid() && x in c.heap && forall i :: 0 <= i < |affected| ==> affected[i] in c.heap
    ensures x in affected && x !in c.deleted ==> !HasChanges(ApplySaveResult(c, affected).heap[x])
    ensures x !in affected ==> ApplySaveResult(c, affected).heap[x] == c.heap[x]
  {
    assert x in affected ==> multiset(affected)[x] > 0;
    assert x !in c.deleted ==> multiset(c.deleted)[x] == 0;
  }
}

=== FILE: object_model.dfy ===
/** The managed object model: the versioned schema document, parsed into entity
    descriptions whose relationships are linked to their declared inverses. */
module ObjectModel {
  import opened Errors
  import opened Types
  import opened Values
  import opened Naming
  import opened Attributes
  import opened Entities

  /** A `<property>` element; an absent XML attribute reads as the empty text. */
  datatype PropertyNode = PropertyNode(name: string, propertyType: string, defaultValue: string)

  /** A `<relationship>` element; `inverse` is None when the attribute is absent. */
  datatype RelationshipNode = RelationshipNode(name: string, target: string, to: string, singular: string, inverse: Option<string>)

  /** An `<entity>` element with its properties and relationships in document order. */
  datatype EntityNode = EntityNode(name: string, plural: string, className: string,
                                   properties: seq<PropertyNode>, relationships: seq<RelationshipNode>)

  /** A `<model>` block of one schema version. */
  datatype ModelNode = ModelNode(version: string, entities: seq<EntityNode>)

  /** The schema document: the current version and every model block. */
  datatype ModelDocument = ModelDocument(currentVersion: string, models: seq<ModelNode>)

  /** A parsed model: its version and its entities in document order. */
  datatype Model = Model(version: string, entities: seq<Entity>)

  /** The last model block declaring version `v`: later blocks override earlier ones. */
  function LastModelWithVersion(models: seq<ModelNode>, v: string): (r: Option<ModelNode>)
    ensures r.None? <==> forall i :: 0 <= i < |models| ==> models[i].version != v
    ensures r.Some? ==> exists i :: 0 <= i < |models| && models[i] == r.value && r.value.version == v
                                   && forall j :: i < j < |models| ==> models[j].version != v
  {
    if |models| == 0 then None
    else if models[|models| - 1].version == v then Some(models[|models| - 1])
    else
      var r := LastModelWithVersion(models[..|models| - 1], v);
      LastModelStep(models, v, r);
      r
  }

  lemma LastModelStep(models: seq<ModelNode>, v: string, r: Option<ModelNode>)
    requires |models| > 0 && models[|models| - 1].version != v
    requires var init := models[..|models| - 1];
      && (r.None? <==> forall i :: 0 <= i < |init| ==> init[i].version != v)
      && (r.Some? ==> exists i :: 0 <= i < |init| && init[i] == r.value && r.value.version == v
                                 && forall j :: i < j < |init| ==> init[j].version != v)
    ensures r.None? <==> forall i :: 0 <= i < |models| ==> models[i].version != v
    ensures r.Some? ==> exists i :: 0 <= i < |models| && models[i] == r.value && r.value.version == v
                                   && forall j :: i < j < |models| ==> models[j].version != v
  {
    var init := models[..|models| - 1];
    assert forall i :: 0 <= i < |init| ==> init[i] == models[i];
    if r.Some? {
      var i :| 0 <= i < |init| && init[i] == r.value && r.value.version == v
               && forall j :: i < j < |init| ==> init[j].version != v;
      assert models[i] == r.value;
      assert forall j :: i < j < |models| ==> models[j].version != v by {
        forall j | i < j < |models| ensures models[j].version != v {
          if j < |init| { assert init[j] == models[j]; }
        }
      }
    }
  }

  /** A property element: its type is read from the type attribute, so an element
      without one has the unknown type and is rejected; its default is coerced to the
      type, except that a Binary property never has a default. */
  function ParseProperty(entityName: string, node: PropertyNode, rt: Runtime): (r: Result<Attribute>)
    ensures r.Ok? <==> PropertyTypeFromString(node.propertyType) != Unknown
    ensures r.Err? ==> r.error.ModelParseError?
    ensures r.Ok? ==> r.value.Property? && r.value.entityName == entityName && r.value.name == node.name
                      && r.value.propertyType == PropertyTypeFromString(node.propertyType)
    ensures r.Ok? ==> (r.value.defaultValue.None? <==> r.value.propertyType == Binary)
    ensures r.Ok? && r.value.defaultValue.Some? ==> AcceptsValue(r.value.propertyType, r.value.defaultValue.value)
  {
    var p := SetType(NewProperty(entityName, node.name), PropertyTypeFromString(node.propertyType));
    match p.propertyType
    case Unknown => Err(ModelParseError("Invalid data type '" + StringFromPropertyType(p.propertyType) + "'"))
    case Binary => Ok(SetDefaultValue(p, None))
    case _ => Ok(SetDefaultValue(p, CoerceText(p.propertyType, node.defaultValue, rt)))
  }

  /** A relationship element, not yet linked: it is ToMany exactly when its `to`
      attribute reads "many" in any letter case, and its singular name is always set. */
  function ParseRelationship(entityName: string, node: RelationshipNode): (r: Attribute)
    ensures r.Relationship? && r.entityName == entityName && r.name == node.name && r.target == node.target
    ensures r.to == Many <==> ToLower(node.to) == "many"
    ensures r.singular == Some(node.singular)
    ensures r.inverse.None?
  {
    var rel := NewRelationship(entityName, node.name, node.target);
    rel.(singular := Some(node.singular), to := if ToLower(node.to) == "many" then Many else One)
  }

  function ParseProperties(entityName: string, nodes: seq<PropertyNode>, rt: Runtime): (r: Result<seq<Attribute>>)
    ensures r.Ok? <==> forall i :: 0 <= i < |nodes| ==> PropertyTypeFromString(nodes[i].propertyType) != Unknown
    ensures r.Err? ==> r.error.ModelParseError?
    ensures r.Ok? ==> |r.value| == |nodes| && forall i :: 0 <= i < |nodes| ==> Ok(r.value[i]) == ParseProperty(entityName, nodes[i], rt)
  {
    if |nodes| == 0 then Ok([])
    else
      var p :- ParseProperty(entityName, nodes[0], rt);
      var ps :- ParseProperties(entityName, nodes[1..], rt);
      assert forall i :: 1 <= i < |nodes| ==> nodes[1..][i - 1] == nodes[i];
      Ok([p] + ps)
  }

  function ParseRelationships(entityName: string, nodes: seq<RelationshipNode>): (r: seq<Attribute>)
    ensures |r| == |nodes| && forall i :: 0 <= i < |nodes| ==> r[i] == ParseRelationship(entityName, nodes[i])
  {
    if |nodes| == 0 then [] else [ParseRelationship(entityName, nodes[0])] + ParseRelationships(entityName, nodes[1..])
  }

  /** An entity element: its properties, then its relationships, in document order. */
  function ParseEntity(node: EntityNode, rt: Runtime): (r: Result<Entity>)
    ensures r.Ok? <==> forall i :: 0 <= i < |node.properties| ==> PropertyTypeFromString(node.properties[i].propertyType) != Unknown
    ensures r.Err? ==> r.error.ModelParseError?
    ensures r.Ok? ==> r.value.name == node.name && r.value.plural == node.plural && r.value.className == node.className
    ensures r.Ok? ==> |r.value.attributes| == |node.properties| + |node.relationships|
    ensures r.Ok? ==> forall j :: 0 <= j < |node.relationships| ==>
                        r.value.attributes[|node.properties| + j] == ParseRelationship(node.name, node.relationships[j])
  {
    var props :- ParseProperties(node.name, node.properties, rt);
    Ok(Entity(node.name, node.plural, node.className, props + ParseRelationships(node.name, node.relationships)))
  }

  /** A relationship waiting to be linked: the entity and attribute positions and the
      declared inverse name. */
  datatype PendingLink = PendingLink(entityIndex: nat, attributeIndex: nat, inverseName: string)

  /** The links queued for one entity element, in relationship order; `offset` is the
      position of the element's first relationship among the entity's attributes. */
  function LinksOf(i: nat, offset: nat, nodes: seq<RelationshipNode>): (q: seq<PendingLink>)
    decreases |nodes|
    ensures forall k :: 0 <= k < |q| ==> q[k].entityIndex == i && offset <= q[k].attributeIndex < offset + |nodes|
                                         && nodes[q[k].attributeIndex - offset].inverse == Some(q[k].inverseName)
  {
    if |nodes| == 0 then []
    else
      var rest := LinksOf(i, offset + 1, nodes[1..]);
      assert forall k :: 0 <= k < |rest| ==> nodes[rest[k].attributeIndex - offset] == nodes[1..][rest[k].attributeIndex - (offset + 1)];
      if nodes[0].inverse.Some? then [PendingLink(i, offset, nodes[0].inverse.value)] + rest else rest
  }

  /** A queued link refers to a relationship element of the entity elements (whose
      first element has position `start`) that declares an inverse by that name. */
  predicate LinkFromNodes(nodes: seq<EntityNode>, start: nat, q: PendingLink) {
    start <= q.entityIndex < start + |nodes|
    && |nodes[q.entityIndex - start].properties| <= q.attributeIndex
    && q.attributeIndex - |nodes[q.entityIndex - start].properties| < |nodes[q.entityIndex - start].relationships|
    && nodes[q.entityIndex - start].relationships[q.attributeIndex - |nodes[q.entityIndex - start].properties|].inverse
       == Some(q.inverseName)
  }

  /** The entities of a model block, with the queue of links to make afterwards. */
  function ParseEntities(nodes: seq<EntityNode>, start: nat, rt: Runtime): (r: Result<(seq<Entity>, seq<PendingLink>)>)
    ensures r.Err? ==> r.error.ModelParseError?
    ensures r.Ok? ==> |r.value.0| == |nodes|
    ensures r.Ok? ==> forall i :: 0 <= i < |nodes| ==> ParseEntity(nodes[i], rt) == Ok(r.value.0[i])
    ensures r.Ok? ==> forall k :: 0 <= k < |r.value.1| ==> LinkFromNodes(nodes, start, r.value.1[k])
  {
    if |nodes| == 0 then Ok(([], []))
    else
      var e :- ParseEntity(nodes[0], rt);
      var rest :- ParseEntities(nodes[1..], start + 1, rt);
      var q := LinksOf(start, |nodes[0].properties|, nodes[0].relationships);
      ParseEntitiesStep(nodes, start, rt, e, rest.0, q, rest.1);
      Ok(([e] + rest.0, q + rest.1))
  }

  lemma ParseEntitiesStep(nodes: seq<EntityNode>, start: nat, rt: Runtime, e: Entity,
                          es: seq<Entity>, q: seq<PendingLink>, links: seq<PendingLink>)
    requires |nodes| > 0 && ParseEntity(nodes[0], rt) == Ok(e) && |es| == |nodes| - 1
    requires q == LinksOf(start, |nodes[0].properties|, nodes[0].relationships)
    requires forall i :: 0 <= i < |nodes| - 1 ==> ParseEntity(nodes[1..][i], rt) == Ok(es[i])
    requires forall k :: 0 <= k < |links| ==> LinkFromNodes(nodes[1..], start + 1, links[k])
    ensures forall i :: 0 <= i < |nodes| ==> ParseEntity(nodes[i], rt) == Ok(([e] + es)[i])
    ensures forall k :: 0 <= k < |q + links| ==> LinkFromNodes(nodes, start, (q + links)[k])
  {
    ParsedEntitiesShift(nodes, rt, e, es);
    ParsedLinksShift(nodes, start, q, links);
  }

  lemma ParsedEntitiesShift(nodes: seq<EntityNode>, rt: Runtime, e: Entity, es: seq<Entity>)
    requires |nodes| > 0 && ParseEntity(nodes[0], rt) == Ok(e) && |es| == |nodes| - 1
    requires forall i :: 0 <= i < |nodes| - 1 ==> ParseEntity(nodes[1..][i], rt) == Ok(es[i])
    ensures forall i :: 0 <= i < |nodes| ==> ParseEntity(nodes[i], rt) == Ok(([e] + es)[i])
  {
    PairwiseShift((n, x) => ParseEntity(n, rt) == Ok(x), nodes, [e] + es);
  }

  /** A relation that holds between the heads and pointwise between the tails holds
      pointwise. */
  lemma PairwiseShift<A, B>(p: (A, B) -> bool, xs: seq<A>, ys: seq<B>)
    requires |xs| > 0 && |ys| == |xs| && p(xs[0], ys[0])
    requires forall i :: 0 <= i < |xs| - 1 ==> p(xs[1..][i], ys[1..][i])
    ensures forall i :: 0 <= i < |xs| ==> p(xs[i], ys[i])
  {
    forall i | 1 <= i < |xs| ensures p(xs[i], ys[i]) {
      assert xs[1..][i - 1] == xs[i] && ys[1..][i - 1] == ys[i];
    }
  }

  lemma ParsedLinksShift(nodes: seq<EntityNode>, start: nat, q: seq<PendingLink>, links: seq<PendingLink>)
    requires |nodes| > 0 && q == LinksOf(start, |nodes[0].properties|, nodes[0].relationships)
    requires forall k :: 0 <= k < |links| ==> LinkFromNodes(nodes[1..], start + 1, links[k])
    ensures forall k :: 0 <= k < |q + links| ==> LinkFromNodes(nodes, start, (q + links)[k])
  {
    LinksFromNodesShift(nodes, start, links);
    LinksOfFromNodes(nodes, start, q);
    var all := q + links;
    forall k | 0 <= k < |all| ensures LinkFromNodes(nodes, start, all[k]) {
      if k >= |q| { assert all[k] == links[k - |q|]; }
    }
  }

  lemma LinksOfFromNodes(nodes: seq<EntityNode>, start: nat, q: seq<PendingLink>)
    requires |nodes| > 0 && q == LinksOf(start, |nodes[0].properties|, nodes[0].relationships)
    ensures forall k :: 0 <= k < |q| ==> LinkFromNodes(nodes, start, q[k])
  {
  }

  lemma LinksFromNodesShift(nodes: seq<EntityNode>, start: nat, q: seq<PendingLink>)
    requires |nodes| > 0
    requires forall k :: 0 <= k < |q| ==> LinkFromNodes(nodes[1..], start + 1, q[k])
    ensures forall k :: 0 <= k < |q| ==> LinkFromNodes(nodes, start, q[k])
  {
    forall k | 0 <= k < |q| ensures LinkFromNodes(nodes, start, q[k]) {
      assert nodes[1..][q[k].entityIndex - (start + 1)] == nodes[q[k].entityIndex - start];
    }
  }

  /** The first entity whose name or plural is `name`. */
  function EntityWithName(entities: seq<Entity>, name: string): (r: Option<Entity>)
    ensures r.None? <==> forall i :: 0 <= i < |entities| ==> entities[i].name != name && entities[i].plural != name
    ensures r.Some? ==> exists i :: 0 <= i < |entities| && entities[i] == r.value && (r.value.name == name || r.value.plural == name)
                                   && forall j :: 0 <= j < i ==> entities[j].name != name && entities[j].plural != name
  {
    if |entities| == 0 then None
    else if entities[0].name == name || entities[0].plural == name then Some(entities[0])
    else
      var r := EntityWithName(entities[1..], name);
      assert forall i :: 1 <= i < |entities| ==> entities[1..][i - 1] == entities[i];
      r
  }

  /** A queued position names a relationship of the entity list. */
  predicate LinkFits(entities: seq<Entity>, q: PendingLink) {
    q.entityIndex < |entities| && q.attributeIndex < |entities[q.entityIndex].attributes|
    && entities[q.entityIndex].attributes[q.attributeIndex].Relationship?
  }

  predicate QueueFits(entities: seq<Entity>, queue: seq<PendingLink>) {
    forall k :: 0 <= k < |queue| ==> LinkFits(entities, queue[k])
  }

  /** Two entity lists that differ at most in the inverses their relationships record. */
  predicate SameShape(a: seq<Entity>, b: seq<Entity>) {
    |a| == |b| && forall i :: 0 <= i < |a| ==>
      a[i].name == b[i].name && a[i].plural == b[i].plural && a[i].className == b[i].className
      && |a[i].attributes| == |b[i].attributes|
      && forall j :: 0 <= j < |a[i].attributes| ==>
           (a[i].attributes[j] == b[i].attributes[j]
            || (a[i].attributes[j].Relationship? && b[i].attributes[j].Relationship?
                && a[i].attributes[j].(inverse := None) == b[i].attributes[j].(inverse := None)))
  }

  /** Links one queued relationship to the relationship its target entity has under
      the declared inverse name. The target entity or that relationship missing is a
      parse error. Only the declaring relationship changes. */
  function LinkOne(entities: seq<Entity>, q: PendingLink): (r: Result<seq<Entity>>)
    requires LinkFits(entities, q)
    ensures r.Err? <==> (var rel := entities[q.entityIndex].attributes[q.attributeIndex];
                         EntityWithName(entities, rel.target).None?
                         || RelationshipWithName(EntityWithName(entities, rel.target).value, q.inverseName).None?)
    ensures r.Err? ==> r.error.ModelParseError?
    ensures r.Ok? ==> SameShape(entities, r.value)
    ensures r.Ok? ==> var rel := entities[q.entityIndex].attributes[q.attributeIndex];
                      var inv := RelationshipWithName(EntityWithName(entities, rel.target).value, q.inverseName).value;
                      r.value[q.entityIndex].attributes[q.attributeIndex] == SetInverse(rel, inv)
    ensures r.Ok? ==> forall i, j :: 0 <= i < |entities| && 0 <= j < |entities[i].attributes| && (i, j) != (q.entityIndex, q.attributeIndex)
                        ==> r.value[i].attributes[j] == entities[i].attributes[j]
  {
    var e := entities[q.entityIndex];
    var rel := e.attributes[q.attributeIndex];
    match EntityWithName(entities, rel.target)
    case None => Err(ModelParseError("[" + e.name + "->" + rel.name + "] Inverse relationship's entity named '" + rel.target
                                     + "' not defined in this model version"))
    case Some(target) =>
      match RelationshipWithName(target, q.inverseName)
      case None => Err(ModelParseError("Could not find the relationship named '" + q.inverseName + "' in entity '" + rel.target + "'"))
      case Some(inv) =>
        var rel' := SetInverse(rel, inv);
        assert rel'.(inverse := None) == rel.(inverse := None);
        Ok(ReplaceAttribute(entities, q.entityIndex, q.attributeIndex, rel'))
  }

  /** The entity list with one attribute replaced. */
  function ReplaceAttribute(entities: seq<Entity>, i: nat, j: nat, a: Attribute): (r: seq<Entity>)
    requires i < |entities| && j < |entities[i].attributes|
    ensures |r| == |entities|
    ensures forall i' :: 0 <= i' < |entities| ==> |r[i'].attributes| == |entities[i'].attributes|
    ensures r[i].attributes[j] == a
    ensures forall i', j' :: 0 <= i' < |entities| && 0 <= j' < |entities[i'].attributes| && (i', j') != (i, j)
              ==> r[i'].attributes[j'] == entities[i'].attributes[j']
    ensures (entities[i].attributes[j].Relationship? && a.Relationship?
             && entities[i].attributes[j].(inverse := None) == a.(inverse := None)) ==> SameShape(entities, r)
  {
    var e := entities[i];
    entities[i := e.(attributes := e.attributes[j := a])]
  }

  lemma SameShapeTransitive(a: seq<Entity>, b: seq<Entity>, c: seq<Entity>)
    requires SameShape(a, b) && SameShape(b, c)
    ensures SameShape(a, c)
  {
  }

  /** Entity lists of the same shape have relationships at the same positions. */
  lemma SameShapeKeepsFit(a: seq<Entity>, b: seq<Entity>, queue: seq<PendingLink>)
    requires SameShape(a, b) && QueueFits(a, queue)
    ensures QueueFits(b, queue)
  {
    forall k | 0 <= k < |queue| ensures LinkFits(b, queue[k]) {
      assert LinkFits(a, queue[k]);
    }
  }

  /** The relationship at a queued position records an inverse. */
  predicate LinkedAt(entities: seq<Entity>, q: PendingLink) {
    LinkFits(entities, q) && entities[q.entityIndex].attributes[q.attributeIndex].inverse.Some?
  }

  /** Makes every queued link in order; the first failing one aborts the parse. After
      a successful walk every queued relationship records an inverse, and one that
      already recorded an inverse still does. */
  function LinkAll(entities: seq<Entity>, queue: seq<PendingLink>): (r: Result<seq<Entity>>)
    requires QueueFits(entities, queue)
    decreases |queue|
    ensures r.Err? ==> r.error.ModelParseError?
    ensures r.Ok? ==> SameShape(entities, r.value)
    ensures r.Ok? ==> forall k :: 0 <= k < |queue| ==> LinkedAt(r.value, queue[k])
    ensures r.Ok? ==> forall q :: LinkedAt(entities, q) ==> LinkedAt(r.value, q)
  {
    if |queue| == 0 then Ok(entities)
    else
      var next :- LinkOne(entities, queue[0]);
      SameShapeKeepsFit(entities, next, queue[1..]);
      var r :- LinkAll(next, queue[1..]);
      SameShapeTransitive(entities, next, r);
      LinkAllInduction(entities, queue, next, r);
      Ok(r)
  }

  lemma LinkAllInduction(entities: seq<Entity>, queue: seq<PendingLink>, next: seq<Entity>, r: seq<Entity>)
    requires |queue| > 0 && LinkFits(entities, queue[0]) && LinkOne(entities, queue[0]) == Ok(next)
    requires forall k :: 0 <= k < |queue| - 1 ==> LinkedAt(r, queue[1..][k])
    requires forall q :: LinkedAt(next, q) ==> LinkedAt(r, q)
    ensures forall k :: 0 <= k < |queue| ==> LinkedAt(r, queue[k])
    ensures forall q :: LinkedAt(entities, q) ==> LinkedAt(r, q)
  {
    LinkOneLinks(entities, queue[0]);
    forall q | LinkedAt(entities, q) ensures LinkedAt(r, q) {
      LinkOneKeeps(entities, queue[0], q);
    }
    forall k | 0 <= k < |queue| ensures LinkedAt(r, queue[k]) {
      if k > 0 { assert queue[k] == queue[1..][k - 1]; }
    }
  }

  lemma LinkOneLinks(entities: seq<Entity>, q: PendingLink)
    requires LinkFits(entities, q) && LinkOne(entities, q).Ok?
    ensures LinkedAt(LinkOne(entities, q).value, q)
  {
  }

  lemma LinkOneKeeps(entities: seq<Entity>, p: PendingLink, q: PendingLink)
    requires LinkFits(entities, p) && LinkOne(entities, p).Ok? && LinkedAt(entities, q)
    ensures LinkedAt(LinkOne(entities, p).value, q)
  {
  }

  /** Linking a successful queue amounts to linking its head, then its tail. */
  lemma LinkAllStep(entities: seq<Entity>, queue: seq<PendingLink>)
    requires QueueFits(entities, queue) && |queue| > 0 && LinkAll(entities, queue).Ok?
    ensures LinkOne(entities, queue[0]).Ok?
    ensures QueueFits(LinkOne(entities, queue[0]).value, queue[1..])
    ensures LinkAll(entities, queue) == LinkAll(LinkOne(entities, queue[0]).value, queue[1..])
  {
    SameShapeKeepsFit(entities, LinkOne(entities, queue[0]).value, queue[1..]);
  }

  /** Linking changes only the relationships in the queue. */
  lemma {:induction false} LinkAllTouchesOnlyQueued(entities: seq<Entity>, queue: seq<PendingLink>, i: nat, j: nat)
    requires QueueFits(entities, queue) && LinkAll(entities, queue).Ok?
    requires i < |entities| && j < |entities[i].attributes|
    requires forall k :: 0 <= k < |queue| ==> (queue[k].entityIndex, queue[k].attributeIndex) != (i, j)
    ensures LinkAll(entities, queue).value[i].attributes[j] == entities[i].attributes[j]
    decreases |queue|
  {
    if |queue| > 0 {
      LinkAllStep(entities, queue);
      var next := LinkOne(entities, queue[0]).value;
      var q0 := queue[0];
      assert (q0.entityIndex, q0.attributeIndex) != (i, j);
      assert next[i].attributes[j] == entities[i].attributes[j];
      var rest := queue[1..];
      assert forall k :: 0 <= k < |rest| ==> (rest[k].entityIndex, rest[k].attributeIndex) != (i, j) by {
        forall k | 0 <= k < |rest| ensures (rest[k].entityIndex, rest[k].attributeIndex) != (i, j) {
          assert rest[k] == queue[k + 1];
        }
      }
      LinkAllTouchesOnlyQueued(next, rest, i, j);
    }
  }

  /** Parses the schema document for a version: the explicit version if one is given,
      otherwise the document's current version. */
  function Parse(doc: ModelDocument, version: Option<string>, rt: Runtime): (r: Result<Model>)
    ensures r.Ok? ==> r.value.version == (if version.Some? then version.value else doc.currentVersion)
    ensures r == Err(ModelVersionNotFound) <==>
              forall i :: 0 <= i < |doc.models| ==> doc.models[i].version != (if version.Some? then version.value else doc.currentVersion)
    ensures r.Err? && r.error != ModelVersionNotFound ==> r.error.ModelParseError?
  {
    var v := if version.Some? then version.value else doc.currentVersion;
    var block :- match LastModelWithVersion(doc.models, v)
                 case None => Err(ModelVersionNotFound)
                 case Some(b) => Ok(b);
    var parsed :- ParseEntities(block.entities, 0, rt);
    ParsedQueueFits(block.entities, rt, parsed);
    var linked :- LinkAll(parsed.0, parsed.1);
    Ok(Model(v, linked))
  }

  /** The entity a parse makes from an entity element: the element's names, its
      properties as parsed, then its relationships as parsed, each recording an inverse
      exactly when the element declares one. */
  predicate EntityFromNode(e: Entity, node: EntityNode, rt: Runtime) {
    e.name == node.name && e.plural == node.plural && e.className == node.className
    && |e.attributes| == |node.properties| + |node.relationships|
    && (forall j :: 0 <= j < |node.properties| ==> Ok(e.attributes[j]) == ParseProperty(node.name, node.properties[j], rt))
    && (forall j :: 0 <= j < |node.relationships| ==>
          RelationshipFromNode(e.attributes[|node.properties| + j], node.name, node.relationships[j]))
  }

  /** A relationship as parsed from its element, recording an inverse exactly when the
      element declares one. */
  predicate RelationshipFromNode(a: Attribute, entityName: string, node: RelationshipNode) {
    a.Relationship? && a.(inverse := None) == ParseRelationship(entityName, node) && (a.inverse.Some? <==> node.inverse.Some?)
  }

  /** A parsed model holds one entity per entity element of the block with the chosen
      version, in document order, each made from its element and linked to the
      inverses the element declares. */
  lemma ParsedEntitiesFollowBlock(doc: ModelDocument, version: Option<string>, rt: Runtime)
    requires Parse(doc, version, rt).Ok?
    ensures LastModelWithVersion(doc.models, if version.Some? then version.value else doc.currentVersion).Some?
    ensures var block := LastModelWithVersion(doc.models, if version.Some? then version.value else doc.currentVersion).value;
            var m := Parse(doc, version, rt).value;
            |m.entities| == |block.entities|
            && forall i :: 0 <= i < |block.entities| ==> EntityFromNode(m.entities[i], block.entities[i], rt)
  {
    var v := if version.Some? then version.value else doc.currentVersion;
    var block := LastModelWithVersion(doc.models, v).value;
    var parsed := ParseEntities(block.entities, 0, rt).value;
    ParsedQueueFits(block.entities, rt, parsed);
    var linked := LinkAll(parsed.0, parsed.1).value;
    assert Parse(doc, version, rt).value.entities == linked;
    ParseEntitiesQueue(block.entities, 0, rt);
    forall i | 0 <= i < |block.entities|
      ensures EntityFromNode(linked[i], block.entities[i], rt)
    {
      BlockQueuedFor(block.entities, parsed.1, i);
      LinkedEntityFromNode(parsed.0, parsed.1, block.entities[i], i, rt);
    }
  }

  /** The queue holds a link at a relationship of element `node`, the entity at
      position `i`, exactly when that relationship declares an inverse. */
  ghost predicate QueuedFor(queue: seq<PendingLink>, i: nat, node: EntityNode) {
    (forall k :: 0 <= k < |queue| && queue[k].entityIndex == i ==>
       |node.properties| <= queue[k].attributeIndex < |node.properties| + |node.relationships|
       && node.relationships[queue[k].attributeIndex - |node.properties|].inverse.Some?)
    && (forall j :: DeclaresInverse(node, j) ==>
          exists k :: 0 <= k < |queue| && queue[k].entityIndex == i && queue[k].attributeIndex == |node.properties| + j)
  }

  /** The relationship element at position `j` of `node` declares an inverse. */
  predicate DeclaresInverse(node: EntityNode, j: int) {
    0 <= j < |node.relationships| && node.relationships[j].inverse.Some?
  }

  /** The queue of a block holds a link for each element's relationship that declares
      an inverse, and for no other. */
  lemma BlockQueuedFor(nodes: seq<EntityNode>, queue: seq<PendingLink>, i: nat)
    requires i < |nodes| && queue == Queue(nodes, 0)
    requires forall k :: 0 <= k < |queue| ==> LinkFromNodes(nodes, 0, queue[k])
    ensures QueuedFor(queue, i, nodes[i])
  {
    BlockQueuedOnlyDeclared(nodes, queue, i);
    BlockQueuedEveryDeclared(nodes, queue, i);
  }

  /** Every link of a block's queue for entity `i` sits at a relationship that declares an inverse. */
  lemma BlockQueuedOnlyDeclared(nodes: seq<EntityNode>, queue: seq<PendingLink>, i: nat)
    requires i < |nodes|
    requires forall k :: 0 <= k < |queue| ==> LinkFromNodes(nodes, 0, queue[k])
    ensures forall k :: 0 <= k < |queue| && queue[k].entityIndex == i ==>
              |nodes[i].properties| <= queue[k].attributeIndex < |nodes[i].properties| + |nodes[i].relationships|
              && nodes[i].relationships[queue[k].attributeIndex - |nodes[i].properties|].inverse.Some?
  {
    forall k | 0 <= k < |queue| && queue[k].entityIndex == i
      ensures |nodes[i].properties| <= queue[k].attributeIndex < |nodes[i].properties| + |nodes[i].relationships|
              && nodes[i].relationships[queue[k].attributeIndex - |nodes[i].properties|].inverse.Some?
    {
      LinkAtNode(nodes, queue[k], i);
    }
  }

  /** Every relationship of entity `i` that declares an inverse has a link in the block's queue. */
  lemma BlockQueuedEveryDeclared(nodes: seq<EntityNode>, queue: seq<PendingLink>, i: nat)
    requires i < |nodes| && queue == Queue(nodes, 0)
    ensures forall j :: DeclaresInverse(nodes[i], j) ==>
              exists k :: 0 <= k < |queue| && queue[k].entityIndex == i && queue[k].attributeIndex == |nodes[i].properties| + j
  {
    var node := nodes[i];
    forall j | DeclaresInverse(node, j)
      ensures exists k :: 0 <= k < |queue| && queue[k].entityIndex == i && queue[k].attributeIndex == |node.properties| + j
    {
      var k := QueueHolds(nodes, 0, i, j);
      assert queue[k].entityIndex == i && queue[k].attributeIndex == |node.properties| + j;
    }
  }

  /** A link of a block's queue naming entity `i` sits at a relationship of that
      entity's element that declares an inverse. */
  lemma LinkAtNode(nodes: seq<EntityNode>, q: PendingLink, i: nat)
    requires LinkFromNodes(nodes, 0, q) && q.entityIndex == i
    ensures i < |nodes|
    ensures |nodes[i].properties| <= q.attributeIndex < |nodes[i].properties| + |nodes[i].relationships|
            && nodes[i].relationships[q.attributeIndex - |nodes[i].properties|].inverse.Some?
  {
  }

  /** One entity of a parsed and linked block is made from its element. */
  lemma LinkedEntityFromNode(es: seq<Entity>, queue: seq<PendingLink>, node: EntityNode, i: nat, rt: Runtime)
    requires i < |es| && ParseEntity(node, rt) == Ok(es[i])
    requires QueuedFor(queue, i, node)
    requires QueueFits(es, queue) && LinkAll(es, queue).Ok?
    ensures EntityFromNode(LinkAll(es, queue).value[i], node, rt)
  {
    LinkedEntityProperties(es, queue, node, i, rt);
    var linked := LinkAll(es, queue).value;
    forall j | 0 <= j < |node.relationships|
      ensures RelationshipFromNode(linked[i].attributes[|node.properties| + j], node.name, node.relationships[j])
    {
      LinkedRelationshipFromNode(es, queue, node, i, j, rt);
    }
  }

  /** Linking keeps the names and the properties of an entity made from its element. */
  lemma LinkedEntityProperties(es: seq<Entity>, queue: seq<PendingLink>, node: EntityNode, i: nat, rt: Runtime)
    requires i < |es| && ParseEntity(node, rt) == Ok(es[i])
    requires QueueFits(es, queue) && LinkAll(es, queue).Ok?
    ensures var e := LinkAll(es, queue).value[i];
            e.name == node.name && e.plural == node.plural && e.className == node.className
            && |e.attributes| == |node.properties| + |node.relationships|
            && forall j :: 0 <= j < |node.properties| ==> Ok(e.attributes[j]) == ParseProperty(node.name, node.properties[j], rt)
  {
    var linked := LinkAll(es, queue).value;
    var e := es[i];
    ParseEntityProperties(node, rt);
    assert SameShape(es, linked);
    forall j | 0 <= j < |node.properties|
      ensures Ok(linked[i].attributes[j]) == ParseProperty(node.name, node.properties[j], rt)
    {
      assert e.attributes[j].Property?;
    }
  }

  /** One relationship of a parsed and linked block is its element's, recording an
      inverse exactly when the element declares one. */
  lemma LinkedRelationshipFromNode(es: seq<Entity>, queue: seq<PendingLink>, node: EntityNode, i: nat, j: nat, rt: Runtime)
    requires i < |es| && ParseEntity(node, rt) == Ok(es[i]) && j < |node.relationships|
    requires QueuedFor(queue, i, node)
    requires QueueFits(es, queue) && LinkAll(es, queue).Ok?
    ensures RelationshipFromNode(LinkAll(es, queue).value[i].attributes[|node.properties| + j], node.name, node.relationships[j])
  {
    var n := |node.properties|;
    QueuedForAt(queue, i, node, j);
    assert es[i].attributes[n + j] == ParseRelationship(node.name, node.relationships[j]);
    LinkAllInverseIffQueued(es, queue, i, n + j);
  }

  lemma QueuedForAt(queue: seq<PendingLink>, i: nat, node: EntityNode, j: nat)
    requires QueuedFor(queue, i, node) && j < |node.relationships|
    ensures (exists k :: 0 <= k < |queue| && queue[k].entityIndex == i && queue[k].attributeIndex == |node.properties| + j)
            <==> node.relationships[j].inverse.Some?
  {
    var n := |node.properties|;
    if exists k :: 0 <= k < |queue| && queue[k].entityIndex == i && queue[k].attributeIndex == n + j {
      var k :| 0 <= k < |queue| && queue[k].entityIndex == i && queue[k].attributeIndex == n + j;
      assert node.relationships[queue[k].attributeIndex - n].inverse.Some?;
    } else {
      assert !DeclaresInverse(node, j);
    }
  }

  /** After linking, a relationship that recorded no inverse records one exactly when
      its position is queued, and is otherwise unchanged. */
  lemma LinkAllInverseIffQueued(entities: seq<Entity>, queue: seq<PendingLink>, i: nat, j: nat)
    requires QueueFits(entities, queue) && LinkAll(entities, queue).Ok?
    requires i < |entities| && j < |entities[i].attributes|
    requires entities[i].attributes[j].Relationship? && entities[i].attributes[j].inverse.None?
    ensures var a := LinkAll(entities, queue).value[i].attributes[j];
            a.Relationship? && a.(inverse := None) == entities[i].attributes[j]
            && (a.inverse.Some? <==> exists k :: 0 <= k < |queue| && queue[k].entityIndex == i && queue[k].attributeIndex == j)
  {
    var linked := LinkAll(entities, queue).value;
    assert SameShape(entities, linked);
    var a0 := entities[i].attributes[j];
    assert a0.(inverse := None) == a0;
    if exists k :: 0 <= k < |queue| && queue[k].entityIndex == i && queue[k].attributeIndex == j {
      var k :| 0 <= k < |queue| && queue[k].entityIndex == i && queue[k].attributeIndex == j;
      assert LinkedAt(linked, queue[k]);
    } else {
      LinkAllTouchesOnlyQueued(entities, queue, i, j);
    }
  }

  /** A parsed entity holds its element's properties, as parsed, in front. */
  lemma ParseEntityProperties(node: EntityNode, rt: Runtime)
    requires ParseEntity(node, rt).Ok?
    ensures forall j :: 0 <= j < |node.properties| ==>
              Ok(ParseEntity(node, rt).value.attributes[j]) == ParseProperty(node.name, node.properties[j], rt)
  {
    var props := ParseProperties(node.name, node.properties, rt).value;
    assert ParseEntity(node, rt).value.attributes == props + ParseRelationships(node.name, node.relationships);
  }

  /** Every relationship element that declares an inverse is queued for linking; `k`
      is its place in the queue. */
  lemma {:induction false} LinksOfQueues(i: nat, offset: nat, nodes: seq<RelationshipNode>, j: nat) returns (k: nat)
    requires j < |nodes| && nodes[j].inverse.Some?
    ensures k < |LinksOf(i, offset, nodes)| && LinksOf(i, offset, nodes)[k] == PendingLink(i, offset + j, nodes[j].inverse.value)
    decreases |nodes|
  {
    if j == 0 {
      k := 0;
    } else {
      assert nodes[1..][j - 1] == nodes[j];
      var k' := LinksOfQueues(i, offset + 1, nodes[1..], j - 1);
      k := if nodes[0].inverse.Some? then k' + 1 else k';
    }
  }

  /** The links a block of entity elements queues: each element's, in order. */
  function Queue(nodes: seq<EntityNode>, start: nat): seq<PendingLink>
    decreases |nodes|
  {
    if |nodes| == 0 then [] else LinksOf(start, |nodes[0].properties|, nodes[0].relationships) + Queue(nodes[1..], start + 1)
  }

  /** Parsing entity elements queues exactly their links. */
  lemma {:induction false} ParseEntitiesQueue(nodes: seq<EntityNode>, start: nat, rt: Runtime)
    requires ParseEntities(nodes, start, rt).Ok?
    ensures ParseEntities(nodes, start, rt).value.1 == Queue(nodes, start)
    decreases |nodes|
  {
    if |nodes| > 0 {
      var rest := ParseEntitiesTail(nodes, start, rt);
      ParseEntitiesQueue(nodes[1..], start + 1, rt);
    }
  }

  /** Every relationship element of every entity element that declares an inverse is
      queued for linking, at its entity's and attribute's positions; `k` is its place in
      the queue. */
  lemma {:induction false} QueueHolds(nodes: seq<EntityNode>, start: nat, i: nat, j: nat) returns (k: nat)
    requires i < |nodes| && j < |nodes[i].relationships| && nodes[i].relationships[j].inverse.Some?
    ensures k < |Queue(nodes, start)|
    ensures Queue(nodes, start)[k] == PendingLink(start + i, |nodes[i].properties| + j, nodes[i].relationships[j].inverse.value)
    decreases |nodes|
  {
    var q := LinksOf(start, |nodes[0].properties|, nodes[0].relationships);
    var rest := Queue(nodes[1..], start + 1);
    assert Queue(nodes, start) == q + rest;
    if i == 0 {
      k := LinksOfQueues(start, |nodes[0].properties|, nodes[0].relationships, j);
      assert (q + rest)[k] == q[k];
    } else {
      assert nodes[1..][i - 1] == nodes[i];
      var k' := QueueHolds(nodes[1..], start + 1, i - 1, j);
      k := |q| + k';
      assert (q + rest)[k] == rest[k'];
    }
  }

  /** A successful parse of several entity elements queues the first element's links,
      then the rest's. */
  lemma ParseEntitiesTail(nodes: seq<EntityNode>, start: nat, rt: Runtime) returns (rest: seq<PendingLink>)
    requires ParseEntities(nodes, start, rt).Ok? && |nodes| > 0
    ensures ParseEntities(nodes[1..], start + 1, rt).Ok? && rest == ParseEntities(nodes[1..], start + 1, rt).value.1
    ensures ParseEntities(nodes, start, rt).value.1 == LinksOf(start, |nodes[0].properties|, nodes[0].relationships) + rest
  {
    rest := ParseEntities(nodes[1..], start + 1, rt).value.1;
  }

  /** Every link the parse queues names a relationship of the parsed entities. */
  lemma ParsedQueueFits(nodes: seq<EntityNode>, rt: Runtime, parsed: (seq<Entity>, seq<PendingLink>))
    requires ParseEntities(nodes, 0, rt) == Ok(parsed)
    ensures QueueFits(parsed.0, parsed.1)
  {
    forall k | 0 <= k < |parsed.1|
      ensures LinkFits(parsed.0, parsed.1[k])
    {
      var q := parsed.1[k];
      assert LinkFromNodes(nodes, 0, q);
      var node := nodes[q.entityIndex];
      assert ParseEntity(node, rt) == Ok(parsed.0[q.entityIndex]);
      var j := q.attributeIndex - |node.properties|;
      assert parsed.0[q.entityIndex].attributes[|node.properties| + j] == ParseRelationship(node.name, node.relationships[j]);
    }
  }

  /** MManagedObjectModel::modelForVersion: the same document read at another version. */
  function ModelForVersion(doc: ModelDocument, v: string, rt: Runtime): (r: Result<Model>)
    ensures r.Ok? ==> r.value.version == v
    ensures r.Err? <==> Parse(doc, Some(v), rt).Err?
  {
    Parse(doc, Some(v), rt)
  }

  /** The attribute named by an "Entity.attribute" path: exactly two dot-separated
      components, the first naming an entity (by name or plural). */
  function AttributeWithPath(m: Model, path: string): (r: Option<Attribute>)
    ensures r.Some? ==> Occurrences(path, '.') == 1
  {
    var parts := Split(path, '.');
    if |parts| == 2 then
      match EntityWithName(m.entities, parts[0])
      case Some(e) => AttributeWithName(e, parts[1])
      case None => None
    else None
  }

  /** Splitting "a.b" where neither part contains a dot yields the two parts. */
  lemma SplitTwo(a: string, b: string)
    requires '.' !in a && '.' !in b
    ensures Split(a + "." + b, '.') == [a, b]
  {
    var s := a + "." + b;
    var parts := Split(s, '.');
    OccurrencesOfJoin(a, b);
    assert |parts| == 2;
    assert JoinWith(parts, '.') == parts[0] + ['.'] + parts[1];
    assert parts[0] + ['.'] + parts[1] == a + ['.'] + b;
    SplitPiecesAgree(parts[0], parts[1], a, b);
  }

  lemma {:induction false} OccurrencesOfJoin(a: string, b: string)
    requires '.' !in a && '.' !in b
    ensures Occurrences(a + "." + b, '.') == 1
  {
    var s := a + "." + b;
    assert s[|a|] == '.';
    assert forall k :: 0 <= k < |a| ==> s[k] != '.';
    OccurrencesAfterFirst(s, '.', |a|);
    assert s[|a| + 1..] == b;
    OccurrencesAbsent(b, '.');
  }

  lemma SplitPiecesAgree(x: string, y: string, a: string, b: string)
    requires '.' !in x && '.' !in y && '.' !in a && '.' !in b
    requires x + ['.'] + y == a + ['.'] + b
    ensures x == a && y == b
  {
    var s := a + ['.'] + b;
    FirstDot(x, y);
    FirstDot(a, b);
    assert x == s[..|x|] == a;
    assert y == s[|x| + 1..] == b;
  }

  lemma FirstDot(x: string, y: string)
    requires '.' !in x
    ensures IndexOf(x + ['.'] + y, '.') == |x|
  {
    var t := x + ['.'] + y;
    assert t[|x|] == '.';
    assert forall k :: 0 <= k < |x| ==> t[k] == x[k];
  }

  /** A path "Entity.attribute" looks up the entity, then the attribute within it. */
  lemma AttributeWithPathLooksUpBoth(m: Model, entityName: string, attributeName: string)
    requires '.' !in entityName && '.' !in attributeName
    ensures AttributeWithPath(m, entityName + "." + attributeName) ==
            (match EntityWithName(m.entities, entityName)
             case Some(e) => AttributeWithName(e, attributeName)
             case None => None)
  {
    SplitTwo(entityName, attributeName);
  }
}

=== FILE: requests.dfy ===
/** The requests a context hands to its persistent store coordinator: a save request
    lists the objects to insert, update and delete, a fetch request names an entity
    and the equality conditions its rows must meet, and a fault request collects
    fault objects to be loaded together. */
module Requests {
  import opened Errors
  import opened Entities
  import opened ManagedObjects
  import opened ObjectGraph
  import opened Database

  datatype Request =
    | SaveRequest(inserts: seq<Handle>, updates: seq<Handle>, deletes: seq<Handle>)
    | FetchRequest(entity: Entity, conds: seq<Condition>)
    | FaultRequest(faults: seq<Handle>)
      /** A request of any other class, known by its class name. */
    | OtherRequest(className: string)

  /** A new fault request holds no faults. */
  const NewFaultRequest: Request := FaultRequest([])

  /** Every object a fault request holds is a fault. */
  predicate AllFaults(heap: Heap, req: Request)
    requires req.FaultRequest?
  {
    forall x :: x in req.faults ==> x in heap && IsFault(heap[x])
  }

  /** Adds an object to a fault request; an object that is not a fault is refused. */
  function AddFault(req: Request, heap: Heap, h: Handle): (r: Result<Request>)
    requires req.FaultRequest? && h in heap
    ensures r.Ok? <==> IsFault(heap[h])
    ensures r.Ok? ==> r.value.FaultRequest? && r.value.faults == req.faults + [h]
    ensures r.Err? ==> r.error == PersistentStoreException("Managed Object is not a valid fault")
  {
    if !IsFault(heap[h]) then Err(PersistentStoreException("Managed Object is not a valid fault"))
    else Ok(FaultRequest(req.faults + [h]))
  }

  /** Removes the first occurrence of an object from a fault request. */
  function RemoveFault(req: Request, h: Handle): (r: Request)
    requires req.FaultRequest?
    ensures r.FaultRequest? && multiset(r.faults) == multiset(req.faults) - multiset{h}
  {
    FaultRequest(RemoveFirst(req.faults, h))
  }

  /** Removing an object keeps every other entry, in order, before and after its first
      occurrence. */
  lemma {:induction false} RemoveFaultKeepsOthers(faults: seq<Handle>, h: Handle, i: nat)
    requires i < |faults| && h !in faults[..i] && faults[i] == h
    ensures RemoveFault(FaultRequest(faults), h).faults == faults[..i] + faults[i + 1..]
    decreases i
  {
    if i > 0 {
      RemoveFaultKeepsOthers(faults[1..], h, i - 1);
      assert faults[1..][..i - 1] == faults[1..i];
      assert faults[1..][i..] == faults[i + 1..];
      assert faults[..i] == [faults[0]] + faults[1..i];
    }
  }

  /** Adding and removing objects keeps a fault request made of faults only. */
  lemma FaultRequestHoldsFaults(req: Request, heap: Heap, h: Handle)
    requires req.FaultRequest? && h in heap && AllFaults(heap, req)
    ensures AddFault(req, heap, h).Ok? ==> AllFaults(heap, AddFault(req, heap, h).value)
    ensures AllFaults(heap, RemoveFault(req, h))
  {
    forall x | x in RemoveFault(req, h).faults
      ensures x in req.faults
    {
      RemoveFirstMembership(req.faults, h, x);
    }
  }

  /** Removing a fault just added to a request that did not hold it gives the request
      back. */
  lemma RemoveUndoesAddFault(req: Request, heap: Heap, h: Handle)
    requires req.FaultRequest? && h in heap && h !in req.faults && IsFault(heap[h])
    ensures RemoveFault(AddFault(req, heap, h).value, h) == req
  {
    var added := req.faults + [h];
    assert added[..|req.faults|] == req.faults;
    RemoveFaultKeepsOthers(added, h, |req.faults|);
    assert added[|req.faults| + 1..] == [];
  }
}

=== FILE: schema.dfy ===
/** How a persistent store lays out a model in the database: one table per entity
    (named after its plural), one join table per distinct relationship table name,
    and the metadata table recording the model version; and the consistency check a
    store runs before every request. */
module Schema {
  import opened Errors
  import opened Types
  import opened Values
  import opened Attributes
  import opened Entities
  import opened ObjectModel
  import opened Database

  const MetadataTable := "Z_METADATA"
  const ObjectIDColumn := "objectID"

  /** The column type a property of type `t` is stored in. */
  function SqlType(t: PropertyType): (s: string)
    ensures t in {String, Unknown} ==> s == "MEDIUMTEXT"
    ensures t in {Integer, Date} ==> s == "INT"
    ensures t == Float ==> s == "FLOAT"
    ensures t == Boolean ==> s == "TINYINT"
    ensures t == Binary ==> s == "LONGBLOB"
  {
    match t
    case Integer => "INT"
    case Float => "FLOAT"
    case Boolean => "TINYINT"
    case Date => "INT"
    case Binary => "LONGBLOB"
    case _ => "MEDIUMTEXT"
  }

  /** The auto-numbered object id column every entity and join table starts with. */
  const ObjectIDField := Field(ObjectIDColumn, "INT NOT NULL", true)

  /** A table to be created: its name and its fields in order. */
  datatype TableSpec = TableSpec(name: string, fields: seq<Field>)

  predicate Named(specs: seq<TableSpec>, name: string) {
    exists i :: 0 <= i < |specs| && specs[i].name == name
  }

  predicate DistinctNames(specs: seq<TableSpec>) {
    forall i, j :: 0 <= i < j < |specs| ==> specs[i].name != specs[j].name
  }

  /** The join table of a relationship: object id, this side's column, the far side's
      column. */
  function JoinTableSpec(name: string, a: Attribute, rt: Runtime): (s: TableSpec)
    requires a.Relationship?
    ensures s.name == name && |s.fields| == 3 && s.fields[0] == ObjectIDField
    ensures s.fields[1].name == ColumnName(a, rt) && s.fields[2].name == InverseColumnName(a, rt)
  {
    TableSpec(name, [ObjectIDField, Field(ColumnName(a, rt), "INT NOT NULL", false),
                     Field(InverseColumnName(a, rt), "INT NOT NULL", false)])
  }

  /** A relationship with an inverse has a join table of its table name among `specs`. */
  predicate HasJoinTable(specs: seq<TableSpec>, a: Attribute, rt: Runtime) {
    a.Relationship? ==> a.inverse.Some? && Named(specs, TableName(a, rt).value)
  }

  lemma NamedGrows(a: seq<TableSpec>, b: seq<TableSpec>, name: string)
    requires |a| <= |b| && b[..|a|] == a && Named(a, name)
    ensures Named(b, name)
  {
    var i :| 0 <= i < |a| && a[i].name == name;
    assert b[i] == a[i];
  }

  lemma HasJoinTableGrows(a: seq<TableSpec>, b: seq<TableSpec>, x: Attribute, rt: Runtime)
    requires |a| <= |b| && b[..|a|] == a && HasJoinTable(a, x, rt)
    ensures HasJoinTable(b, x, rt)
  {
    if x.Relationship? {
      NamedGrows(a, b, TableName(x, rt).value);
    }
  }

  /** The column a property is stored in. */
  function PropertyColumn(p: Attribute): Field
    requires p.Property?
  {
    Field(p.name, SqlType(p.propertyType), false)
  }

  predicate AllProperties(props: seq<Attribute>) {
    forall i :: 0 <= i < |props| ==> props[i].Property?
  }

  lemma PropertiesAreProperties(attrs: seq<Attribute>)
    ensures AllProperties(PropertiesOf(attrs))
  {
    var ps := PropertiesOf(attrs);
    forall i | 0 <= i < |ps| ensures ps[i].Property? {
      assert ps[i] in ps;
    }
  }

  /** The columns of a list of properties, one per property in order. */
  function PropertyColumns(props: seq<Attribute>): (fs: seq<Field>)
    requires AllProperties(props)
    ensures |fs| == |props|
    ensures forall i :: 0 <= i < |props| ==> fs[i].name == props[i].name
  {
    seq(|props|, i requires 0 <= i < |props| => PropertyColumn(props[i]))
  }

  /** Adds the join table `tn` of relationship `a` unless a table of that name is
      already there. */
  function AddJoinTable(joins: seq<TableSpec>, tn: string, a: Attribute, rt: Runtime): (r: seq<TableSpec>)
    requires a.Relationship? && DistinctNames(joins)
    ensures DistinctNames(r) && Named(r, tn) && |r| >= |joins| && r[..|joins|] == joins
    ensures Named(joins, tn) ==> r == joins
    ensures !Named(joins, tn) ==> r == joins + [JoinTableSpec(tn, a, rt)]
  {
    if Named(joins, tn) then joins
    else
      var r := joins + [JoinTableSpec(tn, a, rt)];
      assert r[|joins|].name == tn;
      r
  }

  /** One attribute's contribution to the join tables: none for a property; for a
      relationship its table, which needs an inverse to be named. */
  function JoinStep(joins: seq<TableSpec>, a: Attribute, rt: Runtime): (r: Result<seq<TableSpec>>)
    requires DistinctNames(joins)
    ensures r.Ok? <==> (a.Relationship? ==> a.inverse.Some?)
    ensures r.Err? ==> r.error.PersistentStoreException?
    ensures r.Ok? ==> DistinctNames(r.value) && |r.value| >= |joins| && r.value[..|joins|] == joins
    ensures r.Ok? ==> HasJoinTable(r.value, a, rt)
    ensures a.Property? ==> r == Ok(joins)
  {
    if a.Property? then Ok(joins)
    else
      var tn :- TableName(a, rt);
      Ok(AddJoinTable(joins, tn, a, rt))
  }

  lemma PrefixTrans<T>(a: seq<T>, b: seq<T>, c: seq<T>)
    requires |a| <= |b| && b[..|a|] == a && |b| <= |c| && c[..|b|] == b
    ensures c[..|a|] == a
  {
    assert c[..|a|] == c[..|b|][..|a|];
  }

  /** Walks an entity's attributes in order, adding each relationship's join table
      unless one of that name was added before. A relationship without inverse has no
      table name and aborts the walk. */
  function JoinTables(attrs: seq<Attribute>, joins: seq<TableSpec>, rt: Runtime): (r: Result<seq<TableSpec>>)
    requires DistinctNames(joins)
    ensures r.Ok? <==> forall i :: 0 <= i < |attrs| && attrs[i].Relationship? ==> attrs[i].inverse.Some?
    ensures r.Err? ==> r.error.PersistentStoreException?
    ensures r.Ok? ==> DistinctNames(r.value) && |r.value| >= |joins| && r.value[..|joins|] == joins
    ensures r.Ok? ==> forall i :: 0 <= i < |attrs| ==> HasJoinTable(r.value, attrs[i], rt)
    decreases |attrs|
  {
    if |attrs| == 0 then Ok(joins)
    else
      var joins' :- JoinStep(joins, attrs[0], rt);
      var r := JoinTables(attrs[1..], joins', rt);
      JoinTablesStep(attrs, joins, joins', r, rt);
      r
  }

  lemma JoinTablesStep(attrs: seq<Attribute>, joins: seq<TableSpec>, joins': seq<TableSpec>,
                       r: Result<seq<TableSpec>>, rt: Runtime)
    requires |attrs| > 0 && DistinctNames(joins)
    requires JoinStep(joins, attrs[0], rt) == Ok(joins')
    requires r.Ok? <==> forall i :: 0 <= i < |attrs| - 1 && attrs[1..][i].Relationship? ==> attrs[1..][i].inverse.Some?
    requires r.Ok? ==> |r.value| >= |joins'| && r.value[..|joins'|] == joins'
    requires r.Ok? ==> forall i :: 0 <= i < |attrs| - 1 ==> HasJoinTable(r.value, attrs[1..][i], rt)
    ensures r.Ok? <==> forall i :: 0 <= i < |attrs| && attrs[i].Relationship? ==> attrs[i].inverse.Some?
    ensures r.Ok? ==> r.value[..|joins|] == joins
    ensures r.Ok? ==> forall i :: 0 <= i < |attrs| ==> HasJoinTable(r.value, attrs[i], rt)
  {
    assert (r.Ok? <==> forall i :: 0 <= i < |attrs| && attrs[i].Relationship? ==> attrs[i].inverse.Some?) by {
      InversesShift(attrs);
    }
    if r.Ok? {
      PrefixTrans(joins, joins', r.value);
      HasJoinTableGrows(joins', r.value, attrs[0], rt);
      JoinTablesCover(attrs, r.value, rt);
    }
  }

  lemma InversesShift(attrs: seq<Attribute>)
    requires |attrs| > 0
    ensures (forall i :: 0 <= i < |attrs| && attrs[i].Relationship? ==> attrs[i].inverse.Some?)
        <==> (attrs[0].Relationship? ==> attrs[0].inverse.Some?)
             && forall i :: 0 <= i < |attrs| - 1 && attrs[1..][i].Relationship? ==> attrs[1..][i].inverse.Some?
  {
    assert forall i :: 1 <= i < |attrs| ==> attrs[i] == attrs[1..][i - 1];
  }

  lemma JoinTablesCover(attrs: seq<Attribute>, specs: seq<TableSpec>, rt: Runtime)
    requires |attrs| > 0 && HasJoinTable(specs, attrs[0], rt)
    requires forall i :: 0 <= i < |attrs| - 1 ==> HasJoinTable(specs, attrs[1..][i], rt)
    ensures forall i :: 0 <= i < |attrs| ==> HasJoinTable(specs, attrs[i], rt)
  {
    forall i | 1 <= i < |attrs| ensures HasJoinTable(specs, attrs[i], rt) {
      assert attrs[i] == attrs[1..][i - 1];
    }
  }

  /** The table of an entity: named after its plural, object id first, then one
      column per property. */
  function EntityTable(e: Entity): (t: TableSpec)
    ensures t.name == e.plural && |t.fields| == 1 + |Properties(e)| && t.fields[0] == ObjectIDField
    ensures forall i :: 0 <= i < |Properties(e)| ==> t.fields[i + 1].name == Properties(e)[i].name
  {
    PropertiesAreProperties(e.attributes);
    var cols := PropertyColumns(Properties(e));
    var fields := [ObjectIDField] + cols;
    assert forall i :: 0 <= i < |cols| ==> fields[i + 1] == cols[i];
    TableSpec(e.plural, fields)
  }

  /** `r` extends `tables` with each entity's table, in order. */
  predicate TablesFor(r: seq<TableSpec>, tables: seq<TableSpec>, entities: seq<Entity>) {
    |r| == |tables| + |entities| && r[..|tables|] == tables
    && forall i :: 0 <= i < |entities| ==> r[|tables| + i] == EntityTable(entities[i])
  }

  /** `r` extends `joins` with a join table for every relationship of the entities. */
  predicate JoinsFor(r: seq<TableSpec>, joins: seq<TableSpec>, entities: seq<Entity>, rt: Runtime) {
    |r| >= |joins| && r[..|joins|] == joins
    && forall i, k :: 0 <= i < |entities| && 0 <= k < |entities[i].attributes| ==>
         HasJoinTable(r, entities[i].attributes[k], rt)
  }

  /** Walks the entities in order: each gets its table and its join tables, and a
      second entity with the same plural is rejected. */
  function EntitiesPlan(entities: seq<Entity>, tables: seq<TableSpec>, joins: seq<TableSpec>, rt: Runtime)
    : (r: Result<(seq<TableSpec>, seq<TableSpec>)>)
    requires DistinctNames(tables) && DistinctNames(joins)
    ensures r.Ok? ==> DistinctNames(r.value.0) && DistinctNames(r.value.1)
    ensures r.Ok? ==> TablesFor(r.value.0, tables, entities) && JoinsFor(r.value.1, joins, entities, rt)
    ensures r.Err? ==> r.error.PersistentStoreException?
    decreases |entities|
  {
    if |entities| == 0 then Ok((tables, joins))
    else
      var e := entities[0];
      var joins' :- JoinTables(e.attributes, joins, rt);
      if Named(tables, e.plural) then Err(PersistentStoreException("Duplicate entity name ('" + e.name + "')!"))
      else
        var tables' := tables + [EntityTable(e)];
        AppendDistinct(tables, EntityTable(e));
        var r := EntitiesPlan(entities[1..], tables', joins', rt);
        if r.Err? then r
        else
          EntitiesPlanStep(entities, tables, joins, rt, tables', joins', r.value);
          r
  }

  /** Appending a table under a new name keeps the names distinct. */
  lemma AppendDistinct(tables: seq<TableSpec>, t: TableSpec)
    requires DistinctNames(tables) && !Named(tables, t.name)
    ensures DistinctNames(tables + [t]) && (tables + [t])[..|tables|] == tables
  {
    assert forall i :: 0 <= i < |tables| ==> (tables + [t])[i] == tables[i];
  }

  lemma EntitiesPlanStep(entities: seq<Entity>, tables: seq<TableSpec>, joins: seq<TableSpec>, rt: Runtime,
                         tables': seq<TableSpec>, joins': seq<TableSpec>, r: (seq<TableSpec>, seq<TableSpec>))
    requires |entities| > 0
    requires |tables'| == |tables| + 1 && tables'[..|tables|] == tables && tables'[|tables|] == EntityTable(entities[0])
    requires |joins'| >= |joins| && joins'[..|joins|] == joins
    requires forall k :: 0 <= k < |entities[0].attributes| ==> HasJoinTable(joins', entities[0].attributes[k], rt)
    requires TablesFor(r.0, tables', entities[1..]) && JoinsFor(r.1, joins', entities[1..], rt)
    ensures TablesFor(r.0, tables, entities) && JoinsFor(r.1, joins, entities, rt)
  {
    PrefixTrans(tables, tables', r.0);
    PrefixTrans(joins, joins', r.1);
    EntitiesPlanNames(entities, tables, tables', r.0);
    EntitiesPlanJoins(entities, joins', r.1, rt);
  }

  lemma EntitiesPlanNames(entities: seq<Entity>, tables: seq<TableSpec>, tables': seq<TableSpec>, r: seq<TableSpec>)
    requires |entities| > 0 && |tables'| == |tables| + 1 && tables'[|tables|] == EntityTable(entities[0])
    requires |r| == |tables'| + |entities| - 1 && r[..|tables'|] == tables'
    requires forall i :: 0 <= i < |entities| - 1 ==> r[|tables'| + i] == EntityTable(entities[1..][i])
    ensures forall i :: 0 <= i < |entities| ==> r[|tables| + i] == EntityTable(entities[i])
  {
    forall i | 0 <= i < |entities| ensures r[|tables| + i] == EntityTable(entities[i]) {
      if i == 0 {
        assert r[|tables|] == r[..|tables'|][|tables|];
      } else {
        assert r[|tables'| + (i - 1)] == EntityTable(entities[1..][i - 1]);
      }
    }
  }

  lemma EntitiesPlanJoins(entities: seq<Entity>, first: seq<TableSpec>, r: seq<TableSpec>, rt: Runtime)
    requires |entities| > 0 && |r| >= |first| && r[..|first|] == first
    requires forall k :: 0 <= k < |entities[0].attributes| ==> HasJoinTable(first, entities[0].attributes[k], rt)
    requires forall i, k :: 0 <= i < |entities| - 1 && 0 <= k < |entities[1..][i].attributes| ==>
               HasJoinTable(r, entities[1..][i].attributes[k], rt)
    ensures forall i, k :: 0 <= i < |entities| && 0 <= k < |entities[i].attributes| ==>
              HasJoinTable(r, entities[i].attributes[k], rt)
  {
    forall i, k | 0 <= i < |entities| && 0 <= k < |entities[i].attributes|
      ensures HasJoinTable(r, entities[i].attributes[k], rt)
    {
      if i == 0 {
        HasJoinTableGrows(first, r, entities[0].attributes[k], rt);
      } else {
        assert entities[i] == entities[1..][i - 1];
      }
    }
  }

  /** The tables a model needs: entity tables and join tables. Entities sharing a
      plural are rejected, every relationship has its join table, and each join table
      name occurs once. */
  function BootstrapPlan(model: Model, rt: Runtime): (r: Result<(seq<TableSpec>, seq<TableSpec>)>)
    ensures r.Ok? ==> forall i, j :: 0 <= i < j < |model.entities| ==> model.entities[i].plural != model.entities[j].plural
    ensures r.Ok? ==> |r.value.0| == |model.entities| && DistinctNames(r.value.0) && DistinctNames(r.value.1)
    ensures r.Ok? ==> forall i :: 0 <= i < |model.entities| ==> r.value.0[i] == EntityTable(model.entities[i])
    ensures r.Ok? ==> forall i, k :: 0 <= i < |model.entities| && 0 <= k < |model.entities[i].attributes| ==>
                        HasJoinTable(r.value.1, model.entities[i].attributes[k], rt)
    ensures r.Err? ==> r.error.PersistentStoreException?
  {
    var r := EntitiesPlan(model.entities, [], [], rt);
    if r.Ok? then
      PlannedEntityTables(r.value.0, model.entities);
      r
    else r
  }

  /** Tables planned from no earlier tables are the entities' tables, position by
      position, so distinct table names mean distinct plurals. */
  lemma PlannedEntityTables(tables: seq<TableSpec>, entities: seq<Entity>)
    requires TablesFor(tables, [], entities) && DistinctNames(tables)
    ensures |tables| == |entities|
    ensures forall i :: 0 <= i < |entities| ==> tables[i] == EntityTable(entities[i])
    ensures forall i, j :: 0 <= i < j < |entities| ==> entities[i].plural != entities[j].plural
  {
    forall i | 0 <= i < |entities| ensures tables[i] == EntityTable(entities[i]) {
      assert tables[0 + i] == EntityTable(entities[i]);
    }
  }

  /** The PRIMARY KEY clause the table query gets, as written: the emptiness test is inverted,
      so a non-empty key name gets no clause and only an empty one gets a clause. */
  function PrimaryKeyClauseAsWritten(primaryKey: Option<string>): (k: Option<string>)
    ensures k.Some? <==> primaryKey == Some("")
  {
    if primaryKey.Some? && primaryKey.value == "" then primaryKey else None
  }

  /** The PRIMARY KEY clause as intended: present exactly for a non-empty key name. */
  function PrimaryKeyClause(primaryKey: Option<string>): (k: Option<string>)
    ensures k.Some? <==> primaryKey.Some? && primaryKey.value != ""
    ensures k.Some? ==> k == primaryKey
  {
    if primaryKey.Some? && primaryKey.value != "" then primaryKey else None
  }

  /** The two clauses disagree on every key name: the intended clause is there exactly
      when the written one is not, apart from an absent key. */
  lemma PrimaryKeyClauseInverted(primaryKey: Option<string>)
    requires primaryKey.Some?
    ensures PrimaryKeyClauseAsWritten(primaryKey).Some? <==> PrimaryKeyClause(primaryKey).None?
  {
  }

  /** The text of a field: back-quoted name, type, and AUTO_INCREMENT if numbered. */
  function FieldText(f: Field): string {
    "`" + f.name + "` " + f.sqlType + (if f.autoIncrement then " AUTO_INCREMENT" else "")
  }

  function JoinLines(parts: seq<string>): (s: string)
    ensures |parts| == 1 ==> s == parts[0]
  {
    if |parts| == 0 then "" else if |parts| == 1 then parts[0] else parts[0] + ",\n" + JoinLines(parts[1..])
  }

  function FieldTexts(fields: seq<Field>): (r: seq<string>)
    ensures |r| == |fields|
    ensures forall i :: 0 <= i < |fields| ==> r[i] == FieldText(fields[i])
  {
    if |fields| == 0 then [] else [FieldText(fields[0])] + FieldTexts(fields[1..])
  }

  /** The CREATE TABLE statement text of a definition: the header line, the fields
      separated by ",\n", the PRIMARY KEY clause if any, the closing line and a blank
      line. */
  function CreateTableQuery(d: TableDef): (q: string)
    ensures var head := "CREATE TABLE `" + d.name + "` (\n";
            |q| >= |head| + 5 && q[..|head|] == head && q[|q| - 5..] == "\n);\n\n"
    ensures d.primaryKey.Some? ==>
              var key := ",\nPRIMARY KEY (`" + d.primaryKey.value + "`)";
              |q| >= |key| + 5 && q[|q| - 5 - |key|..|q| - 5] == key
  {
    var head := "CREATE TABLE `" + d.name + "` (\n";
    var key := match d.primaryKey
      case Some(k) => ",\nPRIMARY KEY (`" + k + "`)"
      case None => "";
    var front := head + JoinLines(FieldTexts(d.fields)) + key;
    var q := front + "\n);\n" + "\n";
    assert q[..|head|] == head;
    assert q[|q| - 5..] == "\n);\n\n";
    assert q[|q| - 5 - |key|..|q| - 5] == key;
    q
  }

  /** The metadata table: its own auto-numbered id, a key and a value. */
  const MetadataFields := [Field("id", "INT NOT NULL", true), Field("key", "MEDIUMTEXT", false), Field("value", "MEDIUMTEXT", false)]

  /** The statements of a plan, with the intended primary key clauses: entity tables,
      then join tables, then the metadata table. */
  function Definitions(tables: seq<TableSpec>): (defs: seq<TableDef>)
    ensures |defs| == |tables|
    ensures forall i :: 0 <= i < |tables| ==> defs[i] == TableDef(tables[i].name, tables[i].fields, PrimaryKeyClause(Some(ObjectIDColumn)))
  {
    if |tables| == 0 then [] else [TableDef(tables[0].name, tables[0].fields, PrimaryKeyClause(Some(ObjectIDColumn)))] + Definitions(tables[1..])
  }

  function DefinitionsAsWritten(tables: seq<TableSpec>): (defs: seq<TableDef>)
    ensures |defs| == |tables|
    ensures forall i :: 0 <= i < |tables| ==> defs[i] == TableDef(tables[i].name, tables[i].fields, PrimaryKeyClauseAsWritten(Some(ObjectIDColumn)))
  {
    if |tables| == 0 then [] else [TableDef(tables[0].name, tables[0].fields, PrimaryKeyClauseAsWritten(Some(ObjectIDColumn)))] + DefinitionsAsWritten(tables[1..])
  }

  predicate NamesFresh(db: Db, defs: seq<TableDef>) {
    (forall i :: 0 <= i < |defs| ==> defs[i].name !in db)
    && forall i, j :: 0 <= i < j < |defs| ==> defs[i].name != defs[j].name
  }

  /** An entity with a property named like the object id column cannot have its
      table created: the column would be defined twice. */
  lemma EntityTableRejectsObjectIDProperty(db: Db, e: Entity, i: nat, key: Option<string>)
    requires i < |Properties(e)| && Properties(e)[i].name == ObjectIDColumn
    ensures CreateTable(db, TableDef(e.plural, EntityTable(e).fields, key)).Err?
  {
    var fields := EntityTable(e).fields;
    assert fields[0].name == fields[i + 1].name;
  }

  /** A relationship whose two join columns have the same name, such as one that is its
      own inverse, cannot have its join table created. */
  lemma JoinTableRejectsSameColumns(db: Db, name: string, a: Attribute, rt: Runtime, key: Option<string>)
    requires a.Relationship?
    requires ColumnName(a, rt) == InverseColumnName(a, rt)
             || (a.inverse.Some? && a.inverse.value.entityName == a.entityName && a.inverse.value.name == a.name)
    ensures CreateTable(db, TableDef(name, JoinTableSpec(name, a, rt).fields, key)).Err?
  {
    var fields := JoinTableSpec(name, a, rt).fields;
    assert fields[1].name == fields[2].name;
  }

  /** Creates the tables in order; the first statement the server rejects aborts. */
  function CreateTables(db: Db, defs: seq<TableDef>): (r: Result<Db>)
    ensures (exists i :: 0 <= i < |defs| && !KeysAutoFields(defs[i])) ==> r.Err?
    ensures r.Err? ==> r.error.DatabaseError?
    ensures r.Ok? ==> NamesFresh(db, defs)
    ensures r.Ok? ==> forall t :: t in db ==> t in r.value && r.value[t] == db[t]
    ensures r.Ok? ==> forall i :: 0 <= i < |defs| ==> defs[i].name in r.value && r.value[defs[i].name] == EmptyTable(defs[i])
    ensures r.Ok? && DbValid(db) ==> DbValid(r.value)
    decreases |defs|
  {
    if |defs| == 0 then Ok(db)
    else
      var db1 := CreateTable(db, defs[0]);
      if db1.Err? then
        db1
      else
        var r := CreateTables(db1.value, defs[1..]);
        assert forall i :: 1 <= i < |defs| ==> defs[i] == defs[1..][i - 1];
        r
  }

  /** The condition of the version query: the metadata row keyed 'version'. */
  const VersionKey := [Condition("key", CString("version"))]

  /** The version the metadata table records: the text value of its first row keyed
      'version'. A missing table, no such row or a value that is not text reads as no
      version. */
  function DatabaseVersion(db: Db): (v: Option<string>)
    ensures v.Some? ==>
              MetadataTable in db
              && exists row :: row in db[MetadataTable].rows && Matches(row, VersionKey)
                               && "value" in row && row["value"] == CString(v.value)
    ensures MetadataTable !in db ==> v.None?
  {
    if MetadataTable !in db then None
    else
      var rows := Selected(db[MetadataTable].rows, VersionKey);
      if |rows| > 0 && "value" in rows[0] && rows[0]["value"].CString? then
        assert rows[0] in rows;
        Some(rows[0]["value"].s)
      else None
  }

  /** The version read is the text value of the first row keyed 'version', and of no
      later one. */
  lemma DatabaseVersionReadsFirstRow(db: Db, i: nat, version: string)
    requires MetadataTable in db && i < |db[MetadataTable].rows|
    requires Matches(db[MetadataTable].rows[i], VersionKey)
    requires forall j :: 0 <= j < i ==> !Matches(db[MetadataTable].rows[j], VersionKey)
    ensures "value" in db[MetadataTable].rows[i] && db[MetadataTable].rows[i]["value"] == CString(version)
            ==> DatabaseVersion(db) == Some(version)
    ensures !("value" in db[MetadataTable].rows[i] && db[MetadataTable].rows[i]["value"].CString?)
            ==> DatabaseVersion(db) == None
  {
    SelectedFirst(db[MetadataTable].rows, VersionKey, i);
  }

  /** The version read as written. A missing metadata table raises a PDOException,
      which the handler turns into no version, and a version row gives its value. With
      no version row, PDO's `false` passes the comparison with null, its `value` reads
      as null, and boxing null into a string raises an engine type error that the
      handler, which catches exceptions only, lets through. */
  function DatabaseVersionAsWritten(db: Db): (r: Result<Option<string>>)
    ensures r.Ok? && r.value.Some? ==> r.value == DatabaseVersion(db)
  {
    if MetadataTable !in db then Ok(None)
    else
      var rows := Selected(db[MetadataTable].rows, VersionKey);
      if |rows| > 0 && "value" in rows[0] && rows[0]["value"].CString? then Ok(Some(rows[0]["value"].s))
      else Err(FatalError("S(): Argument 1 must be a string, null given"))
  }

  /** A metadata table without a version row reads as no version, so that the store
      bootstraps; as written, reading it raises instead. */
  lemma DatabaseVersionAsWrittenFailsWithoutVersionRow(db: Db)
    requires MetadataTable in db
    requires forall i :: 0 <= i < |db[MetadataTable].rows| ==> !Matches(db[MetadataTable].rows[i], VersionKey)
    ensures DatabaseVersion(db) == None
    ensures DatabaseVersionAsWritten(db).Err? && DatabaseVersionAsWritten(db).error.FatalError?
  {
    SelectedNone(db[MetadataTable].rows, VersionKey);
  }

  /** The definitions a plan creates, with the metadata table last. */
  function BootstrapDefinitions(plan: (seq<TableSpec>, seq<TableSpec>)): (defs: seq<TableDef>)
    ensures |defs| == |plan.0| + |plan.1| + 1
    ensures defs[|defs| - 1] == TableDef(MetadataTable, MetadataFields, Some("id"))
    ensures forall i :: 0 <= i < |plan.0| ==> defs[i].name == plan.0[i].name
  {
    Definitions(plan.0 + plan.1) + [TableDef(MetadataTable, MetadataFields, PrimaryKeyClause(Some("id")))]
  }

  /** The metadata row recording a version. */
  function VersionRow(version: string): Row {
    map["key" := CString("version"), "value" := CString(version)]
  }

  /** Bootstraps an empty database for a model: plans the tables, creates entity
      tables, join tables and the metadata table, and records the model version. */
  function CreateDatabaseStructure(db: Db, model: Model, rt: Runtime): (r: Result<Db>)
    ensures r.Ok? ==> DatabaseVersion(r.value) == Some(model.version)
    ensures r.Ok? ==> forall t :: t in db ==> t in r.value && r.value[t] == db[t]
    ensures r.Ok? ==> forall i :: 0 <= i < |model.entities| ==> model.entities[i].plural !in db
    ensures r.Ok? && DbValid(db) ==> DbValid(r.value)
  {
    var plan :- BootstrapPlan(model, rt);
    var defs := BootstrapDefinitions(plan);
    var db1 :- CreateTables(db, defs);
    var db2 :- Insert(db1, MetadataTable, VersionRow(model.version));
    VersionOfFreshMetadata(db1, db2.0, model.version);
    Ok(db2.0)
  }

  /** The table of entity `e` exists, empty, with the columns `EntityTable` lays out. */
  predicate EntityTableIn(db: Db, e: Entity) {
    e.plural in db && db[e.plural] == EmptyTable(TableDef(e.plural, EntityTable(e).fields, Some(ObjectIDColumn)))
  }

  /** The join table of relationship `a` exists, empty, laid out as the join table of a
      relationship of the model that has the same table name. */
  predicate JoinTableIn(db: Db, model: Model, a: Attribute, rt: Runtime)
    requires a.Relationship?
  {
    TableName(a, rt).Ok?
    && var tn := TableName(a, rt).value;
       tn in db
       && exists i, k :: 0 <= i < |model.entities| && 0 <= k < |model.entities[i].attributes|
                         && model.entities[i].attributes[k].Relationship?
                         && TableName(model.entities[i].attributes[k], rt) == Ok(tn)
                         && db[tn] == EmptyTable(TableDef(tn, JoinTableSpec(tn, model.entities[i].attributes[k], rt).fields, Some(ObjectIDColumn)))
  }

  /** A bootstrap leaves an empty table for every entity, an empty join table for every
      relationship, and a metadata table holding only the version row. */
  lemma CreateDatabaseStructureTables(db: Db, model: Model, rt: Runtime)
    requires CreateDatabaseStructure(db, model, rt).Ok?
    ensures var r := CreateDatabaseStructure(db, model, rt).value;
            forall i :: 0 <= i < |model.entities| ==> EntityTableIn(r, model.entities[i])
    ensures var r := CreateDatabaseStructure(db, model, rt).value;
            forall i, k :: 0 <= i < |model.entities| && 0 <= k < |model.entities[i].attributes|
                           && model.entities[i].attributes[k].Relationship? ==>
                             JoinTableIn(r, model, model.entities[i].attributes[k], rt)
    ensures var r := CreateDatabaseStructure(db, model, rt).value;
            MetadataTable in r && r[MetadataTable].rows == [VersionRow(model.version)["id" := CInt(1)]]
  {
    BootstrapMetadata(db, model, rt);
    forall i | 0 <= i < |model.entities|
      ensures EntityTableIn(CreateDatabaseStructure(db, model, rt).value, model.entities[i])
    {
      BootstrapEntityTable(db, model, rt, i);
    }
    forall i, k | 0 <= i < |model.entities| && 0 <= k < |model.entities[i].attributes|
                  && model.entities[i].attributes[k].Relationship?
      ensures JoinTableIn(CreateDatabaseStructure(db, model, rt).value, model, model.entities[i].attributes[k], rt)
    {
      BootstrapJoinTable(db, model, rt, i, k);
    }
  }

  /** The metadata table a bootstrap leaves holds only the version row, numbered 1. */
  lemma BootstrapMetadata(db: Db, model: Model, rt: Runtime)
    requires CreateDatabaseStructure(db, model, rt).Ok?
    ensures var r := CreateDatabaseStructure(db, model, rt).value;
            MetadataTable in r && r[MetadataTable].rows == [VersionRow(model.version)["id" := CInt(1)]]
  {
    var plan := BootstrapPlan(model, rt).value;
    var defs := BootstrapDefinitions(plan);
    var db1 := CreateTables(db, defs).value;
    assert defs[|defs| - 1].name == MetadataTable;
    FreshMetadataRows(db1, CreateDatabaseStructure(db, model, rt).value, model.version);
  }

  /** The table created by statement `j` of a bootstrap's plan is still empty at its end. */
  lemma BootstrapCreated(db: Db, model: Model, rt: Runtime, j: nat)
    requires CreateDatabaseStructure(db, model, rt).Ok?
    requires j < |BootstrapPlan(model, rt).value.0| + |BootstrapPlan(model, rt).value.1|
    ensures var d := BootstrapDefinitions(BootstrapPlan(model, rt).value)[j];
            var r := CreateDatabaseStructure(db, model, rt).value;
            d.name in r && r[d.name] == EmptyTable(d)
  {
    var plan := BootstrapPlan(model, rt).value;
    var defs := BootstrapDefinitions(plan);
    var db1 := CreateTables(db, defs).value;
    assert defs[j].name != defs[|defs| - 1].name;
    assert Insert(db1, MetadataTable, VersionRow(model.version)).value.0 == CreateDatabaseStructure(db, model, rt).value;
  }

  /** A bootstrap leaves each entity's table empty, with the columns of its entity. */
  lemma BootstrapEntityTable(db: Db, model: Model, rt: Runtime, i: nat)
    requires CreateDatabaseStructure(db, model, rt).Ok? && i < |model.entities|
    ensures EntityTableIn(CreateDatabaseStructure(db, model, rt).value, model.entities[i])
  {
    var plan := BootstrapPlan(model, rt).value;
    BootstrapCreated(db, model, rt, i);
    assert (plan.0 + plan.1)[i] == EntityTable(model.entities[i]);
    assert BootstrapDefinitions(plan)[i] == Definitions(plan.0 + plan.1)[i];
  }

  /** A bootstrap leaves each relationship's join table empty, laid out as the join
      table of a relationship of the model with the same table name. */
  lemma BootstrapJoinTable(db: Db, model: Model, rt: Runtime, i: nat, k: nat)
    requires CreateDatabaseStructure(db, model, rt).Ok?
    requires i < |model.entities| && k < |model.entities[i].attributes| && model.entities[i].attributes[k].Relationship?
    ensures JoinTableIn(CreateDatabaseStructure(db, model, rt).value, model, model.entities[i].attributes[k], rt)
  {
    var plan := BootstrapPlan(model, rt).value;
    var j, i', k' := PlannedJoinOf(model, rt, i, k);
    BootstrapJoinCreated(db, model, rt, j);
    JoinTableInByWitness(CreateDatabaseStructure(db, model, rt).value, model, model.entities[i].attributes[k], rt, i', k', plan.1[j]);
  }

  /** The plan holds a join table under each relationship's table name, laid out for
      some relationship of the model. */
  lemma PlannedJoinOf(model: Model, rt: Runtime, i: nat, k: nat) returns (j: nat, i': nat, k': nat)
    requires BootstrapPlan(model, rt).Ok?
    requires i < |model.entities| && k < |model.entities[i].attributes| && model.entities[i].attributes[k].Relationship?
    ensures var plan := BootstrapPlan(model, rt).value;
            j < |plan.1| && TableName(model.entities[i].attributes[k], rt) == Ok(plan.1[j].name)
            && i' < |model.entities| && k' < |model.entities[i'].attributes|
            && JoinOf(plan.1[j], model.entities[i'].attributes[k'], rt)
  {
    var plan := BootstrapPlan(model, rt).value;
    var a := model.entities[i].attributes[k];
    assert HasJoinTable(plan.1, a, rt);
    PlanJoinsFromModel(model, rt);
    j, i', k' := PickJoin(plan.1, model.entities, TableName(a, rt).value, rt);
  }

  /** Every join table of a plan is the join table of a relationship of the model. */
  lemma PlanJoinsFromModel(model: Model, rt: Runtime)
    requires BootstrapPlan(model, rt).Ok?
    ensures var joins := BootstrapPlan(model, rt).value.1;
            forall j :: 0 <= j < |joins| ==> JoinedFrom(joins, j, model.entities, rt)
  {
    EntitiesPlanFrom(model.entities, [], [], rt);
  }

  lemma PickJoin(specs: seq<TableSpec>, entities: seq<Entity>, name: string, rt: Runtime) returns (j: nat, i: nat, k: nat)
    requires Named(specs, name)
    requires forall j :: 0 <= j < |specs| ==> JoinedFrom(specs, j, entities, rt)
    ensures j < |specs| && specs[j].name == name
    ensures i < |entities| && k < |entities[i].attributes| && JoinOf(specs[j], entities[i].attributes[k], rt)
  {
    j :| 0 <= j < |specs| && specs[j].name == name;
    assert JoinedFrom(specs, j, entities, rt);
    i, k :| 0 <= i < |entities| && 0 <= k < |entities[i].attributes| && JoinOf(specs[j], entities[i].attributes[k], rt);
  }

  lemma BootstrapJoinCreated(db: Db, model: Model, rt: Runtime, j: nat)
    requires CreateDatabaseStructure(db, model, rt).Ok? && j < |BootstrapPlan(model, rt).value.1|
    ensures var s := BootstrapPlan(model, rt).value.1[j];
            var r := CreateDatabaseStructure(db, model, rt).value;
            s.name in r && r[s.name] == EmptyTable(TableDef(s.name, s.fields, Some(ObjectIDColumn)))
  {
    var plan := BootstrapPlan(model, rt).value;
    BootstrapCreated(db, model, rt, |plan.0| + j);
    JoinDefinitionAt(plan, j);
  }

  lemma JoinDefinitionAt(plan: (seq<TableSpec>, seq<TableSpec>), j: nat)
    requires j < |plan.1|
    ensures BootstrapDefinitions(plan)[|plan.0| + j] == TableDef(plan.1[j].name, plan.1[j].fields, Some(ObjectIDColumn))
  {
    assert (plan.0 + plan.1)[|plan.0| + j] == plan.1[j];
    assert BootstrapDefinitions(plan)[|plan.0| + j] == Definitions(plan.0 + plan.1)[|plan.0| + j];
  }

  lemma JoinTableInByWitness(r: Db, model: Model, a: Attribute, rt: Runtime, i: nat, k: nat, spec: TableSpec)
    requires a.Relationship? && TableName(a, rt) == Ok(spec.name)
    requires i < |model.entities| && k < |model.entities[i].attributes| && JoinOf(spec, model.entities[i].attributes[k], rt)
    requires spec.name in r && r[spec.name] == EmptyTable(TableDef(spec.name, spec.fields, Some(ObjectIDColumn)))
    ensures JoinTableIn(r, model, a, rt)
  {
  }

  /** `s` is the join table of relationship `a`: named by its table name and laid out
      by `JoinTableSpec`. */
  predicate JoinOf(s: TableSpec, a: Attribute, rt: Runtime) {
    a.Relationship? && TableName(a, rt) == Ok(s.name) && s == JoinTableSpec(s.name, a, rt)
  }

  /** Table `r[j]` is the join table of one of `attrs`. */
  predicate JoinedFromAttributes(r: seq<TableSpec>, j: int, attrs: seq<Attribute>, rt: Runtime) {
    0 <= j < |r| && exists m :: 0 <= m < |attrs| && JoinOf(r[j], attrs[m], rt)
  }

  /** Every join table an attribute's step adds is that attribute's join table. */
  lemma JoinStepAddsOwn(joins: seq<TableSpec>, a: Attribute, rt: Runtime)
    requires DistinctNames(joins) && JoinStep(joins, a, rt).Ok?
    ensures var r := JoinStep(joins, a, rt).value;
            forall j :: |joins| <= j < |r| ==> JoinOf(r[j], a, rt)
  {
    if a.Relationship? {
      var tn := TableName(a, rt).value;
      var r := JoinStep(joins, a, rt).value;
      assert r == AddJoinTable(joins, tn, a, rt);
      if !Named(joins, tn) {
        assert |r| == |joins| + 1 && r[|joins|] == JoinTableSpec(tn, a, rt);
      }
    }
  }

  /** Every join table an entity's attributes add is the join table of one of them. */
  lemma {:induction false} JoinTablesFrom(attrs: seq<Attribute>, joins: seq<TableSpec>, rt: Runtime)
    requires DistinctNames(joins) && JoinTables(attrs, joins, rt).Ok?
    ensures var r := JoinTables(attrs, joins, rt).value;
            forall j :: |joins| <= j < |r| ==> JoinedFromAttributes(r, j, attrs, rt)
    decreases |attrs|
  {
    if |attrs| > 0 {
      var joins' := JoinStep(joins, attrs[0], rt).value;
      JoinTablesFrom(attrs[1..], joins', rt);
      assert JoinTables(attrs, joins, rt) == JoinTables(attrs[1..], joins', rt);
      JoinStepAddsOwn(joins, attrs[0], rt);
      JoinTablesFromStep(attrs, joins, joins', JoinTables(attrs, joins, rt).value, rt);
    }
  }

  lemma JoinTablesFromStep(attrs: seq<Attribute>, joins: seq<TableSpec>, joins': seq<TableSpec>, r: seq<TableSpec>, rt: Runtime)
    requires |attrs| > 0 && |joins| <= |joins'| <= |r| && r[..|joins'|] == joins'
    requires forall j :: |joins| <= j < |joins'| ==> JoinOf(joins'[j], attrs[0], rt)
    requires forall j :: |joins'| <= j < |r| ==> JoinedFromAttributes(r, j, attrs[1..], rt)
    ensures forall j :: |joins| <= j < |r| ==> JoinedFromAttributes(r, j, attrs, rt)
  {
    forall j | |joins| <= j < |r| ensures JoinedFromAttributes(r, j, attrs, rt) {
      if j < |joins'| {
        assert r[j] == r[..|joins'|][j] == joins'[j];
        assert JoinOf(r[j], attrs[0], rt);
      } else {
        assert JoinedFromAttributes(r, j, attrs[1..], rt);
        var m :| 0 <= m < |attrs| - 1 && JoinOf(r[j], attrs[1..][m], rt);
        assert attrs[1..][m] == attrs[m + 1];
      }
    }
  }

  /** Table `r[j]` is the join table of a relationship of one of `entities`. */
  predicate JoinedFrom(r: seq<TableSpec>, j: int, entities: seq<Entity>, rt: Runtime) {
    0 <= j < |r|
    && exists i, k :: 0 <= i < |entities| && 0 <= k < |entities[i].attributes| && JoinOf(r[j], entities[i].attributes[k], rt)
  }

  /** Every join table a plan adds is the join table of a relationship of one of the
      entities planned. */
  lemma {:induction false} EntitiesPlanFrom(entities: seq<Entity>, tables: seq<TableSpec>, joins: seq<TableSpec>, rt: Runtime)
    requires DistinctNames(tables) && DistinctNames(joins) && EntitiesPlan(entities, tables, joins, rt).Ok?
    ensures var r := EntitiesPlan(entities, tables, joins, rt).value.1;
            forall j :: |joins| <= j < |r| ==> JoinedFrom(r, j, entities, rt)
    decreases |entities|
  {
    if |entities| > 0 {
      var e := entities[0];
      var joins' := JoinTables(e.attributes, joins, rt).value;
      JoinTablesFrom(e.attributes, joins, rt);
      var tables' := tables + [EntityTable(e)];
      AppendDistinct(tables, EntityTable(e));
      EntitiesPlanFrom(entities[1..], tables', joins', rt);
      var r := EntitiesPlan(entities, tables, joins, rt).value.1;
      assert r == EntitiesPlan(entities[1..], tables', joins', rt).value.1;
      forall j | |joins| <= j < |r| ensures JoinedFrom(r, j, entities, rt) {
        if j < |joins'| {
          assert r[j] == r[..|joins'|][j] == joins'[j];
          assert JoinedFromAttributes(joins', j, e.attributes, rt);
          var m :| 0 <= m < |e.attributes| && JoinOf(joins'[j], e.attributes[m], rt);
          assert JoinOf(r[j], entities[0].attributes[m], rt);
        } else {
          assert JoinedFrom(r, j, entities[1..], rt);
          var i, k :| 0 <= i < |entities| - 1 && 0 <= k < |entities[1..][i].attributes|
                      && JoinOf(r[j], entities[1..][i].attributes[k], rt);
          assert entities[1..][i] == entities[i + 1];
        }
      }
    }
  }

  lemma VersionOfFreshMetadata(db1: Db, db2: Db, version: string)
    requires MetadataTable in db1 && db1[MetadataTable] == EmptyTable(TableDef(MetadataTable, MetadataFields, Some("id")))
    requires Insert(db1, MetadataTable, VersionRow(version)).Ok?
    requires db2 == Insert(db1, MetadataTable, VersionRow(version)).value.0
    ensures DatabaseVersion(db2) == Some(version)
  {
    FreshMetadataRows(db1, db2, version);
    VersionOfVersionRow(db2, version);
  }

  /** A metadata table holding just the version row numbered 1 records that version. */
  lemma VersionOfVersionRow(db: Db, version: string)
    requires MetadataTable in db && db[MetadataTable].rows == [VersionRow(version)["id" := CInt(1)]]
    ensures DatabaseVersion(db) == Some(version)
  {
    var row := VersionRow(version)["id" := CInt(1)];
    assert Matches(row, VersionKey) && row["value"] == CString(version);
    DatabaseVersionReadsFirstRow(db, 0, version);
  }

  /** The version row inserted into an empty metadata table is numbered 1 and is its only row. */
  lemma FreshMetadataRows(db1: Db, db2: Db, version: string)
    requires MetadataTable in db1 && db1[MetadataTable] == EmptyTable(TableDef(MetadataTable, MetadataFields, Some("id")))
    requires Insert(db1, MetadataTable, VersionRow(version)).Ok?
    requires db2 == Insert(db1, MetadataTable, VersionRow(version)).value.0
    ensures MetadataTable in db2 && db2[MetadataTable].rows == [VersionRow(version)["id" := CInt(1)]]
  {
    assert AutoField(MetadataFields) == Some("id");
    var t := db1[MetadataTable];
    assert t.auto == Some("id") && t.nextId == 1 && t.rows == [];
  }

  /** Bootstrapping as written: every statement loses its PRIMARY KEY clause. */
  function CreateDatabaseStructureAsWritten(db: Db, model: Model, rt: Runtime): (r: Result<Db>)
    ensures r.Err? ==> r.error.PersistentStoreException? || r.error.DatabaseError?
  {
    var plan :- BootstrapPlan(model, rt);
    var defs := DefinitionsAsWritten(plan.0 + plan.1) + [TableDef(MetadataTable, MetadataFields, PrimaryKeyClauseAsWritten(Some("id")))];
    var db1 :- CreateTables(db, defs);
    var db2 :- Insert(db1, MetadataTable, VersionRow(model.version));
    Ok(db2.0)
  }

  /** As written, no database can be bootstrapped: the metadata table, like every
      other, numbers a column that is not declared as the key. */
  lemma CreateDatabaseStructureAsWrittenAlwaysFails(db: Db, model: Model, rt: Runtime)
    ensures CreateDatabaseStructureAsWritten(db, model, rt).Err?
  {
    var plan := BootstrapPlan(model, rt);
    if plan.Ok? {
      var defs := DefinitionsAsWritten(plan.value.0 + plan.value.1) + [TableDef(MetadataTable, MetadataFields, PrimaryKeyClauseAsWritten(Some("id")))];
      assert !KeysAutoFields(defs[|defs| - 1]) by {
        assert defs[|defs| - 1].fields[0].autoIncrement;
      }
    }
  }

  /** Runs before every request: a recorded version other than the model's raises, the
      model's version leaves the database alone, and no recorded version bootstraps. */
  function EnsureDatabaseConsistency(db: Db, model: Model, rt: Runtime): (r: Result<Db>)
    ensures DatabaseVersion(db) == Some(model.version) ==> r == Ok(db)
    ensures DatabaseVersion(db).Some? && DatabaseVersion(db) != Some(model.version) ==>
              r == Err(PersistentStoreException("Persistent Store Migration not supported!"))
    ensures r.Ok? ==> DatabaseVersion(r.value) == Some(model.version)
  {
    match DatabaseVersion(db)
    case Some(v) =>
      if v == model.version then Ok(db) else Err(PersistentStoreException("Persistent Store Migration not supported!"))
    case None => CreateDatabaseStructure(db, model, rt)
  }

  /** The consistency check is idempotent: once it succeeds, running it again changes
      nothing. */
  lemma EnsureDatabaseConsistencyIdempotent(db: Db, model: Model, rt: Runtime)
    requires EnsureDatabaseConsistency(db, model, rt).Ok?
    ensures var db' := EnsureDatabaseConsistency(db, model, rt).value;
            EnsureDatabaseConsistency(db', model, rt) == Ok(db')
  {
  }
}

=== FILE: session.dfy ===
/** The operations a managed object context performs through its coordinator: saving
    its changes, looking an object up by id, firing a fault, and building objects from
    a document tree. They hold for any store entry point `run` that meets the
    contract the coordinator relies on. */
module Sessions {
  import opened Errors
  import opened Types
  import opened Values
  import opened Attributes
  import opened Entities
  import opened ManagedObjects
  import opened ObjectGraph
  import opened ObjectModel
  import opened Contexts
  import opened Requests
  import opened Stores
  import opened Coordinators
  import StoreFetch

  /** The save request a context with changes sends: its changed live objects split
      into new and stored ones, then its deleted objects. */
  function SaveRequestFor(c: Context): (req: Request)
    requires c.Valid()
    ensures req.SaveRequest? && req.deletes == c.deleted && RequestFits(c, req)
    ensures forall x :: x in req.inserts <==> x in c.live && HasChanges(c.heap[x]) && c.heap[x].objectID == UnknownID
    ensures forall x :: x in req.updates <==> x in c.live && HasChanges(c.heap[x]) && c.heap[x].objectID != UnknownID
  {
    var p := Partition(c.heap, c.live);
    assert forall x :: x in c.live ==> x in c.heap;
    SaveRequest(p.0, p.1, c.deleted)
  }

  /** The objects a save request names: inserts, then updates, then deletions. */
  function Affected(req: Request): (affected: seq<Handle>)
    requires req.SaveRequest?
    ensures multiset(req.deletes) <= multiset(affected)
    ensures forall x :: x in affected <==> x in req.inserts || x in req.updates || x in req.deletes
  {
    req.inserts + req.updates + req.deletes
  }

  /** Applies what the stores answered to a save on the context that sent it: every
      deleted object leaves the deleted list, and every changed live object that was
      not deleted has its changes committed, as long as the answer covers the deleted
      objects and the changed live ones. */
  function Commit(c: Context, after: Context, affected: seq<Handle>): (r: Context)
    requires c.Valid() && KeepsLists(c, after)
    requires forall i :: 0 <= i < |affected| ==> affected[i] in c.heap
    requires multiset(c.deleted) <= multiset(affected)
    requires forall x :: x in c.live && HasChanges(c.heap[x]) ==> x in affected
    ensures r.Valid() && r.live == c.live && r.deleted == [] && r.heap.Keys == c.heap.Keys
    ensures forall x :: x in c.live && HasChanges(c.heap[x]) && x !in c.deleted ==> !HasChanges(r.heap[x])
  {
    var r := ApplySaveResult(after, affected);
    assert |multiset(r.deleted)| == 0;
    ApplySaveResultCleansAll(after, affected);
    r
  }

  /** Every affected object not scheduled for deletion ends without changes. */
  lemma ApplySaveResultCleansAll(c: Context, affected: seq<Handle>)
    requires c.Valid() && forall i :: 0 <= i < |affected| ==> affected[i] in c.heap
    ensures forall x :: x in affected && x !in c.deleted ==> !HasChanges(ApplySaveResult(c, affected).heap[x])
  {
    forall x | x in affected && x !in c.deleted
      ensures !HasChanges(ApplySaveResult(c, affected).heap[x])
    {
      ApplySaveResultCleans(c, affected, x);
    }
  }

  /** MManagedObjectContext::save. A context without changes sends nothing and answers
      false. Otherwise the save request goes to every store, and of the objects the
      stores report back each deleted one leaves the deleted list and every other has
      its changes committed. */
  function Save(c: Context, co: Coordinator, run: Runner): (r: Result<(Context, Coordinator, bool)>)
    requires c.Valid() && MeetsContract(run)
    ensures !ContextHasChanges(c) ==> r == Ok((c, co, false))
    ensures ContextHasChanges(c) && |co.stores| == 0 ==> r == Err(PersistentStoreException("No persistent stores defined!"))
    ensures r.Ok? ==> (r.value.2 <==> ContextHasChanges(c)) && r.value.0.Valid() && r.value.1.model == co.model
    ensures r.Ok? && r.value.2 ==>
              r.value.0.live == c.live && r.value.0.deleted == [] && r.value.0.heap.Keys == c.heap.Keys
    ensures r.Ok? ==> forall x :: x in c.live && HasChanges(c.heap[x]) && x !in c.deleted ==> !HasChanges(r.value.0.heap[x])
  {
    if !ContextHasChanges(c) then Ok((c, co, false))
    else
      var req := SaveRequestFor(c);
      var p :- ExecuteRequest(co, c, req, run);
      SaveKeepsLists(co, c, req, run);
      assert p.2 == Affected(req);
      Ok((Commit(c, p.1, p.2), p.0, true))
  }

  /** A save with changes sends the same save request to every store and keeps the
      coordinator's stores in order. */
  lemma SaveSendsRequestToEveryStore(c: Context, co: Coordinator, run: Runner)
    requires c.Valid() && MeetsContract(run) && Save(c, co, run).Ok? && ContextHasChanges(c)
    ensures forall i :: 0 <= i < |co.stores| ==>
              RanOn(run, co.stores[i], Save(c, co, run).value.1.stores[i], SaveRequestFor(c))
    ensures Ids(Save(c, co, run).value.1.stores) == Ids(co.stores)
  {
    var req := SaveRequestFor(c);
    assert Save(c, co, run).value.1 == ExecuteRequest(co, c, req, run).value.0;
    ExecuteRequestKeepsStores(co, c, req, run);
  }

  /** Saving a context that has just been saved finds nothing to do when the save
      left every live object without changes. */
  lemma SaveAgainIsNoOp(c: Context, co: Coordinator, run: Runner)
    requires c.Valid() && MeetsContract(run) && Save(c, co, run).Ok?
    requires var c' := Save(c, co, run).value.0; forall x :: x in c'.live ==> !HasChanges(c'.heap[x])
    ensures var r := Save(c, co, run).value; Save(r.0, r.1, run) == Ok((r.0, r.1, false))
  {
    var r := Save(c, co, run).value;
    if r.2 {
      assert !ContextHasChanges(r.0);
    }
  }

  /** The fetch request for the object of `e` with the given id. */
  function FetchById(e: Entity, id: int): (req: Request)
    ensures req.FetchRequest? && req.entity == e && FetchedId(req) == Some(id)
  {
    FetchRequest(e, StoreFetch.ById(id))
  }

  /** MManagedObjectContext::objectWithObjectID: the last object the first store
      fetches for the entity and id, or none when it fetches nothing. */
  function ObjectWithObjectID(c: Context, co: Coordinator, e: Entity, id: int, run: Runner)
    : (r: Result<(Context, Coordinator, Option<Handle>)>)
    ensures |co.stores| == 0 ==> r == Err(PersistentStoreException("No persistent stores defined!"))
    ensures r.Ok? ==> r.value.1.model == co.model
    ensures r.Ok? ==> |co.stores| > 0 && run(co.stores[0], c, FetchById(e, id)).Ok?
    ensures r.Ok? ==> var found := run(co.stores[0], c, FetchById(e, id)).value.2;
                      if |found| == 0 then r.value.2.None? else r.value.2 == Some(found[|found| - 1])
  {
    var p :- ExecuteRequest(co, c, FetchById(e, id), run);
    Ok((p.1, p.0, if |p.2| == 0 then None else Some(p.2[|p.2| - 1])))
  }

  /** The object found by id is an object of the context, of the entity asked for,
      with the id asked for. */
  lemma ObjectWithObjectIDFinds(c: Context, co: Coordinator, e: Entity, id: int, run: Runner)
    requires c.Valid() && MeetsContract(run)
    requires ObjectWithObjectID(c, co, e, id, run).Ok?
    ensures var r := ObjectWithObjectID(c, co, e, id, run).value;
            r.0.Valid() && (r.2.Some? ==> r.2.value in r.0.heap && r.0.heap[r.2.value].entity == e
                                          && r.0.heap[r.2.value].objectID == id)
  {
    var req := FetchById(e, id);
    var p := run(co.stores[0], c, req).value;
    assert Stores.Answers(c, req, p);
    if |p.2| > 0 {
      assert p.2[|p.2| - 1] in p.2;
    }
  }

  /** MManagedObject::fireFault: a fault is sent alone in a fault request to the first
      store; it is an error when the store reports it as not loaded. An object that is
      not a fault is left alone. */
  function FireFault(c: Context, co: Coordinator, h: Handle, run: Runner): (r: Result<(Context, Coordinator)>)
    requires c.Valid() && h in c.heap
    ensures !IsFault(c.heap[h]) ==> r == Ok((c, co))
    ensures IsFault(c.heap[h]) && |co.stores| == 0 ==> r == Err(PersistentStoreException("No persistent stores defined!"))
    ensures IsFault(c.heap[h]) && |co.stores| > 0 ==>
              var answer := run(co.stores[0], c, FaultRequest([h]));
              (r.Ok? <==> answer.Ok? && answer.value.2 == [])
              && (answer.Ok? && answer.value.2 != [] ==> r == Err(ManagedObjectException("Error while fetching data for fault!")))
    ensures r.Ok? ==> r.value.1.model == co.model
    ensures r.Ok? && IsFault(c.heap[h]) ==>
              |co.stores| > 0 && |r.value.1.stores| > 0 && run(co.stores[0], c, FaultRequest([h])) == Ok((r.value.1.stores[0], r.value.0, []))
  {
    if !IsFault(c.heap[h]) then Ok((c, co))
    else
      // the object is a fault, so the request accepts it
      var req := AddFault(NewFaultRequest, c.heap, h).value;
      assert req == FaultRequest([h]);
      var p :- ExecuteRequest(co, c, req, run);
      if |p.2| > 0 then Err(ManagedObjectException("Error while fetching data for fault!"))
      else Ok((p.1, p.0))
  }

  /** Firing a fault keeps the context valid and every object's identity. */
  lemma FireFaultKeepsObjects(c: Context, co: Coordinator, h: Handle, run: Runner)
    requires c.Valid() && h in c.heap && MeetsContract(run)
    requires FireFault(c, co, h, run).Ok?
    ensures FireFault(c, co, h, run).value.0.Valid()
    ensures SameIds(c.heap, FireFault(c, co, h, run).value.0.heap)
  {
    if IsFault(c.heap[h]) {
      var req := FaultRequest([h]);
      assert Stores.Answers(c, req, run(co.stores[0], c, req).value);
    }
  }

  /** A node of a document tree: an element's name, its attributes, its own text and
      its child elements. */
  datatype Element = Element(name: string, attributes: seq<(string, string)>, text: string, children: seq<Element>)

  /** Text libxml2 counts as blank: spaces, tabs, line feeds and carriage returns only. */
  predicate Blank(s: string) {
    forall i :: 0 <= i < |s| ==> s[i] in {' ', '\t', '\n', '\r'}
  }

  /** An element cast to bool, as SimpleXML casts it: it is true when it has an
      attribute, a child element or text that is not blank, whatever that text says. */
  predicate ElementTruth(x: Element) {
    |x.attributes| > 0 || |x.children| > 0 || !Blank(x.text)
  }

  /** The value a property's child element gives: a Boolean property takes the
      element cast to bool, every other type reads the element's text. */
  function ElementValue(t: PropertyType, x: Element, rt: Runtime): (r: Option<Value>)
    ensures r.None? <==> t == Unknown
    ensures r.Some? ==> AcceptsValue(t, r.value)
    ensures t != Boolean ==> r == CoerceText(t, x.text, rt)
  {
    if t == Boolean then Some(VBoolean(ElementTruth(x))) else CoerceText(t, x.text, rt)
  }

  /** A Boolean element reads true exactly when it has attributes, children or text
      that is not blank: `<b>0</b>` and `<b>false</b>` read true, `<b></b>` and `<b> </b>`
      read false, unlike a schema default, where only "" and "0" are false. */
  lemma BooleanElementValue(x: Element, rt: Runtime)
    ensures ElementValue(Boolean, x, rt) == Some(VBoolean(|x.attributes| > 0 || |x.children| > 0 || !Blank(x.text)))
    ensures x.attributes == [] && x.children == [] && x.text == "0" ==>
              ElementValue(Boolean, x, rt) == Some(VBoolean(true)) && CoerceText(Boolean, x.text, rt) == Some(VBoolean(false))
    ensures x.attributes == [] && x.children == [] && x.text == " " ==> ElementValue(Boolean, x, rt) == Some(VBoolean(false))
  {
    if x.text == "0" {
      assert !Blank(x.text) by {
        assert x.text[0] == '0';
      }
    }
  }

  function Size(el: Element): (n: nat)
    ensures n > 0
  {
    1 + SizeAll(el.children)
  }

  function SizeAll(els: seq<Element>): nat {
    if |els| == 0 then 0 else Size(els[0]) + SizeAll(els[1..])
  }

  /** `c'` extends `c`: it is valid, keeps every object with its identity, schedules
      the same deletions, and only appends live objects. */
  predicate Grows(c: Context, c': Context) {
    c'.Valid() && SameIds(c.heap, c'.heap) && c.next <= c'.next && c'.deleted == c.deleted && c.live <= c'.live
  }

  lemma GrowsTrans(a: Context, b: Context, c: Context)
    requires Grows(a, b) && Grows(b, c)
    ensures Grows(a, c)
  {
    SameIdsTrans(a.heap, b.heap, c.heap);
  }

  /** Object `h` of `c` was created, from element `el`, after the context `c0`: it is
      new, it is of the entity the element names, and it has no id. */
  predicate ParsedFrom(c0: Context, c: Context, entities: seq<Entity>, h: Handle, el: Element) {
    h in c.heap && c0.next <= h < c.next && EntityWithName(entities, el.name).Some?
    && c.heap[h].entity == EntityWithName(entities, el.name).value && c.heap[h].objectID == UnknownID
  }

  /** A parsed object stays what it was parsed as while the context grows. */
  lemma ParsedFromGrows(c0: Context, c: Context, c': Context, entities: seq<Entity>, h: Handle, el: Element)
    requires ParsedFrom(c0, c, entities, h, el) && Grows(c, c')
    ensures ParsedFrom(c0, c', entities, h, el)
  {
  }

  /** A context whose heap is replaced by one with the same objects, each keeping its
      identity, grows from the old one. */
  lemma SwapHeapGrows(c: Context, heap: Heap)
    requires c.Valid() && HeapValid(heap) && heap.Keys == c.heap.Keys && SameIds(c.heap, heap)
    ensures Grows(c, c.(heap := heap))
  {
  }

  /** Sets property `a` of object `h` to `v`. */
  function SetValue(c: Context, h: Handle, a: Attribute, v: Value): (r: Result<Context>)
    requires c.Valid() && h in c.heap && a.Property?
    ensures r.Ok? <==> AcceptsValue(a.propertyType, v)
    ensures r.Ok? ==> Grows(c, r.value) && ReadProperty(r.value.heap[h], a.name) == v
  {
    var o :- SetProperty(c.heap[h], a, v);
    ReplaceObjectKeepsIds(c, h, o);
    Ok(c.(heap := c.heap[h := o]))
  }

  /** Adds object `k` to relationship `a` of object `h`, and `h` to the inverse side
      of `k`. */
  function Link(c: Context, h: Handle, a: Attribute, k: Handle): (r: Result<Context>)
    requires c.Valid() && h in c.heap && k in c.heap && a.Relationship?
    ensures r.Ok? ==> Grows(c, r.value)
    ensures r.Ok? <==> a.target == c.heap[k].entity.className
                       && (a.inverse.Some? ==> a.inverse.value.target == c.heap[h].entity.className)
    ensures r.Err? ==> r.error.InvalidManagedObjectOperation?
  {
    var heap :- AddToRelationship(c.heap, h, a, k, true);
    AddToRelationshipKeepsIds(c.heap, h, a, k, true);
    SwapHeapGrows(c, heap);
    Ok(c.(heap := heap))
  }

  /** A new object of `e` with no id, inserted into the context as its last live
      object. */
  function CreateObject(c: Context, e: Entity): (r: (Context, Handle))
    requires c.Valid()
    ensures Grows(c, r.0) && r.0.live == c.live + [r.1]
    ensures r.1 in r.0.heap && c.next <= r.1 < r.0.next
    ensures r.0.heap[r.1].entity == e && r.0.heap[r.1].objectID == UnknownID
  {
    NewObjectForEntity(c, e, UnknownID)
  }

  /** MManagedObjectContext::_parseObjectFromXML: the element names an entity by name
      or plural; a new object of it is created with no id, joins the live objects,
      and each child element sets one of its attributes. */
  function ParseObject(c: Context, entities: seq<Entity>, el: Element, rt: Runtime): (r: Result<(Context, Handle)>)
    requires c.Valid()
    ensures EntityWithName(entities, el.name).None? ==> r == Err(EntityNotFound(el.name))
    ensures r.Ok? ==> Grows(c, r.value.0) && ParsedFrom(c, r.value.0, entities, r.value.1, el)
    ensures r.Ok? ==> c.live + [r.value.1] <= r.value.0.live
    decreases Size(el), 2
  {
    match EntityWithName(entities, el.name)
    case None => Err(EntityNotFound(el.name))
    case Some(e) =>
      var (c1, h) := CreateObject(c, e);
      var c2 :- ParseAttributes(c1, entities, h, el.children, rt);
      GrowsTrans(c, c1, c2);
      assert ParsedFrom(c, c1, entities, h, el);
      ParsedFromGrows(c, c1, c2, entities, h, el);
      Ok((c2, h))
  }

  /** Sets the attributes of object `h` from the child elements, in order. */
  function ParseAttributes(c: Context, entities: seq<Entity>, h: Handle, nodes: seq<Element>, rt: Runtime)
    : (r: Result<Context>)
    requires c.Valid() && h in c.heap
    ensures r.Ok? ==> Grows(c, r.value)
    decreases SizeAll(nodes), 1
  {
    if |nodes| == 0 then Ok(c)
    else
      var c1 :- ParseAttribute(c, entities, h, nodes[0], rt);
      var c2 :- ParseAttributes(c1, entities, h, nodes[1..], rt);
      GrowsTrans(c, c1, c2);
      Ok(c2)
  }

  /** Sets one attribute from a child element: a property takes the element's value
      for the property's type; a relationship takes the objects parsed from the
      element's children. A name the entity does not know is a method call on null. */
  function ParseAttribute(c: Context, entities: seq<Entity>, h: Handle, x: Element, rt: Runtime)
    : (r: Result<Context>)
    requires c.Valid() && h in c.heap
    ensures AttributeWithName(c.heap[h].entity, x.name).None? ==> r.Err? && r.error.FatalError?
    ensures r.Ok? ==> Grows(c, r.value)
    decreases Size(x), 0
  {
    match AttributeWithName(c.heap[h].entity, x.name)
    case None => Err(FatalError("Call to a member function className() on null"))
    case Some(a) =>
      if a.Property? then
        match ElementValue(a.propertyType, x, rt)
        case None => Err(InvalidDataType("StringType|IntegerType|FloatType|BooleanType|DateType|BinaryType"))
        case Some(v) => SetValue(c, h, a, v)
      else
        ParseRelated(c, entities, h, a, x.children, rt)
  }

  /** Adds the objects parsed from `children` to relationship `a` of object `h`, in
      order, each also on the inverse side. */
  function ParseRelated(c: Context, entities: seq<Entity>, h: Handle, a: Attribute, children: seq<Element>, rt: Runtime)
    : (r: Result<Context>)
    requires c.Valid() && h in c.heap && a.Relationship?
    ensures r.Ok? ==> Grows(c, r.value)
    decreases SizeAll(children), 3
  {
    if |children| == 0 then Ok(c)
    else
      var p :- ParseObject(c, entities, children[0], rt);
      var c1 :- Link(p.0, h, a, p.1);
      GrowsTrans(c, p.0, c1);
      var c2 :- ParseRelated(c1, entities, h, a, children[1..], rt);
      GrowsTrans(c, c1, c2);
      Ok(c2)
  }

  /** An element with a single property child gives an object that reads, under the
      property's name, the child's value for the property's type. */
  lemma ParsedPropertyReadsBack(c: Context, entities: seq<Entity>, el: Element, rt: Runtime, e: Entity, a: Attribute)
    requires c.Valid() && EntityWithName(entities, el.name) == Some(e)
    requires |el.children| == 1 && AttributeWithName(e, el.children[0].name) == Some(a)
    requires a.Property? && !a.propertyType.Unknown?
    ensures ParseObject(c, entities, el, rt).Ok?
    ensures var r := ParseObject(c, entities, el, rt).value;
            r.1 in r.0.heap && ReadProperty(r.0.heap[r.1], a.name) == ElementValue(a.propertyType, el.children[0], rt).value
  {
    var (c1, h) := CreateObject(c, e);
    ParsedPropertySets(c1, entities, h, el.children[0], rt, a);
    SingleAttribute(c1, entities, h, el.children, rt);
  }

  /** A property child element sets the property to its value for the property's
      type. */
  lemma ParsedPropertySets(c: Context, entities: seq<Entity>, h: Handle, x: Element, rt: Runtime, a: Attribute)
    requires c.Valid() && h in c.heap && AttributeWithName(c.heap[h].entity, x.name) == Some(a)
    requires a.Property? && !a.propertyType.Unknown?
    ensures ParseAttribute(c, entities, h, x, rt).Ok?
    ensures var c' := ParseAttribute(c, entities, h, x, rt).value;
            h in c'.heap && ReadProperty(c'.heap[h], a.name) == ElementValue(a.propertyType, x, rt).value
  {
    assert ParseAttribute(c, entities, h, x, rt) == SetValue(c, h, a, ElementValue(a.propertyType, x, rt).value);
  }

  lemma SingleAttribute(c: Context, entities: seq<Entity>, h: Handle, nodes: seq<Element>, rt: Runtime)
    requires c.Valid() && h in c.heap && |nodes| == 1 && ParseAttribute(c, entities, h, nodes[0], rt).Ok?
    ensures ParseAttributes(c, entities, h, nodes, rt) == ParseAttribute(c, entities, h, nodes[0], rt)
  {
    assert nodes[1..] == [];
  }

  /** Each `hs[i]` was parsed from `els[i]` after the context `c0`. */
  predicate AllParsedFrom(c0: Context, c: Context, entities: seq<Entity>, hs: seq<Handle>, els: seq<Element>) {
    |hs| == |els| && forall i :: 0 <= i < |els| ==> ParsedFrom(c0, c, entities, hs[i], els[i])
  }

  predicate Increasing(hs: seq<Handle>) {
    forall i, j :: 0 <= i < j < |hs| ==> hs[i] < hs[j]
  }

  /** An object parsed first, followed by objects parsed after it, are parsed in
      order. */
  lemma AllParsedFromCons(c0: Context, c1: Context, c: Context, entities: seq<Entity>, h: Handle, hs: seq<Handle>,
                          els: seq<Element>)
    requires |els| > 0 && ParsedFrom(c0, c, entities, h, els[0]) && h < c1.next && c0.next <= c1.next
    requires AllParsedFrom(c1, c, entities, hs, els[1..]) && Increasing(hs)
    ensures AllParsedFrom(c0, c, entities, [h] + hs, els) && Increasing([h] + hs)
  {
    var r := [h] + hs;
    forall i | 1 <= i < |els|
      ensures r[i] == hs[i - 1] && ParsedFrom(c0, c, entities, r[i], els[i])
    {
      assert els[i] == els[1..][i - 1];
      assert ParsedFrom(c1, c, entities, hs[i - 1], els[1..][i - 1]);
    }
  }

  /** MManagedObjectContext::parseObjectsFromXML: one new object per child of the
      root, in document order. */
  function ParseObjects(c: Context, entities: seq<Entity>, els: seq<Element>, rt: Runtime)
    : (r: Result<(Context, seq<Handle>)>)
    requires c.Valid()
    ensures r.Ok? ==> Grows(c, r.value.0) && AllParsedFrom(c, r.value.0, entities, r.value.1, els)
    ensures r.Ok? ==> Increasing(r.value.1)
    ensures (exists i :: 0 <= i < |els| && EntityWithName(entities, els[i].name).None?) ==> r.Err?
    decreases |els|
  {
    if |els| == 0 then Ok((c, []))
    else
      var p :- ParseObject(c, entities, els[0], rt);
      var q :- ParseObjects(p.0, entities, els[1..], rt);
      GrowsTrans(c, p.0, q.0);
      ParsedFromGrows(c, p.0, q.0, entities, p.1, els[0]);
      AllParsedFromCons(c, p.0, q.0, entities, p.1, q.1, els);
      Ok((q.0, [p.1] + q.1))
  }
}

=== FILE: store.dfy ===
/** A persistent store running one request: the database is first brought in line
    with the coordinator's model, then the request is dispatched by kind to the save,
    fetch or fault algorithm. */
module Stores {
  import opened Errors
  import opened Values
  import opened Entities
  import opened ManagedObjects
  import opened ObjectGraph
  import opened Database
  import opened Codec
  import opened ObjectModel
  import opened Contexts
  import opened Requests
  import Schema
  import StoreSave
  import StoreFetch

  /** A persistent store: its database and whether its back-link to a coordinator is
      set. Stores are told apart by identity, here `id`. */
  datatype Store = Store(id: nat, db: Db, coordinated: bool)

  /** Whether the handles a request names are objects of the context. */
  predicate RequestFits(c: Context, req: Request) {
    match req
    case SaveRequest(inserts, updates, deletes) =>
      (forall x :: x in inserts ==> x in c.heap) && (forall x :: x in updates ==> x in c.heap)
      && (forall x :: x in deletes ==> x in c.heap)
    case FaultRequest(faults) => forall x :: x in faults ==> x in c.heap
    case _ => true
  }

  /** The id a fetch request asks for, when its only condition is on the object id. */
  function FetchedId(req: Request): (id: Option<int>)
    ensures forall e, i :: req == FetchRequest(e, StoreFetch.ById(i)) ==> id == Some(i)
    ensures id.Some? ==> req.FetchRequest? && req.conds == StoreFetch.ById(id.value)
  {
    if req.FetchRequest? && |req.conds| == 1 && req.conds[0].column == ObjectIDColumn && req.conds[0].value.CInt?
    then Some(req.conds[0].value.i)
    else None
  }

  /** MPersistentStore::executeRequest. */
  function StoreRequest(s: Store, model: Model, c: Context, req: Request, rt: Runtime)
    : (r: Result<(Store, Context, seq<Handle>)>)
    requires c.Valid() && RequestFits(c, req)
    ensures r.Ok? ==> r.value.0.id == s.id && r.value.0.coordinated == s.coordinated && r.value.1.Valid()
    ensures r.Ok? ==> Schema.EnsureDatabaseConsistency(s.db, model, rt).Ok?
    ensures req.OtherRequest? ==> r.Err?
    ensures r.Ok? && req.SaveRequest? ==>
              r.value.2 == req.inserts + req.updates + req.deletes
              && r.value.1.heap.Keys == c.heap.Keys && r.value.1.live == c.live && r.value.1.deleted == c.deleted
    ensures r.Ok? && req.FaultRequest? ==>
              SameIds(c.heap, r.value.1.heap) && forall h :: h in r.value.2 ==> h in req.faults
    ensures r.Ok? && !req.SaveRequest? ==> r.value.0.db == Schema.EnsureDatabaseConsistency(s.db, model, rt).value
  {
    var db :- Schema.EnsureDatabaseConsistency(s.db, model, rt);
    match req
    case SaveRequest(inserts, updates, deletes) =>
      var p :- StoreSave.ExecuteSave(StoreSave.World(c.heap, db), inserts, updates, deletes, rt);
      Ok((s.(db := p.0.db), c.(heap := p.0.heap), p.1))
    case FetchRequest(e, conds) =>
      var p :- StoreFetch.ExecuteFetch(c, db, e, conds, rt);
      Ok((s.(db := db), p.0, p.1))
    case FaultRequest(faults) =>
      var p :- StoreFetch.ExecuteFault(c, db, model.entities, faults, rt);
      Ok((s.(db := db), p.0, p.1))
    case OtherRequest(_) => Err(PersistentStoreException("Invalid request type"))
  }

  /** Whether a data write leaves a row carrying the object's id: the object has data
      to write, none of it under the objectID column, and it is either new, in a table
      its objectID column numbers, or stored with a row already there. */
  predicate WritesOwnRow(w: StoreSave.World, h: Handle)
    requires h in w.heap
  {
    var o, table := w.heap[h], w.heap[h].entity.plural;
    |o.updated| > 0 && ObjectIDColumn !in o.updated && table in w.db
    && ((o.objectID == UnknownID && w.db[table].auto == Some(ObjectIDColumn))
        || (o.objectID != UnknownID && StoreSave.RowsWithId(w.db, table, o.objectID) != []))
  }

  /** Save, then fault: after a save writes an object's updated data, a fault of the
      object from the database it left finds the object's row and sets every updated
      value back, given a runtime that rereads what it writes. */
  lemma SaveDataThenFaultReadsBack(w: StoreSave.World, h: Handle, c: Context, entities: seq<Entity>, rt: Runtime)
    requires HeapValid(w.heap) && h in w.heap && DbValid(w.db) && StoreSave.SaveData(w, h).Ok?
    requires forall k :: k in w.heap[h].updated ==> RuntimeRereads(rt, w.heap[h].updated[k])
    requires c.Valid() && h in c.heap && c.heap[h].entity == w.heap[h].entity
    requires c.heap[h].objectID == StoreSave.SaveData(w, h).value.heap[h].objectID
    requires StoreFetch.FaultObject(c, StoreSave.SaveData(w, h).value.db, entities, h, rt).Ok?
    ensures WritesOwnRow(w, h) ==>
              var f, updated := StoreFetch.FaultObject(c, StoreSave.SaveData(w, h).value.db, entities, h, rt).value, w.heap[h].updated;
              !f.1 && forall k :: k in updated ==> k in f.0.heap[h].data && f.0.heap[h].data[k] == updated[k]
  {
    if WritesOwnRow(w, h) {
      var o, table := w.heap[h], w.heap[h].entity.plural;
      var w' := StoreSave.SaveData(w, h).value;
      SaveDataLeavesOwnRow(w, h);
      var id := w'.heap[h].objectID;
      var rows := StoreSave.RowsWithId(w'.db, table, id);
      assert StoreFetch.ById(id) == [Condition(ObjectIDColumn, CInt(id))];
      assert !StoreFetch.Missing(w'.db, c.heap[h]);
      StoreFetch.FaultSetsDecodedData(c, w'.db, entities, h, rt);
      Codec.DecodeReadsBackUnpack(o.updated, o.entity, w'.db[table].columns, rows[0], rt);
    }
  }

  /** A data write that writes the object's own row leaves a first row carrying the
      object's id that holds the cells unpacked from its data, each under a column of
      the table. */
  lemma SaveDataLeavesOwnRow(w: StoreSave.World, h: Handle)
    requires HeapValid(w.heap) && h in w.heap && DbValid(w.db) && StoreSave.SaveData(w, h).Ok?
    requires WritesOwnRow(w, h)
    ensures Unpack(w.heap[h].updated, w.heap[h].entity).Ok?
    ensures var w', table, cells := StoreSave.SaveData(w, h).value, w.heap[h].entity.plural, Unpack(w.heap[h].updated, w.heap[h].entity).value;
            table in w'.db && StoreSave.RowsWithId(w'.db, table, w'.heap[h].objectID) != []
            && HoldsCells(StoreSave.RowsWithId(w'.db, table, w'.heap[h].objectID)[0], cells)
            && forall k :: k in cells ==> k in w'.db[table].columns
  {
    var o := w.heap[h];
    var cells := Unpack(o.updated, o.entity).value;
    assert StoreSave.SaveData(w, h) == StoreSave.StoreRow(w, h, cells);
    assert ObjectIDColumn !in cells;
    StoreRowLeavesOwnRow(w, h, cells);
  }

  lemma StoreRowLeavesOwnRow(w: StoreSave.World, h: Handle, cells: Row)
    requires HeapValid(w.heap) && h in w.heap && DbValid(w.db) && StoreSave.StoreRow(w, h, cells).Ok?
    requires ObjectIDColumn !in cells && w.heap[h].entity.plural in w.db
    requires var o, table := w.heap[h], w.heap[h].entity.plural;
             (o.objectID == UnknownID && w.db[table].auto == Some(ObjectIDColumn))
             || (o.objectID != UnknownID && StoreSave.RowsWithId(w.db, table, o.objectID) != [])
    ensures var w', table := StoreSave.StoreRow(w, h, cells).value, w.heap[h].entity.plural;
            table in w'.db && StoreSave.RowsWithId(w'.db, table, w'.heap[h].objectID) != []
            && HoldsCells(StoreSave.RowsWithId(w'.db, table, w'.heap[h].objectID)[0], cells)
            && forall k :: k in cells ==> k in w'.db[table].columns
  {
    var o, table := w.heap[h], w.heap[h].entity.plural;
    var w' := StoreSave.StoreRow(w, h, cells).value;
    StoreSave.StoreRowWritesRow(w, h, cells);
    StoreRowKeepsColumns(w, h, cells);
    var rows := StoreSave.RowsWithId(w'.db, table, w'.heap[h].objectID);
    if o.objectID == UnknownID {
      assert rows[0] == cells[ObjectIDColumn := CInt(w'.heap[h].objectID)];
    } else {
      assert rows[0] in rows;
    }
  }

  /** A data write that succeeds keeps the columns of the object's table, and every
      cell it writes names one of them. */
  lemma StoreRowKeepsColumns(w: StoreSave.World, h: Handle, cells: Row)
    requires HeapValid(w.heap) && h in w.heap && StoreSave.StoreRow(w, h, cells).Ok?
    ensures var table := w.heap[h].entity.plural;
            table in w.db && table in StoreSave.StoreRow(w, h, cells).value.db
            && StoreSave.StoreRow(w, h, cells).value.db[table].columns == w.db[table].columns
            && forall k :: k in cells ==> k in w.db[table].columns
  {
  }

  /** A store's request entry point as the coordinator sees it. */
  type Runner = (Store, Context, Request) -> Result<(Store, Context, seq<Handle>)>

  /** What the coordinator and the context rely on of a store: it keeps its identity;
      on a context that holds the request's objects it keeps the context valid, a save
      answers with the objects it was given, in order, and keeps the context's object
      lists, and a fetch answers with objects of the entity that carry the id asked
      for, and a fault request keeps every object's identity and reports only faults it
      was given. */
  ghost predicate MeetsContract(run: Runner) {
    forall s: Store, c: Context, req: Request :: run(s, c, req).Ok? ==>
      run(s, c, req).value.0.id == s.id && run(s, c, req).value.0.coordinated == s.coordinated
      && (c.Valid() && RequestFits(c, req) ==> Answers(c, req, run(s, c, req).value))
  }

  predicate Answers(c: Context, req: Request, r: (Store, Context, seq<Handle>)) {
    r.1.Valid()
    && (req.SaveRequest? ==>
          r.2 == req.inserts + req.updates + req.deletes
          && r.1.heap.Keys == c.heap.Keys && r.1.live == c.live && r.1.deleted == c.deleted)
    && (req.FetchRequest? ==>
          forall h :: h in r.2 ==>
            h in r.1.heap && r.1.heap[h].entity == req.entity
            && (FetchedId(req).Some? ==> r.1.heap[h].objectID == FetchedId(req).value))
    && (req.FaultRequest? ==>
          SameIds(c.heap, r.1.heap) && forall h :: h in r.2 ==> h in req.faults)
  }

  /** The store of this model, for a given model and runtime; the context a
      coordinator passes always holds the request's objects. */
  function StoreRunner(model: Model, rt: Runtime): Runner {
    (s: Store, c: Context, req: Request) =>
      if c.Valid() && RequestFits(c, req) then StoreRequest(s, model, c, req, rt)
      else Err(FatalError("request names objects outside the context"))
  }

  /** A fetch's answer carries the fetched entity, and the id it asked for. */
  lemma FetchAnswers(s: Store, model: Model, c: Context, req: Request, rt: Runtime)
    requires c.Valid() && req.FetchRequest? && StoreRequest(s, model, c, req, rt).Ok?
    ensures Answers(c, req, StoreRequest(s, model, c, req, rt).value)
  {
    var db := Schema.EnsureDatabaseConsistency(s.db, model, rt).value;
    var r := StoreRequest(s, model, c, req, rt).value;
    assert StoreFetch.ExecuteFetch(c, db, req.entity, req.conds, rt) == Ok((r.1, r.2));
    var id := if FetchedId(req).Some? then FetchedId(req).value else 0;
    forall h | h in r.2
      ensures h in r.1.heap && r.1.heap[h].entity == req.entity
      ensures FetchedId(req).Some? ==> r.1.heap[h].objectID == FetchedId(req).value
    {
      StoreFetch.FetchedObject(c, db, req.entity, req.conds, rt, h, id);
    }
  }

  /** The store of this model meets the contract the coordinator relies on. */
  lemma StoreRunnerMeetsContract(model: Model, rt: Runtime)
    ensures MeetsContract(StoreRunner(model, rt))
  {
    var run := StoreRunner(model, rt);
    forall s: Store, c: Context, req: Request | run(s, c, req).Ok?
      ensures run(s, c, req).value.0.id == s.id && run(s, c, req).value.0.coordinated == s.coordinated
      ensures c.Valid() && RequestFits(c, req) ==> Answers(c, req, run(s, c, req).value)
    {
      assert c.Valid() && RequestFits(c, req);
      assert run(s, c, req) == StoreRequest(s, model, c, req, rt);
      if req.FetchRequest? {
        FetchAnswers(s, model, c, req, rt);
      }
    }
  }
}

=== FILE: store_fetch.dfy ===
/** How a persistent store answers a fetch request and a fault request: a fetch creates
    a fault for every row of the entity's table the conditions select, and a fault request
    loads each fault's row into its data and the objects its join rows name into its
    relationships. */
module StoreFetch {
  import opened Errors
  import opened Values
  import opened Attributes
  import opened Entities
  import opened ManagedObjects
  import opened ObjectGraph
  import opened ObjectModel
  import opened Contexts
  import opened Database
  import opened Codec

  /** The id a fetched row carries: the text of its objectID column cast to an integer,
      so that a NULL id reads as 0. */
  function RowId(row: Row, rt: Runtime): (id: int)
    ensures ObjectIDColumn in row && row[ObjectIDColumn].CInt? ==> id == row[ObjectIDColumn].i
    ensures ObjectIDColumn !in row ==> id == 0
  {
    var t := ColumnText(row, ObjectIDColumn, rt);
    if ObjectIDColumn in row && row[ObjectIDColumn].CInt? then
      IntValOfIntToString(row[ObjectIDColumn].i);
      IntVal(t)
    else IntVal(t)
  }

  /** The conditions selecting the row of the object with id `id`. */
  function ById(id: int): seq<Condition> {
    [Condition(ObjectIDColumn, CInt(id))]
  }

  lemma ConcatAssoc<T>(a: seq<T>, b: seq<T>, c: seq<T>)
    ensures (a + b) + c == a + (b + c)
  {
  }

  /** A row satisfies the id condition exactly when it holds the id as an integer. */
  lemma MatchesById(row: Row, id: int)
    ensures Matches(row, ById(id)) <==> ObjectIDColumn in row && row[ObjectIDColumn] == CInt(id)
  {
    assert ById(id)[0] == Condition(ObjectIDColumn, CInt(id));
  }

  /** The id condition names a known column exactly when the table has an objectID. */
  lemma KnowsById(db: Db, name: string, id: int)
    ensures name in db ==> (ColumnsKnown(db[name], ById(id)) <==> ObjectIDColumn in db[name].columns)
  {
    assert ById(id)[0] == Condition(ObjectIDColumn, CInt(id));
  }

  lemma TailIndex<T>(s: seq<T>, i: nat)
    requires 0 < i < |s|
    ensures s[1..][i - 1] == s[i]
  {
  }

  /** Every object of `heap` is still in `heap'`, unchanged. */
  predicate Extends(heap: Heap, heap': Heap) {
    forall x :: x in heap ==> x in heap' && heap'[x] == heap[x]
  }

  /** `h` is an object of entity `e` carrying id `id`. */
  predicate Carries(heap: Heap, h: Handle, id: int, e: Option<Entity>) {
    h in heap && heap[h].objectID == id && Some(heap[h].entity) == e
  }

  lemma ExtendsTrans(a: Heap, b: Heap, c: Heap)
    requires Extends(a, b) && Extends(b, c)
    ensures Extends(a, c)
  {
  }

  /** Creates a fault for each row, in row order, each the new last live object. */
  function NewObjects(c: Context, e: Entity, rows: seq<Row>, rt: Runtime): (r: (Context, seq<Handle>))
    requires c.Valid()
    ensures r.0.Valid() && r.0.live == c.live + r.1 && r.0.deleted == c.deleted && |r.1| == |rows|
    decreases |rows|
  {
    if |rows| == 0 then (c, [])
    else
      var p := NewObjectForEntity(c, e, RowId(rows[0], rt));
      var q := NewObjects(p.0, e, rows[1..], rt);
      ConcatAssoc(c.live, [p.1], q.1);
      (q.0, [p.1] + q.1)
  }

  /** The objects already in the context are left alone. */
  lemma {:induction false} NewObjectsKeep(c: Context, e: Entity, rows: seq<Row>, rt: Runtime, h: Handle)
    requires c.Valid() && h in c.heap
    ensures var r := NewObjects(c, e, rows, rt); h in r.0.heap && r.0.heap[h] == c.heap[h]
    decreases |rows|
  {
    if |rows| > 0 {
      var p := NewObjectForEntity(c, e, RowId(rows[0], rt));
      NewObjectsKeep(p.0, e, rows[1..], rt, h);
    }
  }

  /** The object created for row `i` is a new one of the entity carrying the row's id. */
  lemma {:induction false} NewObjectsAt(c: Context, e: Entity, rows: seq<Row>, rt: Runtime, i: nat)
    requires c.Valid() && i < |rows|
    ensures var r := NewObjects(c, e, rows, rt);
            r.1[i] !in c.heap && r.1[i] in r.0.heap && r.0.heap[r.1[i]] == NewObject(e, RowId(rows[i], rt))
    decreases |rows|
  {
    var p := NewObjectForEntity(c, e, RowId(rows[0], rt));
    if i == 0 {
      if |rows| > 1 {
        NewObjectsKeep(p.0, e, rows[1..], rt, p.1);
      }
    } else {
      NewObjectsAt(p.0, e, rows[1..], rt, i - 1);
      TailIndex(rows, i);
    }
  }

  /** A fetch request: the rows of the entity's table satisfying the conditions, each
      turned into a new object of the entity carrying the row's id. Only a conjunction
      of equalities is modelled as the request's predicate. */
  function ExecuteFetch(c: Context, db: Db, e: Entity, conds: seq<Condition>, rt: Runtime)
    : (r: Result<(Context, seq<Handle>)>)
    requires c.Valid()
    ensures r.Ok? <==> e.plural in db && ColumnsKnown(db[e.plural], conds)
    ensures r.Ok? ==> r.value.0.Valid() && r.value.0.live == c.live + r.value.1 && r.value.0.deleted == c.deleted
    ensures r.Ok? ==> |r.value.1| == |Selected(db[e.plural].rows, conds)|
  {
    var rows :- SelectWhere(db, e.plural, conds);
    Ok(NewObjects(c, e, rows, rt))
  }

  /** Every object a fetch returns is of the fetched entity and, for a fetch by id,
      carries that id. */
  lemma FetchedObject(c: Context, db: Db, e: Entity, conds: seq<Condition>, rt: Runtime, h: Handle, id: int)
    requires c.Valid() && ExecuteFetch(c, db, e, conds, rt).Ok? && h in ExecuteFetch(c, db, e, conds, rt).value.1
    ensures var r := ExecuteFetch(c, db, e, conds, rt).value;
            h in r.0.heap && r.0.heap[h].entity == e && (conds == ById(id) ==> r.0.heap[h].objectID == id)
  {
    var hs := ExecuteFetch(c, db, e, conds, rt).value.1;
    var i :| 0 <= i < |hs| && hs[i] == h;
    NewObjectsAt(c, e, Selected(db[e.plural].rows, conds), rt, i);
    if conds == ById(id) {
      FetchByIdCarriesId(c, db, e, id, rt, i);
    }
  }

  /** Every object a fetch by id returns carries that id; it is a fault unless the id is
      the unknown one. */
  lemma FetchByIdCarriesId(c: Context, db: Db, e: Entity, id: int, rt: Runtime, i: nat)
    requires c.Valid() && ExecuteFetch(c, db, e, ById(id), rt).Ok?
    requires i < |ExecuteFetch(c, db, e, ById(id), rt).value.1|
    ensures var (c', hs) := ExecuteFetch(c, db, e, ById(id), rt).value;
            hs[i] in c'.heap && c'.heap[hs[i]].objectID == id && c'.heap[hs[i]].entity == e
            && (IsFault(c'.heap[hs[i]]) <==> id != UnknownID)
  {
    var rows := Selected(db[e.plural].rows, ById(id));
    NewObjectsAt(c, e, rows, rt, i);
    assert rows[i] in rows;
    assert Matches(rows[i], ById(id)) && ById(id)[0].column == ObjectIDColumn;
  }

  /** A fetch by id finds something exactly when the table holds a row with that id. */
  lemma FetchByIdFindsStoredRow(c: Context, db: Db, e: Entity, id: int, rt: Runtime)
    requires c.Valid() && ExecuteFetch(c, db, e, ById(id), rt).Ok?
    ensures |ExecuteFetch(c, db, e, ById(id), rt).value.1| > 0
            <==> exists row :: row in db[e.plural].rows && Matches(row, ById(id))
  {
    var rows := db[e.plural].rows;
    SelectedAndKeptPartition(rows, ById(id));
    if |Selected(rows, ById(id))| > 0 {
      assert Selected(rows, ById(id))[0] in Selected(rows, ById(id));
    }
  }

  /** Loads one object by id for a relationship: when its entity's table holds the id,
      a new object of the entity is created for it and returned; otherwise nothing. The
      store creates it in the coordinator's context, which in this model, with one
      context per request, is the context the request carries, so it is created there. */
  function FetchObjectWithObjectID(c: Context, db: Db, e: Entity, id: int, rt: Runtime)
    : (r: Result<(Context, Option<Handle>)>)
    requires c.Valid()
    ensures r.Ok? <==> e.plural in db && ObjectIDColumn in db[e.plural].columns
    ensures r.Ok? ==> r.value.0.Valid()
    ensures r.Ok? ==> (r.value.1.Some? <==> Selected(db[e.plural].rows, ById(id)) != [])
    ensures r.Ok? && r.value.1.Some? ==>
              var h := r.value.1.value;
              h !in c.heap && h in r.value.0.heap && r.value.0.heap[h].objectID == id && r.value.0.heap[h].entity == e
    ensures r.Ok? && r.value.1.None? ==> r.value.0 == c
    ensures r.Ok? ==> Extends(c.heap, r.value.0.heap)
  {
    KnowsById(db, e.plural, id);
    var rows :- SelectWhere(db, e.plural, ById(id));
    if |rows| == 0 then Ok((c, None))
    else
      assert rows[0] in rows;
      MatchesById(rows[0], id);
      var p := NewObjectForEntity(c, e, RowId(rows[0], rt));
      Ok((p.0, Some(p.1)))
  }

  /** The same lookup with the object assigned inside a closure that captures it by
      value: the new object still joins the context, but the caller always gets null. */
  function FetchObjectWithObjectIDAsWritten(c: Context, db: Db, e: Entity, id: int, rt: Runtime)
    : (r: Result<(Context, Option<Handle>)>)
    requires c.Valid()
  {
    var p :- FetchObjectWithObjectID(c, db, e, id, rt);
    Ok((p.0, None))
  }

  /** Whenever the lookup as written succeeds it returns null, also for a stored id the
      corrected lookup finds, which the fault then reports as missing. */
  lemma FetchObjectAsWrittenLosesObject(c: Context, db: Db, e: Entity, id: int, rt: Runtime)
    requires c.Valid() && e.plural in db && ObjectIDColumn in db[e.plural].columns
    requires Selected(db[e.plural].rows, ById(id)) != []
    ensures FetchObjectWithObjectID(c, db, e, id, rt).value.1.Some?
    ensures FetchObjectWithObjectIDAsWritten(c, db, e, id, rt).Ok?
    ensures FetchObjectWithObjectIDAsWritten(c, db, e, id, rt).value.1 == None
  {
  }

  /** The far object's id a join row names, read from the named column. */
  function FarIdByName(row: Row, column: string, rt: Runtime): int {
    IntVal(ColumnText(row, column, rt))
  }

  /** The far object's id a join row names, read from the column at the position the
      column name's leading digits give (0 when there are none); a position past the
      last column reads as NULL. */
  function FarIdByPosition(row: Row, columns: seq<string>, column: string, rt: Runtime): int {
    var n := IntVal(column);
    if 0 <= n < |columns| then IntVal(ColumnText(row, columns[n], rt)) else 0
  }

  /** A join row written for a link reads back the linked id from its column. */
  lemma FarIdReadsWrittenId(row: Row, column: string, id: int, rt: Runtime)
    requires column in row && row[column] == CInt(id)
    ensures FarIdByName(row, column, rt) == id
  {
    IntValOfIntToString(id);
  }

  /** Reading a join row (laid out objectID, owner column, inverse column) by
      position, the row's own objectID is taken for the far object's id whenever the
      inverse column's name starts with a letter, as a hex digest name starting with
      `a` to `f` does. */
  lemma FarIdByPositionReadsRowId(row: Row, columns: seq<string>, column: string, rt: Runtime)
    requires |columns| == 3 && columns[0] == ObjectIDColumn
    requires |column| > 0 && 'a' <= column[0] <= 'z'
    ensures FarIdByPosition(row, columns, column, rt) == IntVal(ColumnText(row, ObjectIDColumn, rt))
  {
    assert DigitRun(column) == 0;
    assert column[..0] == [];
  }

  /** A name whose first character is its only leading digit reads the column at that
      digit's position: `0` the objectID, `1` the owner column, `2` the inverse column
      itself, and `3` to `9` a position past the last column, read as 0. */
  lemma FarIdByPositionLeadingDigit(row: Row, columns: seq<string>, column: string, rt: Runtime)
    requires |columns| == 3
    requires |column| > 0 && IsDigit(column[0]) && (|column| == 1 || !IsDigit(column[1]))
    ensures var d := column[0] as int - '0' as int;
            FarIdByPosition(row, columns, column, rt) == if d < 3 then IntVal(ColumnText(row, columns[d], rt)) else 0
  {
    assert DigitRun(column[1..]) == 0;
    assert DigitRun(column) == 1;
    assert column[..1] == [column[0]];
    assert DecimalValue(column[..1]) == column[0] as int - '0' as int by {
      assert column[..1][..0] == [];
    }
  }

  /** A join row whose objectID differs from the far id it holds reads back the wrong
      far object by position and the right one by name. */
  lemma FarIdByPositionMisreads(rt: Runtime)
    ensures var columns := [ObjectIDColumn, "c", "x"];
            var row := map[ObjectIDColumn := CInt(7), "c" := CInt(1), "x" := CInt(2)];
            FarIdByPosition(row, columns, "x", rt) == 7 && FarIdByName(row, "x", rt) == 2
  {
    var columns := [ObjectIDColumn, "c", "x"];
    var row := map[ObjectIDColumn := CInt(7), "c" := CInt(1), "x" := CInt(2)];
    FarIdByPositionReadsRowId(row, columns, "x", rt);
    FarIdReadsWrittenId(row, ObjectIDColumn, 7, rt);
    FarIdReadsWrittenId(row, "x", 2, rt);
  }

  /** The object one join row names: its id under `column` (the inverse column) is
      looked up in the table of the target entity, which must exist, and must be stored
      there. */
  function LinkOne(c: Context, db: Db, entities: seq<Entity>, target: string, column: string, row: Row, rt: Runtime)
    : (r: Result<(Context, Handle)>)
    requires c.Valid()
    ensures r.Ok? ==> r.value.0.Valid() && Extends(c.heap, r.value.0.heap)
    ensures r.Ok? ==> Carries(r.value.0.heap, r.value.1, FarIdByName(row, column, rt), EntityWithName(entities, target))
    ensures EntityWithName(entities, target).None? ==>
              r == Err(PersistentStoreException("Could not find entity named '" + target + "'"))
  {
    match EntityWithName(entities, target)
    case None => Err(PersistentStoreException("Could not find entity named '" + target + "'"))
    case Some(e) =>
      var p :- FetchObjectWithObjectID(c, db, e, FarIdByName(row, column, rt), rt);
      if p.1.None? then
        Err(PersistentStoreException("Object with ID [" + ColumnText(row, ObjectIDColumn, rt)
                                     + "] is missing from the data store and could not be initialized!"))
      else Ok((p.0, p.1.value))
  }

  /** The objects the join rows of one relationship name, in row order. */
  function LinkedObjects(c: Context, db: Db, entities: seq<Entity>, target: string, column: string, rows: seq<Row>,
                         rt: Runtime)
    : (r: Result<(Context, seq<Handle>)>)
    requires c.Valid()
    ensures r.Ok? ==> r.value.0.Valid() && |r.value.1| == |rows| && Extends(c.heap, r.value.0.heap)
    decreases |rows|
  {
    if |rows| == 0 then Ok((c, []))
    else
      var p :- LinkOne(c, db, entities, target, column, rows[0], rt);
      var q :- LinkedObjects(p.0, db, entities, target, column, rows[1..], rt);
      ExtendsTrans(c.heap, p.0.heap, q.0.heap);
      Ok((q.0, [p.1] + q.1))
  }

  /** The object loaded for join row `i` is an object of the target entity carrying the
      id the row names. */
  lemma {:induction false} LinkedObjectsAt(c: Context, db: Db, entities: seq<Entity>, target: string, column: string,
                                           rows: seq<Row>, rt: Runtime, i: nat)
    requires c.Valid() && LinkedObjects(c, db, entities, target, column, rows, rt).Ok? && i < |rows|
    ensures var r := LinkedObjects(c, db, entities, target, column, rows, rt).value;
            Carries(r.0.heap, r.1[i], FarIdByName(rows[i], column, rt), EntityWithName(entities, target))
    decreases |rows|
  {
    var p := LinkOne(c, db, entities, target, column, rows[0], rt).value;
    var q := LinkedObjects(p.0, db, entities, target, column, rows[1..], rt).value;
    assert LinkedObjects(c, db, entities, target, column, rows, rt).value == (q.0, [p.1] + q.1);
    if i > 0 {
      LinkedObjectsAt(p.0, db, entities, target, column, rows[1..], rt, i - 1);
      TailIndex(rows, i);
    }
  }

  /** The rows of a join table holding `id` under `column`. */
  function RowsHolding(db: Db, table: string, column: string, id: int): (r: Result<seq<Row>>)
    ensures r.Ok? <==> table in db && column in db[table].columns
    ensures r.Ok? ==> forall row :: row in r.value ==> column in row && row[column] == CInt(id)
  {
    var conds := [Condition(column, CInt(id))];
    assert table in db ==> (ColumnsKnown(db[table], conds) <==> column in db[table].columns) by {
      assert conds[0].column == column;
    }
    var rows :- SelectWhere(db, table, conds);
    forall row | row in rows
      ensures column in row && row[column] == CInt(id)
    {
      assert Matches(row, conds) && conds[0] == Condition(column, CInt(id));
    }
    Ok(rows)
  }

  /** The join rows of a fault's relationship: those holding the fault's id under the
      relationship's own column; a relationship without inverse has no join table. */
  function JoinRows(db: Db, rel: Attribute, id: int, rt: Runtime): (r: Result<seq<Row>>)
    requires rel.Relationship?
  {
    var table :- TableName(rel, rt);
    RowsHolding(db, table, ColumnName(rel, rt), id)
  }

  /** The relationships of a fault, relationship by relationship: the rows of the join
      table holding the fault's id under the relationship's column, loaded into objects;
      a relationship gets an entry only when it has rows. */
  function FaultRelationships(c: Context, db: Db, entities: seq<Entity>, rels: seq<Attribute>, id: int, rt: Runtime,
                              acc: map<string, seq<Handle>>)
    : (r: Result<(Context, map<string, seq<Handle>>)>)
    requires c.Valid() && forall a :: a in rels ==> a.Relationship?
    ensures r.Ok? ==> r.value.0.Valid() && Extends(c.heap, r.value.0.heap)
    ensures r.Ok? ==> acc.Keys <= r.value.1.Keys
    decreases |rels|
  {
    if |rels| == 0 then Ok((c, acc))
    else
      var rel := rels[0];
      var rows :- JoinRows(db, rel, id, rt);
      var p :- LinkedObjects(c, db, entities, rel.target, InverseColumnName(rel, rt), rows, rt);
      var acc' := if |rows| > 0 then acc[rel.name := p.1] else acc;
      var q :- FaultRelationships(p.0, db, entities, rels[1..], id, rt, acc');
      ExtendsTrans(c.heap, p.0.heap, q.0.heap);
      Ok(q)
  }

  /** Whether the table of `o`'s entity holds no row with `o`'s id. */
  predicate Missing(db: Db, o: Object)
    requires o.entity.plural in db
  {
    Selected(db[o.entity.plural].rows, ById(o.objectID)) == []
  }

  /** The context with object `h`'s data replaced. */
  function WithData(c: Context, h: Handle, data: map<string, Value>): (r: Context)
    requires c.Valid() && h in c.heap
    ensures r.Valid() && SameIds(c.heap, r.heap) && h in r.heap
    ensures r.heap[h].data == data && r.heap[h].rels == c.heap[h].rels
  {
    ReplaceObjectKeepsIds(c, h, c.heap[h].(data := data));
    c.(heap := c.heap[h := c.heap[h].(data := data)])
  }

  /** The context with object `h`'s committed relationships replaced. */
  function WithRels(c: Context, h: Handle, rels: map<string, seq<Handle>>): (r: Context)
    requires c.Valid() && h in c.heap
    ensures r.Valid() && SameIds(c.heap, r.heap) && h in r.heap
    ensures r.heap[h] == c.heap[h].(rels := rels)
  {
    ReplaceObjectKeepsIds(c, h, c.heap[h].(rels := rels));
    c.(heap := c.heap[h := c.heap[h].(rels := rels)])
  }

  /** Sets a fault's data, then reads its relationships and sets them. */
  function LoadFault(c: Context, db: Db, entities: seq<Entity>, h: Handle, data: map<string, Value>, rt: Runtime)
    : (r: Result<Context>)
    requires c.Valid() && h in c.heap
    ensures r.Ok? ==> r.value.Valid() && SameIds(c.heap, r.value.heap)
    ensures r.Ok? ==> r.value.heap[h] == c.heap[h].(data := data, rels := r.value.heap[h].rels)
  {
    var c1 := WithData(c, h, data);
    var p :- FaultRelationships(c1, db, entities, Relationships(c.heap[h].entity), c.heap[h].objectID, rt, map[]);
    var c2 := WithRels(p.0, h, p.1);
    SameIdsTrans(c.heap, c1.heap, p.0.heap);
    SameIdsTrans(c.heap, p.0.heap, c2.heap);
    Ok(c2)
  }

  /** Faults one object: the first row of its entity's table with its id is decoded
      into its data and its relationships are loaded; a fault without a row is
      reported as failed and left alone. */
  function FaultObject(c: Context, db: Db, entities: seq<Entity>, h: Handle, rt: Runtime): (r: Result<(Context, bool)>)
    requires c.Valid() && h in c.heap
    ensures r.Ok? ==> c.heap[h].entity.plural in db && (r.value.1 <==> Missing(db, c.heap[h]))
    ensures r.Ok? ==> r.value.0.Valid() && SameIds(c.heap, r.value.0.heap)
    ensures r.Ok? && r.value.1 ==> r.value.0 == c
  {
    var o := c.heap[h];
    var rows :- SelectWhere(db, o.entity.plural, ById(o.objectID));
    if |rows| == 0 then Ok((c, true))
    else
      var data :- DecodeRow(db[o.entity.plural].columns, rows[0], o.entity, rt);
      var c' :- LoadFault(c, db, entities, h, data, rt);
      Ok((c', false))
  }

  /** A fault that is loaded takes as its data the decoded first row of its entity's
      table holding its id, and keeps its id and entity. */
  lemma FaultSetsDecodedData(c: Context, db: Db, entities: seq<Entity>, h: Handle, rt: Runtime)
    requires c.Valid() && h in c.heap
    requires FaultObject(c, db, entities, h, rt).Ok? && !FaultObject(c, db, entities, h, rt).value.1
    ensures var o, table := c.heap[h], c.heap[h].entity.plural;
            table in db && var rows := Selected(db[table].rows, ById(o.objectID));
            |rows| > 0 && DecodeRow(db[table].columns, rows[0], o.entity, rt).Ok?
            && FaultObject(c, db, entities, h, rt).value.0.heap[h]
               == o.(data := DecodeRow(db[table].columns, rows[0], o.entity, rt).value,
                     rels := FaultObject(c, db, entities, h, rt).value.0.heap[h].rels)
  {
    var o := c.heap[h];
    var rows := SelectWhere(db, o.entity.plural, ById(o.objectID)).value;
    var data := DecodeRow(db[o.entity.plural].columns, rows[0], o.entity, rt).value;
    assert FaultObject(c, db, entities, h, rt).value.0 == LoadFault(c, db, entities, h, data, rt).value;
  }

  /** The fault as written: the fetched row is compared with null by identity, which a
      missing row (false) never is, so the object is loaded with empty data and never
      reported as failed. */
  function FaultObjectAsWritten(c: Context, db: Db, entities: seq<Entity>, h: Handle, rt: Runtime)
    : (r: Result<(Context, bool)>)
    requires c.Valid() && h in c.heap
  {
    var o := c.heap[h];
    var rows :- SelectWhere(db, o.entity.plural, ById(o.objectID));
    var data :- if |rows| == 0 then Ok(map[]) else DecodeRow(db[o.entity.plural].columns, rows[0], o.entity, rt);
    var c' :- LoadFault(c, db, entities, h, data, rt);
    Ok((c', false))
  }

  /** For a fault whose row is gone the corrected fault reports a failure, while the
      fault as written succeeds with empty data and does not report it. */
  lemma FaultAsWrittenHidesMissingRow(c: Context, db: Db, entities: seq<Entity>, h: Handle, rt: Runtime)
    requires c.Valid() && h in c.heap && c.heap[h].entity.plural in db && Missing(db, c.heap[h])
    requires ObjectIDColumn in db[c.heap[h].entity.plural].columns
    requires FaultObjectAsWritten(c, db, entities, h, rt).Ok?
    ensures FaultObject(c, db, entities, h, rt) == Ok((c, true))
    ensures var r := FaultObjectAsWritten(c, db, entities, h, rt).value;
            !r.1 && r.0.heap[h].data == map[]
  {
    KnowsById(db, c.heap[h].entity.plural, c.heap[h].objectID);
  }

  /** Whether `x` is an object whose entity's table exists and holds no row with its id. */
  predicate MissingIn(db: Db, heap: Heap, x: Handle) {
    x in heap && heap[x].entity.plural in db && Missing(db, heap[x])
  }

  /** The failed faults of a request are its first fault, if that failed, followed by
      the failed faults among the rest. */
  lemma FailedStep(db: Db, heap: Heap, heap': Heap, faults: seq<Handle>, failed: bool, rest: seq<Handle>)
    requires |faults| > 0 && SameIds(heap, heap') && forall x :: x in faults ==> x in heap
    requires failed <==> MissingIn(db, heap, faults[0])
    requires forall x :: x in rest <==> x in faults[1..] && MissingIn(db, heap', x)
    ensures forall x :: x in (if failed then [faults[0]] else []) + rest <==> x in faults && MissingIn(db, heap, x)
  {
    forall x | x in faults
      ensures MissingIn(db, heap', x) == MissingIn(db, heap, x)
    {
      assert heap'[x].objectID == heap[x].objectID && heap'[x].entity == heap[x].entity;
    }
    assert faults == [faults[0]] + faults[1..];
  }

  /** A fault request: the faults are loaded in order, and the request answers the
      faults that failed, in order. */
  function ExecuteFault(c: Context, db: Db, entities: seq<Entity>, faults: seq<Handle>, rt: Runtime)
    : (r: Result<(Context, seq<Handle>)>)
    requires c.Valid() && forall x :: x in faults ==> x in c.heap
    ensures r.Ok? ==> r.value.0.Valid() && SameIds(c.heap, r.value.0.heap)
    ensures r.Ok? ==> forall x :: x in r.value.1 <==> x in faults && MissingIn(db, c.heap, x)
    decreases |faults|
  {
    if |faults| == 0 then Ok((c, []))
    else
      var h := faults[0];
      var p :- FaultObject(c, db, entities, h, rt);
      var q :- ExecuteFault(p.0, db, entities, faults[1..], rt);
      SameIdsTrans(c.heap, p.0.heap, q.0.heap);
      FailedStep(db, c.heap, p.0.heap, faults, p.1, q.1);
      Ok((q.0, (if p.1 then [h] else []) + q.1))
  }
}

=== FILE: store_save.dfy ===
/** How a persistent store writes a save request: each object's updated data becomes an
    INSERT or an UPDATE of its entity's table, its pending links become rows inserted
    into or deleted from join tables (saving the objects on the other side first), and
    its changes are then committed; a deleted object is unlinked, saved and removed. */
module StoreSave {
  import opened Errors
  import opened Types
  import opened Values
  import opened Attributes
  import opened Entities
  import opened ManagedObjects
  import opened ObjectGraph
  import opened Database
  import opened Codec

  /** The objects of a context together with the database of one store. */
  datatype World = World(heap: Heap, db: Db)

  /** The objects that have changes: a save can only ever shrink this set, which is
      why the mutual recursion between saving an object and saving the objects it
      links to terminates. */
  function Pending(heap: Heap): set<Handle> {
    set h | h in heap && HasChanges(heap[h])
  }

  lemma NotPending(heap: Heap, h: Handle)
    requires h in heap && h !in Pending(heap)
    ensures !HasChanges(heap[h])
  {
  }

  lemma SubsetCard(a: set<Handle>, b: set<Handle>)
    requires a <= b
    ensures |a| <= |b|
  {
    assert b == a + (b - a);
  }

  lemma StrictSubsetCard(a: set<Handle>, b: set<Handle>, x: Handle)
    requires a <= b && x in b && x !in a
    ensures |a| < |b|
  {
    assert b == a + (b - a);
    assert x in b - a;
  }

  /** Replaces an object by one with no more changes than it had. */
  function Put(heap: Heap, x: Handle, o: Object): (r: Heap)
    requires HeapValid(heap) && x in heap && o.Valid()
    requires HasChanges(o) ==> HasChanges(heap[x])
    ensures HeapValid(r) && r.Keys == heap.Keys && Pending(r) <= Pending(heap)
    ensures r[x] == o && forall h :: h in heap && h != x ==> r[h] == heap[h]
    ensures !HasChanges(o) ==> x !in Pending(r)
    ensures o.entity == heap[x].entity ==> forall y :: y in heap ==> r[y].entity == heap[y].entity
  {
    heap[x := o]
  }

  /** What a save step keeps: valid objects, the same handles, the same entities, and
      no object with changes it did not have. */
  predicate Saved(w: World, w': World) {
    HeapValid(w'.heap) && w'.heap.Keys == w.heap.Keys && Pending(w'.heap) <= Pending(w.heap)
    && forall x :: x in w.heap ==> w'.heap[x].entity == w.heap[x].entity
  }

  lemma SavedTrans(a: World, b: World, c: World)
    requires Saved(a, b) && Saved(b, c)
    ensures Saved(a, c)
  {
  }

  /** The object id of a handle; a handle outside the heap reads as never stored. */
  function IdOf(heap: Heap, h: Handle): int {
    if h in heap then heap[h].objectID else UnknownID
  }

  /** Commits an object's changes and clears its saving mark. */
  function Finish(o: Object): (r: Object)
    ensures r.Valid() && !HasChanges(r) && !r.saving && r.entity == o.entity && r.objectID == o.objectID
  {
    DidFinishSaving(PersistChanges(o))
  }

  /** Writes an object's updated data: nothing when there is none; otherwise the data
      is unpacked (a value that does not unpack fails the save) and stored. */
  function SaveData(w: World, h: Handle): (r: Result<World>)
    requires HeapValid(w.heap) && h in w.heap
    ensures r.Ok? ==> Saved(w, r.value)
    ensures r.Ok? ==> forall x :: x in w.heap && x != h ==> r.value.heap[x] == w.heap[x]
    ensures r.Ok? ==> r.value.heap[h] == w.heap[h].(objectID := r.value.heap[h].objectID)
    ensures |w.heap[h].updated| == 0 ==> r == Ok(w)
    ensures |w.heap[h].updated| > 0 && Unpack(w.heap[h].updated, w.heap[h].entity).Err? ==> r.Err?
  {
    var o := w.heap[h];
    if |o.updated| == 0 then Ok(w)
    else
      var cells :- Unpack(o.updated, o.entity);
      StoreRow(w, h, cells)
  }

  /** Stores an object's unpacked data: an object never stored is INSERTed into its
      entity's table and receives the new row's number as its id; a stored object's row
      is overwritten by UPDATE ... WHERE objectID. */
  function StoreRow(w: World, h: Handle, cells: Row): (r: Result<World>)
    requires HeapValid(w.heap) && h in w.heap
    ensures r.Ok? ==> Saved(w, r.value)
    ensures r.Ok? ==> forall x :: x in w.heap && x != h ==> r.value.heap[x] == w.heap[x]
    ensures r.Ok? ==> r.value.heap[h] == w.heap[h].(objectID := r.value.heap[h].objectID)
  {
    var o := w.heap[h];
    if o.objectID == UnknownID then
      var ins :- Insert(w.db, o.entity.plural, cells);
      Ok(World(Put(w.heap, h, o.(objectID := ins.1)), ins.0))
    else
      var db :- UpdateWhere(w.db, o.entity.plural, [Condition(ObjectIDColumn, CInt(o.objectID))], cells);
      Ok(w.(db := db))
  }

  /** A stored object keeps its id through a data write; an object never stored gets
      the number its entity's table hands out next, and the table one more row. */
  lemma StoreRowNumbersNewObject(w: World, h: Handle, cells: Row)
    requires HeapValid(w.heap) && h in w.heap && StoreRow(w, h, cells).Ok?
    ensures var w' := StoreRow(w, h, cells).value;
            w.heap[h].objectID != UnknownID ==> w'.heap[h] == w.heap[h]
    ensures var w', table := StoreRow(w, h, cells).value, w.heap[h].entity.plural;
            w.heap[h].objectID == UnknownID ==>
              table in w.db && w'.heap[h].objectID == w.db[table].nextId
              && |w'.db[table].rows| == |w.db[table].rows| + 1
  {
    var o := w.heap[h];
    if o.objectID == UnknownID {
      var ins := Insert(w.db, o.entity.plural, cells);
      assert ins.Ok?;
      assert StoreRow(w, h, cells).value == World(Put(w.heap, h, o.(objectID := ins.value.1)), ins.value.0);
    }
  }

  /** The rows of an object's entity table that carry object id `id`. */
  function RowsWithId(db: Db, table: string, id: int): seq<Row>
    requires table in db
  {
    Selected(db[table].rows, [Condition(ObjectIDColumn, CInt(id))])
  }

  /** The row a data write leaves behind. An object never stored, in a table numbered
      by its objectID column, ends up with exactly one row carrying its new id: the
      cells written plus that id. A stored object's rows carrying its id all hold the
      cells written afterwards, and some row does exactly when one did before. */
  lemma StoreRowWritesRow(w: World, h: Handle, cells: Row)
    requires HeapValid(w.heap) && h in w.heap && DbValid(w.db) && StoreRow(w, h, cells).Ok?
    requires ObjectIDColumn !in cells
    ensures w.heap[h].entity.plural in w.db && w.heap[h].entity.plural in StoreRow(w, h, cells).value.db
    ensures var w', table := StoreRow(w, h, cells).value, w.heap[h].entity.plural;
            var rows' := RowsWithId(w'.db, table, w'.heap[h].objectID);
            w.heap[h].objectID == UnknownID && w.db[table].auto == Some(ObjectIDColumn) ==>
              rows' == [cells[ObjectIDColumn := CInt(w'.heap[h].objectID)]]
    ensures var w', table := StoreRow(w, h, cells).value, w.heap[h].entity.plural;
            var rows' := RowsWithId(w'.db, table, w'.heap[h].objectID);
            w.heap[h].objectID != UnknownID ==>
              (forall x :: x in rows' ==> HoldsCells(x, cells))
              && (rows' != [] <==> RowsWithId(w.db, table, w.heap[h].objectID) != [])
  {
    if w.heap[h].objectID == UnknownID {
      StoreRowInsertsRow(w, h, cells);
    } else {
      StoreRowUpdatesRow(w, h, cells);
    }
  }

  /** Writing a new object inserts its row. */
  lemma StoreRowInsertsRow(w: World, h: Handle, cells: Row)
    requires HeapValid(w.heap) && h in w.heap && DbValid(w.db) && StoreRow(w, h, cells).Ok?
    requires ObjectIDColumn !in cells && w.heap[h].objectID == UnknownID
    ensures w.heap[h].entity.plural in w.db && w.heap[h].entity.plural in StoreRow(w, h, cells).value.db
    ensures var w', table := StoreRow(w, h, cells).value, w.heap[h].entity.plural;
            w.db[table].auto == Some(ObjectIDColumn) ==>
              RowsWithId(w'.db, table, w'.heap[h].objectID) == [cells[ObjectIDColumn := CInt(w'.heap[h].objectID)]]
  {
    var o := w.heap[h];
    var table := o.entity.plural;
    var ins := Insert(w.db, table, cells).value;
    assert StoreRow(w, h, cells).value == World(Put(w.heap, h, o.(objectID := ins.1)), ins.0);
    if w.db[table].auto == Some(ObjectIDColumn) {
      InsertedRowIsOnlyOne(w.db, table, cells);
    }
  }

  /** Writing a stored object updates the rows carrying its id. */
  lemma StoreRowUpdatesRow(w: World, h: Handle, cells: Row)
    requires HeapValid(w.heap) && h in w.heap && DbValid(w.db) && StoreRow(w, h, cells).Ok?
    requires ObjectIDColumn !in cells && w.heap[h].objectID != UnknownID
    ensures w.heap[h].entity.plural in w.db && w.heap[h].entity.plural in StoreRow(w, h, cells).value.db
    ensures var w', table := StoreRow(w, h, cells).value, w.heap[h].entity.plural;
            var rows' := RowsWithId(w'.db, table, w'.heap[h].objectID);
            (forall x :: x in rows' ==> HoldsCells(x, cells))
            && (rows' != [] <==> RowsWithId(w.db, table, w.heap[h].objectID) != [])
  {
    var o := w.heap[h];
    var table := o.entity.plural;
    var conds := [Condition(ObjectIDColumn, CInt(o.objectID))];
    assert StoreRow(w, h, cells).value == w.(db := UpdateWhere(w.db, table, conds, cells).value);
    UpdatedSelected(w.db[table].rows, conds, cells);
  }

  /** In a valid table numbered by its objectID column, the row an insert appends is
      the only one carrying the number it is handed. */
  lemma InsertedRowIsOnlyOne(db: Db, table: string, cells: Row)
    requires DbValid(db) && Insert(db, table, cells).Ok? && db[table].auto == Some(ObjectIDColumn)
    requires ObjectIDColumn !in cells
    ensures var ins := Insert(db, table, cells).value;
            RowsWithId(ins.0, table, ins.1) == [cells[ObjectIDColumn := CInt(ins.1)]]
  {
    var ins := Insert(db, table, cells).value;
    var conds := [Condition(ObjectIDColumn, CInt(ins.1))];
    var rows := db[table].rows;
    var row := cells[ObjectIDColumn := CInt(ins.1)];
    assert ins.0[table].rows == rows + [row];
    forall i | 0 <= i < |rows| ensures !Matches(rows[i], conds) {
      InsertedNumberIsFresh(db, table, cells, i);
      assert conds[0] == Condition(ObjectIDColumn, CInt(ins.1));
    }
    SelectedNone(rows, conds);
    assert Matches(row, conds);
    SelectedAppend(rows, row, conds);
  }

  /** The conditions selecting the join rows that link `ownerId`, under column `col`,
      to `otherId`, under column `inv`. */
  function PairConditions(col: string, inv: string, ownerId: int, otherId: int): seq<Condition> {
    [Condition(col, CInt(ownerId)), Condition(inv, CInt(otherId))]
  }

  /** INSERT of a join row holding `ownerId` under `col` and `otherId` under `inv`. */
  function InsertLinkRow(db: Db, table: string, col: string, inv: string, ownerId: int, otherId: int): (r: Result<Db>)
    ensures r.Ok? <==> table in db && col in db[table].columns && inv in db[table].columns
    ensures r.Ok? ==> r.value.Keys == db.Keys && forall t :: t in db && t != table ==> r.value[t] == db[t]
  {
    var ins :- Insert(db, table, map[col := CInt(ownerId), inv := CInt(otherId)]);
    Ok(ins.0)
  }

  /** The row a link insert appends links the pair, and the earlier rows stay, when the
      two columns differ and neither is the table's auto-numbered column. */
  lemma InsertLinkRowAppendsPair(db: Db, table: string, col: string, inv: string, ownerId: int, otherId: int)
    requires InsertLinkRow(db, table, col, inv, ownerId, otherId).Ok?
    requires col != inv && db[table].auto != Some(col) && db[table].auto != Some(inv)
    ensures var t, t' := db[table], InsertLinkRow(db, table, col, inv, ownerId, otherId).value[table];
            t'.rows[..|t.rows|] == t.rows && |t'.rows| == |t.rows| + 1
            && Matches(t'.rows[|t.rows|], PairConditions(col, inv, ownerId, otherId))
  {
    var values := map[col := CInt(ownerId), inv := CInt(otherId)];
    var ins := Insert(db, table, values);
    var row := ins.value.0[table].rows[|db[table].rows|];
    assert row[col] == CInt(ownerId) && row[inv] == CInt(otherId);
  }

  /** DELETE of the join rows linking `ownerId` to `otherId`, as intended. */
  function DeleteLinkRows(db: Db, table: string, col: string, inv: string, ownerId: int, otherId: int): (r: Result<Db>)
    ensures r.Ok? <==> table in db && col in db[table].columns && inv in db[table].columns
    ensures r.Ok? ==> r.value.Keys == db.Keys && forall t :: t in db && t != table ==> r.value[t] == db[t]
    ensures r.Ok? ==> forall row :: row in r.value[table].rows <==>
                        row in db[table].rows && !Matches(row, PairConditions(col, inv, ownerId, otherId))
  {
    var conds := PairConditions(col, inv, ownerId, otherId);
    var r := DeleteWhere(db, table, conds);
    assert table in db ==> (ColumnsKnown(db[table], conds) <==> col in db[table].columns && inv in db[table].columns) by {
      assert conds[0].column == col && conds[1].column == inv && |conds| == 2;
    }
    if r.Ok? then
      SelectedAndKeptPartition(db[table].rows, conds);
      r
    else r
  }

  /** DELETE of removed links as written: keyed on the far side's column only, so it
      also deletes the rows linking the far object to every other owner. */
  function DeleteLinkRowsAsWritten(db: Db, table: string, inv: string, otherId: int): (r: Result<Db>) {
    DeleteWhere(db, table, [Condition(inv, CInt(otherId))])
  }

  /** Two owners linked to the same far object: unlinking one of them as written
      deletes both rows, while the intended delete keeps the other owner's row. */
  lemma DeleteLinkRowsAsWrittenDropsOtherOwners(table: string, col: string, inv: string)
    requires col != inv
    ensures var mine, theirs := map[col := CInt(1), inv := CInt(5)], map[col := CInt(2), inv := CInt(5)];
            var db := map[table := Table([ObjectIDColumn, col, inv], None, [mine, theirs], 1)];
            && DeleteLinkRowsAsWritten(db, table, inv, 5) == Ok(map[table := Table([ObjectIDColumn, col, inv], None, [], 1)])
            && DeleteLinkRows(db, table, col, inv, 1, 5) == Ok(map[table := Table([ObjectIDColumn, col, inv], None, [theirs], 1)])
  {
    var mine, theirs := map[col := CInt(1), inv := CInt(5)], map[col := CInt(2), inv := CInt(5)];
    var columns := [ObjectIDColumn, col, inv];
    var db := map[table := Table(columns, None, [mine, theirs], 1)];
    assert col in columns && inv in columns;
    var conds := PairConditions(col, inv, 1, 5);
    assert Matches(mine, conds);
    assert !Matches(theirs, conds) by {
      assert theirs[conds[0].column] != conds[0].value;
    }
    assert Kept([mine, theirs], conds) == [theirs] by {
      assert [mine, theirs][1..] == [theirs];
      assert [theirs][1..] == [];
    }
    var single := [Condition(inv, CInt(5))];
    assert Matches(mine, single) && Matches(theirs, single);
    assert Kept([mine, theirs], single) == [] by {
      assert [mine, theirs][1..] == [theirs];
      assert [theirs][1..] == [];
    }
    var asWritten := DeleteLinkRowsAsWritten(db, table, inv, 5);
    assert asWritten.Ok? && asWritten.value.Keys == {table};
    assert asWritten.value == map[table := Table(columns, None, [], 1)];
    var intended := DeleteWhere(db, table, conds);
    assert intended.Ok? && intended.value.Keys == {table};
    assert intended.value == map[table := Table(columns, None, [theirs], 1)];
  }

  /** Writes or deletes the join row of a relationship between two object ids in the
      relationship's join table; a relationship without inverse has no join table. */
  function WriteLink(db: Db, rel: Attribute, ownerId: int, otherId: int, inserted: bool, rt: Runtime): (r: Result<Db>)
    requires rel.Relationship?
    ensures r.Ok? ==> TableName(rel, rt).Ok?
  {
    var table :- TableName(rel, rt);
    var col, inv := ColumnName(rel, rt), InverseColumnName(rel, rt);
    if inserted then InsertLinkRow(db, table, col, inv, ownerId, otherId)
    else DeleteLinkRows(db, table, col, inv, ownerId, otherId)
  }

  /** What a link write does to the join table: an insert appends one row linking the
      pair and keeps the others, when the two columns differ and neither is
      auto-numbered; a delete keeps exactly the rows that do not link the pair. No other
      table is touched. */
  lemma WriteLinkWritesPair(db: Db, rel: Attribute, ownerId: int, otherId: int, inserted: bool, rt: Runtime)
    requires rel.Relationship? && WriteLink(db, rel, ownerId, otherId, inserted, rt).Ok?
    ensures TableName(rel, rt).Ok?
    ensures var r, table := WriteLink(db, rel, ownerId, otherId, inserted, rt).value, TableName(rel, rt).value;
            var col, inv := ColumnName(rel, rt), InverseColumnName(rel, rt);
            var pair := PairConditions(col, inv, ownerId, otherId);
            table in db && r.Keys == db.Keys && (forall t :: t in db && t != table ==> r[t] == db[t])
            && (inserted && col != inv && db[table].auto != Some(col) && db[table].auto != Some(inv) ==>
                  var rows, rows' := db[table].rows, r[table].rows;
                  |rows'| == |rows| + 1 && rows'[..|rows|] == rows && Matches(rows'[|rows|], pair))
            && (!inserted ==> forall row :: row in r[table].rows <==> row in db[table].rows && !Matches(row, pair))
  {
    var table, col, inv := TableName(rel, rt).value, ColumnName(rel, rt), InverseColumnName(rel, rt);
    if inserted && col != inv && db[table].auto != Some(col) && db[table].auto != Some(inv) {
      InsertLinkRowAppendsPair(db, table, col, inv, ownerId, otherId);
    }
  }

  /** The removed-link delete of the store as written, at the level of a relationship. */
  function UnlinkAsWritten(db: Db, rel: Attribute, otherId: int, rt: Runtime): (r: Result<Db>)
    requires rel.Relationship?
  {
    var table :- TableName(rel, rt);
    DeleteLinkRowsAsWritten(db, table, InverseColumnName(rel, rt), otherId)
  }

  /** An object marked as saving the inserted or the removed links of a name. */
  function Marked(o: Object, n: string, inserted: bool): (r: Object)
    requires o.Valid()
    ensures r.Valid() && r.entity == o.entity && (HasChanges(r) <==> HasChanges(o))
  {
    if inserted then WillSaveInserted(o, n) else WillSaveRemoved(o, n)
  }

  /** An object whose pending inserted or removed links of a name are committed. */
  function Settled(o: Object, n: string, inserted: bool): (r: Object)
    requires o.Valid()
    ensures r.Valid() && r.entity == o.entity && r.objectID == o.objectID && (HasChanges(r) ==> HasChanges(o))
  {
    DidSaveHooksAddNoChanges(o, n);
    if inserted then DidSaveInserted(o, n) else DidSaveRemoved(o, n)
  }

  /** Marks the far object as saving the inverse name before it is saved. */
  function MarkFar(heap: Heap, x: Handle, rel: Attribute, inserted: bool): (r: Heap)
    requires HeapValid(heap) && rel.Relationship?
    ensures HeapValid(r) && r.Keys == heap.Keys && Pending(r) <= Pending(heap)
    ensures forall y :: y in heap ==> r[y].entity == heap[y].entity
    ensures forall y :: y in heap && y != x ==> r[y] == heap[y]
  {
    if x in heap && rel.inverse.Some? then Put(heap, x, Marked(heap[x], rel.inverse.value.name, inserted))
    else heap
  }

  /** Commits the far object's pending links under the inverse name once the join
      table is written. */
  function SettleFar(heap: Heap, x: Handle, rel: Attribute, inserted: bool): (r: Heap)
    requires HeapValid(heap) && rel.Relationship?
    ensures HeapValid(r) && r.Keys == heap.Keys && Pending(r) <= Pending(heap)
    ensures forall y :: y in heap ==> r[y].entity == heap[y].entity
    ensures forall y :: y in heap && y != x ==> r[y] == heap[y]
    ensures x in heap ==> r[x].objectID == heap[x].objectID
  {
    if x in heap && rel.inverse.Some? then Put(heap, x, Settled(heap[x], rel.inverse.value.name, inserted))
    else heap
  }

  /** The names an object is already saving the inserted or the removed links of. */
  function Marks(o: Object, inserted: bool): seq<string> {
    if inserted then o.savingInserted else o.savingRemoved
  }

  /** Saves one object: nothing happens unless it has changes; otherwise it is marked
      as saving, its data is written, its inserted links and then its removed links are
      written name by name, and its changes are committed. */
  function SaveObject(w: World, h: Handle, rt: Runtime): (r: Result<World>)
    requires HeapValid(w.heap)
    ensures r.Ok? ==> Saved(w, r.value)
    ensures h !in w.heap || !HasChanges(w.heap[h]) ==> r == Ok(w)
    ensures r.Ok? && h in w.heap && HasChanges(w.heap[h]) ==> !HasChanges(r.value.heap[h]) && !r.value.heap[h].saving
    ensures r.Ok? ==> h !in Pending(r.value.heap)
    decreases |Pending(w.heap)|, 0, 0
  {
    if h !in w.heap || !HasChanges(w.heap[h]) then Ok(w)
    else
      var w1 := World(Put(w.heap, h, WillStartSaving(w.heap[h])), w.db);
      var w2 :- SaveData(w1, h);
      SavedTrans(w, w1, w2);
      StrictSubsetCard(Pending(w2.heap), Pending(w.heap), h);
      var b := w2.heap[h].inserted;
      var w3 :- SaveLinkedNames(w2, h, b.order, b, true, rt);
      SavedTrans(w, w2, w3);
      SubsetCard(Pending(w3.heap), Pending(w2.heap));
      var b' := w3.heap[h].removed;
      var w4 :- SaveLinkedNames(w3, h, b'.order, b', false, rt);
      SavedTrans(w, w3, w4);
      var w5 := w4.(heap := Put(w4.heap, h, Finish(w4.heap[h])));
      SavedTrans(w, w4, w5);
      Ok(w5)
  }

  /** Writes the pending links of one buffer (inserted or removed) name by name, in
      the buffer's order. */
  function SaveLinkedNames(w: World, h: Handle, names: seq<string>, b: Buffer, inserted: bool, rt: Runtime)
    : (r: Result<World>)
    requires HeapValid(w.heap) && h in w.heap
    ensures r.Ok? ==> Saved(w, r.value)
    decreases |Pending(w.heap)|, 3, |names|
  {
    if |names| == 0 then Ok(w)
    else
      var w1 :- SaveName(w, h, names[0], b, inserted, rt);
      SubsetCard(Pending(w1.heap), Pending(w.heap));
      SaveLinkedNames(w1, h, names[1..], b, inserted, rt)
  }

  /** Writes the pending links of one name, unless the object is already saving that
      name or the name is not a relationship of its entity; then nothing happens. The
      far objects of a name written are saved. */
  function SaveName(w: World, h: Handle, name: string, b: Buffer, inserted: bool, rt: Runtime)
    : (r: Result<World>)
    requires HeapValid(w.heap) && h in w.heap
    ensures r.Ok? ==> Saved(w, r.value)
    ensures name in Marks(w.heap[h], inserted) || RelationshipWithName(w.heap[h].entity, name).None? ==> r == Ok(w)
    ensures r.Ok? && name !in Marks(w.heap[h], inserted) && RelationshipWithName(w.heap[h].entity, name).Some? ==>
              forall x :: x in Get(b.links, name) ==> x !in Pending(r.value.heap)
    decreases |Pending(w.heap)|, 2, 0
  {
    var rel := RelationshipWithName(w.heap[h].entity, name);
    if name in Marks(w.heap[h], inserted) || rel.None? then Ok(w)
    else SaveLinks(w, h, rel.value, Get(b.links, name), inserted, rt)
  }

  /** Writes the links of one name, far object by far object in order. */
  function SaveLinks(w: World, h: Handle, rel: Attribute, objs: seq<Handle>, inserted: bool, rt: Runtime)
    : (r: Result<World>)
    requires HeapValid(w.heap) && h in w.heap && rel.Relationship?
    ensures r.Ok? ==> Saved(w, r.value)
    ensures r.Ok? ==> forall x :: x in objs ==> x !in Pending(r.value.heap)
    decreases |Pending(w.heap)|, 1, |objs|
  {
    if |objs| == 0 then Ok(w)
    else
      var w1 :- SaveLink(w, h, rel, objs[0], inserted, rt);
      SubsetCard(Pending(w1.heap), Pending(w.heap));
      SaveLinks(w1, h, rel, objs[1..], inserted, rt)
  }

  /** Writes one link: marks the far object as saving the inverse name, saves it,
      inserts or deletes the join row with both ids as they are after that save, and
      commits the far object's pending links under the inverse name. */
  function SaveLink(w: World, h: Handle, rel: Attribute, x: Handle, inserted: bool, rt: Runtime)
    : (r: Result<World>)
    requires HeapValid(w.heap) && h in w.heap && rel.Relationship?
    ensures r.Ok? ==> Saved(w, r.value) && x !in Pending(r.value.heap)
    decreases |Pending(w.heap)|, 1, 0
  {
    var heap1 := MarkFar(w.heap, x, rel, inserted);
    SubsetCard(Pending(heap1), Pending(w.heap));
    var w2 :- SaveObject(World(heap1, w.db), x, rt);
    var db3 :- WriteLink(w2.db, rel, IdOf(w2.heap, h), IdOf(w2.heap, x), inserted, rt);
    Ok(World(SettleFar(w2.heap, x, rel, inserted), db3))
  }

  /** Saves the objects in order; afterwards none of them has changes left, since a
      save never gives an object changes it did not have. */
  function SaveAll(w: World, hs: seq<Handle>, rt: Runtime): (r: Result<World>)
    requires HeapValid(w.heap)
    ensures r.Ok? ==> Saved(w, r.value)
    ensures r.Ok? ==> forall i :: 0 <= i < |hs| ==> hs[i] !in Pending(r.value.heap)
    decreases |hs|
  {
    if |hs| == 0 then Ok(w)
    else
      var w1 :- SaveObject(w, hs[0], rt);
      var w2 :- SaveAll(w1, hs[1..], rt);
      SavedTrans(w, w1, w2);
      NoneLeft(Pending(w1.heap), Pending(w2.heap), hs);
      Ok(w2)
  }

  lemma NoneLeft(before: set<Handle>, after: set<Handle>, hs: seq<Handle>)
    requires |hs| > 0 && after <= before && hs[0] !in before
    requires forall i :: 0 <= i < |hs[1..]| ==> hs[1..][i] !in after
    ensures forall i :: 0 <= i < |hs| ==> hs[i] !in after
  {
    assert forall i :: 1 <= i < |hs| ==> hs[i] == hs[1..][i - 1];
  }

  /** Two objects carry the same saving marks, counted with repetition. */
  predicate SameMarks(o: Object, o': Object) {
    multiset(o.savingInserted) == multiset(o'.savingInserted)
    && multiset(o.savingRemoved) == multiset(o'.savingRemoved)
  }

  lemma SameMarksTrans(a: Object, b: Object, c: Object)
    requires SameMarks(a, b) && SameMarks(b, c)
    ensures SameMarks(a, c)
  {
  }

  /** What saving an object with changes consists of: its data is written, then the
      links of its inserted buffer, then those of its removed buffer as it stands by
      then, and its changes are committed. */
  lemma SaveObjectStep(w: World, h: Handle, rt: Runtime)
    requires HeapValid(w.heap) && h in w.heap && HasChanges(w.heap[h]) && SaveObject(w, h, rt).Ok?
    ensures var r2 := SaveData(World(Put(w.heap, h, WillStartSaving(w.heap[h])), w.db), h);
            r2.Ok? && Saved(w, r2.value) && |Pending(r2.value.heap)| < |Pending(w.heap)|
            && (forall x :: x in w.heap && x != h ==> r2.value.heap[x] == w.heap[x])
            && r2.value.heap[h].inserted == w.heap[h].inserted && Marks(r2.value.heap[h], true) == Marks(w.heap[h], true)
            && !HasChanges(r2.value.heap[h])
            && var b := r2.value.heap[h].inserted;
               var r3 := SaveLinkedNames(r2.value, h, b.order, b, true, rt);
               r3.Ok? && Saved(r2.value, r3.value) && |Pending(r3.value.heap)| <= |Pending(r2.value.heap)|
               && var b' := r3.value.heap[h].removed;
                  var r4 := SaveLinkedNames(r3.value, h, b'.order, b', false, rt);
                  r4.Ok? && Saved(r3.value, r4.value)
                  && SaveObject(w, h, rt) == Ok(World(Put(r4.value.heap, h, Finish(r4.value.heap[h])), r4.value.db))
  {
    var w1 := World(Put(w.heap, h, WillStartSaving(w.heap[h])), w.db);
    var w2 := SaveData(w1, h).value;
    SavedTrans(w, w1, w2);
    StrictSubsetCard(Pending(w2.heap), Pending(w.heap), h);
    var b := w2.heap[h].inserted;
    var w3 := SaveLinkedNames(w2, h, b.order, b, true, rt).value;
    SubsetCard(Pending(w3.heap), Pending(w2.heap));
  }

  /** Saving an object keeps the marks of every object without changes: what a save
      marks on an object it does not save, it unmarks again. */
  lemma {:induction false} SaveObjectKeepsMarks(w: World, h: Handle, rt: Runtime, y: Handle)
    requires HeapValid(w.heap) && SaveObject(w, h, rt).Ok?
    requires y in w.heap && !HasChanges(w.heap[y])
    ensures SameMarks(w.heap[y], SaveObject(w, h, rt).value.heap[y])
    decreases |Pending(w.heap)|, 0, 0
  {
    if h in w.heap && HasChanges(w.heap[h]) {
      SaveObjectStep(w, h, rt);
      assert y != h;
      var w2 := SaveData(World(Put(w.heap, h, WillStartSaving(w.heap[h])), w.db), h).value;
      assert w2.heap[y] == w.heap[y];
      var b := w2.heap[h].inserted;
      SaveLinkedNamesKeepsMarks(w2, h, b.order, b, true, rt, y);
      var w3 := SaveLinkedNames(w2, h, b.order, b, true, rt).value;
      NotPendingStays(w2.heap, w3.heap, y);
      var b' := w3.heap[h].removed;
      SaveLinkedNamesKeepsMarks(w3, h, b'.order, b', false, rt, y);
      var w4 := SaveLinkedNames(w3, h, b'.order, b', false, rt).value;
      SameMarksTrans(w.heap[y], w3.heap[y], w4.heap[y]);
      assert SaveObject(w, h, rt).value.heap[y] == w4.heap[y];
    }
  }

  /** An object without changes has none after a step that gives no object changes. */
  lemma NotPendingStays(heap: Heap, heap': Heap, y: Handle)
    requires y in heap && !HasChanges(heap[y]) && heap'.Keys == heap.Keys && Pending(heap') <= Pending(heap)
    ensures y in heap' && !HasChanges(heap'[y])
  {
    assert y !in Pending(heap);
    assert y !in Pending(heap');
  }

  /** One step of the walk over names. */
  lemma SaveLinkedNamesStep(w: World, h: Handle, names: seq<string>, b: Buffer, inserted: bool, rt: Runtime)
    requires HeapValid(w.heap) && h in w.heap && |names| > 0
    requires SaveLinkedNames(w, h, names, b, inserted, rt).Ok?
    ensures SaveName(w, h, names[0], b, inserted, rt).Ok?
    ensures var w1 := SaveName(w, h, names[0], b, inserted, rt).value;
            Saved(w, w1) && |Pending(w1.heap)| <= |Pending(w.heap)|
            && SaveLinkedNames(w, h, names, b, inserted, rt) == SaveLinkedNames(w1, h, names[1..], b, inserted, rt)
  {
    var w1 := SaveName(w, h, names[0], b, inserted, rt).value;
    SubsetCard(Pending(w1.heap), Pending(w.heap));
  }

  /** Writing the links of several names keeps the marks of every object without
      changes. */
  lemma {:induction false} SaveLinkedNamesKeepsMarks(w: World, h: Handle, names: seq<string>, b: Buffer, inserted: bool, rt: Runtime, y: Handle)
    requires HeapValid(w.heap) && h in w.heap && SaveLinkedNames(w, h, names, b, inserted, rt).Ok?
    requires y in w.heap && !HasChanges(w.heap[y])
    ensures SameMarks(w.heap[y], SaveLinkedNames(w, h, names, b, inserted, rt).value.heap[y])
    decreases |Pending(w.heap)|, 3, |names|
  {
    if |names| > 0 {
      SaveLinkedNamesStep(w, h, names, b, inserted, rt);
      var w1 := SaveName(w, h, names[0], b, inserted, rt).value;
      SaveNameKeepsMarks(w, h, names[0], b, inserted, rt, y);
      NotPendingStays(w.heap, w1.heap, y);
      SaveLinkedNamesKeepsMarks(w1, h, names[1..], b, inserted, rt, y);
      SameMarksTrans(w.heap[y], w1.heap[y], SaveLinkedNames(w1, h, names[1..], b, inserted, rt).value.heap[y]);
    }
  }

  /** Writing the links of one name keeps the marks of every object without changes. */
  lemma {:induction false} SaveNameKeepsMarks(w: World, h: Handle, name: string, b: Buffer, inserted: bool, rt: Runtime, y: Handle)
    requires HeapValid(w.heap) && h in w.heap && SaveName(w, h, name, b, inserted, rt).Ok?
    requires y in w.heap && !HasChanges(w.heap[y])
    ensures SameMarks(w.heap[y], SaveName(w, h, name, b, inserted, rt).value.heap[y])
    decreases |Pending(w.heap)|, 2, 0
  {
    var rel := RelationshipWithName(w.heap[h].entity, name);
    if name !in Marks(w.heap[h], inserted) && rel.Some? {
      SaveLinksKeepsMarks(w, h, rel.value, Get(b.links, name), inserted, rt, y);
    }
  }

  /** What writing one link consists of: the far object, once marked, saves, and
      the join row is written with the ids that save leaves. */
  lemma SaveLinkStep(w: World, h: Handle, rel: Attribute, x: Handle, inserted: bool, rt: Runtime)
    requires HeapValid(w.heap) && h in w.heap && rel.Relationship?
    requires SaveLink(w, h, rel, x, inserted, rt).Ok?
    ensures var heap1 := MarkFar(w.heap, x, rel, inserted);
            var r2 := SaveObject(World(heap1, w.db), x, rt);
            |Pending(heap1)| <= |Pending(w.heap)| && r2.Ok?
            && var r3 := WriteLink(r2.value.db, rel, IdOf(r2.value.heap, h), IdOf(r2.value.heap, x), inserted, rt);
               r3.Ok? && SaveLink(w, h, rel, x, inserted, rt) == Ok(World(SettleFar(r2.value.heap, x, rel, inserted), r3.value))
  {
    SubsetCard(Pending(MarkFar(w.heap, x, rel, inserted)), Pending(w.heap));
  }

  /** Writing one link keeps the marks of every object without changes; a far object
      without changes is marked, not saved, and unmarked again. */
  lemma {:induction false} SaveLinkKeepsMarks(w: World, h: Handle, rel: Attribute, x: Handle, inserted: bool, rt: Runtime, y: Handle)
    requires HeapValid(w.heap) && h in w.heap && rel.Relationship?
    requires SaveLink(w, h, rel, x, inserted, rt).Ok?
    requires y in w.heap && !HasChanges(w.heap[y])
    ensures SameMarks(w.heap[y], SaveLink(w, h, rel, x, inserted, rt).value.heap[y])
    decreases |Pending(w.heap)|, 1, 0
  {
    SaveLinkStep(w, h, rel, x, inserted, rt);
    var heap1 := MarkFar(w.heap, x, rel, inserted);
    var w2 := SaveObject(World(heap1, w.db), x, rt).value;
    if y == x && rel.inverse.Some? {
      var n := rel.inverse.value.name;
      assert heap1[x] == Marked(w.heap[x], n, inserted);
      assert w2.heap == heap1;
      MarkThenCompleteBalances(w.heap[x], n);
      assert SettleFar(w2.heap, x, rel, inserted)[x] == Settled(Marked(w.heap[x], n, inserted), n, inserted);
    } else {
      assert heap1[y] == w.heap[y];
      SaveObjectKeepsMarks(World(heap1, w.db), x, rt, y);
      assert SettleFar(w2.heap, x, rel, inserted)[y] == w2.heap[y];
    }
  }

  /** One step of the walk over the far objects of a name. */
  lemma SaveLinksStep(w: World, h: Handle, rel: Attribute, objs: seq<Handle>, inserted: bool, rt: Runtime)
    requires HeapValid(w.heap) && h in w.heap && rel.Relationship? && |objs| > 0
    requires SaveLinks(w, h, rel, objs, inserted, rt).Ok?
    ensures SaveLink(w, h, rel, objs[0], inserted, rt).Ok?
    ensures var w1 := SaveLink(w, h, rel, objs[0], inserted, rt).value;
            Saved(w, w1) && |Pending(w1.heap)| <= |Pending(w.heap)|
            && SaveLinks(w, h, rel, objs, inserted, rt) == SaveLinks(w1, h, rel, objs[1..], inserted, rt)
  {
    var w1 := SaveLink(w, h, rel, objs[0], inserted, rt).value;
    SubsetCard(Pending(w1.heap), Pending(w.heap));
  }

  /** Writing the links of one name keeps the marks of every object without changes. */
  lemma {:induction false} SaveLinksKeepsMarks(w: World, h: Handle, rel: Attribute, objs: seq<Handle>, inserted: bool, rt: Runtime, y: Handle)
    requires HeapValid(w.heap) && h in w.heap && rel.Relationship?
    requires SaveLinks(w, h, rel, objs, inserted, rt).Ok?
    requires y in w.heap && !HasChanges(w.heap[y])
    ensures SameMarks(w.heap[y], SaveLinks(w, h, rel, objs, inserted, rt).value.heap[y])
    decreases |Pending(w.heap)|, 1, |objs|
  {
    if |objs| > 0 {
      SaveLinksStep(w, h, rel, objs, inserted, rt);
      var w1 := SaveLink(w, h, rel, objs[0], inserted, rt).value;
      SaveLinkKeepsMarks(w, h, rel, objs[0], inserted, rt, y);
      NotPendingStays(w.heap, w1.heap, y);
      SaveLinksKeepsMarks(w1, h, rel, objs[1..], inserted, rt, y);
      SameMarksTrans(w.heap[y], w1.heap[y], SaveLinks(w1, h, rel, objs[1..], inserted, rt).value.heap[y]);
    }
  }

  /** Writing the links of several names for an object being saved saves every far
      object of every name that is a relationship of its entity and that the object
      was not already saving when the walk began. */
  lemma {:induction false} SaveLinkedNamesSavesFar(w: World, h: Handle, names: seq<string>, b: Buffer, inserted: bool, rt: Runtime)
    requires HeapValid(w.heap) && h in w.heap && !HasChanges(w.heap[h])
    requires SaveLinkedNames(w, h, names, b, inserted, rt).Ok?
    ensures forall n, x :: n in names && n !in Marks(w.heap[h], inserted)
              && RelationshipWithName(w.heap[h].entity, n).Some? && x in Get(b.links, n)
              ==> x !in Pending(SaveLinkedNames(w, h, names, b, inserted, rt).value.heap)
    decreases |names|
  {
    if |names| > 0 {
      SaveLinkedNamesStep(w, h, names, b, inserted, rt);
      var w1 := SaveName(w, h, names[0], b, inserted, rt).value;
      var r := SaveLinkedNames(w1, h, names[1..], b, inserted, rt).value;
      SaveNameKeepsMarks(w, h, names[0], b, inserted, rt, h);
      NotPendingStays(w.heap, w1.heap, h);
      SaveLinkedNamesSavesFar(w1, h, names[1..], b, inserted, rt);
      forall n, x | n in names && n !in Marks(w.heap[h], inserted)
          && RelationshipWithName(w.heap[h].entity, n).Some? && x in Get(b.links, n)
        ensures x !in Pending(r.heap)
      {
        if n == names[0] {
          assert x !in Pending(w1.heap);
        } else {
          assert n in names[1..];
          assert n !in multiset(Marks(w1.heap[h], inserted));
        }
      }
    }
  }

  /** Saving an object with changes saves every far object its pending inserts name,
      under every name of its inserted buffer that is a relationship of its entity and
      that it was not already saving. */
  lemma SaveObjectSavesInsertedFar(w: World, h: Handle, rt: Runtime)
    requires HeapValid(w.heap) && h in w.heap && HasChanges(w.heap[h]) && SaveObject(w, h, rt).Ok?
    ensures var o := w.heap[h];
            forall n, x :: n in o.inserted.order && n !in o.savingInserted
              && RelationshipWithName(o.entity, n).Some? && x in Get(o.inserted.links, n)
              ==> x !in Pending(SaveObject(w, h, rt).value.heap)
  {
    SaveObjectStep(w, h, rt);
    var w2 := SaveData(World(Put(w.heap, h, WillStartSaving(w.heap[h])), w.db), h).value;
    var b := w2.heap[h].inserted;
    SaveLinkedNamesSavesFar(w2, h, b.order, b, true, rt);
    var w3 := SaveLinkedNames(w2, h, b.order, b, true, rt).value;
    var b' := w3.heap[h].removed;
    var w4 := SaveLinkedNames(w3, h, b'.order, b', false, rt).value;
    assert Pending(SaveObject(w, h, rt).value.heap) <= Pending(w3.heap);
  }

  /** Writing one link saves the far object first and then writes the join row with
      the ids of both objects as that save leaves them: an insert appends one row
      linking the pair and keeps the others, when the two columns differ and neither
      is auto-numbered; a delete keeps exactly the rows that do not link the pair. The
      two ids are not changed after the save, and no other table is touched. */
  lemma SaveLinkWritesJoinRow(w: World, h: Handle, rel: Attribute, x: Handle, inserted: bool, rt: Runtime)
    requires HeapValid(w.heap) && h in w.heap && rel.Relationship?
    requires SaveLink(w, h, rel, x, inserted, rt).Ok?
    ensures var r2 := SaveObject(World(MarkFar(w.heap, x, rel, inserted), w.db), x, rt);
            r2.Ok? && TableName(rel, rt).Ok?
            && var w2, r := r2.value, SaveLink(w, h, rel, x, inserted, rt).value;
               var table, col, inv := TableName(rel, rt).value, ColumnName(rel, rt), InverseColumnName(rel, rt);
               var pair := PairConditions(col, inv, IdOf(w2.heap, h), IdOf(w2.heap, x));
               x !in Pending(w2.heap) && x !in Pending(r.heap)
               && IdOf(r.heap, h) == IdOf(w2.heap, h) && IdOf(r.heap, x) == IdOf(w2.heap, x)
               && table in w2.db && r.db.Keys == w2.db.Keys
               && (forall t :: t in w2.db && t != table ==> r.db[t] == w2.db[t])
               && (inserted && col != inv && w2.db[table].auto != Some(col) && w2.db[table].auto != Some(inv) ==>
                     var rows, rows' := w2.db[table].rows, r.db[table].rows;
                     |rows'| == |rows| + 1 && rows'[..|rows|] == rows && Matches(rows'[|rows|], pair))
               && (!inserted ==> forall row :: row in r.db[table].rows <==> row in w2.db[table].rows && !Matches(row, pair))
  {
    SaveLinkStep(w, h, rel, x, inserted, rt);
    var w2 := SaveObject(World(MarkFar(w.heap, x, rel, inserted), w.db), x, rt).value;
    WriteLinkWritesPair(w2.db, rel, IdOf(w2.heap, h), IdOf(w2.heap, x), inserted, rt);
  }

  /** A walk over names that are all already being saved, or are no relationship of the
      object's entity, changes nothing. */
  lemma {:induction false} SaveLinkedNamesSkipsSettled(w: World, h: Handle, names: seq<string>, b: Buffer, inserted: bool, rt: Runtime)
    requires HeapValid(w.heap) && h in w.heap
    requires forall n :: n in names ==> n in Marks(w.heap[h], inserted) || RelationshipWithName(w.heap[h].entity, n).None?
    ensures SaveLinkedNames(w, h, names, b, inserted, rt) == Ok(w)
    decreases |names|
  {
    if |names| > 0 {
      assert names[0] in names;
      assert forall n :: n in names[1..] ==> n in names;
      SaveLinkedNamesSkipsSettled(w, h, names[1..], b, inserted, rt);
    }
  }

  /** An object whose removal buffers have only grown: its committed links and its
      pending inserts are as they were, and every pending removal is still there. */
  ghost predicate RemovesMore(o: Object, o': Object) {
    o'.rels == o.rels && o'.inserted == o.inserted
    && forall n :: multiset(Get(o.removed.links, n)) <= multiset(Get(o'.removed.links, n))
  }

  /** Every object of a heap has only had removals buffered. */
  ghost predicate HeapRemovesMore(heap: Heap, heap': Heap) {
    heap'.Keys == heap.Keys && forall y :: y in heap ==> RemovesMore(heap[y], heap'[y])
  }

  lemma HeapRemovesMoreTrans(a: Heap, b: Heap, c: Heap)
    requires HeapRemovesMore(a, b) && HeapRemovesMore(b, c)
    ensures HeapRemovesMore(a, c)
  {
    forall y | y in a
      ensures RemovesMore(a[y], c[y])
    {
      assert RemovesMore(a[y], b[y]) && RemovesMore(b[y], c[y]);
    }
  }

  /** A pending removal stays pending while removals are only added. */
  lemma StaysRemoved(o: Object, o': Object, n: string, x: Handle)
    requires RemovesMore(o, o') && x in Get(o.removed.links, n)
    ensures x in Get(o'.removed.links, n)
  {
    assert x in multiset(Get(o.removed.links, n));
    assert multiset(Get(o.removed.links, n)) <= multiset(Get(o'.removed.links, n));
  }

  /** An object an object read and no longer reads after removals were added is among
      its pending removals. */
  lemma NoLongerRelatedIsRemoved(o: Object, o': Object, n: string, x: Handle)
    requires RemovesMore(o, o') && x in Related(o, n) && x !in Related(o', n)
    ensures x in Get(o'.removed.links, n)
  {
    var all := Get(o.rels, n) + Get(o.inserted.links, n);
    var before: multiset<Handle> := multiset(Get(o.removed.links, n));
    var after: multiset<Handle> := multiset(Get(o'.removed.links, n));
    assert multiset(Related(o, n)) == multiset(all) - before;
    assert multiset(Related(o', n)) == multiset(all) - after;
    assert multiset(Related(o, n))[x] > 0;
    assert multiset(Related(o', n))[x] == 0;
    assert before[x] <= after[x];
    assert after[x] > 0;
  }

  /** Buffering one removal only adds removals, and buffers `other` under `name`. */
  lemma RemoveOneSideRemovesMore(heap: Heap, self: Handle, name: string, other: Handle)
    requires self in heap && HeapValid(heap)
    ensures var r := RemoveOneSide(heap, self, name, other);
            HeapRemovesMore(heap, r) && other in Get(r[self].removed.links, name)
  {
    var r := RemoveOneSide(heap, self, name, other);
    forall y | y in heap
      ensures RemovesMore(heap[y], r[y])
    {
      if y == self {
        forall n
          ensures multiset(Get(heap[y].removed.links, n)) <= multiset(Get(r[y].removed.links, n))
        {
          if n == name {
            assert Get(r[y].removed.links, n) == Get(heap[y].removed.links, n) + [other];
          }
        }
      }
    }
  }

  /** Removing a link, both sides, only adds removals: `other` is buffered as removed
      from `self`, and `self` from the inverse relationship of `other`. */
  lemma RemoveFromRelationshipRemovesMore(heap: Heap, self: Handle, rel: Attribute, other: Handle)
    requires self in heap && other in heap && HeapValid(heap) && rel.Relationship?
    ensures var r := RemoveFromRelationship(heap, self, rel, other, true);
            HeapRemovesMore(heap, r) && other in Get(r[self].removed.links, rel.name)
            && (rel.inverse.Some? ==> self in Get(r[other].removed.links, rel.inverse.value.name))
  {
    var h1 := RemoveOneSide(heap, self, rel.name, other);
    RemoveOneSideRemovesMore(heap, self, rel.name, other);
    if rel.inverse.Some? {
      var r := RemoveOneSide(h1, other, rel.inverse.value.name, self);
      RemoveOneSideRemovesMore(h1, other, rel.inverse.value.name, self);
      HeapRemovesMoreTrans(heap, h1, r);
      StaysRemoved(h1[self], r[self], rel.name, other);
    }
  }

  /** Removes `h` from the relationship `rel` of every object it reads there, updating
      the inverse side, one object at a time. Only removals are buffered: each object
      listed is buffered as removed from `h`, and `h` from its inverse relationship. */
  function UnlinkEach(heap: Heap, h: Handle, rel: Attribute, objs: seq<Handle>): (r: Heap)
    requires HeapValid(heap) && h in heap && rel.Relationship?
    ensures HeapValid(r) && r.Keys == heap.Keys
    ensures forall x :: x in heap ==> r[x].entity == heap[x].entity && r[x].objectID == heap[x].objectID
    ensures HeapRemovesMore(heap, r)
    ensures forall x :: x in objs && x in heap ==> x in Get(r[h].removed.links, rel.name)
    ensures rel.inverse.Some? ==> forall x :: x in objs && x in heap ==> h in Get(r[x].removed.links, rel.inverse.value.name)
    decreases |objs|
  {
    if |objs| == 0 then heap
    else
      var heap1 := if objs[0] in heap then RemoveFromRelationship(heap, h, rel, objs[0], true) else heap;
      var r := UnlinkEach(heap1, h, rel, objs[1..]);
      UnlinkEachStep(heap, heap1, r, h, rel, objs);
      r
  }

  /** The induction step of `UnlinkEach`: the first object's removal, made before the
      rest, stays buffered. */
  lemma UnlinkEachStep(heap: Heap, heap1: Heap, r: Heap, h: Handle, rel: Attribute, objs: seq<Handle>)
    requires HeapValid(heap) && h in heap && rel.Relationship? && |objs| > 0
    requires heap1 == if objs[0] in heap then RemoveFromRelationship(heap, h, rel, objs[0], true) else heap
    requires HeapRemovesMore(heap1, r)
    requires forall x :: x in objs[1..] && x in heap1 ==> x in Get(r[h].removed.links, rel.name)
    requires rel.inverse.Some? ==> forall x :: x in objs[1..] && x in heap1 ==> h in Get(r[x].removed.links, rel.inverse.value.name)
    ensures HeapRemovesMore(heap, r)
    ensures forall x :: x in objs && x in heap ==> x in Get(r[h].removed.links, rel.name)
    ensures rel.inverse.Some? ==> forall x :: x in objs && x in heap ==> h in Get(r[x].removed.links, rel.inverse.value.name)
  {
    var x0 := objs[0];
    if x0 in heap {
      RemoveFromRelationshipRemovesMore(heap, h, rel, x0);
      HeapRemovesMoreTrans(heap, heap1, r);
      StaysRemoved(heap1[h], r[h], rel.name, x0);
      if rel.inverse.Some? {
        StaysRemoved(heap1[x0], r[x0], rel.inverse.value.name, h);
      }
    }
    assert forall x :: x in objs ==> x == x0 || x in objs[1..];
  }

  /** Unlinks an object from everything its to-many relationships hold, relationship
      by relationship in declaration order; a to-one relationship is left alone. Only
      removals are buffered, and every object it read through a to-many relationship
      is among its pending removals there. */
  function UnlinkAll(heap: Heap, h: Handle, rels: seq<Attribute>): (r: Heap)
    requires HeapValid(heap) && h in heap && forall a :: a in rels ==> a.Relationship?
    ensures HeapValid(r) && r.Keys == heap.Keys
    ensures forall x :: x in heap ==> r[x].entity == heap[x].entity && r[x].objectID == heap[x].objectID
    ensures HeapRemovesMore(heap, r)
    ensures forall rel :: rel in rels && rel.to == Many ==> RemovedAll(heap.Keys, heap[h], r[h], rel.name)
    decreases |rels|
  {
    if |rels| == 0 then heap
    else
      var rel := rels[0];
      var heap1 := if rel.to == Many then UnlinkEach(heap, h, rel, Related(heap[h], rel.name)) else heap;
      assert HeapRemovesMore(heap, heap1);
      var r := UnlinkAll(heap1, h, rels[1..]);
      UnlinkAllStep(heap, heap1, r, h, rels);
      r
  }

  /** Every object of `keys` that `o` reads under `name` is among the pending removals
      of `o'` there. */
  ghost predicate RemovedAll(keys: set<Handle>, o: Object, o': Object, name: string) {
    forall x :: x in keys && x in Related(o, name) ==> x in Get(o'.removed.links, name)
  }

  /** Removals buffered once stay buffered. */
  lemma RemovedAllGrows(keys: set<Handle>, o: Object, o1: Object, o2: Object, name: string)
    requires RemovedAll(keys, o, o1, name) && RemovesMore(o1, o2)
    ensures RemovedAll(keys, o, o2, name)
  {
    forall x | x in keys && x in Related(o, name)
      ensures x in Get(o2.removed.links, name)
    {
      StaysRemoved(o1, o2, name, x);
    }
  }

  /** An object read before some removals were added is either still read afterwards,
      and then unlinked later, or was among those removals. */
  lemma RemovedAllCarries(keys: set<Handle>, o: Object, o1: Object, o2: Object, name: string)
    requires RemovesMore(o, o1) && RemovesMore(o1, o2) && RemovedAll(keys, o1, o2, name)
    ensures RemovedAll(keys, o, o2, name)
  {
    forall x | x in keys && x in Related(o, name)
      ensures x in Get(o2.removed.links, name)
    {
      if x !in Related(o1, name) {
        NoLongerRelatedIsRemoved(o, o1, name, x);
        StaysRemoved(o1, o2, name, x);
      }
    }
  }

  /** The induction step of `UnlinkAll`: the first relationship's objects, unlinked
      first, stay buffered; an object read through a later relationship is unlinked
      when its turn comes or was already among the pending removals. */
  lemma UnlinkAllStep(heap: Heap, heap1: Heap, r: Heap, h: Handle, rels: seq<Attribute>)
    requires h in heap && |rels| > 0 && forall a :: a in rels ==> a.Relationship?
    requires HeapRemovesMore(heap, heap1) && HeapRemovesMore(heap1, r)
    requires rels[0].to == Many ==> RemovedAll(heap.Keys, heap[h], heap1[h], rels[0].name)
    requires forall rel :: rel in rels[1..] && rel.to == Many ==> RemovedAll(heap1.Keys, heap1[h], r[h], rel.name)
    ensures HeapRemovesMore(heap, r)
    ensures forall rel :: rel in rels && rel.to == Many ==> RemovedAll(heap.Keys, heap[h], r[h], rel.name)
  {
    HeapRemovesMoreTrans(heap, heap1, r);
    forall rel | rel in rels && rel.to == Many
      ensures RemovedAll(heap.Keys, heap[h], r[h], rel.name)
    {
      if rel == rels[0] {
        RemovedAllGrows(heap.Keys, heap[h], heap1[h], r[h], rel.name);
      } else {
        assert rel in rels[1..];
        RemovedAllCarries(heap.Keys, heap[h], heap1[h], r[h], rel.name);
      }
    }
  }

  /** Deletes a stored object: its pending changes are dropped, it is unlinked from its
      to-many relationships, the unlinking is saved, and its row is deleted. No row with
      its id remains in its entity's table, and it is left without changes. */
  function DeleteManagedObject(w: World, h: Handle, rt: Runtime): (r: Result<World>)
    requires HeapValid(w.heap) && h in w.heap
    ensures r.Ok? ==> HeapValid(r.value.heap) && r.value.heap.Keys == w.heap.Keys
    ensures r.Ok? ==> !HasChanges(r.value.heap[h])
    ensures r.Ok? ==> var table := w.heap[h].entity.plural;
              table in r.value.db
              && forall row :: row in r.value.db[table].rows ==>
                   !Matches(row, [Condition(ObjectIDColumn, CInt(r.value.heap[h].objectID))])
  {
    var heap1 := Put(w.heap, h, DiscardChanges(w.heap[h]));
    var e := heap1[h].entity;
    assert forall a :: a in Relationships(e) ==> a.Relationship?;
    var heap2 := UnlinkAll(heap1, h, Relationships(e));
    var w3 :- SaveObject(World(heap2, w.db), h, rt);
    NotPending(w3.heap, h);
    var conds := [Condition(ObjectIDColumn, CInt(w3.heap[h].objectID))];
    var db4 :- DeleteWhere(w3.db, e.plural, conds);
    Ok(World(w3.heap, db4))
  }

  /** Deletes the objects in order. */
  function DeleteAll(w: World, hs: seq<Handle>, rt: Runtime): (r: Result<World>)
    requires HeapValid(w.heap) && forall x :: x in hs ==> x in w.heap
    ensures r.Ok? ==> HeapValid(r.value.heap) && r.value.heap.Keys == w.heap.Keys
    decreases |hs|
  {
    if |hs| == 0 then Ok(w)
    else
      var w1 :- DeleteManagedObject(w, hs[0], rt);
      DeleteAll(w1, hs[1..], rt)
  }

  /** A save request: the inserted objects, then the updated ones are saved, then the
      deleted ones are deleted; the objects affected are reported in that order, each
      as often as it was listed. */
  function ExecuteSave(w: World, inserts: seq<Handle>, updates: seq<Handle>, deletes: seq<Handle>, rt: Runtime)
    : (r: Result<(World, seq<Handle>)>)
    requires HeapValid(w.heap) && forall x :: x in deletes ==> x in w.heap
    ensures r.Ok? ==> HeapValid(r.value.0.heap) && r.value.0.heap.Keys == w.heap.Keys
    ensures r.Ok? ==> r.value.1 == inserts + updates + deletes
  {
    var w1 :- SaveAll(w, inserts, rt);
    var w2 :- SaveAll(w1, updates, rt);
    var w3 :- DeleteAll(w2, deletes, rt);
    Ok((w3, inserts + updates + deletes))
  }
}

=== FILE: types.dfy ===
/** The enumerations shared by the schema and the object layer, with their
    string and integer encodings. */
module Types {
  import opened Errors

  /** The value type of a stored property. */
  datatype PropertyType = String | Integer | Float | Boolean | Date | Binary | Unknown

  /** The cardinality of one side of a relationship (One = 0, Many = 1). */
  datatype RelationshipTo = One | Many

  /** The cardinality of a relationship seen from both of its sides. */
  datatype RelationshipKind = UnknownKind | OneToOne | OneToMany | OneToNone | ManyToMany | ManyToNone

  /** The names under which property types appear in a schema document. */
  const PropertyTypeNames: seq<string> := ["String", "Integer", "Float", "Boolean", "Date", "Binary"]

  /** The name of a type; the unknown type has the name "Unknown". Reading the name
      back yields the same type, so the naming is injective. */
  function StringFromPropertyType(t: PropertyType): (s: string)
    ensures PropertyTypeFromString(s) == t
    ensures t != Unknown <==> s in PropertyTypeNames
  {
    match t
    case String => "String"
    case Integer => "Integer"
    case Float => "Float"
    case Boolean => "Boolean"
    case Date => "Date"
    case Binary => "Binary"
    case Unknown => "Unknown"
  }

  /** Reads a type name; any text that names no known type yields Unknown. */
  function PropertyTypeFromString(s: string): (t: PropertyType)
    ensures t == Unknown <==> s !in PropertyTypeNames
  {
    if s == "String" then String
    else if s == "Integer" then Integer
    else if s == "Float" then Float
    else if s == "Boolean" then Boolean
    else if s == "Date" then Date
    else if s == "Binary" then Binary
    else Unknown
  }

  /** Every known type name reads back to a type whose name is that text. */
  lemma PropertyTypeNameRoundTrip(s: string)
    requires s in PropertyTypeNames
    ensures StringFromPropertyType(PropertyTypeFromString(s)) == s
  {
  }

  /** Two types with the same name are the same type. */
  lemma StringFromPropertyTypeInjective(a: PropertyType, b: PropertyType)
    requires StringFromPropertyType(a) == StringFromPropertyType(b)
    ensures a == b
  {
    assert PropertyTypeFromString(StringFromPropertyType(a)) == a;
  }

  /** The integer value of each relationship kind (Unknown = 0 up to ManyToNone = 5). */
  function KindOrdinal(k: RelationshipKind): (n: nat)
    ensures n < 6
    ensures KindFromOrdinal(n) == Some(k)
  {
    match k
    case UnknownKind => 0
    case OneToOne => 1
    case OneToMany => 2
    case OneToNone => 3
    case ManyToMany => 4
    case ManyToNone => 5
  }

  /** The kind with a given integer value, if any. */
  function KindFromOrdinal(n: int): (k: Option<RelationshipKind>)
    ensures k.Some? <==> 0 <= n < 6
  {
    if n == 0 then Some(UnknownKind)
    else if n == 1 then Some(OneToOne)
    else if n == 2 then Some(OneToMany)
    else if n == 3 then Some(OneToNone)
    else if n == 4 then Some(ManyToMany)
    else if n == 5 then Some(ManyToNone)
    else None
  }

  /** There are exactly six relationship kinds, with pairwise distinct values. */
  lemma RelationshipKindsAreSix(a: RelationshipKind, b: RelationshipKind)
    ensures KindOrdinal(a) == KindOrdinal(b) ==> a == b
    ensures forall n :: 0 <= n < 6 ==> KindFromOrdinal(n).Some? && KindOrdinal(KindFromOrdinal(n).value) == n
  {
    if KindOrdinal(a) == KindOrdinal(b) {
      assert KindFromOrdinal(KindOrdinal(a)) == Some(a);
    }
  }
}

=== FILE: values.dfy ===
/** Boxed attribute values (MString, MNumber and its subclasses, MDate, MData, MNull),
    the PHP conversions the engine applies to schema and document text, and the
    library functions the model receives as parameters. */
module Values {
  import opened Errors
  import opened Types
  import opened Naming

  /** A boxed value. Floating point is not modelled: a float is an exact `real`
      produced by the runtime's parser. */
  datatype Value =
    | VString(text: string)
    | VInteger(intValue: int)
    | VFloat(floatValue: real)
    | VBoolean(boolValue: bool)
    | VDate(timestamp: int)
    | VData(bytes: string)
    | VNull

  /** The library functions the engine calls and the model cannot see: the MD5 digest
      in lower-case hexadecimal, MDate::parse (a number or a date text to a timestamp),
      PHP's floatval, and the text the database driver returns for a FLOAT column. */
  datatype Runtime = Runtime(md5: string -> HexDigest, parseDate: string -> int, floatval: string -> real,
                             formatFloat: real -> string)

  /** The class of a boxed value. */
  function ValueClassName(v: Value): string {
    match v
    case VString(_) => "MString"
    case VInteger(_) => "MInteger"
    case VFloat(_) => "MFloat"
    case VBoolean(_) => "MBoolean"
    case VDate(_) => "MDate"
    case VData(_) => "MData"
    case VNull => "MNull"
  }

  /** The class hierarchy of boxed values: the three number classes extend MNumber. */
  predicate IsKindOf(className: string, ancestor: string) {
    className == ancestor
    || (ancestor == "MNumber" && className in {"MInteger", "MFloat", "MBoolean"})
  }

  /** The class a property of type `t` holds; empty for the unknown type. */
  function TypeClassName(t: PropertyType): (c: string)
    ensures c == "" <==> t == Unknown
    ensures c != "" ==> exists v :: IsKindOf(ValueClassName(v), c)
  {
    match t
    case String => assert IsKindOf(ValueClassName(VString("")), "MString"); "MString"
    case Integer => assert IsKindOf(ValueClassName(VInteger(0)), "MNumber"); "MNumber"
    case Float => assert IsKindOf(ValueClassName(VInteger(0)), "MNumber"); "MNumber"
    case Boolean => assert IsKindOf(ValueClassName(VInteger(0)), "MNumber"); "MNumber"
    case Date => assert IsKindOf(ValueClassName(VDate(0)), "MDate"); "MDate"
    case Binary => assert IsKindOf(ValueClassName(VData("")), "MData"); "MData"
    case Unknown => ""
  }

  /** The kind check a managed object applies before storing a property value: strings
      for String, any number for Integer, Float and Boolean, dates for Date and data
      for Binary. The unknown type accepts nothing. */
  predicate AcceptsValue(t: PropertyType, v: Value) {
    match t
    case String => v.VString?
    case Integer => v.VInteger? || v.VFloat? || v.VBoolean?
    case Float => v.VInteger? || v.VFloat? || v.VBoolean?
    case Boolean => v.VInteger? || v.VFloat? || v.VBoolean?
    case Date => v.VDate?
    case Binary => v.VData?
    case Unknown => false
  }

  /** The kind check agrees with the class hierarchy: a value is accepted exactly when
      it is an instance of the property's type class. */
  lemma AcceptsValueIsInstanceOf(t: PropertyType, v: Value)
    requires t != Unknown
    ensures AcceptsValue(t, v) <==> IsKindOf(ValueClassName(v), TypeClassName(t))
  {
  }

  /** PHP's whitespace set for numeric prefixes. */
  predicate IsSpace(c: char) {
    c == ' ' || c == '\t' || c == '\n' || c == '\r' || c as int == 11 || c as int == 12
  }

  predicate IsDigit(c: char) {
    '0' <= c <= '9'
  }

  /** The number of leading characters of `s` that satisfy being digits. */
  function DigitRun(s: string): (n: nat)
    ensures n <= |s|
    ensures forall i :: 0 <= i < n ==> IsDigit(s[i])
    ensures n < |s| ==> !IsDigit(s[n])
  {
    if |s| > 0 && IsDigit(s[0]) then 1 + DigitRun(s[1..]) else 0
  }

  /** The decimal value of a run of digits. */
  function DecimalValue(digits: string): (v: nat)
    requires forall i :: 0 <= i < |digits| ==> IsDigit(digits[i])
    decreases |digits|
  {
    if |digits| == 0 then 0
    else
      var last := digits[|digits| - 1];
      assert IsDigit(last);
      10 * DecimalValue(digits[..|digits| - 1]) + (last as int - '0' as int)
  }

  /** PHP's intval on a text: leading whitespace, an optional sign, then the longest
      run of digits; 0 when there are no digits. */
  function IntVal(s: string): int
    decreases |s|
  {
    if |s| > 0 && IsSpace(s[0]) then IntVal(s[1..])
    else if |s| > 0 && (s[0] == '-' || s[0] == '+') then
      var n: int := DecimalValue(s[1..][..DigitRun(s[1..])]);
      if s[0] == '-' then -n else n
    else DecimalValue(s[..DigitRun(s)])
  }

  /** The canonical decimal text of a natural number. */
  function NatToString(n: nat): (s: string)
    ensures |s| > 0 && forall i :: 0 <= i < |s| ==> IsDigit(s[i])
    ensures DecimalValue(s) == n
  {
    var d := ['0' + (n % 10) as char];
    if n < 10 then d
    else
      var p := NatToString(n / 10);
      assert (p + d)[..|p + d| - 1] == p;
      p + d
  }

  /** The decimal text of an integer, with a leading minus sign when negative. */
  function IntToString(i: int): string {
    if i < 0 then "-" + NatToString(-i) else NatToString(i)
  }

  /** intval reads back every integer from its decimal text. */
  lemma {:induction false} IntValOfIntToString(i: int)
    ensures IntVal(IntToString(i)) == i
  {
    if i < 0 {
      var t := NatToString(-i);
      var s := "-" + t;
      assert s[1..] == t;
      DigitRunOfDigits(t);
      assert t[..DigitRun(t)] == t;
    } else {
      var t := NatToString(i);
      DigitRunOfDigits(t);
      assert t[..DigitRun(t)] == t;
      assert !IsSpace(t[0]) && t[0] != '-' && t[0] != '+';
    }
  }

  lemma DigitRunOfDigits(s: string)
    requires forall i :: 0 <= i < |s| ==> IsDigit(s[i])
    ensures DigitRun(s) == |s|
  {
  }

  /** A plain decimal integer text: an optional minus sign and at least one digit.
      is_numeric accepts every such text, and MDate::parse then takes it as a timestamp
      rather than handing it to strtotime. The integer reading is the `(int)$str` cast
      of classes/mango.system/MDate.php:77; the Hack twin (MDate.hh:60) calls a global
      `parseInt` that no file of the library defines (only the static
      `MNumber::parseInt` exists), and the model follows the PHP cast. */
  predicate IsIntegerText(s: string) {
    if |s| > 0 && s[0] == '-' then |s| > 1 && forall i :: 1 <= i < |s| ==> IsDigit(s[i])
    else |s| > 0 && forall i :: 0 <= i < |s| ==> IsDigit(s[i])
  }

  /** The decimal text of every integer is a plain integer text. */
  lemma IntToStringIsIntegerText(i: int)
    ensures IsIntegerText(IntToString(i))
  {
    if i < 0 {
      var t := NatToString(-i);
      assert forall k :: 1 <= k < |"-" + t| ==> ("-" + t)[k] == t[k - 1];
    } else {
      assert NatToString(i)[0] != '-';
    }
  }

  /** PHP's boolval on a text: only the empty text and "0" are false. */
  function BoolVal(s: string): (b: bool)
    ensures !b <==> s == "" || s == "0"
  {
    !(s == "" || s == "0")
  }

  /** The boxed value a text denotes for a property of type `t`: the text itself,
      intval, floatval, boolval, MDate::parse, or the text's bytes. MDate::parse takes a
      plain integer text as the timestamp it spells; every other text goes through the
      runtime's date parser. Schema defaults and
      fetched columns are read this way, and so are object documents for every type but
      Boolean. The unknown type has no value. Whatever is produced passes the kind
      check. */
  function CoerceText(t: PropertyType, text: string, rt: Runtime): (r: Option<Value>)
    ensures r.None? <==> t == Unknown
    ensures r.Some? ==> AcceptsValue(t, r.value)
    ensures t == String ==> r == Some(VString(text))
    ensures t == Integer ==> r == Some(VInteger(IntVal(text)))
    ensures t == Date ==> r.Some? && r.value.VDate?
    ensures t == Date && IsIntegerText(text) ==> r == Some(VDate(IntVal(text)))
  {
    match t
    case String => Some(VString(text))
    case Integer => Some(VInteger(IntVal(text)))
    case Float => Some(VFloat(rt.floatval(text)))
    case Boolean => Some(VBoolean(BoolVal(text)))
    case Date => Some(VDate(if IsIntegerText(text) then IntVal(text) else rt.parseDate(text)))
    case Binary => Some(VData(text))
    case Unknown => None
  }
}
